=== FILE: README.md ===
# phile, modelled in Dafny

phile is a file-based notification, tray and trigger system. Most of it is glue
around watchdog, asyncio, Qt, tmux and IMAP. Between the glue sit small,
sequential pieces of logic with precise behaviour. This project models those
pieces as pure Dafny functions over immutable data and proves what the code
promises about them:

- the todo.txt tag editor and its timestamps;
- the configuration-default merge of the todo command line;
- the IMAP flag tracker;
- the launcher database and the launcher command interpreter;
- the sorted tracked-file list of `phile.data`;
- the tray registry and the tray file chain (file format, watchdog source and target, event filter and sorter);
- the notification file watcher;
- the two publish/subscribe queues;
- the capability registry, `provide_item` and the in-memory keyring;
- tmux control mode framing and tmux command builders;
- watchdog scheduling, event splitting and filtering;
- hotkey names, key sequences, held keys and the binding trie;
- the trigger entry point and its PID lock.

Each source file of the core is one Dafny module. A few shared modules hold
common vocabulary:

- `Outcomes`: `Option` and `Result`.
- `Strings`: Python string methods.
- `Ordering`: lexicographic order and `bisect_left`.
- `Paths`: `pathlib.PurePosixPath`.
- `Lists`: Python indexing.
- `KeyedLists`: lists read as maps.
- `SortedSets`: `sorted` on a set.
- `Maps`: the keys of updated maps.

The model abstracts away what phile does not decide itself; each such piece is a parameter:

- File contents, file existence and JSON decoding are oracles or plain values.
- Callbacks are recorded as events or as the names they would be called with.
- Clocks and process IDs are passed in.

## Model

| member | source | states |
|---|---|---|
| TodoTxt.SplitWord | src/phile/todo/txt.py:21-26 | the value and the rest concatenate to the input, the value holds no space, and the rest is empty or starts with a space |
| TodoTxt.FindKeyAssignment | src/phile/todo/txt.py:11-27 | `None` (the `ValueError`) exactly when ` #key=` does not occur; otherwise the four pieces concatenate to the entry, the tag is the last occurrence, the value holds no space and `after` is empty or starts with a space |
| TodoTxt.FindAssembled | src/phile/todo/txt.py:11-27 | an entry assembled from a tag, a space-free value and a tag-free rest splits back into exactly those pieces |
| TodoTxt.FoundAt | src/phile/todo/txt.py:11-27 | an entry whose last ` #key=` sits at `i`, with a space-free value after it, splits into the text before `i`, the tag, that value and the rest |
| TodoTxt.SetKey | src/phile/todo/txt.py:30-45 | an existing tag keeps `before`/`after` and gets the new value; without one, ` #key=value` is appended, and a trailing space of the entry stands in for its leading space; the empty entry is the `IndexError` of `todo_entry[-1]` |
| TodoTxt.SetKeyThenFind | src/phile/todo/txt.py:30-45 | after `set_key`, `find_key_assignment` finds exactly the new value |
| TodoTxt.DelKey | src/phile/todo/txt.py:48-53 | an entry without the tag is returned unchanged; otherwise the result is `before + after` and is shorter |
| TodoTxt.DelKeyAfterSetKey | src/phile/todo/txt.py:30-53 | deleting a key just set gives what deleting it from the original gives, or the original entry when it had no tag and did not end in a space |
| TodoTxt.DatetimeToString | src/phile/todo/txt.py:56-57 | sixteen characters, digits everywhere except `T` at index 8 and `Z` at index 15 |
| TodoTxt.DatetimeRoundTrip | src/phile/todo/txt.py:56-57 | reading the written `YYYYMMDDTHHMMSSZ` text gives back every field of the moment |
| TodoTxt.SetEntryKey | src/phile/todo/txt.py:60-71 | a Python index out of range is the `IndexError`; otherwise only the entry at the resolved index changes, to its `set_key` result |
| TodoTxt.Remove | src/phile/todo/txt.py:93-102 | an index outside `-len..len-1` fails; otherwise exactly the entry at the resolved Python index is cut out and the order of the rest is kept |
| TodoTxt.RemoveRestores | src/phile/todo/txt.py:93-102 | putting the removed entry back at the resolved index restores the list |
| TodoTxt.StampFound | src/phile/todo/txt.py:105-124 | tagging an entry with a timestamp lets the tag be found and read back as the same moment |
| TodoTxt.StampEntry | src/phile/todo/txt.py:105-124 | `start`/`stop` fail exactly on a bad index or an empty entry; otherwise no other entry changes and the entry's tag reads back as `now` |
| TodoTxt.Start | src/phile/todo/txt.py:105-113 | `start` fails exactly on a bad index or an empty entry; otherwise only that entry changes and its `timetrack.start` tag reads back as `now` |
| TodoTxt.Stop | src/phile/todo/txt.py:116-124 | `stop` fails exactly on a bad index or an empty entry; otherwise only that entry changes and its `timetrack.stop` tag reads back as `now` |
| TodoCli.SetdefaultKeys | src/phile/todo/cli.py:50-59 | the merged keys are the union; a key only in `source` takes the source value; a key of `dest` keeps its value unless both sides hold dictionaries |
| TodoCli.SetdefaultRecursively | src/phile/todo/cli.py:50-59 | defines `dest` after `setdefault_recursively(dest, source)`; what it keeps, adds and merges is stated by `SetdefaultKeys`, `SetdefaultKeepsScalars`, `SetdefaultAddsMissing` and `SetdefaultIdempotent` |
| TodoCli.SetdefaultKeepsScalars | src/phile/todo/cli.py:54-59 | a non-dictionary value of `dest` at any path survives the merge |
| TodoCli.SetdefaultAddsMissing | src/phile/todo/cli.py:54-59 | a value of `source` at a path missing from `dest` appears in the result, unless `dest` holds a non-dictionary on the way |
| TodoCli.SetdefaultIdempotent | src/phile/todo/cli.py:50-59 | merging the same source a second time changes nothing |
| TodoCli.SetdefaultSelf | src/phile/todo/cli.py:50-59 | merging a map into itself changes nothing |
| TodoCli.SetdefaultIntoEmpty | src/phile/todo/cli.py:50-59 | merging into an empty map copies the source |
| TodoCli.GetConfigSubmap | src/phile/todo/cli.py:62-73 | succeeds exactly when the key path reaches a dictionary, and returns that dictionary; `ValueError` exactly when the path reaches a non-dictionary; every other failure (`KeyError`, or `TypeError` from indexing a non-dictionary) means the path is missing |
| TodoCli.GetConfigSubmapErrors | src/phile/todo/cli.py:62-73 | `TypeError` exactly when some key prefix reaches a non-dictionary before the keys run out; `KeyError` exactly when some key prefix reaches a dictionary that lacks the next key |
| TodoCli.FillDefaultMap | src/phile/todo/cli.py:76-92 | fails exactly when the lookup raises the uncaught `TypeError`; on `KeyError`/`ValueError` the default map is left as it was; with no default map the submap becomes it; otherwise the default map becomes its `setdefault_recursively` merge with the submap, whose keys are the union and whose scalar defaults win |
| TodoCli.FillDefaultMapIdempotent | src/phile/todo/cli.py:76-92 | filling the default map a second time from the same configuration changes nothing |
| ImapFlags.MailboxCounts | phile/imapclient.py:244-276 | the counts of the tracker of a mailbox are its number of messages, of messages of unknown status and of unseen messages |
| ImapFlags.MessageCounts | phile/imapclient.py:244-276 | defines `message_counts`: total, unknown and unseen; `MailboxCounts` states that these are the mailbox's totals |
| ImapFlags.Select | phile/imapclient.py:211-223 | the count comes from `EXISTS`, nothing is unknown, and the unseen IDs are those of `UNSEEN`, or none when it is absent |
| ImapFlags.AddExists | phile/imapclient.py:278-310 | fails exactly when an unseen ID lies above the new count; otherwise the count becomes `n` and the unknown set gains exactly the IDs above the old count up to `n` |
| ImapFlags.AddExpunge | phile/imapclient.py:312-351 | the corrected expunge: fails exactly when `k` exceeds the count; otherwise the count drops by one and both sets lose `k` and are renumbered |
| ImapFlags.AddExpungeAsWritten | phile/imapclient.py:312-351 | the expunge as written: fails exactly when `k` exceeds the count; the unseen set is renumbered, and the unknown set is rebuilt by renumbering that renumbered unseen set once more |
| ImapFlags.ExpungeAsWrittenIgnoresUnknown | phile/imapclient.py:333-349 | the as-written expunge gives the same tracker whatever the unknown set was |
| ImapFlags.ExpungeAsWrittenLosesUnknown | phile/imapclient.py:342-349 | with message 2 unknown, expunging message 1 reports nothing unknown although the remaining message is; the corrected expunge reports it |
| ImapFlags.ExpungeAsWrittenInventsUnknown | phile/imapclient.py:333-349 | with only message 3 unseen, expunging message 1 reports message 1 as unknown; the corrected expunge reports nothing unknown |
| ImapFlags.AddFetch | phile/imapclient.py:353-413 | without a `FLAGS` item nothing changes; otherwise `id` stops being unknown, no other ID changes, and `id` is unseen exactly when the last `FLAGS` value lacks `\Seen` |
| ImapFlags.AddLineWith | phile/imapclient.py:225-241 | `EXISTS`, `EXPUNGE` and `FETCH` go to their handlers, with the expunge handler as a parameter; any other response leaves the tracker unchanged |
| ImapFlags.AddAsWritten | phile/imapclient.py:225-241 | defines `add` with the expunge handler as written; `AddAsWrittenWithoutExpunge` proves it agrees with `Add` on batches without `EXPUNGE`, and `RealSessionAsWritten` follows the recorded session |
| ImapFlags.Add | phile/imapclient.py:225-241 | defines `add` with the corrected expunge handler; `AddOne` and `AddConcat` state how batches apply, and the `...Abstracts` lemmas what each line does to the mailbox |
| ImapFlags.AddWith | phile/imapclient.py:225-241 | `add` with either expunge handler: an empty batch changes nothing and raises nothing |
| ImapFlags.AddOne | phile/imapclient.py:225-241 | a batch of one line applies that line, and a failed assertion leaves the tracker as it was, with the error |
| ImapFlags.AddAsWrittenWithoutExpunge | phile/imapclient.py:225-351 | on batches without `EXPUNGE`, `add` as written and the corrected `add` give the same tracker and error |
| ImapFlags.AddConcat | phile/imapclient.py:225-241 | for either expunge handler, adding two batches equals adding their concatenation, unless the first batch fails |
| ImapFlags.SelectAbstracts | phile/imapclient.py:211-223 | a select response listing exactly the unseen messages describes the mailbox |
| ImapFlags.ExistsAbstracts | phile/imapclient.py:278-310 | `EXISTS n` moves the tracker of a mailbox to the tracker of the mailbox with unknown messages appended up to `n` |
| ImapFlags.ExpungeAbstracts | phile/imapclient.py:312-351 | the corrected expunge moves the tracker of a mailbox to the tracker of the mailbox with message `k` removed |
| ImapFlags.FetchAbstracts | phile/imapclient.py:353-413 | a `FETCH` with flags moves the tracker to that of the mailbox with message `id` set from its last `FLAGS` item |
| ImapFlags.RealSession | phile/imapclient.py:211-276 | the recorded session of select, expunge, exists and fetch gives the expected counts at every step |
| ImapFlags.RealSessionAsWritten | phile/imapclient.py:211-351 | on the recorded session, `add` as written gives the same trackers as the corrected `add` |
| LauncherDatabase.Add | phile/launcher/__init__.py:127-238 | `NameInUse` exactly for a known name, leaving the database unchanged; `MissingDescriptorData` exactly without `exec_start`; otherwise each map gains exactly the launcher's entry, with type `SIMPLE` and stop commands `[]` when not given, and every other launcher's entries are unchanged |
| LauncherDatabase.Contains | phile/launcher/__init__.py:245-246 | defines `contains` as membership of the removers; `Add` and `Remove` state their effect on it |
| LauncherDatabase.AddFailureRollsBack | phile/launcher/__init__.py:127-191 | a failed `add` leaves the database exactly as it was |
| LauncherDatabase.AddKeepsValid | phile/launcher/__init__.py:207-238 | a successful `add` keeps `binds_to` and `bound_by` inverse with no empty `bound_by` entry, binds exactly the described targets and changes no other binding |
| LauncherDatabase.Remove | phile/launcher/__init__.py:240-246 | removing an unknown name changes nothing; otherwise the name leaves every map and `contains` is false afterwards; every other launcher's entries are unchanged |
| LauncherDatabase.RemoveKeepsValid | phile/launcher/__init__.py:229-243 | `remove` keeps the two binding maps inverse with no empty entry, and changes no other launcher's bindings |
| LauncherDatabase.AddThenRemove | phile/launcher/__init__.py:127-246 | removing a launcher just added restores the database exactly |
| LauncherDatabase.BoundByDetermined | phile/launcher/__init__.py:206-238 | in valid databases, `bound_by` is determined by which launcher binds which target |
| LauncherDatabase.EnterBindsTo | phile/launcher/__init__.py:207-226 | entering records the descriptor's targets as the launcher's `binds_to`, makes the launcher `bound_by` each of them, and changes no other launcher's bindings |
| LauncherDatabase.ExitBindsTo | phile/launcher/__init__.py:227-238 | leaving drops the launcher's `binds_to`, removes it from every `bound_by` set it was in, and drops no non-empty set |
| LauncherCmd.AssignIdNumbers | src/phile/launcher/cmd.py:136-141 | `_assign_id` keeps every existing ID, changes nothing for a known name, appends a new name with ID equal to the old list length, and leaves the list index of the name equal to its ID |
| LauncherCmd.AssignId | src/phile/launcher/cmd.py:136-141 | the list and the ID map stay inverse to each other, and the name has an ID afterwards |
| LauncherCmd.AssignIdsKnown | src/phile/launcher/cmd.py:108-109 | assigning IDs to distinct names appends exactly the names without an ID, in the given order |
| LauncherCmd.AssignIdsNames | src/phile/launcher/cmd.py:108-109 | after assigning, the names with an ID are the old ones plus the given ones |
| LauncherCmd.AssignIdsKeeps | src/phile/launcher/cmd.py:108-109 | no launcher that had an ID changes it |
| LauncherCmd.Unknown | src/phile/launcher/cmd.py:136-141 | the names that `_assign_id` appends are exactly the given names without an ID |
| LauncherCmd.DoList | src/phile/launcher/cmd.py:105-134 | the header counts the launchers currently in the database |
| LauncherCmd.DoListAssigns | src/phile/launcher/cmd.py:105-109 | `do_list` keeps the list and map inverse, appends the new launchers in sorted order, keeps old IDs, and gives every current launcher an ID |
| LauncherCmd.DoListShowsPresent | src/phile/launcher/cmd.py:117-134 | each printed row is a current launcher with its own ID and its real running state; rows come in increasing ID order; every current launcher is printed |
| LauncherCmd.ListedRowsShowPresent | src/phile/launcher/cmd.py:123-134 | with every current launcher numbered, the rows are exactly the current launchers in ID order, each with its running state |
| LauncherCmd.DoResetRenumbers | src/phile/launcher/cmd.py:36-40 | after `reset`, the list is the current launchers in sorted order, numbered from zero |
| LauncherCmd.DoReset | src/phile/launcher/cmd.py:36-40 | defines `do_reset`: forget every ID, then list; `DoResetRenumbers` states the renumbering from zero in name order |
| LauncherCmd.DoEof | src/phile/launcher/cmd.py:32-34 | end of input always stops the loop |
| LauncherCmd.FirstIndex | src/phile/launcher/cmd.py:141 | `list.index`: found exactly when present, and the first position holding the name |
| LauncherCmd.ParseDecimal | src/phile/launcher/cmd.py:46-47 | `int` reads back every decimal numeral, with a sign when negative |
| LauncherCmd.ParseInt | src/phile/launcher/cmd.py:46-47 | `int(entry)` gives a negative value only for an entry starting with `-` after stripping; `ParseDecimal` and `ParseDigits` state which strings it reads and their values |
| LauncherCmd.ParseDigits | src/phile/launcher/cmd.py:46-47 | `int` of a digit string, with or without a leading minus, is its value |
| LauncherCmd.SelectWith | src/phile/launcher/cmd.py:43-67 | the shared validation of `do_start`/`do_stop`: a parse failure exactly when some entry is not an integer, and then it reports the first such entry; an unknown ID only for a rejected ID of the input; an `IndexError` only when every ID passed the check; selected exactly when every ID passes and indexes the list, and then the names are the launchers at the Python indices |
| LauncherCmd.SelectWithErrors | src/phile/launcher/cmd.py:43-67 | the ID reported unknown is the first rejected one, all entries before it parsed and accepted; an `IndexError` names the launchers handled before the failing entry, in input order, and that entry is the first whose index is out of range |
| LauncherCmd.NamesBefore | src/phile/launcher/cmd.py:66-67 | the launchers looked up before the first ID that raises `IndexError`, each the launcher at its ID; the next ID, if any, is out of range |
| LauncherCmd.SelectAsWritten | src/phile/launcher/cmd.py:43-67 | the code as written: a parse failure reports the first entry `int` rejects; an unknown ID is reported only for an ID at or above the count, so negative IDs reach the list indexing |
| LauncherCmd.NegativeIdAliases | src/phile/launcher/cmd.py:56-65 | with two launchers, `start -1` selects the last launcher `b` |
| LauncherCmd.NegativeIdIndexError | src/phile/launcher/cmd.py:56-67 | with no launchers, `start -1` ends in an `IndexError` before any launcher was handled |
| LauncherCmd.Select | src/phile/launcher/cmd.py:43-72 | corrected validation: selected exactly when every entry parses to an ID in `0..count-1`, and then each name is the launcher at that ID; otherwise a parse failure, reporting the first entry `int` rejects, or an out-of-range ID; never an `IndexError` |
| LauncherCmd.SelectByIds | src/phile/launcher/cmd.py:66-68 | each selected name has exactly the ID the user typed |
| LauncherCmd.SelectAgreesOnNonNegative | src/phile/launcher/cmd.py:43-65 | on inputs without a negative ID, the written and the corrected validation agree |
| Triggers.Acquire | phile/trigger/__init__.py:61-90 | acquiring succeeds exactly when the file is not locked by anyone and this lock holds no handle; success locks the file and writes the PID; failure leaves the lock and the set of locked files as they were, with the file created by the `'a'` open; a lock that already owns its file gets `LockException` |
| Triggers.Release | phile/trigger/__init__.py:92-110 | an unheld lock releases as a no-op; a held one empties the file and unlocks it; afterwards `locked()` is false |
| Triggers.AcquireRelease | phile/trigger/__init__.py:61-106 | acquire then release leaves the lock as before, the locked files as before and the PID file empty |
| Triggers.SecondLockFails | phile/trigger/__init__.py:73-78 | a second lock on the same path fails with `LockException` while the first is held |
| Triggers.TriggerPath | phile/trigger/__init__.py:255-267 | `get_trigger_path` succeeds exactly when `name + suffix` is a valid file name, and then gives a file in the trigger directory named `name + suffix`; otherwise `ValueError` |
| Triggers.CheckPathMeaning | phile/trigger/__init__.py:248-253 | `check_path` holds exactly when the path lies in the trigger directory, its name is its stem plus the suffix, and that name is a valid file name |
| Triggers.TriggerPathChecks | phile/trigger/__init__.py:248-267 | for a non-empty name and a one-dot suffix, the trigger path has the name as its stem and passes `check_path` |
| Triggers.EmptyNameNeverChecks | phile/trigger/__init__.py:248-267 | the path of the empty trigger name never passes `check_path` |
| Triggers.AddTrigger | phile/trigger/__init__.py:213-230 | unbound gives `ResourceWarning` and no change; a name without callback is the failed assertion; otherwise the name becomes available, even when the name is invalid, and the file is touched exactly when the name is valid |
| Triggers.RemoveTrigger | phile/trigger/__init__.py:232-246 | unbound gives `ResourceWarning`; otherwise the name stops being available and its file is unlinked exactly when the name is valid |
| Triggers.ActivateTrigger | phile/trigger/__init__.py:191-211 | an existing file does nothing; otherwise the stem stops being available, and the callback runs exactly when the stem was available and has a callback |
| Triggers.CallbacksCoverKept | phile/trigger/__init__.py:191-246 | adding, removing and activating keep every available trigger backed by a callback |
| Triggers.DeletedTriggerActivatesOnce | phile/trigger/__init__.py:191-230 | a trigger added and then deleted runs its callback once; a second activation runs nothing |
| Triggers.Bind | phile/trigger/__init__.py:269-288 | `bind` succeeds exactly when unbound and nobody holds the lock file; afterwards `is_bound`; binding twice fails with `LockException`; triggers and callbacks are untouched |
| Triggers.Unbind | phile/trigger/__init__.py:290-304 | an unbound entry point does nothing; otherwise every file globbed by `*suffix` in the directory is deleted, every other file stays, and the entry point is unbound |
| Triggers.UnbindRemovesTriggers | phile/trigger/__init__.py:290-304 | no trigger file survives `unbind` |
| Triggers.BindUnbindBind | phile/trigger/__init__.py:269-304 | while bound, a second entry point on the same directory cannot bind; after `unbind`, both can |
| Triggers.Create | phile/trigger/__init__.py:136-177 | the directory is the trigger root joined with the trigger directory and the lock is the PID path inside it; without `bind` nothing is touched and nothing is available; with a successful `bind` the given triggers are available |
| Triggers.AddTriggers | phile/trigger/__init__.py:175-177 | adding triggers in turn keeps the entry point's identity, and without error makes exactly the given names available in addition |
| HotkeyKeys.ConversionOfDisplayName | src/phile/hotkey/pyside2.py:49-57 | the display aliases undo the reading aliases: reading back a displayed name gives the Qt name, for every name but the aliases themselves |
| HotkeyKeys.SortInts | src/phile/hotkey/pyside2.py:84-93 | `sorted`: an ascending permutation of its input |
| HotkeyKeys.SortedUnique | src/phile/hotkey/pyside2.py:84-93 | two ascending orderings of the same keys are equal |
| HotkeyKeys.OrderKeySequence | src/phile/hotkey/pyside2.py:104-111 | only keys of the combination are written |
| HotkeyKeys.OrderKeySequenceKeepsKeys | src/phile/hotkey/pyside2.py:104-111 | every key of the combination is written |
| HotkeyKeys.OrderKeySequenceWritten | src/phile/hotkey/pyside2.py:104-111 | modifiers come first in the fixed modifier order, then the other keys ascending |
| HotkeyKeys.OrderKeySequencePermutes | src/phile/hotkey/pyside2.py:104-111 | for distinct keys, the written order is a permutation of the combination |
| HotkeyKeys.KeyValueToString | src/phile/hotkey/pyside2.py:114-119 | a key's written name is non-empty, unpadded and free of `+` and `;` |
| HotkeyKeys.KeyValueRoundTrip | src/phile/hotkey/pyside2.py:78-81 | reading a key's written name gives back the key |
| HotkeyKeys.KeyValueFromString | src/phile/hotkey/pyside2.py:78-81 | defines `key_value_from_string`: strip, drop `<` and `>`, apply the aliases, look up; `KeyValueRoundTrip` proves it reads back every written key name |
| HotkeyKeys.KeyCombinationFromString | src/phile/hotkey/pyside2.py:84-93 | a combination reads exactly when every `+`-separated name reads, and gives those keys sorted |
| HotkeyKeys.CombinationRoundTrip | src/phile/hotkey/pyside2.py:84-129 | reading a written combination of distinct keys gives the combination sorted |
| HotkeyKeys.KeyCombinationToString | src/phile/hotkey/pyside2.py:122-128 | defines `key_combination_to_string`: the names in `order_key_sequence` order joined by `+`; `CombinationRoundTrip` proves it reads back to the sorted combination |
| HotkeyKeys.SequenceRoundTrip | src/phile/hotkey/pyside2.py:95-138 | reading a written key sequence gives each of its combinations sorted |
| HotkeyKeys.KeySequenceFromString | src/phile/hotkey/pyside2.py:95-101 | a sequence that reads has at least one combination; `SequenceRoundTrip` proves it reads back every written sequence |
| HotkeyKeys.KeySequenceToString | src/phile/hotkey/pyside2.py:131-137 | defines `key_sequence_to_string`: the written combinations joined by `"; "`; `SequenceRoundTrip` proves the written form reads back |
| HotkeyBindings.SortedKeys | src/phile/hotkey/pyside2.py:242 | `tuple(sorted(pressed_keys))`: increasing and holding exactly the pressed keys |
| HotkeyBindings.SortedKeysOf | src/phile/hotkey/pyside2.py:242 | an increasing combination is the sorted form of its own keys |
| HotkeyBindings.FlagKeysOf | src/phile/hotkey/pyside2.py:59-75 | the keys of each modifier flag are modifier keys, and no two flags share a key |
| HotkeyBindings.UpdatePressedModifiersMeaning | src/phile/hotkey/pyside2.py:193-206 | on a press, each held flag keeps its pressed keys or adds its first key when none was pressed, each released flag drops all of its keys, and other keys stay |
| HotkeyBindings.ApplyModifiersMeaning | src/phile/hotkey/pyside2.py:200-206 | the loop over distinct flags touches exactly the keys of the listed flags, as the single-flag step says |
| HotkeyBindings.UpdatePressedModifiers | src/phile/hotkey/pyside2.py:197-198 | a release leaves the modifier keys alone |
| HotkeyBindings.UpdatePressedKey | src/phile/hotkey/pyside2.py:178-191 | handled exactly for a useful event; an ignored event changes nothing; a release removes the key; a press of a non-modifier key adds it; no key 0 or unknown key is ever held |
| HotkeyBindings.IsUsefulKeyEvent | src/phile/hotkey/pyside2.py:213-221 | defines `is_useful_key_event`: not an auto-repeat and neither key 0 nor `Key_unknown`; `KeyEventHandled` and `UpdatePressedKey` state that exactly these events are handled |
| HotkeyBindings.HideReleasesAll | src/phile/hotkey/pyside2.py:149-163 | hiding the widget releases every held key |
| HotkeyBindings.Insert | src/phile/hotkey/pyside2.py:261-269 | one binding adds the first combination to the top-level keys and changes no other top-level entry |
| HotkeyBindings.InsertFails | src/phile/hotkey/pyside2.py:264-269 | binding fails exactly when a proper prefix of the sequence is already bound to a trigger |
| HotkeyBindings.InsertFinds | src/phile/hotkey/pyside2.py:261-269 | after binding, looking up the sequence gives its trigger |
| HotkeyBindings.InsertKeepsOthers | src/phile/hotkey/pyside2.py:261-269 | binding changes the lookup of no sequence that diverges from it |
| HotkeyBindings.FindEmpty | src/phile/hotkey/pyside2.py:230-231 | no sequence is bound in an empty key map |
| HotkeyBindings.SequenceReader | src/phile/hotkey/pyside2.py:95-102 | every key sequence read has at least one combination |
| HotkeyBindings.BindAllLastWins | src/phile/hotkey/pyside2.py:261-269 | after `add_key_bindings` without error, the last entry's sequence finds its trigger |
| HotkeyBindings.BindAllStopsAtError | src/phile/hotkey/pyside2.py:261-269 | an error comes from one entry, with all earlier entries bound |
| HotkeyBindings.AddKeyBindings | src/phile/hotkey/pyside2.py:261-269 | defines `add_key_bindings` as binding each entry in order; `BindAllLastWins` and `BindAllStopsAtError` state what is bound |
| HotkeyBindings.OnPressedKeysChanged | src/phile/hotkey/pyside2.py:234-247 | a release does nothing; an ignored press keeps where the sequence would continue; a reported step appends the sorted pressed keys to the sequence and reports what they are bound to |
| HotkeyBindings.SequenceChanged | src/phile/hotkey/pyside2.py:254-259 | defines `on_pressed_sequence_changed`: wait below a bound mapping, or on nothing; `PressBound` and `UnboundOtherRestarts` state where the sequence continues |
| HotkeyBindings.UnboundModifierIgnored | src/phile/hotkey/pyside2.py:243-245 | pressing a modifier that completes no binding changes no state that matters |
| HotkeyBindings.UnboundOtherRestarts | src/phile/hotkey/pyside2.py:242-247 | an unbound non-modifier press reports "undefined" and the next press starts from the top-level key map |
| HotkeyBindings.ResetPressedSequence | src/phile/hotkey/pyside2.py:249-252 | reset empties the sequence and makes the next press start from the top-level key map |
| HotkeyBindings.ResetActsFresh | src/phile/hotkey/pyside2.py:249-252 | after reset a press behaves as on a fresh widget |
| HotkeyBindings.KeyEventHandled | src/phile/hotkey/pyside2.py:165-191 | an event is handled exactly when useful; an ignored one changes nothing; the pressed keys follow `update_pressed_key` |
| HotkeyBindings.PressBound | src/phile/hotkey/pyside2.py:234-259 | pressing a bound combination reports its binding, extends the sequence and descends into a sub-map |
| HotkeyBindings.WalkReachesTrigger | src/phile/hotkey/pyside2.py:234-259 | pressing the combinations of a bound sequence one after another reaches its trigger, with the combinations as the shown sequence |
| HotkeyBindings.BoundSequenceTriggers | src/phile/hotkey/pyside2.py:234-269 | from a fresh widget, pressing a bound sequence fires its trigger |
| HotkeyBindings.Shown | src/phile/hotkey/pyside2.py:281-295 | the text starts with the written sequence, and a trigger is activated exactly when the binding is a trigger name |
| SortedCache.CacheDistinct | phile/data/__init__.py:39-55 | a list sorted strictly by the `File` order holds no path twice |
| SortedCache.UpdateAsWritten | phile/data/__init__.py:171-205 | the code as written: whenever an element sits at the bisect index, a failed load pops it and a successful load replaces it in place, whatever its path |
| SortedCache.PrependOverwritesAsWritten | phile/data/__init__.py:186-202 | as written, updating a path that sorts before the only tracked file overwrites that file's entry instead of inserting |
| SortedCache.Update | phile/data/__init__.py:171-205 | corrected `update`: an insert puts the loaded file at its index, a set replaces the file with the same path, a pop removes the file of `p` when its load fails, and no callback means nothing was tracked and nothing loaded |
| SortedCache.PrependInserts | phile/data/__init__.py:186-205 | corrected, the prepend case inserts at index 0 and keeps the old file |
| SortedCache.UpdateKeepsCache | phile/data/__init__.py:203-205 | `update` keeps the list sorted, hence free of duplicates |
| SortedCache.TrackedAtBisect | phile/data/__init__.py:186-194 | in a sorted list, a path is tracked exactly when the element at its bisect index has that path |
| SortedCache.UpdateAbstracts | phile/data/__init__.py:171-205 | read as a map, `update` sets the path to its loaded content, or removes it when the load fails |
| SortedCache.Reload | phile/data/__init__.py:164-169 | the reference map of reloading paths in turn: each given path is present exactly when it loads; other paths keep their entries |
| SortedCache.UpdatePathsAbstracts | phile/data/__init__.py:164-169 | `update_paths` keeps the list sorted and, read as a map, equals reloading each path in turn |
| SortedCache.UpdateTrackedReloads | phile/data/__init__.py:159-162 | `update_tracked` keeps exactly the tracked paths that still load, each with its new content |
| SortedCache.UpdateTwiceInsertsThenSets | phile/data/__init__.py:164-205 | updating a loadable path twice from empty inserts it at index 0, then sets it at index 0 |
| TrayRegistry.EntriesToText | phile/tray/__init__.py:36-40 | no text icons give the empty text; a first entry with a text icon starts the text |
| TrayRegistry.EntriesToTextAppend | phile/tray/__init__.py:36-40 | the text of two runs of entries is the concatenation of their texts |
| TrayRegistry.EntriesToTextSkips | phile/tray/__init__.py:36-40 | an entry without text icon adds nothing |
| TrayRegistry.EntriesToTextReplace | phile/tray/__init__.py:36-40 | replacing an entry by one with the same text icon keeps the text |
| TrayRegistry.Close | phile/tray/__init__.py:67-68 | closing marks the queue closed and changes nothing else |
| TrayRegistry.PutEvent | phile/tray/__init__.py:124-130 | an event is queued unless the registry is closed, where it is dropped with a warning |
| TrayRegistry.FoundAtBisect | phile/tray/__init__.py:62-64 | with the names kept as the sorted names of the entries, bisecting either list gives the same index, and a name is registered exactly when it sits there |
| TrayRegistry.InsertAt | phile/tray/__init__.py:112-122 | `_insert` puts the entry and its name at the index and queues an `INSERT` with the new entries |
| TrayRegistry.PopName | phile/tray/__init__.py:70-86 | an unknown name changes nothing; otherwise the entry and its name leave at the bisect index and a `POP` with the old entry is queued |
| TrayRegistry.SetEntry | phile/tray/__init__.py:88-110 | a new name is inserted at its bisect index with an `INSERT`; an identical entry changes nothing; a different entry replaces the old one in place with a `SET` |
| TrayRegistry.PopKeepsValid | phile/tray/__init__.py:62-86 | `pop` keeps the entries sorted by name and the names list equal to their names |
| TrayRegistry.SetKeepsValid | phile/tray/__init__.py:62-122 | `set` keeps the entries sorted by name and the names list equal to their names |
| TrayRegistry.RegistryDistinct | phile/tray/__init__.py:62-64 | no name is registered twice, and the registered names are those of the names list |
| TrayRegistry.SetAbstracts | phile/tray/__init__.py:88-122 | read as a map from name to entry, `set` stores the entry under its name |
| TrayRegistry.PopAbstracts | phile/tray/__init__.py:70-86 | read as a map from name to entry, `pop` removes the name |
| TrayRegistry.TextIconsOn | phile/tray/__init__.py:163-167 | the text follows the event's entries, and a new value is published exactly when it differs from the current one |
| TrayRegistry.TextIconsRunNoRepeats | phile/tray/__init__.py:159-167 | the published values never repeat one after another, and the text ends at the last event's entries |
| TrayRegistry.IconOnlySetPublishesNothing | phile/tray/__init__.py:99-167 | replacing an entry without changing its text icon queues a `SET` that publishes nothing |
| TrayFiles.ReadLine | phile/tray/watchdog.py:50 | `readline`: the line and the rest concatenate to the content; the line holds no newline before its end, ends in one when the content has one, and is everything otherwise |
| TrayFiles.SaveContent | phile/tray/watchdog.py:64-86 | the saved text starts with the text icon, and is only the text icon when neither icon name nor icon path is set |
| TrayFiles.Load | phile/tray/watchdog.py:35-61 | the content is read with newline translation; `JSONDecodeError` exactly when text follows the first line and is not valid JSON; `AttributeError` exactly when that JSON is not an object; the name is the file name without the suffix; the text icon is the first line without its line ending; with nothing after the first line there is no icon name or path, otherwise the icon name is the object's and the icon path is the object's path field read as a path, or none when it is absent |
| TrayFiles.SaveThenLoad | phile/tray/watchdog.py:35-90 | loading what `save` wrote gives back the entry, with an absent text icon read as empty |
| TrayFiles.ReadSaved | phile/tray/watchdog.py:38-86 | without carriage returns in the text icon or the JSON, newline translation leaves the saved content unchanged |
| TrayFiles.ReadTextIconLine | phile/tray/watchdog.py:49-50 | a one-line text icon followed by a newline reads back as that line |
| TrayFiles.TargetSet | phile/tray/watchdog.py:121-127 | `Target.set` records the name and writes the saved content to the entry's path, touching no other file |
| TrayFiles.ProcessPath | phile/tray/watchdog.py:163-175 | a path without the suffix or without a file changes nothing; a file with ill-formed JSON changes nothing; a JSON value that is not an object raises `AttributeError`; otherwise the registry, read as a map, gets the loaded entry under its name |
| TrayFiles.ProcessEvent | phile/tray/watchdog.py:151-161 | a directory event changes nothing; the registry stays sorted unless an `AttributeError` escapes |
| TrayFiles.ProcessEventPaths | phile/tray/watchdog.py:151-161 | a file event processes its source path, and for a move also its destination path |
| TrayFiles.DeletedFileKeepsEntry | phile/tray/watchdog.py:163-170 | a deleted tray file leaves its registry entry in place |
| TrayFiles.TargetToSource | phile/tray/watchdog.py:121-175 | an entry written by the target and read back by the source arrives in the registry unchanged, without an error |
| TrayEvent.Filter | phile/tray/event.py:65-93 | directory events pass nothing; what passes is never a move and lies in the tray directory with the tray suffix |
| TrayEvent.FilterIsSplitThenFilter | phile/tray/event.py:75-93 | a move is filtered as a deletion of its source followed by a creation of its destination |
| TrayEvent.DoubleSuffixOnlyFilterPath | phile/tray/event.py:88-91 | a file `a.b.c` with the suffix `.b.c` passes the watchdog layer's suffix test but not this filter, which compares only the last suffix |
| TrayEvent.Sort | phile/tray/event.py:178-222 | the `Sorter` call keeps the list sorted and, read as a map, sets the file to its load or removes it when the load fails; no callback means no change |
| TrayEvent.SortIgnoresUntrackedMissing | phile/tray/event.py:178-216 | a missing file that was not tracked changes nothing and calls nothing |
| TrayEvent.HandleReloadsTrayPaths | phile/tray/event.py:65-222 | filter, converter and sorter together reload exactly the tray paths the event names |
| TrayEvent.LoadAll | phile/tray/event.py:224-225 | `load_all` fails its assertion exactly when files are already tracked |
| TrayEvent.FilesOf | phile/tray/event.py:228-232 | the globbed paths kept are exactly those that are files |
| TrayEvent.LoadAllTracksListedFiles | phile/tray/event.py:224-237 | from empty, `load_all` tracks exactly the globbed files that load, sorted |
| TrayEvent.ReloadFromEmpty | phile/tray/event.py:224-237 | reloading paths into an empty map gives each path that loads |
| EntryFiles.GetPath | phile/tray/watchdog.py:29-32 | `get_path` of a valid file name is the file `name + suffix` in the directory |
| EntryFiles.EntryName | phile/tray/watchdog.py:39-40 | `removesuffix`: the entry name plus the suffix is the file name when it ends in the suffix; otherwise the file name is kept |
| EntryFiles.ReadText | phile/tray/watchdog.py:38 | `read_text` in universal-newline mode: no carriage return is left, and the text does not grow |
| EntryFiles.ReadTextWithoutReturn | phile/notify/watchdog.py:54 | the text read is the raw content exactly when the content holds no carriage return |
| EntryFiles.EntryNameOfPath | phile/notify/watchdog.py:38-58 | the entry name read from the path of a name is the name |
| EntryFiles.GetPathInjective | phile/notify/watchdog.py:38-45 | two names with the same path are the same name |
| EntryFiles.TargetSet | phile/tray/watchdog.py:121-127 | `Target.set` remembers the name and writes the content to its path, touching no other file |
| EntryFiles.TargetPop | phile/tray/watchdog.py:114-119 | `Target.pop` forgets the name and deletes its file, touching no other file |
| EntryFiles.SetThenPop | phile/notify/watchdog.py:105-114 | writing then popping a name leaves the file system without its file and the target without the name |
| EntryFiles.PopAll | phile/tray/watchdog.py:110-112 | popping a list of names forgets exactly those names |
| EntryFiles.CloseRemovesOwned | phile/notify/watchdog.py:101-103 | `close` forgets every name and deletes exactly the files the target wrote |
| EntryFiles.PopAllRemovesListed | phile/notify/watchdog.py:101-110 | popping names deletes exactly their files |
| NotifyFiles.LoadFromPath | phile/notify/watchdog.py:48-58 | a directory is an error; a missing file is `FileNotFoundError`; otherwise the entry has the name without the suffix, the file's text with newlines translated, and its modification time |
| NotifyFiles.TargetSet | phile/notify/watchdog.py:71-85 | `save` writes the text to the entry's path with the current time, touching no other file, and the target remembers the name |
| NotifyFiles.SaveThenLoad | phile/notify/watchdog.py:48-85 | loading a saved notification gives it back with its text newline-translated and the save time as its time; a text without carriage returns comes back unchanged |
| NotifyFiles.UpdatePath | phile/notify/watchdog.py:117-137 | a directory raises; otherwise the result says whether the file exists; an existing file sets the registry entry of its name to its newline-translated text, a missing one discards the name |
| NotifyFiles.TargetSetThenUpdate | phile/notify/watchdog.py:112-137 | a notification written by the target is added to the registry, with its text as read back |
| NotifyFiles.TargetPopThenUpdate | phile/notify/watchdog.py:105-137 | a notification popped by the target is discarded from the registry |
| NotifyFiles.UpdateExistingPaths | phile/notify/watchdog.py:140-157 | the paths found are exactly the globbed paths that are not directories |
| NotifyFiles.UpdateExistingKeeps | phile/notify/watchdog.py:140-157 | a name no globbed path refers to keeps its registry entry |
| NotifyFiles.Start | phile/notify/watchdog.py:170-176 | every name found at start is a current name |
| NotifyFiles.Track | phile/notify/watchdog.py:184-199 | a directory is an error; otherwise the name is current and registered exactly when its file is present, and no other name changes |
| NotifyFiles.TrackAll | phile/notify/watchdog.py:184-199 | processing reports fails exactly when one of them is a directory |
| NotifyFiles.TrackAllAppend | phile/notify/watchdog.py:184-199 | processing one more report is one more `update_path` step |
| NotifyFiles.TrackAllFollowsLastReport | phile/notify/watchdog.py:184-199 | a name is current after the reports exactly as its last report says, or as before when none names it |
| NotifyFiles.TrackAllRegistersTracked | phile/notify/watchdog.py:184-199 | for each reported name, being current and being registered coincide |
| NotifyFiles.TrackAllKeeps | phile/notify/watchdog.py:184-199 | a name no report refers to keeps its state |
| NotifyFiles.Finish | phile/notify/watchdog.py:200-202 | on exit every current name is discarded from the registry and every other entry stays |
| NotifyFiles.ProcessWatchdogViewTouchesOnlyReported | phile/notify/watchdog.py:160-202 | the whole watcher never touches a name that neither the glob nor any report refers to |
| NotifyFiles.ProcessWatchdogView | phile/notify/watchdog.py:160-202 | defines `process_watchdog_view` as start, then each report, then the exit cleanup; `ProcessWatchdogViewTouchesOnlyReported`, `TrackAllFollowsLastReport` and `Finish` state its effect |
| WatchEvents.SplitFileMoveEvent | src/phile/watchdog/asyncio.py:429-440 | a directory event gives nothing; a non-move file event gives itself; a file move gives a deletion of its source and a creation of its destination |
| WatchEvents.SplitIdempotent | src/phile/watchdog/asyncio.py:429-440 | splitting any event that a split produced gives that event back |
| WatchEvents.EventToFilePaths | src/phile/watchdog/asyncio.py:443-449 | no path for a directory event, the source for a file event, and source then destination for a move |
| WatchEvents.FilterJoined | src/phile/watchdog/asyncio.py:452-460 | a file joined to the expected directory passes `filter_path` exactly when its name ends with the suffix |
| WatchEvents.FilterPath | src/phile/watchdog/asyncio.py:452-460 | defines `filter_path`: the parent is the expected directory and the name has the expected ending; `FilterJoined` and `FilterOtherDirectory` state which paths pass |
| WatchEvents.FilterOtherDirectory | src/phile/watchdog/asyncio.py:452-458 | a path whose parent is another directory never passes |
| WatchEvents.MonitorFileExistence | src/phile/watchdog/asyncio.py:463-482 | every reported path passes `filter_path` |
| WatchEvents.MonitorOneEvent | src/phile/watchdog/asyncio.py:463-482 | one event reports its filtered split paths in order, each present unless it is a deletion |
| WatchEvents.MonitorAppend | src/phile/watchdog/asyncio.py:463-482 | the reports of two runs of events are the reports of the first followed by those of the second |
| HandlerObserver.HasHandlersMeansSome | phile/watchdog/observers.py:98-113 | `has_handlers` holds exactly when some handler is registered for the watch |
| HandlerObserver.HasHandlers | phile/watchdog/observers.py:98-113 | defines `has_handlers`, false on a missing watch; `HasHandlersMeansSome` states it holds exactly when some handler is registered |
| HandlerObserver.AddHandler | phile/watchdog/observers.py:116-155 | the handler joins the watch's handlers, the watch gets an emitter and is scheduled, and no other watch changes |
| HandlerObserver.RemoveHandler | phile/watchdog/observers.py:158-208 | no handlers means no change; an unregistered handler is a `KeyError`; otherwise exactly that handler leaves, and when it was the last the watch loses its handler entry, its emitter and its scheduling; other watches never change |
| HandlerObserver.AddThenRemove | phile/watchdog/observers.py:116-208 | adding a new handler and then removing it restores the observer |
| WatchScheduler.Schedule | phile/watchdog/__init__.py:146-162 | afterwards the scheduler is scheduled; scheduling again changes nothing; a first schedule records the watch of the watched path and registers the scheduler as a handler of it |
| WatchScheduler.IsScheduled | phile/watchdog/__init__.py:146-151 | defines `is_scheduled` as having a watch; `Schedule` states that scheduling sets it and that scheduling again changes nothing |
| WatchScheduler.ScheduleIdempotent | phile/watchdog/__init__.py:153-162 | scheduling twice is scheduling once |
| WatchScheduler.Unschedule | phile/watchdog/__init__.py:164-174 | an unscheduled scheduler does nothing; otherwise the handler is removed from its watch, and the scheduler is unscheduled exactly when that removal succeeds |
| WatchScheduler.EnterThenExit | phile/watchdog/__init__.py:132-174 | entering and then leaving the context restores both scheduler and observer |
| WatchScheduler.Dispatch | phile/watchdog/__init__.py:176-203 | a directory event passes nothing; every path passed is accepted by the filter; at most two paths |
| WatchScheduler.Accepted | phile/watchdog/__init__.py:195-203 | the paths kept are exactly the given paths the filter accepts |
| WatchScheduler.DispatchAcceptsSplitPaths | phile/watchdog/__init__.py:176-203 | `dispatch` hands on exactly the accepted file paths of the event, in order |
| AsyncObserver.Schedule | src/phile/watchdog/asyncio.py:138-164 | succeeds exactly when the watch already has an emitter or a new one starts; success adds one to the count, reuses the watch's queue and emitter, or adds a fresh queue for a new watch and leaves the other watches' queues alone, and returns a view of that queue that unschedules the watch on close; a failure is the start error |
| AsyncObserver.Unschedule | src/phile/watchdog/asyncio.py:166-189 | the count drops by one; only at zero are the count, emitter and queue removed, a live emitter stopped and the queue ended; no other watch changes |
| AsyncObserver.ScheduleKeepsValid | src/phile/watchdog/asyncio.py:138-189 | scheduling keeps counts positive, with exactly one emitter and one queue per counted watch |
| AsyncObserver.ScheduleFailureRollsBack | src/phile/watchdog/asyncio.py:162-164 | a failed schedule leaves the observer as it was |
| AsyncObserver.RollbackRestores | src/phile/watchdog/asyncio.py:162-189 | unscheduling the one count that a failed schedule added removes everything it created |
| AsyncObserver.Aclose | src/phile/watchdog/asyncio.py:74-76 | closing a view runs its unschedule once and replaces the callback by a no-op |
| AsyncObserver.AcloseTwice | src/phile/watchdog/asyncio.py:74-76 | closing a view twice is closing it once |
| AsyncObserver.ScheduleThenClose | src/phile/watchdog/asyncio.py:138-189 | scheduling with a working emitter and then closing the view restores the observer; for a new watch the emitter is stopped and the view reaches the end of its queue |
| AsyncObserver.ScheduleTwiceShares | src/phile/watchdog/asyncio.py:138-161 | a second schedule of a watch shares the first one's emitter and queue, so both views read the same events |
| AsyncObserver.UnscheduleUnknown | src/phile/watchdog/asyncio.py:166-172 | unscheduling a watch that was never scheduled leaves a count of -1 |
| PubSubEvent.NewPublisher | phile/pubsub_event/__init__.py:57-60 | a new publisher starts at one pending node |
| PubSubEvent.Push | phile/pubsub_event/__init__.py:40-44 | pushing succeeds exactly when the last node is still pending (otherwise the assertion fails); it links that node and appends a pending node with the message |
| PubSubEvent.Stop | phile/pubsub_event/__init__.py:46-48 | stopping succeeds exactly when the last node is still pending and marks it as ended |
| PubSubEvent.Subscribe | phile/pubsub_event/__init__.py:71-79 | a subscriber starts at the publisher's current last node, so it sees only later messages |
| PubSubEvent.Pull | phile/pubsub_event/__init__.py:33-38 | a pull yields the next message when the node is linked, NoMoreEvents when it is ended, and waits when it is pending |
| PubSubEvent.PullAll | phile/pubsub_event/__init__.py:81-86 | pulling until blocked yields one message per node after the subscriber's position and reports the end exactly when the publisher stopped |
| PubSubEvent.PushAppends | phile/pubsub_event/__init__.py:62-63 | after a push every existing subscriber reads what it read before plus the new message |
| PubSubEvent.StopEnds | phile/pubsub_event/__init__.py:65-66 | after a stop every existing subscriber reads the same messages and then NoMoreEvents |
| PubSubEvent.SubscriberPullsPushes | phile/pubsub_event/__init__.py:62-86 | a subscriber reads every message pushed after it subscribed, in push order |
| PubSubEvent.PullsThenNoMoreEvents | phile/pubsub_event/__init__.py:40-66 | a subscriber from the start reads all pushed messages and then the end; pushing or stopping after a stop fails |
| PubSubQueue.GetNowait | phile/asyncio/pubsub.py:35-41 | reading a node gives its value when set with one, EndReached when set as an end, NotSet otherwise |
| PubSubQueue.SetCell | phile/asyncio/pubsub.py:46-55 | setting a node succeeds exactly when it is unset (else AlreadySet) and makes it hold the value, not an end |
| PubSubQueue.SetEndCell | phile/asyncio/pubsub.py:57-60 | ending a node succeeds exactly when it is unset (else AlreadySet) and makes it an end |
| PubSubQueue.NewQueue | phile/asyncio/pubsub.py:93-96 | a new queue points at one unset node |
| PubSubQueue.Put | phile/asyncio/pubsub.py:104-107 | putting succeeds exactly when the current node is unset, fills it and moves on to a fresh unset node |
| PubSubQueue.PutDone | phile/asyncio/pubsub.py:109-110 | finishing succeeds exactly when the current node is unset and marks it as the end |
| PubSubQueue.Subscribe | phile/asyncio/pubsub.py:98-99 | a view starts at the queue's current node |
| PubSubQueue.ViewNext | phile/asyncio/pubsub.py:78-88 | a view step yields the node's value and advances, or stops exactly at an end node |
| PubSubQueue.Drain | phile/asyncio/pubsub.py:75-88 | iterating a view yields one value per filled node and stops exactly when the last node is an end |
| PubSubQueue.PutAppends | phile/asyncio/pubsub.py:104-107 | after a put every existing view reads what it read before plus the new value |
| PubSubQueue.PutDoneEnds | phile/asyncio/pubsub.py:109-110 | after put_done every existing view reads the same values and then stops |
| PubSubQueue.ViewReadsPuts | phile/asyncio/pubsub.py:75-110 | a view reads every value put after it was created, in order |
| PubSubQueue.NewQueueReadsAll | phile/asyncio/pubsub.py:93-110 | a view of a new queue reads all values and then stops; put or put_done after put_done raise AlreadySet |
| Capability.SetItem | src/phile/capability.py:58-60 | assignment sets the key, keeps every other entry and queues a SET event |
| Capability.DelItem | src/phile/capability.py:49-53 | deletion raises KeyError exactly when the key is missing, else removes it and queues a DEL event |
| Capability.GetItem | src/phile/capability.py:55-56 | lookup gives the stored value, or KeyError when the key is missing |
| Capability.Pop | src/phile/capability.py:77-94 | pop raises KeyError exactly when the key is missing and no default is given; a present key is removed with a DEL event, a missing one gives the default and changes nothing |
| Capability.SetValue | src/phile/capability.py:96-97 | set stores the value under its own type and queues a SET event |
| Capability.Provide | src/phile/capability.py:99-111 | provide fails with AlreadyEnabled exactly when the capability holds a different value; otherwise it holds the value and a SET event is queued |
| Capability.ProvideExit | src/phile/capability.py:112-114 | leaving the context removes the capability, with a DEL event only when it was present |
| Capability.ProvideRestores | src/phile/capability.py:99-114 | providing a new capability and leaving the context restores the registry, with one SET and one DEL event |
| Capability.ProvideTwiceFails | src/phile/capability.py:106-108 | providing a different value for a capability already provided fails |
| ProvideItem.Provide | src/phile/builtins.py:30 | the key holds the value and every other entry is unchanged |
| ProvideItem.Exit | src/phile/builtins.py:17-28 | leaving removes the key, keeps every other entry and ignores a missing key |
| ProvideItem.ProvideThenExit | src/phile/builtins.py:12-31 | providing and leaving restores a map that did not have the key |
| ProvideItem.ExitAfterChange | src/phile/builtins.py:27-28 | leaving removes the key whatever was done to it meanwhile, and other entries are as they were |
| MemoryKeyring.Assign | src/phile/keyring.py:33-34 | setting a user's password changes only that user and keeps the first-inserted user first |
| MemoryKeyring.Remove | src/phile/keyring.py:38-39 | removing a user fails exactly when it is unknown, and otherwise changes only that user |
| MemoryKeyring.GetPassword | src/phile/keyring.py:20-28 | the stored password, or none for an unknown service or user |
| MemoryKeyring.SetPassword | src/phile/keyring.py:30-34 | the stored password for that service and user becomes the new one and no other lookup changes |
| MemoryKeyring.DeletePassword | src/phile/keyring.py:36-43 | the password is gone, no other lookup changes, a missing one is a no-op, and no service is left empty |
| MemoryKeyring.GetCredential | src/phile/keyring.py:45-62 | none for an unknown service; for a given user the credential exists exactly when a password does; without a user, the first-inserted user of the service |
| MemoryKeyring.SetThenDelete | src/phile/keyring.py:30-43 | setting then deleting a password is deleting it |
| MemoryKeyring.FirstUserIsDefault | src/phile/keyring.py:54-55 | the default credential is the first user stored for the service |
| TmuxCommands.ExitClient | phile/tmux/__init__.py:37-40 | the exit command is the empty line |
| TmuxCommands.RefreshClient | phile/tmux/__init__.py:42-64 | the command is refresh-client with its flag |
| TmuxCommands.RefreshClientRoundTrip | phile/tmux/__init__.py:56-64 | the three settings (leave alone, no output, output) give three distinct commands, each of which reads back as its setting |
| TmuxCommands.SetDestroyUnattached | phile/tmux/__init__.py:66-85 | the command sets the destroy-unattached option |
| TmuxCommands.SetDestroyUnattachedRoundTrip | phile/tmux/__init__.py:83-85 | on and off give distinct commands that read back as the flag |
| TmuxCommands.SetGlobalStatusRight | phile/tmux/__init__.py:87-92 | the command is the status-right prefix followed by the quoted status string |
| TmuxCommands.SetGlobalStatusRightInjective | phile/tmux/__init__.py:87-92 | when quoting is injective, different status strings give different commands |
| TmuxCommands.UnsetGlobalStatusRight | phile/tmux/__init__.py:94-97 | the unset command is never mistaken for a set command |
| TmuxCommands.Build | phile/tmux/__init__.py:26-97 | of all `CommandBuilder` methods only `exit_client` gives the empty line |
| TmuxCommands.BuildThenParse | phile/tmux/__init__.py:26-97 | every builder call, with any arguments, reads back as itself when the shell quoting can be undone |
| TmuxCommands.BuildInjective | phile/tmux/__init__.py:26-97 | two different builder calls never give the same command line |
| TmuxControl.ToList | phile/tmux/control_mode.py:29-48 | the argument list starts with the control-mode flags -CC -u |
| TmuxControl.ParseToList | phile/tmux/control_mode.py:29-48 | the argument list determines the arguments: the configuration path is given exactly when set, the session exactly when its name is not empty |
| TmuxControl.DefaultToList | phile/tmux/control_mode.py:25-48 | the default arguments attach to or create the session named ctrl |
| TmuxControl.Partition | phile/tmux/control_mode.py:74 | partitioning splits the data at its first CRLF, or gives it whole when there is none |
| TmuxControl.DataReceivedAsWritten | phile/tmux/control_mode.py:70-80 | received data is appended to the stream and earlier lines are kept |
| TmuxControl.DataReceived | phile/tmux/control_mode.py:70-80 | received data is appended to the stream and earlier lines are kept |
| TmuxControl.Receive | phile/tmux/control_mode.py:70-80 | the loop of `data_received`: earlier lines are kept and the data is appended to the stream; `ReceiveFrames` states how the lines are framed |
| TmuxControl.ReceiveFrames | phile/tmux/control_mode.py:70-80 | every line produced ends with its only CRLF and the buffer holds no CRLF |
| TmuxControl.DataReceivedKeepsFramed | phile/tmux/control_mode.py:70-80 | completed lines each end with their only CRLF and the buffer holds none, before and after receiving data |
| TmuxControl.FramingUnique | phile/tmux/control_mode.py:70-80 | a stream has one split into CRLF-terminated lines and a CRLF-free rest |
| TmuxControl.DataReceivedChunks | phile/tmux/control_mode.py:70-80 | receiving data in two chunks gives the same lines and buffer as receiving it at once |
| TmuxControl.SplitSeparatorAsWritten | phile/tmux/control_mode.py:70-80 | a CRLF split between two chunks is never recognised, so the received lines no longer frame the stream |
| TmuxControl.SplitSeparatorDelivered | phile/tmux/control_mode.py:70-80 | with the separator looked for across chunk boundaries the line split between two chunks is delivered |
| TmuxControl.ReadLine | phile/tmux/control_mode.py:96-101 | reading takes the first complete line off the stream, and there is none to read exactly when no line is complete |
| TmuxControl.ReadLineBeforeReceive | phile/tmux/control_mode.py:70-101 | reading a line commutes with receiving more data |
| TmuxControl.FirstMatch | phile/tmux/control_mode.py:140-147 | the position of the first line starting with one of the prefixes |
| TmuxControl.FirstMatchIsFirst | phile/tmux/control_mode.py:140-147 | no line before that position starts with one of the prefixes |
| TmuxControl.DropLinesUntil | phile/tmux/control_mode.py:140-147 | lines before the first matching line are dropped and that line is returned and consumed |
| TmuxControl.DropLinesNotStartingWith | phile/tmux/control_mode.py:149-155 | lines before the first matching line are dropped and that line is returned but left in place |
| TmuxControl.ReadLinesUntil | phile/tmux/control_mode.py:157-166 | the lines up to and including the first matching one are returned and consumed |
| TmuxControl.ReadBlockSpans | phile/tmux/control_mode.py:168-174 | a block runs from the first %begin line to the first %end or %error line after it, and the lines before, in and after it make up the lines read |
| TmuxControl.ReadBlock | phile/tmux/control_mode.py:168-174 | defines `read_block` from the two line readers; `ReadBlockSpans` states which lines the block holds |
| TmuxControl.ReadBlockExample | phile/tmux/control_mode.py:168-174 | a line before the block is dropped and the block is returned whole |
| TmuxControl.Head | phile/tmux/control_mode.py:126 | the first n characters, or all when there are fewer |
| TmuxControl.RemovePrefixStep | phile/tmux/control_mode.py:103-138 | a prefix with a CRLF is refused; a removal takes the prefix off the stream; more data is awaited only while the buffer is a proper prefix of it and no line is complete |
| TmuxControl.RemovePrefixByStream | phile/tmux/control_mode.py:103-138 | removal succeeds exactly when the stream starts with the prefix, and waits exactly when the stream is a shorter part of the prefix |
| TmuxControl.RemovePrefixAcrossChunks | phile/tmux/control_mode.py:103-138 | a prefix arriving in two chunks is waited for and then removed |

## Left out

- The file-system change detectors: the native watch backends and emitter classes of the `watchdog` library (src/phile/watchdog/asyncio.py:192-426) are outside phile; an emitter's start is a parameter that succeeds or fails.
- `load_changed_files` (src/phile/watchdog/asyncio.py:485-508) is not part of this model; it only strings together monitoring and loading, which are modelled on their own.
- Asyncio and thread plumbing: awaiting, events, tasks, `call_soon_threadsafe` and the loop that drives each view. Operations are modelled as the state changes they make; a read that would wait is the outcome `Wait`.
- The launcher registry's start and stop state machine; whether a launcher is running is an oracle, and the command interpreter only records which names it would start or stop.
- Qt and the rest of the GUI: widgets, `QLabel` text rendering, the key event filter and the trigger registry's `activate_if_shown`. Key codes are plain integers with the name tables as parameters.
- Process, network and operating-system I/O: the tmux subprocess (`open`, `Client`, `kill_server`), IMAP networking, file reading and writing (files are a map from path to content), directory creation in `phile.watchdog.Scheduler`, and `PidLock.__del__`'s warning.
- `shlex.quote`, `shlex.split`, `json.load`/`json.dump` and `pathvalidate` are opaque: quoting is a parameter, an argument list is given already split, JSON text is an uninterpreted value, and a valid file name is decided by the oracle `accepts`.
- Bytes in tmux control mode are characters; decoding is the identity.
- Python's `int()` accepts Unicode digits from every script; the model accepts ASCII digits only.
- The time zone of a todo.txt timestamp; a date and time is its integer fields.
- TodoTxt.DatetimeToString: the year is always written as four zero-padded digits. `strftime("%Y")` on glibc does not zero-pad years below 1000 under some supported Python versions, and there the stamp of such a year has fewer than 16 characters.
- TodoTxt.DatetimeRoundTrip: for the same reason, on such a platform the stamp of a year below 1000 need not read back.
- `SortedLoadCache.refresh`, which globs a directory: only the update of given paths is modelled.
- `phile.tray.File` is not part of this model; tray files order by the `phile.data.File` path order they inherit.
- SortedCache.UpdateAsWritten: `on_pop` receives the entry as it was before the failed `load()`; in the source it is the same `File` object, which that load may have changed.
- SortedCache.Update: likewise, the popped entry is the record from before the failed load.
- Dictionary aliasing in the todo command line: `dest.setdefault(key, value)` stores `source`'s own dictionary in `dest` (src/phile/todo/cli.py:55), and `default_map = submap` shares the configuration's dictionary (src/phile/todo/cli.py:89). Maps are values here, so later mutation through one alias is not seen through the other; no modelled result depends on it.
- The active hotkey binding is held as the trie value it points to, not an alias of a dictionary inside the trie, since the trie is never changed while a sequence is pressed.
- TmuxControl.RemovePrefixStep: an empty prefix with no complete line is removed; the source compares object identity after `bytes.removeprefix`, which for an empty prefix leaves the buffer as the same object and so raises `PrefixNotFound`, an interpreter detail the model does not follow.
- SortedCache.UpdatePaths: no lemma splits an update of `a + b` into an update of `a` followed by one of `b`; the update of each path is instead characterised directly by `SortedCache.UpdatePathsAbstracts`.
- TrayFiles.SaveThenLoad: a text icon that holds a carriage return does not round trip, because reading translates it to a newline; the lemma requires an icon without line breaks.
- TrayFiles.TargetToSource: for the same reason, it covers only text icons without a carriage return.
- JSON values other than strings in the `icon_name` and `icon_path` fields are not modelled: a decoded object is given as its two optional fields, and `pathlib.Path(icon_path)` is the path parser `ParsePath`.
- Floating-point and `psutil` formatting, configuration loading, the command-line wrappers and their file I/O, signals, `pynput` and the older duplicate modules are outside the core.

## Findings

| source | as written | input that shows it | evidently intended | confidence | as-written member | corrected member |
|---|---|---|---|---|---|---|
| phile/data/__init__.py:186-205 | `update` takes the element at the bisect index to be the tracked copy of the path whenever that index is in range, without comparing paths | tracking only `b`, updating a loadable `a` that sorts before `b`: `b` is reloaded and set at index 0, `a` is never inserted | treat the element as tracked only when its path is the updated path, and insert otherwise | high, not executed | SortedCache.PrependOverwritesAsWritten | SortedCache.PrependInserts |
| phile/imapclient.py:342-349 | an `EXPUNGE` rebuilds the unknown set by renumbering the unseen set, which was already renumbered, and never reads the old unknown set | two messages, the first seen and the second of unknown status, then `EXPUNGE 1`: no message is left unknown, though the remaining one still is; with only message 3 of three unseen, `EXPUNGE 1` reports message 1 as unknown | shift the unknown IDs themselves, as is done for the unseen IDs | medium, not executed | ImapFlags.ExpungeAsWrittenLosesUnknown | ImapFlags.ExpungeAbstracts |
| phile/tmux/control_mode.py:70-80 | each chunk is partitioned at `\r\n` on its own | chunk `line-1\n\r` then chunk `\n\nline-2`: no line is completed and the buffer keeps a `\r\n` | a `\r\n` split between chunks ends a line, so chunking does not change the lines | high, not executed | TmuxControl.SplitSeparatorAsWritten | TmuxControl.DataReceivedChunks |
| src/phile/launcher/cmd.py:56-65 | an ID is rejected only when it is at least the number of known launchers | `start -1` selects the last known launcher, or raises `IndexError` when none is known | negative IDs are rejected like too-large ones | high, not executed | LauncherCmd.NegativeIdAliases | LauncherCmd.SelectAgreesOnNonNegative |

=== FILE: async_observer.dfy ===
/**
 * `BaseObserver` and `EventView` of `src/phile/watchdog/asyncio.py`:
 * watches scheduled with a reference count, one event emitter and one
 * event queue per watch, and views that unschedule their watch when closed.
 *
 * An emitter is a thread; only whether it is alive is kept. Whether
 * creating or starting a new emitter raises is a parameter. Stopping and
 * joining an emitter is the `stopped` flag of an unschedule.
 */
module AsyncObserver {
  import opened Outcomes
  import opened Maps
  import PubSubQueue
  import opened WatchEvents

  type EventQueue = PubSubQueue.Queue<FileSystemEvent>

  /** How creating the emitter for a new watch goes. */
  datatype EmitterStart = Started | ConstructorRaised | StartRaised

  /**
   * `_watch_count`, `_emitters` (kept as whether each emitter is alive)
   * and `_event_queues`.
   */
  datatype Observer = Observer(count: map<Watch, int>, alive: map<Watch, bool>, queues: map<Watch, EventQueue>)

  /** An `EventView` and the watch its `aclose` unschedules, if it has not been closed yet. */
  datatype EventView = EventView(view: PubSubQueue.View, closes: Option<Watch>)

  /** What an unschedule did: the observer after it, whether it stopped a live emitter, and the queue it ended. */
  datatype Unscheduled = Unscheduled(observer: Observer, stopped: bool, ended: Option<EventQueue>)

  function NewObserver(): Observer
  {
    Observer(map[], map[], map[])
  }

  /** Every queue the observer holds can still take events and an end marker. */
  predicate QueuesOpen(o: Observer)
  {
    forall w | w in o.queues :: PubSubQueue.Valid(o.queues[w]) && o.queues[w].chain[o.queues[w].next].Unset?
  }

  /** A scheduled watch has a positive count, an emitter and a queue; an unscheduled one has none of them. */
  predicate Valid(o: Observer)
  {
    && QueuesOpen(o)
    && o.alive.Keys == o.count.Keys
    && o.queues.Keys == o.count.Keys
    && forall w | w in o.count :: o.count[w] > 0
  }

  /** `defaultdict(int)` reading of the count. */
  function CountOf(o: Observer, w: Watch): int
  {
    if w in o.count then o.count[w] else 0
  }

  /**
   * `unschedule(path, recursive)`: decrement the count; at zero, drop the
   * watch's count, emitter and queue, stop the emitter if it is alive and
   * end the queue.
   */
  function Unschedule(o: Observer, w: Watch): (r: Unscheduled)
    requires QueuesOpen(o)
    ensures QueuesOpen(r.observer)
    ensures r.observer.count - {w} == o.count - {w}
    ensures r.observer.alive - {w} == o.alive - {w}
    ensures r.observer.queues - {w} == o.queues - {w}
    ensures CountOf(o, w) != 1 ==>
      r.observer == o.(count := o.count[w := CountOf(o, w) - 1]) && !r.stopped && r.ended.None?
    ensures CountOf(o, w) == 1 ==>
      && w !in r.observer.count && w !in r.observer.alive && w !in r.observer.queues
      && (r.stopped <==> w in o.alive && o.alive[w])
      && (r.ended.Some? <==> w in o.queues)
      && (r.ended.Some? ==> r.ended.value == PubSubQueue.PutDone(o.queues[w]).value)
    ensures Valid(o) && w in o.count ==> Valid(r.observer)
  {
    var c := CountOf(o, w) - 1;
    if c != 0 then
      Unscheduled(o.(count := o.count[w := c]), false, None)
    else
      var stopped := w in o.alive && o.alive[w];
      var ended := if w in o.queues then Some(PubSubQueue.PutDone(o.queues[w]).value) else None;
      Unscheduled(Observer(o.count - {w}, o.alive - {w}, o.queues - {w}), stopped, ended)
  }

  /**
   * `schedule(path, recursive)`: increment the count, take the watch's
   * queue (a new one for a new watch), create and start an emitter unless
   * the watch has one, and return a view of the queue whose `aclose`
   * unschedules. If creating or starting the emitter raises, the watch is
   * unscheduled again and the error is passed on.
   */
  function Schedule(o: Observer, w: Watch, start: EmitterStart): (r: (Observer, Result<EventView, EmitterStart>))
    requires QueuesOpen(o)
    ensures QueuesOpen(r.0)
    ensures r.1.Ok? <==> w in o.alive || start == Started
    ensures r.1.Ok? ==>
      && r.0.count == o.count[w := CountOf(o, w) + 1]
      && w in r.0.queues && r.1.value == EventView(PubSubQueue.Subscribe(r.0.queues[w]), Some(w))
      && (w in o.queues ==> r.0.queues == o.queues)
      && (w !in o.queues ==> r.0.queues == o.queues[w := PubSubQueue.NewQueue()])
      && (w in o.alive ==> r.0.alive == o.alive)
      && (w !in o.alive ==> r.0.alive == o.alive[w := true])
    ensures r.1.Err? ==> r.1.error == start
    ensures r.1.Err? ==> r.0 == Unschedule(Attempted(o, w, start), w).observer
  {
    var q := if w in o.queues then o.queues[w] else PubSubQueue.NewQueue();
    var o1 := Observer(o.count[w := CountOf(o, w) + 1], o.alive, o.queues[w := q]);
    var view := EventView(PubSubQueue.Subscribe(q), Some(w));
    if w in o.alive then
      (o1, Ok(view))
    else
      match start
      case Started => (o1.(alive := o.alive[w := true]), Ok(view))
      case ConstructorRaised => (Unschedule(o1, w).observer, Err(start))
      case StartRaised => (Unschedule(o1.(alive := o.alive[w := false]), w).observer, Err(start))
  }

  /**
   * The observer a failed schedule unschedules from: the count incremented,
   * the queue created, and, when only `start()` raised, the emitter kept
   * though not alive.
   */
  function Attempted(o: Observer, w: Watch, start: EmitterStart): (r: Observer)
    requires QueuesOpen(o)
    ensures QueuesOpen(r)
    ensures CountOf(r, w) == CountOf(o, w) + 1
  {
    var q := if w in o.queues then o.queues[w] else PubSubQueue.NewQueue();
    var alive := if start == StartRaised && w !in o.alive then o.alive[w := false] else o.alive;
    Observer(o.count[w := CountOf(o, w) + 1], alive, o.queues[w := q])
  }

  /** Scheduling keeps the observer's invariant. */
  lemma ScheduleKeepsValid(o: Observer, w: Watch, start: EmitterStart)
    requires Valid(o)
    ensures Valid(Schedule(o, w, start).0)
  {
    var r := Schedule(o, w, start);
    if r.1.Err? {
      ScheduleFailureRollsBack(o, w, start);
    } else {
      var q := r.0.queues[w];
      assert r.0.queues == o.queues[w := q];
      KeysAfterUpdate(o.count, w, CountOf(o, w) + 1);
      KeysAfterUpdate(o.queues, w, q);
      if w in o.alive {
        KeysAlreadyThere(o.count.Keys, w);
      } else {
        KeysAfterUpdate(o.alive, w, true);
      }
    }
  }

  /** A schedule whose emitter fails leaves the observer exactly as it was. */
  lemma ScheduleFailureRollsBack(o: Observer, w: Watch, start: EmitterStart)
    requires Valid(o)
    ensures Schedule(o, w, start).1.Err? ==> Schedule(o, w, start).0 == o
  {
    if Schedule(o, w, start).1.Err? {
      RollbackRestores(o, Attempted(o, w, start), w);
    }
  }

  /** Unscheduling the only schedule of a watch leaves the observer as it was before that schedule. */
  lemma RollbackRestores(o: Observer, o1: Observer, w: Watch)
    requires Valid(o) && w !in o.count && QueuesOpen(o1)
    requires o1.count == o.count[w := 1]
    requires o1.alive - {w} == o.alive && o1.queues - {w} == o.queues
    ensures Unschedule(o1, w).observer == o
  {
    var u := Unschedule(o1, w).observer;
    assert CountOf(o1, w) == 1;
    assert u.count == o.count;
    assert u.alive == o.alive;
    assert u.queues == o.queues;
  }

  /** `EventView.aclose`: run the close callback, then replace it with a no-op. */
  function Aclose(o: Observer, e: EventView): (r: (Observer, EventView))
    requires QueuesOpen(o)
    ensures QueuesOpen(r.0)
    ensures r.1 == e.(closes := None)
    ensures e.closes.None? ==> r.0 == o
    ensures e.closes.Some? ==> r.0 == Unschedule(o, e.closes.value).observer
  {
    match e.closes
    case None => (o, e)
    case Some(w) => (Unschedule(o, w).observer, e.(closes := None))
  }

  /** Closing a view twice unschedules once: the second close changes nothing. */
  lemma AcloseTwice(o: Observer, e: EventView)
    requires QueuesOpen(o)
    ensures var once := Aclose(o, e); Aclose(once.0, once.1) == once
  {
  }

  /**
   * Scheduling a watch and closing the view it returns leaves the observer
   * as it was; for the watch's only view, the emitter is stopped and the
   * view reads no events and then stops.
   */
  lemma ScheduleThenClose(o: Observer, w: Watch)
    requires Valid(o)
    ensures var s := Schedule(o, w, Started);
      && s.1.Ok?
      && Aclose(s.0, s.1.value).0 == o
      && (w !in o.count ==>
        var u := Unschedule(s.0, w);
        && u.stopped && u.ended.Some?
        && PubSubQueue.Drain(u.ended.value.chain, s.1.value.view) == ([], true))
  {
    var s := Schedule(o, w, Started);
    var u := Unschedule(s.0, w);
    assert u.observer.count == o.count;
    assert u.observer.alive == o.alive;
    assert u.observer.queues == o.queues;
    if w !in o.count {
      var q := s.0.queues[w];
      assert q == PubSubQueue.NewQueue<FileSystemEvent>();
      PubSubQueue.PutDoneEnds(q, s.1.value.view);
      assert PubSubQueue.Drain(q.chain, s.1.value.view) == ([], false);
    }
  }

  /**
   * Two schedules of the same watch share one emitter and one queue: the
   * second starts nothing, and both views read from the same node.
   */
  lemma ScheduleTwiceShares(o: Observer, w: Watch, start: EmitterStart)
    requires Valid(o)
    ensures var s1 := Schedule(o, w, Started);
      var s2 := Schedule(s1.0, w, start);
      && s2.1.Ok?
      && s2.0.alive == s1.0.alive && s2.0.queues == s1.0.queues
      && s2.0.count[w] == CountOf(o, w) + 2
      && s2.1.value.view == s1.1.value.view
  {
  }

  /**
   * Unscheduling a watch that was never scheduled leaves the count at -1
   * (the `defaultdict` entry), so the observer is no longer `Valid`.
   */
  lemma UnscheduleUnknown(o: Observer, w: Watch)
    requires Valid(o) && w !in o.count
    ensures var u := Unschedule(o, w);
      u.observer.count[w] == -1 && !Valid(u.observer) && !u.stopped && u.ended.None?
  {
  }
}

=== FILE: capability.dfy ===
/**
 * The capability registry of `src/phile/capability.py`: a dictionary from
 * capability types to values that puts a `SET` or `DEL` event on its event
 * queue whenever an entry is stored or removed through it.
 *
 * Types are an abstract key type `K`; `type(value)` is a parameter
 * `typeOf`. The event queue is the list of events put so far.
 */
module Capability {
  import opened Outcomes

  datatype EventType = Del | Set

  datatype Event<K> = Event(kind: EventType, capability: K)

  datatype Registry<K, V> = Registry(items: map<K, V>, events: seq<Event<K>>)

  /** `KeyError` from the underlying dictionary, and `AlreadyEnabled`. */
  datatype CapabilityError = KeyError | AlreadyEnabled

  /** `__setitem__`: store, then put a `SET` event. */
  function SetItem<K(!new), V>(r: Registry<K, V>, key: K, value: V): (p: Registry<K, V>)
    ensures key in p.items && p.items[key] == value
    ensures forall k :: k != key ==> (k in p.items <==> k in r.items) && (k in r.items ==> p.items[k] == r.items[k])
    ensures p.events == r.events + [Event(Set, key)]
  {
    Registry(r.items[key := value], r.events + [Event(Set, key)])
  }

  /** `__delitem__`: a missing key raises `KeyError` before any event; otherwise remove, then put a `DEL` event. */
  function DelItem<K, V>(r: Registry<K, V>, key: K): (p: Result<Registry<K, V>, CapabilityError>)
    ensures p.Err? <==> key !in r.items
    ensures p.Err? ==> p.error == KeyError
    ensures p.Ok? ==> p.value.items == r.items - {key} && p.value.events == r.events + [Event(Del, key)]
  {
    if key !in r.items then Err(KeyError)
    else Ok(Registry(r.items - {key}, r.events + [Event(Del, key)]))
  }

  /** `__getitem__`. */
  function GetItem<K, V>(r: Registry<K, V>, key: K): (v: Result<V, CapabilityError>)
    ensures v.Ok? <==> key in r.items
    ensures v.Ok? ==> v.value == r.items[key]
    ensures v.Err? ==> v.error == KeyError
  {
    if key in r.items then Ok(r.items[key]) else Err(KeyError)
  }

  /**
   * `pop(capability[, default])`: a present key is removed with a `DEL`
   * event and its value returned; a missing key returns the default
   * without an event, or raises `KeyError` when no default was given.
   */
  function Pop<K, V>(r: Registry<K, V>, key: K, default: Option<V>): (p: Result<(Registry<K, V>, V), CapabilityError>)
    ensures p.Err? <==> key !in r.items && default.None?
    ensures p.Err? ==> p.error == KeyError
    ensures key in r.items ==> p == Ok((Registry(r.items - {key}, r.events + [Event(Del, key)]), r.items[key]))
    ensures key !in r.items && default.Some? ==> p == Ok((r, default.value))
  {
    if key in r.items then Ok((Registry(r.items - {key}, r.events + [Event(Del, key)]), r.items[key]))
    else if default.Some? then Ok((r, default.value))
    else Err(KeyError)
  }

  /** `set(value)`: store the value under its own type. */
  function SetValue<K(!new), V>(typeOf: V -> K, r: Registry<K, V>, value: V): (p: Registry<K, V>)
    ensures typeOf(value) in p.items && p.items[typeOf(value)] == value
    ensures p.events == r.events + [Event(Set, typeOf(value))]
  {
    SetItem(r, typeOf(value), value)
  }

  /** The key `provide` uses: the given capability, or the value's type. */
  function ProvidedKey<K, V>(typeOf: V -> K, value: V, capability: Option<K>): K
  {
    if capability.Some? then capability.value else typeOf(value)
  }

  /**
   * `provide(value, capability)`: `setdefault` stores the value when the
   * key is free (without an event, since `dict.setdefault` does not go
   * through `__setitem__`); a key bound to a different value raises
   * `AlreadyEnabled`; otherwise a `SET` event is put. Leaving the
   * returned context is `ProvideExit`.
   */
  function Provide<K, V(==)>(typeOf: V -> K, r: Registry<K, V>, value: V, capability: Option<K>)
    : (p: Result<Registry<K, V>, CapabilityError>)
    ensures var key := ProvidedKey(typeOf, value, capability);
      && (p.Err? <==> key in r.items && r.items[key] != value)
      && (p.Err? ==> p.error == AlreadyEnabled)
      && (p.Ok? ==> p.value.items == r.items[key := value] && p.value.events == r.events + [Event(Set, key)])
  {
    var key := ProvidedKey(typeOf, value, capability);
    var items := if key in r.items then r.items else r.items[key := value];
    if items[key] != value then Err(AlreadyEnabled)
    else Ok(Registry(items, r.events + [Event(Set, key)]))
  }

  /** Leaving a `provide` context: `pop(capability, None)`, which ignores a missing key. */
  function ProvideExit<K, V>(r: Registry<K, V>, key: K): (p: Registry<K, V>)
    ensures p.items == r.items - {key}
    ensures p.events == if key in r.items then r.events + [Event(Del, key)] else r.events
  {
    if key in r.items then Registry(r.items - {key}, r.events + [Event(Del, key)]) else r
  }

  /**
   * Providing a free capability and leaving the context leaves the
   * entries as they were, with one `SET` and one `DEL` event.
   */
  lemma ProvideRestores<K, V>(typeOf: V -> K, r: Registry<K, V>, value: V, capability: Option<K>)
    requires ProvidedKey(typeOf, value, capability) !in r.items
    ensures Provide(typeOf, r, value, capability).Ok?
    ensures var key := ProvidedKey(typeOf, value, capability);
      var after := ProvideExit(Provide(typeOf, r, value, capability).value, key);
      && after.items == r.items
      && after.events == r.events + [Event(Set, key), Event(Del, key)]
  {
    var key := ProvidedKey(typeOf, value, capability);
    assert r.items[key := value] - {key} == r.items;
  }

  /** Once `provide` has bound a key, providing a different value under it fails. */
  lemma ProvideTwiceFails<K, V>(typeOf: V -> K, r: Registry<K, V>, a: V, b: V, key: K)
    requires a != b
    ensures Provide(typeOf, r, a, Some(key)).Ok? ==> Provide(typeOf, Provide(typeOf, r, a, Some(key)).value, b, Some(key)) == Err(AlreadyEnabled)
  {
  }
}

=== FILE: entry_files.dfy ===
/**
 * What the tray files of `phile/tray/watchdog.py` and the notification
 * files of `phile/notify/watchdog.py` have in common: an entry named `n`
 * lives in the file `n + suffix` of one directory, and a `Target` writes
 * such files, remembers the names it wrote, and deletes them on `close`.
 *
 * The file system is a map from paths to what each file holds.
 */
module EntryFiles {
  import opened Strings
  import opened Paths

  /** `get_path`: the directory joined with the name and suffix. */
  function GetPath(name: string, directory: Path, suffix: string): (r: Path)
    ensures IsFileName(name + suffix) ==> Name(r) == name + suffix && Parent(r) == directory
  {
    var r := Paths.Join(directory, name + suffix);
    assert IsFileName(name + suffix) ==> Name(r) == name + suffix && Parent(r) == directory by {
      if IsFileName(name + suffix) { JoinFileName(directory, name + suffix); }
    }
    r
  }

  /** The entry name of a file: its name with the suffix removed (`path.name.removesuffix(suffix)`). */
  function EntryName(path: Path, suffix: string): (r: string)
    ensures EndsWith(Name(path), suffix) ==> r + suffix == Name(path)
    ensures !EndsWith(Name(path), suffix) ==> r == Name(path)
  {
    RemoveSuffix(Name(path), suffix)
  }

  /** The entry name of an entry's file is the entry's name. */
  lemma EntryNameOfPath(name: string, directory: Path, suffix: string)
    requires IsFileName(name + suffix)
    ensures EntryName(GetPath(name, directory, suffix), suffix) == name
    ensures EndsWith(Name(GetPath(name, directory, suffix)), suffix)
  {
    RemoveSuffixOfAppended(name, suffix);
    assert (name + suffix)[|name|..] == suffix;
  }

  /** Names that make file names with the suffix get different paths. */
  lemma GetPathInjective(a: string, b: string, directory: Path, suffix: string)
    requires IsFileName(a + suffix) && IsFileName(b + suffix)
    requires GetPath(a, directory, suffix) == GetPath(b, directory, suffix)
    ensures a == b
  {
    EntryNameOfPath(a, directory, suffix);
    EntryNameOfPath(b, directory, suffix);
  }

  /**
   * `Path.read_text`: the file's text with universal newlines, so that a
   * `"\r\n"` pair and a lone `"\r"` each read as `"\n"`. Writing leaves
   * `"\n"` as it is.
   */
  function ReadText(raw: string): (r: string)
    ensures '\r' !in r
    ensures |r| <= |raw|
    decreases |raw|
  {
    if |raw| == 0 then ""
    else if raw[0] == '\r' then
      "\n" + ReadText(if |raw| > 1 && raw[1] == '\n' then raw[2..] else raw[1..])
    else [raw[0]] + ReadText(raw[1..])
  }

  /** Reading gives the written text back exactly when it holds no carriage return. */
  lemma {:induction false} ReadTextWithoutReturn(raw: string)
    ensures ReadText(raw) == raw <==> '\r' !in raw
    decreases |raw|
  {
    if '\r' !in raw && |raw| > 0 {
      assert '\r' !in raw[1..] by {
        assert forall k :: 0 <= k < |raw[1..]| ==> raw[1..][k] == raw[k + 1];
      }
      ReadTextWithoutReturn(raw[1..]);
      assert [raw[0]] + raw[1..] == raw;
    }
  }

  /** `Target`: the directory and suffix, and the names it has written files for. */
  datatype Target = Target(directory: Path, suffix: string, currentNames: set<string>)

  /** The path of a name's file, for a target. */
  function PathOfName(t: Target, name: string): Path
  {
    GetPath(name, t.directory, t.suffix)
  }

  /** `Target.set`: write the name's file and remember the name. */
  function TargetSet<F>(t: Target, fs: map<Path, F>, name: string, content: F): (r: (Target, map<Path, F>))
    ensures r.0 == t.(currentNames := t.currentNames + {name})
    ensures PathOfName(t, name) in r.1 && r.1[PathOfName(t, name)] == content
    ensures forall p :: p != PathOfName(t, name) ==> (p in r.1 <==> p in fs) && (p in fs ==> r.1[p] == fs[p])
  {
    (t.(currentNames := t.currentNames + {name}), fs[PathOfName(t, name) := content])
  }

  /** `Target.pop`: delete the name's file if it is there (`missing_ok`), and forget the name. */
  function TargetPop<F>(t: Target, fs: map<Path, F>, name: string): (r: (Target, map<Path, F>))
    ensures r.0 == t.(currentNames := t.currentNames - {name})
    ensures PathOfName(t, name) !in r.1
    ensures forall p :: p != PathOfName(t, name) ==> (p in r.1 <==> p in fs) && (p in fs ==> r.1[p] == fs[p])
  {
    (t.(currentNames := t.currentNames - {name}), fs - {PathOfName(t, name)})
  }

  /** Setting a name and popping it forgets the name and leaves no file for it; other files are as before. */
  lemma SetThenPop<F>(t: Target, fs: map<Path, F>, name: string, content: F)
    ensures var s := TargetSet(t, fs, name, content);
      TargetPop(s.0, s.1, name) == (t.(currentNames := t.currentNames - {name}), fs - {PathOfName(t, name)})
  {
    var s := TargetSet(t, fs, name, content);
    assert t.currentNames + {name} - {name} == t.currentNames - {name};
    assert TargetPop(s.0, s.1, name).1 == fs - {PathOfName(t, name)};
  }

  /** The files a target owns: those of the names it has written. */
  function OwnedPaths(t: Target): set<Path>
  {
    set n | n in t.currentNames :: PathOfName(t, n)
  }

  /** The paths of the listed names. */
  function PathsOf(t: Target, names: seq<string>): set<Path>
  {
    set k | 0 <= k < |names| :: PathOfName(t, names[k])
  }

  /** `Target.close`: pop every remembered name, in the order given. */
  function PopAll<F>(t: Target, fs: map<Path, F>, names: seq<string>): (r: (Target, map<Path, F>))
    ensures r.0 == t.(currentNames := t.currentNames - set k | 0 <= k < |names| :: names[k])
    decreases |names|
  {
    if |names| == 0 then (t, fs)
    else
      var popped := TargetPop(t, fs, names[0]);
      var r := PopAll(popped.0, popped.1, names[1..]);
      assert (set k | 0 <= k < |names| :: names[k]) == {names[0]} + set k | 0 <= k < |names[1..]| :: names[1..][k];
      r
  }

  /**
   * Closing a target, whatever order its names are popped in, leaves it
   * with no names and removes exactly the files it owns.
   */
  lemma CloseRemovesOwned<F>(t: Target, fs: map<Path, F>, names: seq<string>)
    requires (set k | 0 <= k < |names| :: names[k]) == t.currentNames
    ensures PopAll(t, fs, names).0.currentNames == {}
    ensures PopAll(t, fs, names).1 == map p | p in fs && p !in OwnedPaths(t) :: fs[p]
  {
    PopAllRemovesListed(t, fs, names);
    assert OwnedPaths(t) == PathsOf(t, names);
  }

  lemma {:induction false} PopAllRemovesListed<F>(t: Target, fs: map<Path, F>, names: seq<string>)
    ensures PopAll(t, fs, names).1 == map p | p in fs && p !in PathsOf(t, names) :: fs[p]
    decreases |names|
  {
    if |names| == 0 {
      assert PathsOf(t, names) == {};
    } else {
      var first := PathOfName(t, names[0]);
      var popped := TargetPop(t, fs, names[0]);
      PopAllRemovesListed(popped.0, popped.1, names[1..]);
      assert PathsOf(popped.0, names[1..]) == PathsOf(t, names[1..]);
      PathsOfCons(t, names);
      FilterAfterRemove(fs, first, PathsOf(t, names[1..]));
    }
  }

  /** The paths of a non-empty list: the first name's and those of the rest. */
  lemma PathsOfCons(t: Target, names: seq<string>)
    requires |names| > 0
    ensures PathsOf(t, names) == {PathOfName(t, names[0])} + PathsOf(t, names[1..])
  {
    var listed := PathsOf(t, names);
    var later := PathsOf(t, names[1..]);
    forall p | p in listed ensures p in {PathOfName(t, names[0])} + later {
      var k :| 0 <= k < |names| && p == PathOfName(t, names[k]);
      if k > 0 { assert names[1..][k - 1] == names[k]; }
    }
    forall p | p in later ensures p in listed {
      var k :| 0 <= k < |names[1..]| && p == PathOfName(t, names[1..][k]);
      assert names[1..][k] == names[k + 1];
    }
  }

  /** Deleting one file and then the files of a set is deleting the files of both. */
  lemma FilterAfterRemove<F>(fs: map<Path, F>, first: Path, later: set<Path>)
    ensures (map p | p in fs - {first} && p !in later :: (fs - {first})[p])
      == map p | p in fs && p !in {first} + later :: fs[p]
  {
  }
}

=== FILE: hotkey_bindings.dfy ===
/**
 * The key state of the hotkey widget of `src/phile/hotkey/pyside2.py`:
 * `PressedKeys` keeps the set of keys held down, `PressedKeySequence`
 * walks a trie of key bindings one key combination at a time, and
 * `HotkeyInput` shows the sequence so far and names the trigger it reaches.
 *
 * Widgets, Qt events and the trigger registry are left out: an event is
 * its type, key, auto-repeat flag and modifier flags, and each handler
 * returns what it changes.
 */
module HotkeyBindings {
  import opened Outcomes
  import opened HotkeyKeys
  import opened Ordering
  import opened SortedSets
  import opened Strings

  /** `<` on key values. */
  function IntLess(a: int, b: int): bool
  {
    a < b
  }

  /** `tuple(sorted(keys))` for a set of keys. */
  function SortedKeys(s: set<int>): (r: seq<int>)
    ensures Increasing(IntLess, r) && Elements(r) == s
  {
    assert StrictTotalOrder(IntLess);
    SortedSet(IntLess, s)
  }

  /** Holding exactly the keys of an increasing combination makes the combination `tuple(sorted(pressed_keys))`. */
  lemma SortedKeysOf(c: seq<int>)
    requires Increasing(IntLess, c)
    ensures SortedKeys(Elements(c)) == c
  {
    assert StrictTotalOrder(IntLess);
    IncreasingUnique(IntLess, SortedKeys(Elements(c)), c);
  }

  /** The type of a key event. */
  datatype EventType = KeyPress | KeyRelease

  /** The Qt keyboard modifier flags `qt_modifier_values` knows. */
  datatype KeyboardModifier = AltModifier | ControlModifier | MetaModifier | ShiftModifier

  /** A Qt key event: its type, key, whether it is an auto-repeat, and the modifier flags held. */
  datatype KeyEvent = KeyEvent(eventType: EventType, key: int, isAutoRepeat: bool, modifiers: set<KeyboardModifier>)

  /** The modifier flags in the order `qt_modifier_values` lists them. */
  const QtModifiers: seq<KeyboardModifier> := [AltModifier, ControlModifier, MetaModifier, ShiftModifier]

  /** `qt_modifier_values`: the keys of each modifier flag, the first being the one a held flag adds. */
  function ModifierKeys(m: KeyboardModifier): (r: seq<int>)
    ensures |r| > 0
  {
    match m
    case AltModifier => [KeyAlt]
    case ControlModifier => [KeyControl]
    case MetaModifier => [KeySuperL, KeySuperR]
    case ShiftModifier => [KeyShift]
  }

  /** The keys of all modifier flags. */
  const FlagKeys: set<int> := {KeyAlt, KeyControl, KeySuperL, KeySuperR, KeyShift}

  lemma FlagKeysOf(m: KeyboardModifier)
    ensures Elements(ModifierKeys(m)) <= FlagKeys
    ensures forall n :: n != m ==> Elements(ModifierKeys(m)) * Elements(ModifierKeys(n)) == {}
  {
  }

  /** `is_useful_key_event`: not an auto-repeat, and a key other than 0 and `Key_unknown`. */
  predicate IsUsefulKeyEvent(e: KeyEvent)
  {
    !e.isAutoRepeat && e.key != 0 && e.key != KeyUnknown
  }

  /** One step of `update_pressed_modifiers`: a held flag adds its first key unless one of its keys is held; a flag not held drops its keys. */
  function ApplyModifier(pressed: set<int>, held: set<KeyboardModifier>, m: KeyboardModifier): set<int>
  {
    var keys := Elements(ModifierKeys(m));
    if m in held then
      if pressed * keys == {} then pressed + {ModifierKeys(m)[0]} else pressed
    else pressed - keys
  }

  /** The steps for the listed flags, in order. */
  function ApplyModifiers(pressed: set<int>, held: set<KeyboardModifier>, ms: seq<KeyboardModifier>): set<int>
    decreases |ms|
  {
    if |ms| == 0 then pressed else ApplyModifiers(ApplyModifier(pressed, held, ms[0]), held, ms[1..])
  }

  /** `update_pressed_modifiers`: on a key press, bring the held modifier keys in line with the event's modifier flags. */
  function UpdatePressedModifiers(pressed: set<int>, e: KeyEvent): (r: set<int>)
    ensures e.eventType != KeyPress ==> r == pressed
  {
    if e.eventType != KeyPress then pressed else ApplyModifiers(pressed, e.modifiers, QtModifiers)
  }

  /** The keys of a flag that are held after the update: those held before, or the flag's first key if none was; none if the flag is not set. */
  function ExpectedFlagKeys(pressed: set<int>, held: set<KeyboardModifier>, m: KeyboardModifier): set<int>
  {
    var keys := Elements(ModifierKeys(m));
    if m !in held then {}
    else if pressed * keys == {} then {ModifierKeys(m)[0]}
    else pressed * keys
  }

  /** A step for one flag touches only that flag's keys. */
  lemma ApplyModifierTouches(pressed: set<int>, held: set<KeyboardModifier>, m: KeyboardModifier)
    ensures var r := ApplyModifier(pressed, held, m);
      && r * Elements(ModifierKeys(m)) == ExpectedFlagKeys(pressed, held, m)
      && (forall n :: n != m ==> r * Elements(ModifierKeys(n)) == pressed * Elements(ModifierKeys(n)))
      && forall x :: x !in FlagKeys ==> (x in r <==> x in pressed)
  {
    FlagKeysOf(m);
    assert ModifierKeys(m)[0] in Elements(ModifierKeys(m));
  }

  /** The steps for distinct flags leave each listed flag's keys as expected and every other key as it was. */
  lemma {:induction false} ApplyModifiersMeaning(pressed: set<int>, held: set<KeyboardModifier>, ms: seq<KeyboardModifier>)
    requires forall i, j :: 0 <= i < j < |ms| ==> ms[i] != ms[j]
    ensures var r := ApplyModifiers(pressed, held, ms);
      && (forall m :: r * Elements(ModifierKeys(m)) == if m in ms then ExpectedFlagKeys(pressed, held, m) else pressed * Elements(ModifierKeys(m)))
      && forall x :: x !in FlagKeys ==> (x in r <==> x in pressed)
    decreases |ms|
  {
    if |ms| > 0 {
      var next := ApplyModifier(pressed, held, ms[0]);
      ApplyModifierTouches(pressed, held, ms[0]);
      ApplyModifiersMeaning(next, held, ms[1..]);
      forall m ensures m in ms <==> m == ms[0] || m in ms[1..] {
        assert ms == [ms[0]] + ms[1..];
      }
      assert ms[0] !in ms[1..] by {
        forall k | 0 <= k < |ms[1..]| ensures ms[1..][k] != ms[0] {
          assert ms[1..][k] == ms[k + 1];
        }
      }
      forall m | m in ms[1..] ensures ExpectedFlagKeys(next, held, m) == ExpectedFlagKeys(pressed, held, m) {
      }
    }
  }

  /**
   * On a key press, each modifier flag's keys end up as `ExpectedFlagKeys`
   * says, whatever order the flags are visited in, and keys of no flag
   * are as they were.
   */
  lemma UpdatePressedModifiersMeaning(pressed: set<int>, e: KeyEvent)
    requires e.eventType == KeyPress
    ensures var r := UpdatePressedModifiers(pressed, e);
      && (forall m :: r * Elements(ModifierKeys(m)) == ExpectedFlagKeys(pressed, e.modifiers, m))
      && forall x :: x !in FlagKeys ==> (x in r <==> x in pressed)
  {
    ApplyModifiersMeaning(pressed, e.modifiers, QtModifiers);
    forall m ensures m in QtModifiers {
      match m
      case AltModifier => assert QtModifiers[0] == m;
      case ControlModifier => assert QtModifiers[1] == m;
      case MetaModifier => assert QtModifiers[2] == m;
      case ShiftModifier => assert QtModifiers[3] == m;
    }
  }

  /** The keys `PressedKeys` can hold: never 0 or `Key_unknown`. */
  predicate ValidPressed(pressed: set<int>)
  {
    0 !in pressed && KeyUnknown !in pressed
  }

  /**
   * `update_pressed_key`: a useful press adds its key and a useful release
   * discards it, then the modifier keys follow the flags; whether the held
   * keys were changed (and the event handled).
   */
  function UpdatePressedKey(pressed: set<int>, e: KeyEvent): (r: (set<int>, bool))
    ensures r.1 <==> IsUsefulKeyEvent(e)
    ensures !r.1 ==> r.0 == pressed
    ensures r.1 && e.eventType == KeyRelease ==> r.0 == pressed - {e.key}
    ensures r.1 && e.eventType == KeyPress && e.key !in FlagKeys ==> e.key in r.0
    ensures ValidPressed(pressed) ==> ValidPressed(r.0)
  {
    if !IsUsefulKeyEvent(e) then (pressed, false)
    else
      var changed := if e.eventType == KeyPress then pressed + {e.key} else pressed - {e.key};
      var r := UpdatePressedModifiers(changed, e);
      assert e.eventType == KeyPress ==> (forall x :: x !in FlagKeys ==> (x in r <==> x in changed)) by {
        if e.eventType == KeyPress { UpdatePressedModifiersMeaning(changed, e); }
      }
      (r, true)
  }

  /** The release event `hideEvent` sends for a held key. */
  function ReleaseOf(key: int): KeyEvent
  {
    KeyEvent(KeyRelease, key, false, {})
  }

  /** `hideEvent`: release each held key, in the order the copy of the set is iterated. */
  function ReleaseAll(pressed: set<int>, order: seq<int>): (r: set<int>)
    ensures r == pressed - (Elements(order) - {0, KeyUnknown})
    decreases |order|
  {
    if |order| == 0 then pressed
    else
      var rest := ReleaseAll(UpdatePressedKey(pressed, ReleaseOf(order[0])).0, order[1..]);
      assert Elements(order) == {order[0]} + Elements(order[1..]);
      rest
  }

  /** Hiding the widget, whatever order the held keys are visited in, leaves no key held. */
  lemma HideReleasesAll(pressed: set<int>, order: seq<int>)
    requires ValidPressed(pressed) && Elements(order) == pressed
    ensures ReleaseAll(pressed, order) == {}
  {
  }

  /** A value of the binding trie: a trigger name, or the bindings of the next combination. */
  datatype Bound = Trigger(target: string) | Bindings(children: map<Combination, Bound>)

  /** The binding trie below one point: `dict[tuple[int, ...], Any]`. */
  type Trie = map<Combination, Bound>

  /** What the trie holds at the end of a path of combinations; the whole trie for the empty path. */
  function Find(m: Trie, path: seq<Combination>): Option<Bound>
    decreases |path|
  {
    if |path| == 0 then Some(Bindings(m))
    else if path[0] !in m then None
    else
      match m[path[0]]
      case Trigger(t) => if |path| == 1 then Some(Trigger(t)) else None
      case Bindings(sub) => Find(sub, path[1..])
  }

  /** The errors of `add_key_bindings`, both `AttributeError` in Python. */
  datatype BindError =
    | UnknownKeyName   // a key name with no `Qt.Key_` attribute
    | TriggerPrefix    // a proper prefix of the sequence is bound to a trigger, which has no `setdefault`

  /** Whether a proper prefix of the path is bound to a trigger. */
  predicate TriggerOnPath(m: Trie, path: seq<Combination>)
  {
    exists i :: 1 <= i < |path| && Find(m, path[..i]).Some? && Find(m, path[..i]).value.Trigger?
  }

  /**
   * The inner loop of `add_key_bindings`: walk the path with `setdefault`,
   * creating empty dicts where nothing is bound, then bind the last
   * combination to the trigger.
   */
  function Insert(m: Trie, path: seq<Combination>, target: string): (r: Result<Trie, BindError>)
    requires |path| > 0
    ensures r.Ok? ==> r.value.Keys == m.Keys + {path[0]} && forall c :: c in m && c != path[0] ==> r.value[c] == m[c]
    decreases |path|
  {
    if |path| == 1 then Ok(m[path[0] := Trigger(target)])
    else
      match (if path[0] in m then m[path[0]] else Bindings(map[]))
      case Trigger(_) => Err(TriggerPrefix)
      case Bindings(sub) =>
        match Insert(sub, path[1..], target)
        case Err(e) => Err(e)
        case Ok(sub2) => Ok(m[path[0] := Bindings(sub2)])
  }

  /** Inserting fails exactly when a proper prefix of the path is bound to a trigger. */
  lemma {:induction false} InsertFails(m: Trie, path: seq<Combination>, target: string)
    requires |path| > 0
    ensures Insert(m, path, target).Err? <==> TriggerOnPath(m, path)
    decreases |path|
  {
    if |path| > 1 {
      var c := path[0];
      var tail := path[1..];
      assert Find(m, path[..1]) == if c in m then Some(m[c]) else None by {
        assert path[..1][1..] == [];
      }
      if c in m && m[c].Trigger? {
        assert Find(m, path[..1]).value.Trigger?;
      } else {
        var sub := if c in m then m[c].children else map[];
        InsertFails(sub, tail, target);
        forall i | 2 <= i < |path|
          ensures Find(m, path[..i]) == Find(sub, tail[..i - 1])
        {
          assert path[..i][0] == c && path[..i][1..] == tail[..i - 1];
          if c !in m {
            FindEmpty(tail[..i - 1]);
          }
        }
        if TriggerOnPath(m, path) {
          var i :| 1 <= i < |path| && Find(m, path[..i]).Some? && Find(m, path[..i]).value.Trigger?;
          assert i >= 2;
          assert 1 <= i - 1 < |tail|;
        }
        if TriggerOnPath(sub, tail) {
          var j :| 1 <= j < |tail| && Find(sub, tail[..j]).Some? && Find(sub, tail[..j]).value.Trigger?;
          assert Find(m, path[..j + 1]) == Find(sub, tail[..j]);
        }
      }
    }
  }

  /** Nothing is found in an empty trie below the root. */
  lemma FindEmpty(path: seq<Combination>)
    ensures |path| > 0 ==> Find(map[], path).None?
  {
  }

  /** After a successful insertion the path leads to the trigger. */
  lemma {:induction false} InsertFinds(m: Trie, path: seq<Combination>, target: string)
    requires |path| > 0 && Insert(m, path, target).Ok?
    ensures Find(Insert(m, path, target).value, path) == Some(Trigger(target))
    decreases |path|
  {
    if |path| > 1 {
      var sub := if path[0] in m then m[path[0]].children else map[];
      InsertFinds(sub, path[1..], target);
    }
  }

  /** Two paths that differ at some combination both have. */
  predicate Diverge(p: seq<Combination>, q: seq<Combination>)
  {
    exists i :: 0 <= i < |p| && i < |q| && p[i] != q[i]
  }

  /** A successful insertion leaves what every diverging path finds as it was. */
  lemma {:induction false} InsertKeepsOthers(m: Trie, path: seq<Combination>, target: string, q: seq<Combination>)
    requires |path| > 0 && Insert(m, path, target).Ok?
    requires Diverge(path, q)
    ensures Find(Insert(m, path, target).value, q) == Find(m, q)
    decreases |path|
  {
    var r := Insert(m, path, target).value;
    var i :| 0 <= i < |path| && i < |q| && path[i] != q[i];
    if path[0] != q[0] {
    } else {
      assert i > 0 && |path| > 1;
      var sub := if path[0] in m then m[path[0]].children else map[];
      assert path[1..][i - 1] != q[1..][i - 1];
      InsertKeepsOthers(sub, path[1..], target, q[1..]);
      if path[0] !in m {
        FindEmpty(q[1..]);
      }
    }
  }

  /** Whether a reader of key sequences gives non-empty sequences, as `key_sequence_from_string` does. */
  ghost predicate ReadsNonEmpty(read: string -> Option<seq<Combination>>)
  {
    forall name :: read(name).Some? ==> |read(name).value| > 0
  }

  /** `key_sequence_from_string` as a reader. */
  function SequenceReader(keyOf: string -> Option<int>): (r: string -> Option<seq<Combination>>)
    ensures ReadsNonEmpty(r)
  {
    name => KeySequenceFromString(keyOf, name)
  }

  /** Binding each entry's sequence, as `read` gives it, to the entry's trigger, stopping at the first error. */
  function BindAll(read: string -> Option<seq<Combination>>, m: Trie, keyMap: seq<(string, string)>): (r: (Trie, Option<BindError>))
    requires ReadsNonEmpty(read)
    decreases |keyMap|
  {
    if |keyMap| == 0 then (m, None)
    else
      match read(keyMap[0].0)
      case None => (m, Some(UnknownKeyName))
      case Some(path) =>
        match Insert(m, path, keyMap[0].1)
        case Err(e) => (m, Some(e))
        case Ok(m2) => BindAll(read, m2, keyMap[1..])
  }

  /**
   * `add_key_bindings`: bind each sequence, in the order the mapping is
   * iterated, to its trigger. The bindings before a failing entry stay.
   */
  function AddKeyBindings(keyOf: string -> Option<int>, m: Trie, keyMap: seq<(string, string)>): (r: (Trie, Option<BindError>))
  {
    BindAll(SequenceReader(keyOf), m, keyMap)
  }

  /**
   * Binding without error means every sequence was read, and the last
   * entry's sequence leads to its trigger, whatever was bound before.
   */
  lemma {:induction false} BindAllLastWins(read: string -> Option<seq<Combination>>, m: Trie, keyMap: seq<(string, string)>)
    requires ReadsNonEmpty(read)
    requires |keyMap| > 0
    requires BindAll(read, m, keyMap).1.None?
    ensures forall k :: 0 <= k < |keyMap| ==> read(keyMap[k].0).Some?
    ensures Find(BindAll(read, m, keyMap).0, read(keyMap[|keyMap| - 1].0).value) == Some(Trigger(keyMap[|keyMap| - 1].1))
    decreases |keyMap|
  {
    var path := read(keyMap[0].0).value;
    var m2 := Insert(m, path, keyMap[0].1).value;
    if |keyMap| == 1 {
      InsertFinds(m, path, keyMap[0].1);
    } else {
      BindAllLastWins(read, m2, keyMap[1..]);
      forall k | 1 <= k < |keyMap| ensures read(keyMap[k].0).Some? {
        assert keyMap[k] == keyMap[1..][k - 1];
      }
      assert keyMap[|keyMap| - 1] == keyMap[1..][|keyMap[1..]| - 1];
    }
  }

  /** A binding error leaves in place the bindings of the entries before the failing one, and nothing of that one. */
  lemma {:induction false} BindAllStopsAtError(read: string -> Option<seq<Combination>>, m: Trie, keyMap: seq<(string, string)>)
    requires ReadsNonEmpty(read)
    requires BindAll(read, m, keyMap).1.Some?
    ensures exists n :: (0 <= n < |keyMap| && BindAll(read, m, keyMap[..n]) == (BindAll(read, m, keyMap).0, None)
                         && BindAll(read, BindAll(read, m, keyMap).0, [keyMap[n]]) == BindAll(read, m, keyMap))
    decreases |keyMap|
  {
    var r := BindAll(read, m, keyMap);
    assert keyMap[..0] == [];
    if read(keyMap[0].0).None? || Insert(m, read(keyMap[0].0).value, keyMap[0].1).Err? {
      assert [keyMap[0]][1..] == [];
    } else {
      var m2 := Insert(m, read(keyMap[0].0).value, keyMap[0].1).value;
      BindAllStopsAtError(read, m2, keyMap[1..]);
      var n :| 0 <= n < |keyMap[1..]| && BindAll(read, m2, keyMap[1..][..n]) == (r.0, None)
        && BindAll(read, r.0, [keyMap[1..][n]]) == r;
      assert keyMap[..n + 1][0] == keyMap[0] && keyMap[..n + 1][1..] == keyMap[1..][..n];
      assert keyMap[1..][n] == keyMap[n + 1];
    }
  }

  /**
   * The state of `PressedKeySequence`: the held keys, the combinations
   * pressed so far, the whole binding trie, and the trie below the
   * sequence so far (`active_binding`).
   */
  datatype SequenceState = SequenceState(pressed: set<int>, sequence: seq<Combination>, keyBindings: Trie, active: Trie)

  /** A widget whose bindings have been added: `active_binding` is the whole trie. */
  function Initial(keyBindings: Trie): SequenceState
  {
    SequenceState({}, [], keyBindings, keyBindings)
  }

  /** Whether the next press starts a sequence afresh: nothing is active or nothing was pressed. */
  predicate Restarts(s: SequenceState)
  {
    s.active == map[] || s.sequence == []
  }

  /** The trie the next press looks its combination up in. */
  function NextLookup(s: SequenceState): Trie
  {
    if Restarts(s) then s.keyBindings else s.active
  }

  /** The sequence the next press extends. */
  function NextBase(s: SequenceState): seq<Combination>
  {
    if Restarts(s) then [] else s.sequence
  }

  /** `on_pressed_sequence_changed`: wait below a bound trie, or on nothing after a trigger or an unbound combination. */
  function SequenceChanged(s: SequenceState, bound: Option<Bound>): SequenceState
  {
    s.(active := if bound.Some? && bound.value.Bindings? then bound.value.children else map[])
  }

  /**
   * `on_pressed_keys_changed`: a release changes nothing. A press first
   * restarts the sequence if nothing is active or nothing was pressed,
   * then looks the held keys up as a combination. An unbound press of a
   * modifier key is ignored; any other press extends the sequence and
   * calls `on_pressed_sequence_changed` with what it found, whose
   * argument is the second result.
   */
  function OnPressedKeysChanged(s: SequenceState, e: KeyEvent): (r: (SequenceState, Option<Option<Bound>>))
    ensures r.0.pressed == s.pressed && r.0.keyBindings == s.keyBindings
    ensures e.eventType == KeyRelease ==> r == (s, None)
    ensures e.eventType == KeyPress && r.1.None? ==> NextLookup(r.0) == NextLookup(s) && NextBase(r.0) == NextBase(s)
    ensures r.1.Some? ==>
      && r.0.sequence == NextBase(s) + [SortedKeys(s.pressed)]
      && r.1.value == (if SortedKeys(s.pressed) in NextLookup(s) then Some(NextLookup(s)[SortedKeys(s.pressed)]) else None)
  {
    if e.eventType == KeyRelease then (s, None)
    else
      var start := if Restarts(s) then s.(active := s.keyBindings, sequence := []) else s;
      var combination := SortedKeys(start.pressed);
      var bound := if combination in start.active then Some(start.active[combination]) else None;
      if bound.None? && e.key in ModifierValues then (start, None)
      else (SequenceChanged(start.(sequence := start.sequence + [combination]), bound), Some(bound))
  }

  /** An unbound press of a modifier key leaves the sequence waiting where it was, so a combination can be pressed key by key. */
  lemma UnboundModifierIgnored(s: SequenceState, e: KeyEvent)
    requires e.eventType == KeyPress && e.key in ModifierValues
    requires SortedKeys(s.pressed) !in NextLookup(s)
    ensures var r := OnPressedKeysChanged(s, e);
      r.1.None? && NextLookup(r.0) == NextLookup(s) && NextBase(r.0) == NextBase(s)
  {
  }

  /** An unbound press of any other key ends the sequence: it is reported unbound and the next press restarts. */
  lemma UnboundOtherRestarts(s: SequenceState, e: KeyEvent)
    requires e.eventType == KeyPress && e.key !in ModifierValues
    requires SortedKeys(s.pressed) !in NextLookup(s)
    ensures var r := OnPressedKeysChanged(s, e);
      && r.1 == Some(None)
      && r.0.sequence == NextBase(s) + [SortedKeys(s.pressed)]
      && Restarts(r.0) && NextLookup(r.0) == s.keyBindings
  {
  }

  /** `reset_pressed_sequence`: clear the sequence and wait on nothing, so the next press restarts. */
  function ResetPressedSequence(s: SequenceState): (r: SequenceState)
    ensures r.pressed == s.pressed && r.keyBindings == s.keyBindings && r.sequence == []
    ensures Restarts(r) && NextLookup(r) == s.keyBindings && NextBase(r) == []
  {
    SequenceChanged(s.(active := s.keyBindings, sequence := []), None)
  }

  /** After a reset, a press acts as on a new widget with the same bindings and held keys. */
  lemma ResetActsFresh(s: SequenceState, e: KeyEvent)
    requires e.eventType == KeyPress
    ensures OnPressedKeysChanged(ResetPressedSequence(s), e) == OnPressedKeysChanged(Initial(s.keyBindings).(pressed := s.pressed), e)
  {
  }

  /**
   * A Qt key press or release through `keyPressEvent`/`keyReleaseEvent`:
   * update the held keys and, if they changed, the sequence. Whether the
   * event was handled (otherwise it goes to the widget's own handler).
   */
  function KeyEventHandled(s: SequenceState, e: KeyEvent): (r: (SequenceState, bool, Option<Option<Bound>>))
    ensures r.1 <==> IsUsefulKeyEvent(e)
    ensures !r.1 ==> r.0 == s && r.2.None?
    ensures r.0.pressed == UpdatePressedKey(s.pressed, e).0 && r.0.keyBindings == s.keyBindings
  {
    var (pressed, changed) := UpdatePressedKey(s.pressed, e);
    if !changed then (s, false, None)
    else
      var (next, bound) := OnPressedKeysChanged(s.(pressed := pressed), e);
      (next, true, bound)
  }

  /** Pressing one combination: exactly its keys held, the last of them `key`. */
  function Press(key: int): (SequenceState, Combination) -> (SequenceState, Option<Option<Bound>>)
  {
    (s: SequenceState, c: Combination) => OnPressedKeysChanged(s.(pressed := Elements(c)), KeyEvent(KeyPress, key, false, {}))
  }

  /**
   * Pressing combinations one after another with `press`; what the last
   * press passes to `on_pressed_sequence_changed`, if anything.
   */
  function WalkWith(press: (SequenceState, Combination) -> (SequenceState, Option<Option<Bound>>), s: SequenceState, combinations: seq<Combination>)
    : (r: (SequenceState, Option<Option<Bound>>))
    decreases |combinations|
  {
    if |combinations| == 0 then (s, None)
    else
      var step := press(s, combinations[0]);
      if |combinations| == 1 then step else WalkWith(press, step.0, combinations[1..])
  }

  /** Pressing the combinations one after another, each completed by `key`. */
  function Walk(s: SequenceState, combinations: seq<Combination>, key: int): (SequenceState, Option<Option<Bound>>)
  {
    WalkWith(Press(key), s, combinations)
  }

  /** What pressing a bound combination `c` in state `s` does (see `PressBound`). */
  predicate PressedBound(s: SequenceState, c: Combination, step: (SequenceState, Option<Option<Bound>>))
  {
    && c in NextLookup(s)
    && step.1 == Some(Some(NextLookup(s)[c]))
    && step.0.sequence == NextBase(s) + [c]
    && step.0.keyBindings == s.keyBindings
    && step.0.active == (if NextLookup(s)[c].Bindings? then NextLookup(s)[c].children else map[])
  }

  /** Every press of an increasing bound combination does what `on_pressed_keys_changed` does with it. */
  ghost predicate PressesBound(press: (SequenceState, Combination) -> (SequenceState, Option<Option<Bound>>))
  {
    forall s, c :: Increasing(IntLess, c) && c in NextLookup(s) ==> PressedBound(s, c, press(s, c))
  }

  /**
   * Pressing the combinations of a path that leads to a trigger reaches
   * the trigger: its name is passed on, the sequence holds the path after
   * what came before, and the next press restarts.
   */
  lemma WalkReachesTrigger(s: SequenceState, combinations: seq<Combination>, key: int, target: string)
    requires |combinations| > 0 && EachIncreasing(combinations)
    requires Find(NextLookup(s), combinations) == Some(Trigger(target))
    ensures var r := Walk(s, combinations, key);
      && r.1 == Some(Some(Trigger(target)))
      && r.0.sequence == NextBase(s) + combinations
      && r.0.keyBindings == s.keyBindings
      && Restarts(r.0)
  {
    forall t, c | Increasing(IntLess, c) && c in NextLookup(t)
      ensures PressedBound(t, c, Press(key)(t, c))
    {
      PressBound(t, c, key);
    }
    WalkWithReachesTrigger(Press(key), s, combinations, target);
  }

  lemma {:induction false} WalkWithReachesTrigger(press: (SequenceState, Combination) -> (SequenceState, Option<Option<Bound>>),
    s: SequenceState, combinations: seq<Combination>, target: string)
    requires PressesBound(press)
    requires |combinations| > 0 && EachIncreasing(combinations)
    requires Find(NextLookup(s), combinations) == Some(Trigger(target))
    ensures var r := WalkWith(press, s, combinations);
      && r.1 == Some(Some(Trigger(target)))
      && r.0.sequence == NextBase(s) + combinations
      && r.0.keyBindings == s.keyBindings
      && Restarts(r.0)
    decreases |combinations|
  {
    var c := combinations[0];
    var rest := combinations[1..];
    FindFirst(NextLookup(s), combinations, target);
    var step := press(s, c);
    assert PressedBound(s, c, step);
    if |combinations| > 1 {
      var next := step.0;
      assert next.active != map[] && next.sequence != [];
      assert NextLookup(next) == NextLookup(s)[c].children && NextBase(next) == NextBase(s) + [c];
      WalkWithReachesTrigger(press, next, rest, target);
      assert NextBase(s) + [c] + rest == NextBase(s) + combinations;
    }
  }

  /** A path to a trigger starts with a bound combination: the trigger itself, or a trie the rest leads through. */
  lemma FindFirst(m: Trie, path: seq<Combination>, target: string)
    requires |path| > 0 && Find(m, path) == Some(Trigger(target))
    ensures path[0] in m
    ensures |path| == 1 ==> m[path[0]] == Trigger(target)
    ensures |path| > 1 ==>
      && m[path[0]].Bindings? && path[1] in m[path[0]].children
      && Find(m[path[0]].children, path[1..]) == Some(Trigger(target))
  {
    if |path| > 1 {
      assert path[1..][0] == path[1];
    }
  }

  /** Pressing a bound combination extends the sequence by it and waits below what it is bound to. */
  lemma PressBound(s: SequenceState, c: Combination, key: int)
    requires Increasing(IntLess, c) && c in NextLookup(s)
    ensures PressedBound(s, c, Press(key)(s, c))
  {
    SortedKeysOf(c);
  }

  /** From a new widget, pressing the combinations bound to a trigger gives exactly that sequence and the trigger. */
  lemma BoundSequenceTriggers(keyBindings: Trie, combinations: seq<Combination>, key: int, target: string)
    requires |combinations| > 0 && forall k :: 0 <= k < |combinations| ==> Increasing(IntLess, combinations[k])
    requires Find(keyBindings, combinations) == Some(Trigger(target))
    ensures var r := Walk(Initial(keyBindings), combinations, key);
      r.1 == Some(Some(Trigger(target))) && r.0.sequence == combinations
  {
    var s := Initial(keyBindings);
    assert NextLookup(s) == keyBindings && NextBase(s) == [];
    AllIncreasing(combinations);
    WalkReachesTrigger(s, combinations, key, target);
    assert [] + combinations == combinations;
  }

  /** Each combination of a sequence is increasing, stated one combination at a time. */
  predicate EachIncreasing(combinations: seq<Combination>)
    decreases |combinations|
  {
    |combinations| == 0 || (Increasing(IntLess, combinations[0]) && EachIncreasing(combinations[1..]))
  }

  lemma {:induction false} AllIncreasing(combinations: seq<Combination>)
    requires forall k :: 0 <= k < |combinations| ==> Increasing(IntLess, combinations[k])
    ensures EachIncreasing(combinations)
    decreases |combinations|
  {
    if |combinations| > 0 {
      assert forall k :: 0 <= k < |combinations[1..]| ==> combinations[1..][k] == combinations[k + 1];
      AllIncreasing(combinations[1..]);
    }
  }

  /**
   * `HotkeyInput.on_pressed_sequence_changed`: the text shown for the
   * sequence so far, and the trigger to activate if it reached one.
   */
  function Shown(nameOf: int -> string, sequence: seq<Combination>, bound: Option<Bound>): (r: (string, Option<string>))
    ensures r.1.Some? <==> bound.Some? && bound.value.Trigger?
    ensures r.1.Some? ==> r.1.value == bound.value.target
    ensures StartsWith(r.0, KeySequenceToString(nameOf, sequence))
  {
    var text := KeySequenceToString(nameOf, sequence);
    if text != "" && bound.None? then
      assert (text + " is undefined.")[..|text|] == text;
      (text + " is undefined.", None)
    else if bound.Some? && bound.value.Trigger? then
      assert (text + ": " + bound.value.target)[..|text|] == text;
      (text + ": " + bound.value.target, Some(bound.value.target))
    else (text, None)
  }
}

=== FILE: hotkey_keys.dfy ===
/**
 * Key names of `src/phile/hotkey/pyside2.py`: reading key combinations
 * and key sequences from strings, and writing them back with modifiers
 * first.
 *
 * Qt's key table is a pair of parameters: `keyOf(n)` is the value of
 * `Qt.Key_<n>`, or `None` when Qt has no such key (`getattr` raises), and
 * `nameOf(v)` is the name of the key with value `v`, without `Key_`. The
 * modifier keys carry their Qt values.
 */
module HotkeyKeys {
  import opened Outcomes
  import opened Strings

  /** A key combination or the keys of one: Qt key values. */
  type Combination = seq<int>

  const KeyShift: int := 0x0100_0020
  const KeyControl: int := 0x0100_0021
  const KeyMeta: int := 0x0100_0022
  const KeyAlt: int := 0x0100_0023
  const KeySuperL: int := 0x0100_0053
  const KeySuperR: int := 0x0100_0054
  const KeyAltGr: int := 0x0100_1103
  const KeyUnknown: int := 0x01ff_ffff

  /** `ordered_modifier_values`: the order of modifiers at the head of a key string. */
  const OrderedModifierValues: seq<int> := [KeyMeta, KeySuperL, KeySuperR, KeyControl, KeyAlt, KeyAltGr, KeyShift]

  /** `modifier_values`. */
  const ModifierValues: set<int> := {KeyMeta, KeySuperL, KeySuperR, KeyControl, KeyAlt, KeyAltGr, KeyShift}

  /** `key_conversion`: the alternative names accepted when reading. */
  function Conversion(name: string): string
  {
    if name == "Ctrl" then "Control" else if name == "Esc" then "Escape" else name
  }

  /** `key_display_name`: the names used when writing. */
  function DisplayName(name: string): string
  {
    if name == "Control" then "Ctrl" else if name == "Escape" then "Esc" else name
  }

  /** Reading a display name gives the key's own name back. */
  lemma ConversionOfDisplayName(name: string)
    requires name != "Ctrl" && name != "Esc"
    ensures Conversion(DisplayName(name)) == name
  {
  }

  predicate SortedInts(s: seq<int>)
  {
    forall i, j :: 0 <= i < j < |s| ==> s[i] <= s[j]
  }

  predicate DistinctInts(s: seq<int>)
  {
    forall i, j :: 0 <= i < j < |s| ==> s[i] != s[j]
  }

  function InsertSorted(x: int, s: seq<int>): (r: seq<int>)
    requires SortedInts(s)
    ensures SortedInts(r) && multiset(r) == multiset(s) + multiset{x}
    decreases |s|
  {
    if |s| == 0 then [x]
    else if x <= s[0] then [x] + s
    else
      var rest := InsertSorted(x, s[1..]);
      InsertBehind(x, s, rest);
      [s[0]] + rest
  }

  /** An element above the head, inserted into the tail, goes behind the head. */
  lemma InsertBehind(x: int, s: seq<int>, rest: seq<int>)
    requires SortedInts(s) && |s| > 0 && s[0] < x
    requires SortedInts(rest) && multiset(rest) == multiset(s[1..]) + multiset{x}
    ensures SortedInts([s[0]] + rest) && multiset([s[0]] + rest) == multiset(s) + multiset{x}
  {
    assert s == [s[0]] + s[1..];
    forall k | 0 <= k < |rest| ensures s[0] <= rest[k] {
      assert rest[k] in multiset(rest);
      if rest[k] != x {
        assert rest[k] in multiset(s[1..]);
        var i :| 0 <= i < |s[1..]| && s[1..][i] == rest[k];
        assert s[i + 1] == rest[k];
      }
    }
  }

  /** `sorted` on integers. */
  function SortInts(s: seq<int>): (r: seq<int>)
    ensures SortedInts(r) && multiset(r) == multiset(s)
    decreases |s|
  {
    if |s| == 0 then []
    else
      assert s == [s[0]] + s[1..];
      InsertSorted(s[0], SortInts(s[1..]))
  }

  /** There is one sorted arrangement of a multiset, so any sort is `sorted`. */
  lemma {:induction false} SortedUnique(a: seq<int>, b: seq<int>)
    requires SortedInts(a) && SortedInts(b) && multiset(a) == multiset(b)
    ensures a == b
    decreases |a|
  {
    if |a| == 0 {
      assert |multiset(b)| == 0;
    } else {
      assert a[0] in multiset(b);
      assert b[0] in multiset(a);
      assert a == [a[0]] + a[1..];
      assert b == [b[0]] + b[1..];
      assert multiset(a) == multiset{a[0]} + multiset(a[1..]);
      assert multiset(b) == multiset{b[0]} + multiset(b[1..]);
      assert a[0] in b;
      assert b[0] in a;
      assert a[0] == b[0];
      assert multiset(a[1..]) == multiset(a) - multiset{a[0]};
      assert multiset(b[1..]) == multiset(b) - multiset{b[0]};
      SortedUnique(a[1..], b[1..]);
    }
  }

  /** The modifiers of `order` that `keys` holds, in the order of `order`. */
  function Present(order: seq<int>, keys: seq<int>): (r: seq<int>)
    ensures forall k :: 0 <= k < |r| ==> r[k] in order && r[k] in keys
    decreases |order|
  {
    if |order| == 0 then []
    else (if order[0] in keys then [order[0]] else []) + Present(order[1..], keys)
  }

  /** The keys that are not modifiers, in order. */
  function NonModifiers(keys: seq<int>): (r: seq<int>)
    ensures forall k :: 0 <= k < |r| ==> r[k] !in ModifierValues && r[k] in keys
    decreases |keys|
  {
    if |keys| == 0 then []
    else (if keys[0] in ModifierValues then [] else [keys[0]]) + NonModifiers(keys[1..])
  }

  /** The place of a key in the written order: modifiers by rank, then other keys by value. */
  function WrittenRank(v: int): int
  {
    if v == KeyMeta then 0 else if v == KeySuperL then 1 else if v == KeySuperR then 2
    else if v == KeyControl then 3 else if v == KeyAlt then 4 else if v == KeyAltGr then 5
    else if v == KeyShift then 6 else 7
  }

  /** Key `a` may be written before key `b`. */
  predicate WrittenBefore(a: int, b: int)
  {
    WrittenRank(a) < WrittenRank(b) || (WrittenRank(a) == 7 && WrittenRank(b) == 7 && a <= b)
  }

  /** Sorting keeps the elements. */
  lemma SameElements(a: seq<int>, b: seq<int>)
    requires multiset(a) == multiset(b)
    ensures forall x :: x in a <==> x in b
  {
    forall x
      ensures x in a <==> x in b
    {
      assert x in a <==> x in multiset(a);
      assert x in b <==> x in multiset(b);
    }
  }

  /**
   * `order_key_sequence`: the modifiers held, in modifier order, then the
   * other keys in ascending order.
   */
  function OrderKeySequence(keys: seq<int>): (r: seq<int>)
    ensures forall k :: 0 <= k < |r| ==> r[k] in keys
  {
    var sorted := SortInts(keys);
    assert forall x :: x in keys <==> x in sorted by { SameElements(keys, sorted); }
    Present(OrderedModifierValues, sorted) + NonModifiers(sorted)
  }

  /** Every key is written. */
  lemma OrderKeySequenceKeepsKeys(keys: seq<int>)
    ensures forall x :: x in keys ==> x in OrderKeySequence(keys)
  {
    var sorted := SortInts(keys);
    SameElements(keys, sorted);
    ModifierTables();
    forall x | x in keys
      ensures x in OrderKeySequence(keys)
    {
      PresentCount(OrderedModifierValues, sorted, x);
      NonModifiersCount(sorted, x);
      assert x in multiset(sorted);
      assert x in multiset(OrderKeySequence(keys));
    }
  }

  /** The written order puts modifiers first, by modifier rank, then the other keys ascending. */
  lemma OrderKeySequenceWritten(keys: seq<int>)
    ensures var r := OrderKeySequence(keys);
      forall i, j :: 0 <= i < j < |r| ==> WrittenBefore(r[i], r[j])
  {
    var sorted := SortInts(keys);
    var mods := Present(OrderedModifierValues, sorted);
    var others := NonModifiers(sorted);
    ModifierRanks();
    PresentRanked(WrittenRank, OrderedModifierValues, sorted, 0);
    PresentRankRange(WrittenRank, OrderedModifierValues, sorted, 0);
    assert |OrderedModifierValues| == 7;
    NonModifiersSorted(sorted);
    NonModifiersRanked(sorted);
    ConcatWritten(mods, others);
  }

  lemma ModifierRanks()
    ensures forall k :: 0 <= k < |OrderedModifierValues| ==> WrittenRank(OrderedModifierValues[k]) == k
  {
    assert WrittenRank(KeyMeta) == 0 && WrittenRank(KeySuperL) == 1 && WrittenRank(KeySuperR) == 2;
    assert WrittenRank(KeyControl) == 3 && WrittenRank(KeyAlt) == 4 && WrittenRank(KeyAltGr) == 5;
    assert WrittenRank(KeyShift) == 6;
  }

  lemma ConcatWritten(mods: seq<int>, others: seq<int>)
    requires forall i, j :: 0 <= i < j < |mods| ==> WrittenRank(mods[i]) < WrittenRank(mods[j])
    requires forall i :: 0 <= i < |mods| ==> WrittenRank(mods[i]) < 7
    requires SortedInts(others) && forall i :: 0 <= i < |others| ==> WrittenRank(others[i]) == 7
    ensures var r := mods + others; forall i, j :: 0 <= i < j < |r| ==> WrittenBefore(r[i], r[j])
  {
  }

  lemma {:induction false} PresentRankRange(rank: int -> int, order: seq<int>, keys: seq<int>, from: nat)
    requires forall k :: 0 <= k < |order| ==> rank(order[k]) == from + k
    ensures forall i :: 0 <= i < |Present(order, keys)| ==> from <= rank(Present(order, keys)[i]) < from + |order|
    decreases |order|
  {
    if |order| > 0 {
      assert forall k :: 0 <= k < |order[1..]| ==> order[1..][k] == order[k + 1];
      PresentRankRange(rank, order[1..], keys, from + 1);
      assert rank(order[0]) == from;
    }
  }

  lemma {:induction false} PresentRanked(rank: int -> int, order: seq<int>, keys: seq<int>, from: nat)
    requires forall k :: 0 <= k < |order| ==> rank(order[k]) == from + k
    ensures forall i, j :: 0 <= i < j < |Present(order, keys)| ==> rank(Present(order, keys)[i]) < rank(Present(order, keys)[j])
    decreases |order|
  {
    if |order| > 0 {
      assert forall k :: 0 <= k < |order[1..]| ==> order[1..][k] == order[k + 1];
      PresentRanked(rank, order[1..], keys, from + 1);
      PresentRankRange(rank, order[1..], keys, from + 1);
      var rest := Present(order[1..], keys);
      var r := Present(order, keys);
      if order[0] in keys {
        assert rank(r[0]) == from;
        forall i, j | 0 <= i < j < |r|
          ensures rank(r[i]) < rank(r[j])
        {
          assert r[j] == rest[j - 1];
          if i > 0 {
            assert r[i] == rest[i - 1];
          }
        }
      } else {
        assert r == rest;
      }
    }
  }

  lemma {:induction false} NonModifiersSorted(keys: seq<int>)
    requires SortedInts(keys)
    ensures SortedInts(NonModifiers(keys))
    decreases |keys|
  {
    if |keys| > 0 {
      NonModifiersSorted(keys[1..]);
      var rest := NonModifiers(keys[1..]);
      assert forall k :: 0 <= k < |rest| ==> keys[0] <= rest[k] by {
        forall k | 0 <= k < |rest|
          ensures keys[0] <= rest[k]
        {
          var j :| 0 <= j < |keys[1..]| && keys[1..][j] == rest[k];
          assert keys[1..][j] == keys[j + 1];
        }
      }
    }
  }

  lemma NonModifiersRanked(keys: seq<int>)
    ensures forall i :: 0 <= i < |NonModifiers(keys)| ==> WrittenRank(NonModifiers(keys)[i]) == 7
  {
  }

  lemma {:induction false} DistinctCount(s: seq<int>, x: int)
    requires DistinctInts(s)
    ensures multiset(s)[x] == if x in s then 1 else 0
    decreases |s|
  {
    if |s| > 0 {
      assert s == [s[0]] + s[1..];
      DistinctCount(s[1..], x);
    }
  }

  lemma {:induction false} PresentCount(order: seq<int>, keys: seq<int>, x: int)
    requires DistinctInts(order)
    ensures multiset(Present(order, keys))[x] == if x in order && x in keys then 1 else 0
    decreases |order|
  {
    if |order| > 0 {
      PresentCount(order[1..], keys, x);
      assert order == [order[0]] + order[1..];
    }
  }

  lemma {:induction false} NonModifiersCount(keys: seq<int>, x: int)
    ensures multiset(NonModifiers(keys))[x] == if x in ModifierValues then 0 else multiset(keys)[x]
    decreases |keys|
  {
    if |keys| > 0 {
      NonModifiersCount(keys[1..], x);
      CountStep(keys, x, keys[0] in ModifierValues, x in ModifierValues, NonModifiers(keys[1..]), NonModifiers(keys));
    }
  }

  /** One step of `NonModifiersCount`, with membership of the head and of `x` passed as values. */
  lemma CountStep(keys: seq<int>, x: int, headDropped: bool, xDropped: bool, rest: seq<int>, r: seq<int>)
    requires |keys| > 0 && (keys[0] == x ==> headDropped == xDropped)
    requires r == (if headDropped then [] else [keys[0]]) + rest
    requires multiset(rest)[x] == if xDropped then 0 else multiset(keys[1..])[x]
    ensures multiset(r)[x] == if xDropped then 0 else multiset(keys)[x]
  {
    assert keys == [keys[0]] + keys[1..];
  }

  /** The modifier tables name each modifier once, and the same modifiers. */
  lemma ModifierTables()
    ensures DistinctInts(OrderedModifierValues)
    ensures forall x :: x in ModifierValues <==> x in OrderedModifierValues
  {
  }

  /** For keys held once each, the written order is a rearrangement of them. */
  lemma OrderKeySequencePermutes(keys: seq<int>)
    requires DistinctInts(keys)
    ensures multiset(OrderKeySequence(keys)) == multiset(keys)
  {
    var sorted := SortInts(keys);
    var mods := Present(OrderedModifierValues, sorted);
    var others := NonModifiers(sorted);
    assert OrderKeySequence(keys) == mods + others;
    forall x
      ensures multiset(mods + others)[x] == multiset(keys)[x]
    {
      OrderedCount(keys, x);
    }
  }

  lemma OrderedCount(keys: seq<int>, x: int)
    requires DistinctInts(keys)
    ensures var sorted := SortInts(keys);
      multiset(Present(OrderedModifierValues, sorted))[x] + multiset(NonModifiers(sorted))[x] == multiset(keys)[x]
  {
    var sorted := SortInts(keys);
    ModifierTables();
    PresentCount(OrderedModifierValues, sorted, x);
    NonModifiersCount(sorted, x);
    DistinctCount(keys, x);
    SameElements(keys, sorted);
  }

  /** A key name Qt can write and read back: no surrounding space, no brackets at the ends, no separators, not an alias. */
  predicate IsKeyName(name: string)
  {
    && |name| > 0 && !IsSpace(name[0]) && !IsSpace(name[|name| - 1])
    && name[0] != '<' && name[|name| - 1] != '>'
    && '+' !in name && ';' !in name
    && name != "Ctrl" && name != "Esc"
  }

  /** `key_value_from_string`: strip, drop angle brackets, apply the aliases, look the key up. */
  function KeyValueFromString(keyOf: string -> Option<int>, keyName: string): Option<int>
  {
    keyOf(Conversion(RemoveSuffix(RemovePrefix(Strip(keyName), "<"), ">")))
  }

  /** `key_value_to_string`: the key's name with the display aliases. */
  function KeyValueToString(nameOf: int -> string, value: int): (r: string)
    ensures IsKeyName(nameOf(value)) ==> |r| > 0 && !IsSpace(r[0]) && !IsSpace(r[|r| - 1]) && '+' !in r && ';' !in r
  {
    DisplayName(nameOf(value))
  }

  /** Reading a written key name gives the key back, for a key whose name the table reads back. */
  lemma KeyValueRoundTrip(keyOf: string -> Option<int>, nameOf: int -> string, v: int)
    requires IsKeyName(nameOf(v)) && keyOf(nameOf(v)) == Some(v)
    ensures KeyValueFromString(keyOf, KeyValueToString(nameOf, v)) == Some(v)
  {
    var t := KeyValueToString(nameOf, v);
    StripUnspaced(t);
    ConversionOfDisplayName(nameOf(v));
  }

  /** Each name read in turn, or `None` as soon as one cannot be read: the first exception ends the reading. */
  function ReadAll<T>(read: string -> Option<T>, names: seq<string>): (r: Option<seq<T>>)
    ensures r.Some? <==> forall k :: 0 <= k < |names| ==> read(names[k]).Some?
    ensures r.Some? ==> |r.value| == |names|
    ensures r.Some? ==> forall k :: 0 <= k < |names| ==> r.value[k] == read(names[k]).value
    decreases |names|
  {
    if |names| == 0 then Some([])
    else
      assert forall k :: 1 <= k < |names| ==> names[k] == names[1..][k - 1];
      match read(names[0])
      case None => None
      case Some(v) =>
        match ReadAll(read, names[1..])
        case None => None
        case Some(vs) => Some([v] + vs)
  }

  function KeyReader(keyOf: string -> Option<int>): string -> Option<int>
  {
    name => KeyValueFromString(keyOf, name)
  }

  /** `key_combination_from_string`: the sorted values of the `+`-separated key names. */
  function KeyCombinationFromString(keyOf: string -> Option<int>, combinationName: string): (r: Option<Combination>)
    ensures r.Some? <==> ReadAll(KeyReader(keyOf), Split(combinationName, '+')).Some?
    ensures r.Some? ==>
      && SortedInts(r.value)
      && multiset(r.value) == multiset(ReadAll(KeyReader(keyOf), Split(combinationName, '+')).value)
  {
    match ReadAll(KeyReader(keyOf), Split(combinationName, '+'))
    case None => None
    case Some(vs) => Some(SortInts(vs))
  }

  /** The written names of some keys. */
  function KeyNames(nameOf: int -> string, keys: seq<int>): (r: seq<string>)
    ensures |r| == |keys| && forall k :: 0 <= k < |r| ==> r[k] == KeyValueToString(nameOf, keys[k])
    decreases |keys|
  {
    if |keys| == 0 then [] else [KeyValueToString(nameOf, keys[0])] + KeyNames(nameOf, keys[1..])
  }

  /** `key_combination_to_string`: the key names in written order, joined by `+`. */
  function KeyCombinationToString(nameOf: int -> string, combination: Combination): string
  {
    Join(KeyNames(nameOf, OrderKeySequence(combination)), "+")
  }

  /** Every key has a name that the table reads back. */
  predicate NamedKeys(keyOf: string -> Option<int>, nameOf: int -> string, keys: seq<int>)
  {
    forall k :: 0 <= k < |keys| ==> IsKeyName(nameOf(keys[k])) && keyOf(nameOf(keys[k])) == Some(keys[k])
  }

  lemma OrderedNamed(keyOf: string -> Option<int>, nameOf: int -> string, keys: seq<int>)
    requires NamedKeys(keyOf, nameOf, keys)
    ensures NamedKeys(keyOf, nameOf, OrderKeySequence(keys))
    ensures |keys| > 0 ==> |OrderKeySequence(keys)| > 0
  {
    var ordered := OrderKeySequence(keys);
    if |keys| > 0 {
      OrderKeySequenceKeepsKeys(keys);
      assert keys[0] in ordered;
    }
    forall k | 0 <= k < |ordered|
      ensures IsKeyName(nameOf(ordered[k])) && keyOf(nameOf(ordered[k])) == Some(ordered[k])
    {
      assert ordered[k] in keys;
      var i :| 0 <= i < |keys| && keys[i] == ordered[k];
    }
  }

  /** Reading names that each read as the matching value gives the values. */
  lemma ReadAllSome<T>(read: string -> Option<T>, names: seq<string>, values: seq<T>)
    requires ReadsAs(read, names, values)
    ensures ReadAll(read, names) == Some(values)
  {
    var r := ReadAll(read, names);
    assert r.Some?;
    assert forall k :: 0 <= k < |values| ==> r.value[k] == values[k];
    assert r.value == values;
  }

  /** Reading the written names of named keys gives the keys. */
  lemma ReadKeyNames(keyOf: string -> Option<int>, nameOf: int -> string, keys: seq<int>)
    requires NamedKeys(keyOf, nameOf, keys)
    ensures ReadAll(KeyReader(keyOf), KeyNames(nameOf, keys)) == Some(keys)
  {
    var names := KeyNames(nameOf, keys);
    forall k | 0 <= k < |names|
      ensures KeyReader(keyOf)(names[k]) == Some(keys[k])
    {
      KeyValueRoundTrip(keyOf, nameOf, keys[k]);
    }
    ReadAllSome(KeyReader(keyOf), names, keys);
  }

  lemma {:induction false} JoinEnds(parts: seq<string>, sep: string)
    requires |parts| > 0 && |sep| > 0 && !IsSpace(sep[0]) && !IsSpace(sep[|sep| - 1])
    requires forall k :: 0 <= k < |parts| ==> |parts[k]| > 0 && !IsSpace(parts[k][0]) && !IsSpace(parts[k][|parts[k]| - 1])
    ensures var s := Join(parts, sep); |s| > 0 && !IsSpace(s[0]) && !IsSpace(s[|s| - 1])
    decreases |parts|
  {
    if |parts| > 1 {
      JoinEnds(parts[1..], sep);
      var rest := Join(parts[1..], sep);
      assert (parts[0] + sep + rest)[0] == parts[0][0];
    }
  }

  lemma {:induction false} JoinHasNo(parts: seq<string>, sep: string, c: char)
    requires c !in sep && forall k :: 0 <= k < |parts| ==> c !in parts[k]
    ensures c !in Join(parts, sep)
    decreases |parts|
  {
    if |parts| > 1 {
      JoinHasNo(parts[1..], sep, c);
    }
  }

  /**
   * Writing a combination of distinct named keys and reading it back
   * gives its keys sorted, as reading always does.
   */
  lemma CombinationRoundTrip(keyOf: string -> Option<int>, nameOf: int -> string, combination: Combination)
    requires |combination| > 0 && DistinctInts(combination) && NamedKeys(keyOf, nameOf, combination)
    ensures KeyCombinationFromString(keyOf, KeyCombinationToString(nameOf, combination)) == Some(SortInts(combination))
  {
    var ordered := OrderKeySequence(combination);
    var names := KeyNames(nameOf, ordered);
    OrderKeySequenceKeepsKeys(combination);
    assert combination[0] in ordered;
    OrderedNamed(keyOf, nameOf, combination);
    assert forall k :: 0 <= k < |names| ==> '+' !in names[k];
    SplitJoin(names, '+');
    ReadKeyNames(keyOf, nameOf, ordered);
    OrderKeySequencePermutes(combination);
    SortedUnique(SortInts(ordered), SortInts(combination));
  }

  function CombinationReader(keyOf: string -> Option<int>): string -> Option<Combination>
  {
    name => KeyCombinationFromString(keyOf, Strip(name))
  }

  /** `key_sequence_from_string`: each stripped `;`-separated part read as a combination. */
  function KeySequenceFromString(keyOf: string -> Option<int>, sequenceName: string): (r: Option<seq<Combination>>)
    ensures r.Some? ==> |r.value| >= 1
  {
    ReadAll(CombinationReader(keyOf), Split(sequenceName, ';'))
  }

  /** The written combinations of a sequence. */
  function CombinationNames(nameOf: int -> string, sequence: seq<Combination>): (r: seq<string>)
    ensures |r| == |sequence| && forall k :: 0 <= k < |r| ==> r[k] == KeyCombinationToString(nameOf, sequence[k])
    decreases |sequence|
  {
    if |sequence| == 0 then [] else [KeyCombinationToString(nameOf, sequence[0])] + CombinationNames(nameOf, sequence[1..])
  }

  /** `key_sequence_to_string`: the written combinations joined by `"; "`. */
  function KeySequenceToString(nameOf: int -> string, sequence: seq<Combination>): string
  {
    Join(CombinationNames(nameOf, sequence), "; ")
  }

  /** Each part with a space in front. */
  function Spaced(parts: seq<string>): (r: seq<string>)
    ensures |r| == |parts| && forall k :: 0 <= k < |r| ==> r[k] == " " + parts[k]
    decreases |parts|
  {
    if |parts| == 0 then [] else [" " + parts[0]] + Spaced(parts[1..])
  }

  /** Joining with `"; "` is joining with `;` parts that, but for the first, carry a leading space. */
  lemma JoinSpaced(parts: seq<string>)
    requires |parts| > 0
    ensures Join(parts, "; ") == Join([parts[0]] + Spaced(parts[1..]), ";")
  {
    if |parts| > 1 {
      var spacedRest := Spaced(parts[1..]);
      var joined := Join(parts[1..], "; ");
      SpaceJoin(parts[1..]);
      var all := [parts[0]] + spacedRest;
      assert all[0] == parts[0] && all[1..] == spacedRest && |all| > 1;
      assert Join(all, ";") == parts[0] + ";" + Join(spacedRest, ";");
      assert Join(parts, "; ") == parts[0] + "; " + joined;
      Regroup(parts[0], joined);
    }
  }

  lemma Regroup(a: string, b: string)
    ensures a + "; " + b == a + ";" + (" " + b)
  {
    assert "; " == ";" + " ";
  }

  lemma {:induction false} SpaceJoin(parts: seq<string>)
    requires |parts| > 0
    ensures " " + Join(parts, "; ") == Join(Spaced(parts), ";")
    decreases |parts|
  {
    if |parts| > 1 {
      SpaceJoin(parts[1..]);
      assert Spaced(parts)[1..] == Spaced(parts[1..]);
    }
  }

  /** A written combination of named keys is a non-empty name without surrounding space or `;`. */
  lemma CombinationWritten(keyOf: string -> Option<int>, nameOf: int -> string, combination: Combination)
    requires |combination| > 0 && NamedKeys(keyOf, nameOf, combination)
    ensures var s := KeyCombinationToString(nameOf, combination);
      |s| > 0 && !IsSpace(s[0]) && !IsSpace(s[|s| - 1]) && ';' !in s
  {
    var ordered := OrderKeySequence(combination);
    OrderedNamed(keyOf, nameOf, combination);
    NamesWritten(keyOf, nameOf, ordered);
    assert KeyCombinationToString(nameOf, combination) == Join(KeyNames(nameOf, ordered), "+");
  }

  /** The names of named keys, joined by `+`, make a non-empty name without surrounding space or `;`. */
  lemma NamesWritten(keyOf: string -> Option<int>, nameOf: int -> string, keys: seq<int>)
    requires |keys| > 0 && NamedKeys(keyOf, nameOf, keys)
    ensures var s := Join(KeyNames(nameOf, keys), "+");
      |s| > 0 && !IsSpace(s[0]) && !IsSpace(s[|s| - 1]) && ';' !in s
  {
    var names := KeyNames(nameOf, keys);
    forall k | 0 <= k < |names|
      ensures |names[k]| > 0 && !IsSpace(names[k][0]) && !IsSpace(names[k][|names[k]| - 1]) && ';' !in names[k]
    {
      assert IsKeyName(nameOf(keys[k]));
    }
    assert !IsSpace("+"[0]);
    JoinEnds(names, "+");
    JoinHasNo(names, "+", ';');
  }

  /** Each combination sorted. */
  function SortEach(sequence: seq<Combination>): (r: seq<Combination>)
    ensures |r| == |sequence| && forall k :: 0 <= k < |r| ==> r[k] == SortInts(sequence[k])
    decreases |sequence|
  {
    if |sequence| == 0 then [] else [SortInts(sequence[0])] + SortEach(sequence[1..])
  }

  /** Each name reads as the matching value. */
  ghost predicate ReadsAs<T>(read: string -> Option<T>, names: seq<string>, values: seq<T>)
  {
    |names| == |values| && forall k :: 0 <= k < |names| ==> read(names[k]) == Some(values[k])
  }

  /** The parts of a written sequence, split at `;`, each read back as its combination sorted. */
  lemma PartsRead(keyOf: string -> Option<int>, nameOf: int -> string, sequence: seq<Combination>)
    requires |sequence| > 0
    requires forall k :: 0 <= k < |sequence| ==>
      |sequence[k]| > 0 && DistinctInts(sequence[k]) && NamedKeys(keyOf, nameOf, sequence[k])
    ensures var names := CombinationNames(nameOf, sequence);
      && (forall k :: 0 <= k < |names| ==> ';' !in names[k])
      && ReadsAs(CombinationReader(keyOf), [names[0]] + Spaced(names[1..]), SortEach(sequence))
  {
    var names := CombinationNames(nameOf, sequence);
    var parts := [names[0]] + Spaced(names[1..]);
    var sorted := SortEach(sequence);
    forall k | 0 <= k < |parts|
      ensures ';' !in names[k] && CombinationReader(keyOf)(parts[k]) == Some(sorted[k])
    {
      if k > 0 {
        assert parts[k] == Spaced(names[1..])[k - 1] == " " + names[k];
      }
      PartRead(keyOf, nameOf, sequence[k], parts[k]);
    }
  }

  /** One written combination, with or without a leading space, reads back as its keys sorted. */
  lemma PartRead(keyOf: string -> Option<int>, nameOf: int -> string, combination: Combination, part: string)
    requires |combination| > 0 && DistinctInts(combination) && NamedKeys(keyOf, nameOf, combination)
    requires var name := KeyCombinationToString(nameOf, combination);
      part == name || part == " " + name
    ensures ';' !in KeyCombinationToString(nameOf, combination)
    ensures CombinationReader(keyOf)(part) == Some(SortInts(combination))
  {
    var name := KeyCombinationToString(nameOf, combination);
    CombinationWritten(keyOf, nameOf, combination);
    CombinationRoundTrip(keyOf, nameOf, combination);
    StripUnspaced(name);
  }

  /**
   * Writing a non-empty sequence of combinations of distinct named keys
   * and reading it back gives each combination's keys sorted.
   */
  lemma SequenceRoundTrip(keyOf: string -> Option<int>, nameOf: int -> string, sequence: seq<Combination>)
    requires |sequence| > 0
    requires forall k :: 0 <= k < |sequence| ==>
      |sequence[k]| > 0 && DistinctInts(sequence[k]) && NamedKeys(keyOf, nameOf, sequence[k])
    ensures KeySequenceFromString(keyOf, KeySequenceToString(nameOf, sequence)) == Some(SortEach(sequence))
  {
    var names := CombinationNames(nameOf, sequence);
    PartsRead(keyOf, nameOf, sequence);
    SplitWritten(names);
    ReadAllSome(CombinationReader(keyOf), [names[0]] + Spaced(names[1..]), SortEach(sequence));
  }

  /** Written combinations joined by `"; "` split at `;` into the combinations, all but the first with a leading space. */
  lemma SplitWritten(names: seq<string>)
    requires |names| > 0
    requires forall k :: 0 <= k < |names| ==> ';' !in names[k]
    ensures Split(Join(names, "; "), ';') == [names[0]] + Spaced(names[1..])
  {
    var parts := [names[0]] + Spaced(names[1..]);
    JoinSpaced(names);
    forall k | 0 <= k < |parts| ensures ';' !in parts[k] {
      if k > 0 {
        assert parts[k] == " " + names[k];
      }
    }
    SplitJoin(parts, ';');
  }
}

=== FILE: imap_flags.dfy ===
/**
 * `FlagTracker` of `phile/imapclient.py`: the number of messages in the
 * selected IMAP folder, the IDs whose `\Seen` flag is known to be missing
 * (unseen) and the IDs whose flags are not known (unknown), kept up to date
 * from untagged `EXISTS`, `EXPUNGE` and `FETCH` responses (sections 7.3.1,
 * 7.4.1 and 7.4.2 of RFC 3501). Message IDs are sequence numbers from 1.
 *
 * The tracker is checked against an abstract mailbox, one `Status` per
 * message: every response must move the tracker the way the matching edit
 * moves the mailbox.
 */
module ImapFlags {
  import opened Outcomes
  import opened Strings

  datatype Tracker = Tracker(count: int, unknown: set<int>, unseen: set<int>)

  /** A tracker constructed without a select response. */
  const Initial: Tracker := Tracker(0, {}, {})

  /** The two entries of a select response the tracker reads: `EXISTS` and the optional `UNSEEN` list. */
  datatype SelectResponse = SelectResponse(existsCount: int, unseenIds: Option<seq<int>>)

  /** A data item of a `FETCH` response: a byte string, or a parenthesised list. */
  datatype Datum = Atom(bytes: string) | Items(elems: seq<Datum>)

  /**
   * An untagged response line: its number, its type (`EXISTS`, `EXPUNGE`,
   * `FETCH`, ...) and, for `FETCH`, the data list.
   */
  datatype ResponseLine = Line(number: int, kind: string, data: seq<Datum>)

  /** A failed `assert` in one of the handlers. */
  datatype TrackerError = AssertionFailed

  /** What `add` leaves behind: the lines before a failing one have been applied. */
  datatype AddOutcome = AddOutcome(tracker: Tracker, error: Option<TrackerError>)

  datatype Counts = Counts(total: int, unknown: nat, unseen: nat)

  /** `message_counts`. */
  function MessageCounts(t: Tracker): Counts
  {
    Counts(t.count, |t.unknown|, |t.unseen|)
  }

  /** `select`: the count from `EXISTS`, nothing unknown, the unseen IDs from `UNSEEN` (none if absent). */
  function Select(response: SelectResponse): (r: Tracker)
    ensures r.count == response.existsCount && r.unknown == {}
    ensures forall i :: i in r.unseen <==> response.unseenIds.Some? && i in response.unseenIds.value
  {
    Tracker(response.existsCount, {}, if response.unseenIds.Some? then set i | i in response.unseenIds.value else {})
  }

  /**
   * `_add_exists`: a larger count marks the new IDs as unknown; any new
   * count replaces the old. An unseen ID above the new count fails the
   * defensive assertion.
   */
  function AddExists(t: Tracker, n: int): (r: Result<Tracker, TrackerError>)
    ensures r.Err? <==> exists i :: i in t.unseen && i > n
    ensures r.Ok? ==> r.value.count == n && r.value.unseen == t.unseen
    ensures r.Ok? ==> forall i :: i in r.value.unknown <==> i in t.unknown || t.count < i <= n
  {
    if exists i | i in t.unseen :: i > n then Err(AssertionFailed)
    else Ok(Tracker(n, t.unknown + Range(t.count, n), t.unseen))
  }

  /** The integers above `lo` up to `hi`, as `range(hi, lo, -1)` lists them. */
  function Range(lo: int, hi: int): (r: set<int>)
    ensures forall i :: i in r <==> lo < i <= hi
    decreases hi - lo
  {
    if hi <= lo then {} else Range(lo, hi - 1) + {hi}
  }

  /** The IDs left after message `k` is expunged: `k` goes and every later ID moves down by one. */
  function ShiftOut(ids: set<int>, k: int): (r: set<int>)
    ensures forall j :: j in r <==> (j < k && j in ids) || (j >= k && j + 1 in ids)
  {
    var r := set i | i in ids && i != k :: if i < k then i else i - 1;
    assert forall j :: j >= k && j + 1 in ids ==> j in r by {
      forall j | j >= k && j + 1 in ids
        ensures j in r
      {
        var i := j + 1;
        assert i in ids && i != k && (if i < k then i else i - 1) == j;
      }
    }
    assert forall j :: j < k && j in ids ==> j in r by {
      forall j | j < k && j in ids
        ensures j in r
      {
        assert j != k && (if j < k then j else j - 1) == j;
      }
    }
    r
  }

  /**
   * `_add_expunge` as the source writes it: the unseen set is renumbered
   * first, and the unknown set is then rebuilt by renumbering that
   * already renumbered unseen set a second time. The old unknown set is
   * not read at all.
   */
  function AddExpungeAsWritten(t: Tracker, k: int): (r: Result<Tracker, TrackerError>)
    ensures r.Err? <==> k > t.count
    ensures r.Ok? ==> r.value.count == t.count - 1 && r.value.unseen == ShiftOut(t.unseen, k)
    ensures r.Ok? ==> r.value.unknown == ShiftOut(r.value.unseen, k)
  {
    if k > t.count then Err(AssertionFailed)
    else
      var unseen := ShiftOut(t.unseen, k);
      Ok(Tracker(t.count - 1, ShiftOut(unseen, k), unseen))
  }

  /** The as-written expunge ignores the unknown set: two trackers that differ only there end up equal. */
  lemma ExpungeAsWrittenIgnoresUnknown(t: Tracker, unknown: set<int>, k: int)
    ensures AddExpungeAsWritten(t, k) == AddExpungeAsWritten(t.(unknown := unknown), k)
  {
  }

  /** `_add_expunge` as its comment describes it: both sets lose `k` and are renumbered. */
  function AddExpunge(t: Tracker, k: int): (r: Result<Tracker, TrackerError>)
    ensures r.Err? <==> k > t.count
    ensures r.Ok? ==> r.value.count == t.count - 1
    ensures r.Ok? ==> r.value.unseen == ShiftOut(t.unseen, k) && r.value.unknown == ShiftOut(t.unknown, k)
  {
    if k > t.count then Err(AssertionFailed)
    else Ok(Tracker(t.count - 1, ShiftOut(t.unknown, k), ShiftOut(t.unseen, k)))
  }

  /** `b'\\Seen' in flags`: membership in a list, a substring test on a byte string. */
  predicate HasSeen(flags: Datum)
  {
    match flags
    case Atom(b) => Contains(b, "\\Seen")
    case Items(elems) => Atom("\\Seen") in elems
  }

  /** Index `i` names a `FLAGS` item: an even index whose value follows it. */
  predicate IsFlagsName(data: seq<Datum>, i: int)
  {
    0 <= i && i % 2 == 0 && i + 1 < |data| && data[i] == Atom("FLAGS")
  }

  /** The indices of `FLAGS` names from index `from` on, in increasing order. */
  function FlagIndicesFrom(data: seq<Datum>, from: nat): (r: seq<nat>)
    ensures forall k :: 0 <= k < |r| ==> from <= r[k] && IsFlagsName(data, r[k])
    ensures forall j :: from <= j && IsFlagsName(data, j) ==> j in r
    ensures forall k :: 0 < k < |r| ==> r[k - 1] < r[k]
    decreases |data| - from
  {
    if from >= |data| then []
    else
      var rest := FlagIndicesFrom(data, from + 1);
      if IsFlagsName(data, from) then
        ConsIndices(data, from, rest);
        [from] + rest
      else
        SkipIndex(data, from, rest);
        rest
  }

  /** An index that is not a `FLAGS` name adds nothing to the later ones. */
  lemma SkipIndex(data: seq<Datum>, from: nat, rest: seq<nat>)
    requires !IsFlagsName(data, from)
    requires forall k :: 0 <= k < |rest| ==> from + 1 <= rest[k] && IsFlagsName(data, rest[k])
    requires forall j :: from + 1 <= j && IsFlagsName(data, j) ==> j in rest
    ensures forall k :: 0 <= k < |rest| ==> from <= rest[k] && IsFlagsName(data, rest[k])
    ensures forall j :: from <= j && IsFlagsName(data, j) ==> j in rest
  {
  }

  /** Putting a `FLAGS` index in front of the later ones keeps them listed in increasing order. */
  lemma ConsIndices(data: seq<Datum>, from: nat, rest: seq<nat>)
    requires IsFlagsName(data, from)
    requires forall k :: 0 <= k < |rest| ==> from + 1 <= rest[k] && IsFlagsName(data, rest[k])
    requires forall j :: from + 1 <= j && IsFlagsName(data, j) ==> j in rest
    requires forall k :: 0 < k < |rest| ==> rest[k - 1] < rest[k]
    ensures var r := [from] + rest;
      && (forall k :: 0 <= k < |r| ==> from <= r[k] && IsFlagsName(data, r[k]))
      && (forall j :: from <= j && IsFlagsName(data, j) ==> j in r)
      && (forall k :: 0 < k < |r| ==> r[k - 1] < r[k])
  {
    var r := [from] + rest;
    assert forall k :: 0 < k < |r| ==> r[k] == rest[k - 1];
  }

  /** One `FLAGS` item: the unseen set follows the `\Seen` flag and the status becomes known. */
  function ApplyFlags(t: Tracker, id: int, flags: Datum): Tracker
  {
    Tracker(t.count, t.unknown - {id}, if HasSeen(flags) then t.unseen - {id} else t.unseen + {id})
  }

  /** The `FLAGS` items at the listed indices, applied in order. */
  function ApplyAllFlags(t: Tracker, id: int, data: seq<Datum>, indices: seq<nat>): (r: Tracker)
    requires forall k :: 0 <= k < |indices| ==> indices[k] + 1 < |data|
    ensures |indices| == 0 ==> r == t
    ensures |indices| > 0 ==>
      && r.count == t.count
      && r.unknown == t.unknown - {id}
      && r.unseen - {id} == t.unseen - {id}
      && (id in r.unseen <==> !HasSeen(data[indices[|indices| - 1] + 1]))
    decreases |indices|
  {
    if |indices| == 0 then t
    else ApplyAllFlags(ApplyFlags(t, id, data[indices[0] + 1]), id, data, indices[1..])
  }

  /** Reference definition: the value of the last `FLAGS` item among the first `n` data entries. */
  function LastFlagsBefore(data: seq<Datum>, n: nat): Option<Datum>
    requires n <= |data|
  {
    if n == 0 then None
    else if IsFlagsName(data, n - 1) then Some(data[n])
    else LastFlagsBefore(data, n - 1)
  }

  function LastFlags(data: seq<Datum>): Option<Datum>
  {
    LastFlagsBefore(data, |data|)
  }

  /** With no `FLAGS` item among the first `n` entries there is no last one. */
  lemma {:induction false} LastFlagsBeforeNone(data: seq<Datum>, n: nat)
    requires n <= |data|
    ensures LastFlagsBefore(data, n).None? <==> forall j :: 0 <= j < n ==> !IsFlagsName(data, j)
    decreases n
  {
    if n > 0 && !IsFlagsName(data, n - 1) {
      LastFlagsBeforeNone(data, n - 1);
    }
  }

  /** The last `FLAGS` item among the first `n` entries is the one after which no other comes. */
  lemma {:induction false} LastFlagsBeforeAt(data: seq<Datum>, n: nat, j: nat)
    requires j < n <= |data| && IsFlagsName(data, j)
    requires forall i :: j < i < n ==> !IsFlagsName(data, i)
    ensures LastFlagsBefore(data, n) == Some(data[j + 1])
    decreases n
  {
    if n - 1 != j {
      LastFlagsBeforeAt(data, n - 1, j);
    }
  }

  /** The last index `FlagIndicesFrom` lists is the `FLAGS` item `LastFlags` picks. */
  lemma FlagIndicesLast(data: seq<Datum>)
    ensures var indices := FlagIndicesFrom(data, 0);
      && (|indices| == 0 <==> LastFlags(data).None?)
      && (|indices| > 0 ==> LastFlags(data) == Some(data[indices[|indices| - 1] + 1]))
  {
    var indices := FlagIndicesFrom(data, 0);
    FlagIndicesNone(data);
    LastFlagsBeforeNone(data, |data|);
    if |indices| > 0 {
      var last := FlagIndicesGreatest(data);
      LastFlagsBeforeAt(data, |data|, last);
    }
  }

  /** No `FLAGS` index is listed exactly when there is no `FLAGS` item. */
  lemma FlagIndicesNone(data: seq<Datum>)
    ensures |FlagIndicesFrom(data, 0)| == 0 <==> forall j :: 0 <= j < |data| ==> !IsFlagsName(data, j)
  {
    var indices := FlagIndicesFrom(data, 0);
    if |indices| > 0 {
      assert IsFlagsName(data, indices[0]);
    }
  }

  /** The last listed index is the greatest `FLAGS` item. */
  lemma FlagIndicesGreatest(data: seq<Datum>) returns (last: nat)
    requires |FlagIndicesFrom(data, 0)| > 0
    ensures var indices := FlagIndicesFrom(data, 0);
      last == indices[|indices| - 1] && last < |data| && IsFlagsName(data, last)
    ensures forall i :: last < i < |data| ==> !IsFlagsName(data, i)
  {
    var indices := FlagIndicesFrom(data, 0);
    last := indices[|indices| - 1];
    forall i | last < i < |data|
      ensures !IsFlagsName(data, i)
    {
      if IsFlagsName(data, i) {
        assert i in indices;
        var k :| 0 <= k < |indices| && indices[k] == i;
        if k < |indices| - 1 {
          IncreasingBelowLast(indices, k);
        }
      }
    }
  }

  lemma {:induction false} IncreasingBelowLast(s: seq<nat>, k: nat)
    requires forall i :: 0 < i < |s| ==> s[i - 1] < s[i]
    requires k < |s| - 1
    ensures s[k] < s[|s| - 1]
    decreases |s| - k
  {
    if k + 1 < |s| - 1 {
      IncreasingBelowLast(s, k + 1);
    }
  }

  /**
   * `_add_fetch`: only `FLAGS` items count. With none the tracker is
   * unchanged; otherwise the status of `id` becomes known and the last
   * `FLAGS` item decides whether it is unseen.
   */
  function AddFetch(t: Tracker, id: int, data: seq<Datum>): (r: Tracker)
    ensures LastFlags(data).None? ==> r == t
    ensures LastFlags(data).Some? ==>
      && r.count == t.count
      && r.unknown == t.unknown - {id}
      && r.unseen - {id} == t.unseen - {id}
      && (id in r.unseen <==> !HasSeen(LastFlags(data).value))
  {
    FlagIndicesLast(data);
    var indices := FlagIndicesFrom(data, 0);
    if |indices| == 0 then t else ApplyAllFlags(t, id, data, indices)
  }

  /** A handler for `EXPUNGE` lines: the corrected `AddExpunge` or `AddExpungeAsWritten`. */
  type ExpungeHandler = (Tracker, int) -> Result<Tracker, TrackerError>

  /** `add` for one line: dispatch on the response type; other types are ignored. */
  function AddLineWith(expunge: ExpungeHandler, t: Tracker, line: ResponseLine): (r: Result<Tracker, TrackerError>)
    ensures line.kind !in {"EXISTS", "EXPUNGE", "FETCH"} ==> r == Ok(t)
    ensures line.kind == "EXISTS" ==> r == AddExists(t, line.number)
    ensures line.kind == "EXPUNGE" ==> r == expunge(t, line.number)
    ensures line.kind == "FETCH" ==> r == Ok(AddFetch(t, line.number, line.data))
  {
    if line.kind == "EXISTS" then AddExists(t, line.number)
    else if line.kind == "EXPUNGE" then expunge(t, line.number)
    else if line.kind == "FETCH" then Ok(AddFetch(t, line.number, line.data))
    else Ok(t)
  }

  /** `add`: the lines in order, stopping at the first failed assertion. */
  function AddWith(expunge: ExpungeHandler, t: Tracker, lines: seq<ResponseLine>): (r: AddOutcome)
    ensures |lines| == 0 ==> r == AddOutcome(t, None)
    decreases |lines|
  {
    if |lines| == 0 then AddOutcome(t, None)
    else match AddLineWith(expunge, t, lines[0])
      case Err(e) => AddOutcome(t, Some(e))
      case Ok(next) => AddWith(expunge, next, lines[1..])
  }

  /** `add` as the source writes it, with the as-written expunge. */
  function AddAsWritten(t: Tracker, lines: seq<ResponseLine>): AddOutcome
  {
    AddWith(AddExpungeAsWritten, t, lines)
  }

  /** `add` with the corrected expunge, which the mailbox lemmas below are about. */
  function Add(t: Tracker, lines: seq<ResponseLine>): AddOutcome
  {
    AddWith(AddExpunge, t, lines)
  }

  /** A batch of one line applies that line, and a failure keeps the tracker as it was. */
  lemma AddOne(expunge: ExpungeHandler, t: Tracker, line: ResponseLine)
    ensures var step := AddLineWith(expunge, t, line);
      AddWith(expunge, t, [line]) == if step.Err? then AddOutcome(t, Some(step.error)) else AddOutcome(step.value, None)
  {
    assert [line][1..] == [];
  }

  /** Adding two batches is adding their concatenation, unless the first batch fails. */
  lemma {:induction false} AddConcat(expunge: ExpungeHandler, t: Tracker, a: seq<ResponseLine>, b: seq<ResponseLine>)
    ensures AddWith(expunge, t, a + b)
      == (if AddWith(expunge, t, a).error.Some? then AddWith(expunge, t, a) else AddWith(expunge, AddWith(expunge, t, a).tracker, b))
    decreases |a|
  {
    if |a| > 0 {
      assert (a + b)[0] == a[0] && (a + b)[1..] == a[1..] + b;
      match AddLineWith(expunge, t, a[0])
      case Err(_) =>
      case Ok(next) => AddConcat(expunge, next, a[1..], b);
    } else {
      assert a + b == b;
    }
  }

  /** Without `EXPUNGE` lines, `add` as written and the corrected `add` agree. */
  lemma {:induction false} AddAsWrittenWithoutExpunge(t: Tracker, lines: seq<ResponseLine>)
    requires forall k :: 0 <= k < |lines| ==> lines[k].kind != "EXPUNGE"
    ensures AddAsWritten(t, lines) == Add(t, lines)
    decreases |lines|
  {
    if |lines| > 0 {
      assert AddLineWith(AddExpungeAsWritten, t, lines[0]) == AddLineWith(AddExpunge, t, lines[0]);
      match AddLineWith(AddExpunge, t, lines[0])
      case Err(_) =>
      case Ok(next) =>
        assert forall k :: 0 <= k < |lines[1..]| ==> lines[1..][k] == lines[k + 1];
        AddAsWrittenWithoutExpunge(next, lines[1..]);
    }
  }

  /** The status of one message in the abstract mailbox. */
  datatype Status = Seen | Unseen | Unknown

  /** Message `i` of mailbox `m` (numbered from 1) has status `s`. */
  predicate HasStatus(m: seq<Status>, i: int, s: Status)
  {
    1 <= i <= |m| && m[i - 1] == s
  }

  /** The tracker that describes mailbox `m`. */
  function Abstract(m: seq<Status>): Tracker
  {
    Tracker(|m|, set i | 1 <= i <= |m| && HasStatus(m, i, Unknown), set i | 1 <= i <= |m| && HasStatus(m, i, Unseen))
  }

  /** A select response that lists exactly the unseen messages describes a mailbox with nothing unknown. */
  lemma SelectAbstracts(m: seq<Status>, ids: seq<int>)
    requires forall i :: !HasStatus(m, i, Unknown)
    requires forall i :: i in ids <==> HasStatus(m, i, Unseen)
    ensures Select(SelectResponse(|m|, Some(ids))) == Abstract(m)
  {
  }

  /**
   * `message_counts` of the tracker that describes a mailbox: the number of
   * messages, of messages of unknown status, and of unseen messages.
   */
  lemma MailboxCounts(m: seq<Status>)
    ensures MessageCounts(Abstract(m)) == Counts(|m|, multiset(m)[Unknown], multiset(m)[Unseen])
  {
    StatusCount(m, Unknown);
    StatusCount(m, Unseen);
  }

  /** The messages with status `s` are as many as the occurrences of `s`. */
  lemma {:induction false} StatusCount(m: seq<Status>, s: Status)
    ensures |set i | 1 <= i <= |m| && HasStatus(m, i, s)| == multiset(m)[s]
    decreases |m|
  {
    if |m| > 0 {
      var last := m[|m| - 1];
      var m0 := m[..|m| - 1];
      StatusCount(m0, s);
      var before := set i | 1 <= i <= |m0| && HasStatus(m0, i, s);
      var after := set i | 1 <= i <= |m| && HasStatus(m, i, s);
      forall i
        ensures i in after <==> i in before || (i == |m| && last == s)
      {
        if 1 <= i <= |m0| {
          assert m[i - 1] == m0[i - 1];
        }
      }
      CountGrows(before, after, |m|, last == s);
      assert m == m0 + [last];
    }
  }

  /** A set of IDs below `n` that gains `n` or nothing. */
  lemma CountGrows(before: set<int>, after: set<int>, n: int, added: bool)
    requires forall i :: i in before ==> i < n
    requires forall i :: i in after <==> i in before || (i == n && added)
    ensures |after| == |before| + if added then 1 else 0
  {
    if added {
      assert forall i :: i in after <==> i in before + {n};
      assert after == before + {n};
    } else {
      assert forall i :: i in after <==> i in before;
      assert after == before;
    }
  }

  /** New messages arriving: `EXISTS n` marks every message beyond the old count as unknown. */
  lemma ExistsAbstracts(m: seq<Status>, n: int)
    requires n >= |m|
    ensures AddExists(Abstract(m), n) == Ok(Abstract(m + seq(n - |m|, _ => Unknown)))
  {
    var m' := m + seq(n - |m|, _ => Unknown);
    var t, t' := Abstract(m), Abstract(m');
    forall i, s
      ensures HasStatus(m', i, s) <==> HasStatus(m, i, s) || (|m| < i <= n && s == Unknown)
    {
      if 1 <= i <= |m| {
        assert m'[i - 1] == m[i - 1];
      } else if |m| < i <= n {
        assert m'[i - 1] == Unknown;
      }
    }
    assert t'.unknown == t.unknown + Range(|m|, n) by {
      forall i
        ensures i in t'.unknown <==> i in t.unknown || |m| < i <= n
      {
        assert i in t'.unknown <==> HasStatus(m', i, Unknown);
        assert i in t.unknown <==> HasStatus(m, i, Unknown);
      }
    }
    assert t'.unseen == t.unseen by {
      forall i
        ensures i in t'.unseen <==> i in t.unseen
      {
        assert i in t'.unseen <==> HasStatus(m', i, Unseen);
        assert i in t.unseen <==> HasStatus(m, i, Unseen);
      }
    }
  }

  /** `EXPUNGE k` removes message `k` from the mailbox. */
  lemma ExpungeAbstracts(m: seq<Status>, k: int)
    requires 1 <= k <= |m|
    ensures AddExpunge(Abstract(m), k) == Ok(Abstract(m[..k - 1] + m[k..]))
  {
    ExpungeStatus(m, k, Unknown);
    ExpungeStatus(m, k, Unseen);
  }

  /** The messages with one status, renumbered by the removal of message `k`. */
  lemma ExpungeStatus(m: seq<Status>, k: int, s: Status)
    requires 1 <= k <= |m|
    ensures var m' := m[..k - 1] + m[k..];
      (set i | 1 <= i <= |m'| && HasStatus(m', i, s)) == ShiftOut((set i | 1 <= i <= |m| && HasStatus(m, i, s)), k)
  {
    var m' := m[..k - 1] + m[k..];
    var before := set i | 1 <= i <= |m| && HasStatus(m, i, s);
    var after := set i | 1 <= i <= |m'| && HasStatus(m', i, s);
    forall j
      ensures j in after <==> j in ShiftOut(before, k)
    {
      assert j in before <==> HasStatus(m, j, s);
      assert j + 1 in before <==> HasStatus(m, j + 1, s);
      if 1 <= j < k {
        assert m'[j - 1] == m[j - 1];
      } else if k <= j <= |m'| {
        assert m'[j - 1] == m[j];
      }
    }
  }

  /** `FETCH id` with flags sets the status of message `id` from the last `FLAGS` item. */
  lemma FetchAbstracts(m: seq<Status>, id: int, data: seq<Datum>)
    requires 1 <= id <= |m| && LastFlags(data).Some?
    ensures AddFetch(Abstract(m), id, data)
      == Abstract(m[id - 1 := if HasSeen(LastFlags(data).value) then Seen else Unseen])
  {
    var status := if HasSeen(LastFlags(data).value) then Seen else Unseen;
    var m' := m[id - 1 := status];
    var t, t' := Abstract(m), Abstract(m');
    var r := AddFetch(t, id, data);
    forall i, s | i != id
      ensures HasStatus(m', i, s) <==> HasStatus(m, i, s)
    {
      if 1 <= i <= |m| {
        assert m'[i - 1] == m[i - 1];
      }
    }
    assert HasStatus(m', id, status);
    assert r.unknown == t'.unknown by {
      forall i
        ensures i in r.unknown <==> i in t'.unknown
      {
        assert i in t'.unknown <==> HasStatus(m', i, Unknown);
        assert i in t.unknown <==> HasStatus(m, i, Unknown);
      }
    }
    assert r.unseen == t'.unseen by {
      forall i
        ensures i in r.unseen <==> i in t'.unseen
      {
        assert i in t'.unseen <==> HasStatus(m', i, Unseen);
        assert i in t.unseen <==> HasStatus(m, i, Unseen);
        assert i != id ==> (i in r.unseen <==> i in r.unseen - {id});
        assert i != id ==> (i in t.unseen <==> i in t.unseen - {id});
      }
    }
  }

  /**
   * The expunge as written loses unknown messages: with message 2 unknown,
   * expunging message 1 leaves a mailbox whose one message is unknown, but
   * the tracker reports none.
   */
  lemma ExpungeAsWrittenLosesUnknown()
    ensures Abstract([Unknown]).unknown == {1}
    ensures AddExpungeAsWritten(Abstract([Seen, Unknown]), 1) == Ok(Tracker(1, {}, {}))
    ensures AddExpunge(Abstract([Seen, Unknown]), 1) == Ok(Abstract([Unknown]))
  {
    var m := [Seen, Unknown];
    assert Abstract([Unknown]).unknown == {1} by {
      assert forall i :: i in Abstract([Unknown]).unknown <==> i == 1;
    }
    assert Abstract(m).unseen == {} by {
      assert forall i :: i !in Abstract(m).unseen;
    }
    assert ShiftOut({}, 1) == {} by {
      assert forall j :: j !in ShiftOut({}, 1);
    }
    ExpungeAbstracts(m, 1);
    assert m[..0] + m[1..] == [Unknown];
  }

  /**
   * The expunge as written also invents unknown messages: with only
   * message 3 unseen, expunging message 1 leaves message 2 unseen, and
   * renumbering that set again reports message 1 as unknown.
   */
  lemma ExpungeAsWrittenInventsUnknown()
    ensures Abstract([Seen, Seen, Unseen]) == Tracker(3, {}, {3})
    ensures AddExpungeAsWritten(Tracker(3, {}, {3}), 1) == Ok(Tracker(2, {1}, {2}))
    ensures AddExpunge(Tracker(3, {}, {3}), 1) == Ok(Tracker(2, {}, {2})) == Ok(Abstract([Seen, Unseen]))
  {
    var m := [Seen, Seen, Unseen];
    assert Abstract(m).unknown == {} by {
      assert forall i :: i !in Abstract(m).unknown;
    }
    assert Abstract(m).unseen == {3} by {
      assert forall i :: i in Abstract(m).unseen <==> i == 3;
    }
    var m' := [Seen, Unseen];
    assert Abstract(m').unknown == {} by {
      assert forall i :: i !in Abstract(m').unknown;
    }
    assert Abstract(m').unseen == {2} by {
      assert forall i :: i in Abstract(m').unseen <==> i == 2;
    }
    assert ShiftOut({3}, 1) == {2} by {
      assert forall j :: j in ShiftOut({3}, 1) <==> j == 2;
    }
    assert ShiftOut({2}, 1) == {1} by {
      assert forall j :: j in ShiftOut({2}, 1) <==> j == 1;
    }
    assert ShiftOut({}, 1) == {} by {
      assert forall j :: j !in ShiftOut({}, 1);
    }
  }

  /**
   * The recorded session: three messages with message 2 unread; it is
   * moved away, a new message arrives and is then fetched as read.
   */
  lemma RealSession()
    ensures var t0 := Select(SelectResponse(3, Some([2])));
      && MessageCounts(t0) == Counts(3, 0, 1)
      && Add(t0, []) == AddOutcome(t0, None)
      && var a1 := Add(t0, [Line(2, "EXPUNGE", []), Line(2, "EXISTS", [])]);
      && a1.error.None? && MessageCounts(a1.tracker) == Counts(2, 0, 0)
      && var a2 := Add(a1.tracker, [Line(1, "RECENT", []), Line(3, "EXISTS", [])]);
      && a2.error.None? && MessageCounts(a2.tracker) == Counts(3, 1, 0)
      && var a3 := Add(a2.tracker, [Line(3, "FETCH", [Atom("FLAGS"), Items([Atom("\\Seen"), Atom("\\Recent")])])]);
      && a3.error.None? && MessageCounts(a3.tracker) == Counts(3, 0, 0)
  {
    var t0 := Select(SelectResponse(3, Some([2])));
    assert t0.unseen == {2};
    var t1 := Tracker(2, {}, {});
    assert ShiftOut(t0.unseen, 2) == {} by {
      assert forall j :: j !in ShiftOut(t0.unseen, 2);
    }
    assert ShiftOut({}, 2) == {} by {
      assert forall j :: j !in ShiftOut({}, 2);
    }
    assert AddExpunge(t0, 2) == Ok(t1);
    assert AddExists(t1, 2).Ok?;
    assert AddExists(t1, 2).value.unknown == {} by {
      assert forall i :: i !in AddExists(t1, 2).value.unknown;
    }
    assert AddExists(t1, 2) == Ok(t1);
    var t2 := Tracker(3, {3}, {});
    assert AddExists(t1, 3) == Ok(t2);
    var data := [Atom("FLAGS"), Items([Atom("\\Seen"), Atom("\\Recent")])];
    assert IsFlagsName(data, 0);
    assert LastFlags(data) == Some(data[1]);
    assert HasSeen(data[1]);
    assert AddFetch(t2, 3, data) == Tracker(3, {}, {});
  }

  /**
   * On the recorded session `add` as written gives the same trackers as
   * the corrected `add`: its only expunge happens with nothing unknown and
   * only the expunged message unseen, and the other batches hold no
   * `EXPUNGE` line.
   */
  lemma RealSessionAsWritten(b2: seq<ResponseLine>, b3: seq<ResponseLine>)
    requires forall k :: 0 <= k < |b2| ==> b2[k].kind != "EXPUNGE"
    requires forall k :: 0 <= k < |b3| ==> b3[k].kind != "EXPUNGE"
    ensures var t0 := Select(SelectResponse(3, Some([2])));
      var b1 := [Line(2, "EXPUNGE", []), Line(2, "EXISTS", [])];
      var a1 := Add(t0, b1);
      && AddAsWritten(t0, b1) == a1
      && AddAsWritten(a1.tracker, b2) == Add(a1.tracker, b2)
      && AddAsWritten(Add(a1.tracker, b2).tracker, b3) == Add(Add(a1.tracker, b2).tracker, b3)
  {
    var t0 := Select(SelectResponse(3, Some([2])));
    var b1 := [Line(2, "EXPUNGE", []), Line(2, "EXISTS", [])];
    assert t0.unseen == {2} && t0.unknown == {};
    assert ShiftOut(t0.unseen, 2) == {} by {
      assert forall j :: j !in ShiftOut(t0.unseen, 2);
    }
    assert ShiftOut({}, 2) == {} by {
      assert forall j :: j !in ShiftOut({}, 2);
    }
    var t1 := Tracker(2, {}, {});
    assert AddExpungeAsWritten(t0, 2) == Ok(t1) == AddExpunge(t0, 2);
    AddConcat(AddExpungeAsWritten, t0, [b1[0]], [b1[1]]);
    AddConcat(AddExpunge, t0, [b1[0]], [b1[1]]);
    assert [b1[0]] + [b1[1]] == b1;
    AddOne(AddExpungeAsWritten, t0, b1[0]);
    AddOne(AddExpunge, t0, b1[0]);
    AddAsWrittenWithoutExpunge(t1, [b1[1]]);
    AddAsWrittenWithoutExpunge(Add(t0, b1).tracker, b2);
    AddAsWrittenWithoutExpunge(Add(Add(t0, b1).tracker, b2).tracker, b3);
  }
}

=== FILE: keyed_lists.dfy ===
/**
 * Lists of records with no key twice, read as the map from each key to
 * its record. The sorted registries of the program are such lists.
 */
module KeyedLists {
  /** The keys of the records of `s`. */
  function KeysOf<T, K>(key: T -> K, s: seq<T>): set<K>
  {
    set k | 0 <= k < |s| :: key(s[k])
  }

  /** Where a key sits. */
  ghost function IndexOf<T, K>(key: T -> K, s: seq<T>, q: K): (k: nat)
    requires q in KeysOf(key, s)
    ensures k < |s| && key(s[k]) == q
  {
    var k :| 0 <= k < |s| && key(s[k]) == q; k
  }

  predicate Distinct<T, K(==)>(key: T -> K, s: seq<T>)
  {
    forall i, j :: 0 <= i < j < |s| ==> key(s[i]) != key(s[j])
  }

  /** The record each key maps to. */
  function AsMap<T, K>(key: T -> K, s: seq<T>): map<K, T>
    requires Distinct(key, s)
  {
    map k | 0 <= k < |s| :: key(s[k]) := s[k]
  }

  lemma AsMapAt<T, K>(key: T -> K, s: seq<T>)
    requires Distinct(key, s)
    ensures AsMap(key, s).Keys == KeysOf(key, s)
    ensures forall k :: 0 <= k < |s| ==> AsMap(key, s)[key(s[k])] == s[k]
  {
  }

  /** A list with no key twice stands for `m` when it holds exactly `m`'s keys, each with its record. */
  lemma AsMapFrom<T, K>(key: T -> K, r: seq<T>, m: map<K, T>)
    requires Distinct(key, r) && KeysOf(key, r) == m.Keys
    requires forall k :: 0 <= k < |r| ==> m[key(r[k])] == r[k]
    ensures AsMap(key, r) == m
  {
    AsMapAt(key, r);
    forall q | q in m
      ensures AsMap(key, r)[q] == m[q]
    {
      var j := IndexOf(key, r, q);
    }
  }

  lemma KeysRemove<T, K>(key: T -> K, s: seq<T>, i: nat)
    requires Distinct(key, s) && i < |s|
    ensures KeysOf(key, s[..i] + s[i + 1..]) == KeysOf(key, s) - {key(s[i])}
  {
    var r := s[..i] + s[i + 1..];
    assert forall k :: 0 <= k < |r| ==> r[k] == s[if k < i then k else k + 1];
    var a := KeysOf(key, r);
    var b := KeysOf(key, s) - {key(s[i])};
    forall q | q in b
      ensures q in a
    {
      var j := IndexOf(key, s, q);
      var k := if j < i then j else j - 1;
      assert key(r[k]) == q;
    }
    forall q | q in a
      ensures q in b
    {
      var j := IndexOf(key, r, q);
      var k := if j < i then j else j + 1;
      assert key(s[k]) == q;
      assert k != i;
    }
    assert a == b;
  }

  /** Removing the record at `i` removes its key from the map. */
  lemma AsMapRemove<T, K>(key: T -> K, s: seq<T>, i: nat)
    requires Distinct(key, s) && i < |s|
    ensures Distinct(key, s[..i] + s[i + 1..])
    ensures AsMap(key, s[..i] + s[i + 1..]) == AsMap(key, s) - {key(s[i])}
  {
    var r := s[..i] + s[i + 1..];
    assert forall k :: 0 <= k < |r| ==> r[k] == s[if k < i then k else k + 1];
    assert Distinct(key, r);
    AsMapAt(key, s);
    KeysRemove(key, s, i);
    var m := AsMap(key, s) - {key(s[i])};
    forall k | 0 <= k < |r|
      ensures m[key(r[k])] == r[k]
    {
      var j := if k < i then k else k + 1;
      assert r[k] == s[j] && key(s[j]) != key(s[i]);
    }
    AsMapFrom(key, r, m);
  }

  /** Replacing the record at `i` by one with the same key rebinds that key. */
  lemma AsMapReplace<T, K>(key: T -> K, s: seq<T>, i: nat, e: T)
    requires Distinct(key, s) && i < |s| && key(e) == key(s[i])
    ensures Distinct(key, s[i := e])
    ensures AsMap(key, s[i := e]) == AsMap(key, s)[key(e) := e]
  {
    var r := s[i := e];
    assert forall k :: 0 <= k < |r| ==> key(r[k]) == key(s[k]);
    assert Distinct(key, r);
    AsMapAt(key, s);
    var m := AsMap(key, s)[key(e) := e];
    forall q
      ensures q in KeysOf(key, r) <==> q in m
    {
      if q in m {
        assert key(r[IndexOf(key, s, q)]) == q;
      }
      if q in KeysOf(key, r) {
        assert key(s[IndexOf(key, r, q)]) == q;
      }
    }
    forall k | 0 <= k < |r|
      ensures m[key(r[k])] == r[k]
    {
      if k != i {
        assert r[k] == s[k] && key(s[k]) != key(s[i]);
      }
    }
    AsMapFrom(key, r, m);
  }

  lemma KeysInsert<T, K>(key: T -> K, s: seq<T>, i: nat, e: T)
    requires i <= |s|
    ensures KeysOf(key, s[..i] + [e] + s[i..]) == KeysOf(key, s) + {key(e)}
  {
    var r := s[..i] + [e] + s[i..];
    assert forall k :: 0 <= k < |r| ==> r[k] == (if k == i then e else s[if k < i then k else k - 1]);
    var a := KeysOf(key, r);
    var b := KeysOf(key, s) + {key(e)};
    forall q | q in b
      ensures q in a
    {
      if q == key(e) {
        assert key(r[i]) == q;
      } else {
        var j := IndexOf(key, s, q);
        var k := if j < i then j else j + 1;
        assert key(r[k]) == q;
      }
    }
    forall q | q in a
      ensures q in b
    {
      var j := IndexOf(key, r, q);
      if j != i {
        var k := if j < i then j else j - 1;
        assert key(s[k]) == q;
      }
    }
    assert a == b;
  }

  /** Inserting a record with a new key binds that key. */
  lemma AsMapInsert<T, K>(key: T -> K, s: seq<T>, i: nat, e: T)
    requires Distinct(key, s) && i <= |s| && key(e) !in KeysOf(key, s)
    ensures Distinct(key, s[..i] + [e] + s[i..])
    ensures AsMap(key, s[..i] + [e] + s[i..]) == AsMap(key, s)[key(e) := e]
  {
    var r := s[..i] + [e] + s[i..];
    assert forall k :: 0 <= k < |r| ==> r[k] == (if k == i then e else s[if k < i then k else k - 1]);
    assert forall k :: 0 <= k < |s| ==> key(s[k]) != key(e);
    assert Distinct(key, r);
    AsMapAt(key, s);
    KeysInsert(key, s, i, e);
    var m := AsMap(key, s)[key(e) := e];
    forall k | 0 <= k < |r|
      ensures m[key(r[k])] == r[k]
    {
      if k != i {
        assert r[k] == s[if k < i then k else k - 1];
      }
    }
    AsMapFrom(key, r, m);
  }
}

=== FILE: keyring.dfy ===
/**
 * `MemoryKeyring` of `src/phile/keyring.py`: passwords kept in memory,
 * grouped by service and then by user name.
 *
 * The users of a service form a Python dictionary, whose iteration order
 * is insertion order; it is modelled as a list of user/password pairs with
 * no user twice, so that "the first user" has a meaning.
 */
module MemoryKeyring {
  import opened Outcomes

  /**
   * The users of one service: their passwords, and the user names in
   * insertion order.
   */
  datatype Users = Users(order: seq<string>, passwords: map<string, string>)

  datatype Credential = Credential(user: string, password: string)

  /** A keyring: each service's users. */
  type Keyring = map<string, Users>

  /** A dictionary's order lists each of its keys once. */
  predicate WellOrdered(us: Users)
  {
    && (forall i, j :: 0 <= i < j < |us.order| ==> us.order[i] != us.order[j])
    && (forall u | u in us.passwords :: u in us.order)
    && (forall i | 0 <= i < |us.order| :: us.order[i] in us.passwords)
  }

  /** The keyring invariant: no service without users. */
  predicate Valid(k: Keyring)
  {
    forall s :: s in k ==> WellOrdered(k[s]) && |k[s].order| > 0
  }

  /** `service_data[username]`, or `None` on `KeyError`. */
  function Lookup(us: Users, user: string): Option<string>
  {
    if user in us.passwords then Some(us.passwords[user]) else None
  }

  /** `service_data[username] = password`: a known user keeps its place, a new one goes last. */
  function Assign(us: Users, user: string, password: string): (r: Users)
    requires WellOrdered(us)
    ensures WellOrdered(r)
    ensures Lookup(r, user) == Some(password)
    ensures forall u :: u != user ==> Lookup(r, u) == Lookup(us, u)
    ensures |us.order| > 0 ==> |r.order| > 0 && r.order[0] == us.order[0]
    ensures |us.order| == 0 ==> r.order == [user]
  {
    if user in us.passwords then Users(us.order, us.passwords[user := password])
    else Users(us.order + [user], us.passwords[user := password])
  }

  /** Where a user sits in the order. */
  function Position(order: seq<string>, user: string): (i: nat)
    requires user in order
    ensures i < |order| && order[i] == user
  {
    if order[0] == user then 0 else 1 + Position(order[1..], user)
  }

  /** `del service_data[username]`, or `None` on `KeyError`. */
  function Remove(us: Users, user: string): (r: Option<Users>)
    requires WellOrdered(us)
    ensures r.None? <==> Lookup(us, user).None?
    ensures r.Some? ==> WellOrdered(r.value) && |r.value.order| == |us.order| - 1 && Lookup(r.value, user).None?
    ensures r.Some? ==> forall u :: u != user ==> Lookup(r.value, u) == Lookup(us, u)
  {
    if user !in us.passwords then None
    else
      var i := Position(us.order, user);
      var removed := Users(us.order[..i] + us.order[i + 1..], us.passwords - {user});
      RemoveAt(us, user, i, removed);
      Some(removed)
  }

  /** Dropping the user at place `i` from the order and from the passwords keeps the dictionary well ordered. */
  lemma RemoveAt(us: Users, user: string, i: nat, r: Users)
    requires WellOrdered(us) && i < |us.order| && us.order[i] == user
    requires r == Users(us.order[..i] + us.order[i + 1..], us.passwords - {user})
    ensures WellOrdered(r) && |r.order| == |us.order| - 1 && Lookup(r, user).None?
    ensures forall u :: u != user ==> Lookup(r, u) == Lookup(us, u)
  {
    RemoveFromOrder(us.order, us.passwords.Keys, i, r.order);
    assert r.passwords.Keys == us.passwords.Keys - {user};
  }

  /** Taking the element at place `i` out of a list of distinct keys lists the other keys, each once. */
  lemma RemoveFromOrder<T>(order: seq<T>, keys: set<T>, i: nat, out: seq<T>)
    requires forall a, b :: 0 <= a < b < |order| ==> order[a] != order[b]
    requires (forall u | u in keys :: u in order) && (forall k | 0 <= k < |order| :: order[k] in keys)
    requires i < |order| && out == order[..i] + order[i + 1..]
    ensures forall a, b :: 0 <= a < b < |out| ==> out[a] != out[b]
    ensures (forall u | u in keys - {order[i]} :: u in out) && (forall k | 0 <= k < |out| :: out[k] in keys - {order[i]})
  {
    assert forall k :: 0 <= k < |out| ==> out[k] == order[if k < i then k else k + 1];
    forall a, b | 0 <= a < b < |out|
      ensures out[a] != out[b]
    {
      var a', b' := if a < i then a else a + 1, if b < i then b else b + 1;
      assert a' < b' && out[a] == order[a'] && out[b] == order[b'];
    }
    forall u | u in keys - {order[i]}
      ensures u in out
    {
      var j :| 0 <= j < |order| && order[j] == u;
      assert j != i;
      assert out[if j < i then j else j - 1] == u;
    }
    forall k | 0 <= k < |out|
      ensures out[k] in keys - {order[i]}
    {
      var k' := if k < i then k else k + 1;
      assert k' != i && out[k] == order[k'] != order[i];
    }
  }

  /** `get_password`. */
  function GetPassword(k: Keyring, service: string, user: string): (r: Option<string>)
    ensures service !in k ==> r.None?
    ensures service in k ==> r == Lookup(k[service], user)
  {
    if service in k then Lookup(k[service], user) else None
  }

  /** `set_password`: `setdefault` the service, then assign. */
  function SetPassword(k: Keyring, service: string, user: string, password: string): (r: Keyring)
    requires Valid(k)
    ensures Valid(r)
    ensures GetPassword(r, service, user) == Some(password)
    ensures forall s, u :: (s, u) != (service, user) ==> GetPassword(r, s, u) == GetPassword(k, s, u)
  {
    var us := if service in k then k[service] else Users([], map[]);
    k[service := Assign(us, user, password)]
  }

  /**
   * `delete_password`: a missing service or user is ignored; a service
   * left without users is dropped.
   */
  function DeletePassword(k: Keyring, service: string, user: string): (r: Keyring)
    requires Valid(k)
    ensures Valid(r)
    ensures GetPassword(r, service, user).None?
    ensures forall s, u :: (s, u) != (service, user) ==> GetPassword(r, s, u) == GetPassword(k, s, u)
    ensures GetPassword(k, service, user).None? ==> r == k
  {
    if service !in k then k
    else
      match Remove(k[service], user)
      case None => k
      case Some(us) =>
        if |us.order| == 0 then
          assert forall u :: Lookup(k[service], u).Some? ==> u == user;
          k - {service}
        else k[service := us]
  }

  /**
   * `get_credential`: `None` for an unknown service or user; with no user
   * name, the first user of the service.
   */
  function GetCredential(k: Keyring, service: string, user: Option<string>): (r: Option<Credential>)
    requires Valid(k)
    ensures service !in k ==> r.None?
    ensures service in k && user.Some? ==>
      (r.Some? <==> GetPassword(k, service, user.value).Some?)
      && (r.Some? ==> r.value == Credential(user.value, GetPassword(k, service, user.value).value))
    ensures service in k && user.None? ==>
      var first := k[service].order[0];
      r == Some(Credential(first, k[service].passwords[first]))
  {
    if service !in k then None
    else
      var name := if user.Some? then user.value else k[service].order[0];
      match GetPassword(k, service, name)
      case None => None
      case Some(p) => Some(Credential(name, p))
  }

  /**
   * Setting a password and deleting it again is the same, for every
   * lookup, as deleting it straight away.
   */
  lemma SetThenDelete(k: Keyring, service: string, user: string, password: string)
    requires Valid(k)
    ensures forall s, u ::
      GetPassword(DeletePassword(SetPassword(k, service, user, password), service, user), s, u)
        == GetPassword(DeletePassword(k, service, user), s, u)
  {
    var a := SetPassword(k, service, user, password);
    assert Valid(a);
  }

  /** The first user set for a new service is the one `get_credential` picks without a name. */
  lemma FirstUserIsDefault(k: Keyring, service: string, u1: string, p1: string, u2: string, p2: string)
    requires Valid(k) && service !in k
    ensures var k2 := SetPassword(SetPassword(k, service, u1, p1), service, u2, p2);
      GetCredential(k2, service, None) == Some(Credential(u1, if u2 == u1 then p2 else p1))
  {
  }
}

=== FILE: launcher_cmd.dfy ===
/**
 * The launcher command interpreter of `src/phile/launcher/cmd.py`: launchers
 * get small numeric IDs, in order of first listing, that `start` and
 * `stop` take as arguments.
 *
 * The launcher registry is left out: the launchers present are a set of
 * names, whether each runs is an oracle, and `start`/`stop` return the
 * names they would hand to the registry's state machine. Splitting the
 * argument line (`shlex.split`) is done by the caller: the commands take
 * the split words.
 */
module LauncherCmd {
  import opened Outcomes
  import opened Strings
  import opened Ordering
  import opened SortedSets
  import opened Lists

  /** The interpreter's state: the names by ID, and the ID of each name. */
  datatype Cmd = Cmd(knownLaunchers: seq<string>, launcherIds: map<string, int>)

  /** A new interpreter knows no launcher. */
  const Fresh: Cmd := Cmd([], map[])

  /** `known_launchers` and `launcher_ids` are inverse to each other. */
  predicate Valid(c: Cmd)
  {
    && (forall n :: n in c.launcherIds ==>
          0 <= c.launcherIds[n] < |c.knownLaunchers| && c.knownLaunchers[c.launcherIds[n]] == n)
    && (forall i :: 0 <= i < |c.knownLaunchers| ==>
          c.knownLaunchers[i] in c.launcherIds && c.launcherIds[c.knownLaunchers[i]] == i)
  }

  /** Every ID is below the number of known names. */
  predicate IdsBelow(c: Cmd)
  {
    forall n :: n in c.launcherIds ==> c.launcherIds[n] < |c.knownLaunchers|
  }

  lemma FreshValid()
    ensures Valid(Fresh)
  {
  }

  /** `list.index`: the first position holding `x`. */
  function FirstIndex(s: seq<string>, x: string): (r: Option<nat>)
    ensures r.Some? <==> x in s
    ensures r.Some? ==> r.value < |s| && s[r.value] == x && forall k :: 0 <= k < r.value ==> s[k] != x
    decreases |s|
  {
    if |s| == 0 then None
    else if s[0] == x then Some(0)
    else match FirstIndex(s[1..], x)
      case None => None
      case Some(i) => Some(i + 1)
  }

  /**
   * `_assign_id`: a name without an ID gets the next one, the number of
   * known names, and is appended to the known names.
   */
  function AssignId(c: Cmd, name: string): (r: Cmd)
    ensures Valid(c) ==> Valid(r) && name in r.launcherIds
  {
    var newId := |c.knownLaunchers|;
    var id := if name in c.launcherIds then c.launcherIds[name] else newId;
    if id == newId then Cmd(c.knownLaunchers + [name], c.launcherIds[name := newId])
    else c
  }

  /**
   * An ID once given is never changed, a new name gets the number of
   * names known before, and the closing assertion of `_assign_id` holds:
   * the first position of the name among the known names is its ID.
   */
  lemma AssignIdNumbers(c: Cmd, name: string)
    requires Valid(c)
    ensures var r := AssignId(c, name);
      && (forall n :: n in c.launcherIds ==> n in r.launcherIds && r.launcherIds[n] == c.launcherIds[n])
      && (name in c.launcherIds ==> r == c)
      && (name !in c.launcherIds ==> r.knownLaunchers == c.knownLaunchers + [name] && r.launcherIds[name] == |c.knownLaunchers|)
      && FirstIndex(r.knownLaunchers, name) == Some(r.launcherIds[name])
  {
  }

  /** `_assign_id` for each name, in order. */
  function AssignIds(c: Cmd, names: seq<string>): (r: Cmd)
    ensures Valid(c) ==> Valid(r)
    decreases |names|
  {
    if |names| == 0 then c else AssignIds(AssignId(c, names[0]), names[1..])
  }

  /** The names without an ID, in the given order. */
  function Unknown(names: seq<string>, ids: set<string>): (r: seq<string>)
    ensures Elements(r) == Elements(names) - ids
    decreases |names|
  {
    if |names| == 0 then []
    else
      var rest := Unknown(names[1..], ids);
      assert names == [names[0]] + names[1..];
      ElementsCons(names[0], names[1..]);
      ElementsCons(names[0], rest);
      if names[0] in ids then rest else [names[0]] + rest
  }

  /** Assigning IDs gives every name one. */
  lemma {:induction false} AssignIdsNames(c: Cmd, names: seq<string>)
    requires IdsBelow(c)
    ensures var r := AssignIds(c, names);
      && r.launcherIds.Keys == c.launcherIds.Keys + Elements(names)
    decreases |names|
  {
    if |names| > 0 {
      var next := AssignId(c, names[0]);
      AssignIdsNames(next, names[1..]);
      AssignIdStep(c, names[0]);
      ElementsHead(names);
    }
  }

  /** Assigning IDs to distinct names appends the names that had none, in the given order. */
  lemma {:induction false} AssignIdsKnown(c: Cmd, names: seq<string>)
    requires IdsBelow(c)
    requires forall i, j :: 0 <= i < j < |names| ==> names[i] != names[j]
    ensures AssignIds(c, names).knownLaunchers == c.knownLaunchers + Unknown(names, c.launcherIds.Keys)
    decreases |names|
  {
    if |names| > 0 {
      var next := AssignId(c, names[0]);
      var keys := c.launcherIds.Keys;
      var rest := names[1..];
      DistinctTail(names);
      AssignIdStep(c, names[0]);
      AssignIdsKnown(next, rest);
      UnknownSkips(rest, keys, names[0]);
      assert AssignIds(c, names) == AssignIds(next, rest);
      var h := UnknownHead(names, keys);
      AppendJoin(c.knownLaunchers, h, Unknown(rest, keys));
    }
  }

  /** The names without an ID: the head when it has none, then those of the tail. */
  lemma UnknownHead(names: seq<string>, ids: set<string>) returns (h: seq<string>)
    requires |names| > 0
    ensures h == (if names[0] in ids then [] else [names[0]])
    ensures Unknown(names, ids) == h + Unknown(names[1..], ids)
  {
    h := if names[0] in ids then [] else [names[0]];
    assert [] + Unknown(names[1..], ids) == Unknown(names[1..], ids);
  }

  lemma AppendJoin(a: seq<string>, b: seq<string>, c: seq<string>)
    ensures (a + b) + c == a + (b + c)
  {
  }

  /** The head of a list of distinct names is not in its tail, whose names are distinct. */
  lemma DistinctTail(names: seq<string>)
    requires |names| > 0
    requires forall i, j :: 0 <= i < j < |names| ==> names[i] != names[j]
    ensures names[0] !in names[1..]
    ensures forall i, j :: 0 <= i < j < |names[1..]| ==> names[1..][i] != names[1..][j]
  {
    forall k | 0 <= k < |names[1..]| ensures names[1..][k] != names[0] {
      assert names[1..][k] == names[k + 1];
    }
  }

  /** One assignment, as far as the list of known names and the set of named ones go. */
  lemma AssignIdStep(c: Cmd, name: string)
    requires IdsBelow(c)
    ensures var r := AssignId(c, name);
      && IdsBelow(r)
      && r.launcherIds.Keys == c.launcherIds.Keys + {name}
      && r.knownLaunchers == c.knownLaunchers + (if name in c.launcherIds then [] else [name])
  {
  }

  /** Assigning IDs never changes an ID already given. */
  lemma {:induction false} AssignIdsKeeps(c: Cmd, names: seq<string>)
    requires Valid(c)
    ensures var r := AssignIds(c, names);
      forall n :: n in c.launcherIds ==> n in r.launcherIds && r.launcherIds[n] == c.launcherIds[n]
    decreases |names|
  {
    if |names| > 0 {
      AssignIdNumbers(c, names[0]);
      AssignIdsKeeps(AssignId(c, names[0]), names[1..]);
    }
  }

  /** A name not among the listed ones makes no difference to which of them are unknown. */
  lemma {:induction false} UnknownSkips(names: seq<string>, ids: set<string>, x: string)
    requires x !in names
    ensures Unknown(names, ids + {x}) == Unknown(names, ids)
    decreases |names|
  {
    if |names| > 0 {
      UnknownSkips(names[1..], ids, x);
    }
  }

  /** What is left of an increasing list is increasing. */
  lemma {:induction false} UnknownIncreasing(names: seq<string>, ids: set<string>)
    requires Increasing(StrLess, names)
    ensures Increasing(StrLess, Unknown(names, ids))
    decreases |names|
  {
    if |names| > 0 {
      UnknownIncreasing(names[1..], ids);
      var rest := Unknown(names[1..], ids);
      forall k | 0 <= k < |rest| ensures StrLess(names[0], rest[k]) {
        assert rest[k] in Elements(rest);
        var i :| 0 <= i < |names[1..]| && names[1..][i] == rest[k];
        assert names[i + 1] == rest[k];
      }
    }
  }

  /** The sorted names present. */
  function SortedNames(current: set<string>): (r: seq<string>)
    ensures Increasing(StrLess, r) && Elements(r) == current
  {
    assert StrictTotalOrder(StrLess) by { StrLessIsOrder(); }
    SortedSet(StrLess, current)
  }

  /** A line of `list`: whether the launcher runs, its ID and its name. */
  datatype Row = Row(running: bool, id: nat, name: string)

  /** The positions from `from` on whose name is present, in increasing order. */
  function PresentIds(known: seq<string>, current: set<string>, from: nat): (r: seq<nat>)
    requires from <= |known|
    ensures forall k :: 0 <= k < |r| ==> from <= r[k] < |known| && known[r[k]] in current
    ensures forall i, j :: 0 <= i < j < |r| ==> r[i] < r[j]
    ensures forall i :: from <= i < |known| && known[i] in current ==> i in r
    decreases |known| - from
  {
    if from == |known| then []
    else
      var rest := PresentIds(known, current, from + 1);
      if known[from] in current then
        ConsPresent(known, current, from, rest);
        [from] + rest
      else
        SkipAbsent(known, current, from, rest);
        rest
  }

  /** A present launcher goes in front of the later present ones. */
  lemma ConsPresent(known: seq<string>, current: set<string>, from: nat, rest: seq<nat>)
    requires from < |known| && known[from] in current
    requires forall k :: 0 <= k < |rest| ==> from + 1 <= rest[k] < |known| && known[rest[k]] in current
    requires forall i, j :: 0 <= i < j < |rest| ==> rest[i] < rest[j]
    requires forall i :: from + 1 <= i < |known| && known[i] in current ==> i in rest
    ensures var r := [from] + rest;
      && (forall k :: 0 <= k < |r| ==> from <= r[k] < |known| && known[r[k]] in current)
      && (forall i, j :: 0 <= i < j < |r| ==> r[i] < r[j])
      && (forall i :: from <= i < |known| && known[i] in current ==> i in r)
  {
    var r := [from] + rest;
    assert forall k :: 0 <= k < |rest| ==> r[k + 1] == rest[k];
    assert forall i :: i in r <==> i == from || i in rest;
  }

  /** An absent launcher adds nothing to the later present ones. */
  lemma SkipAbsent(known: seq<string>, current: set<string>, from: nat, rest: seq<nat>)
    requires from < |known| && known[from] !in current
    requires forall k :: 0 <= k < |rest| ==> from + 1 <= rest[k] < |known| && known[rest[k]] in current
    requires forall i :: from + 1 <= i < |known| && known[i] in current ==> i in rest
    ensures forall k :: 0 <= k < |rest| ==> from <= rest[k] < |known| && known[rest[k]] in current
    ensures forall i :: from <= i < |known| && known[i] in current ==> i in rest
  {
  }

  /** The row of a known name. */
  function RowAt(known: seq<string>, isRunning: string -> bool, id: nat): Row
    requires id < |known|
  {
    Row(isRunning(known[id]), id, known[id])
  }

  /** The rows of the known names that are present, in ID order. */
  function ListedRows(c: Cmd, current: set<string>, isRunning: string -> bool): (r: seq<Row>)
  {
    var ids := PresentIds(c.knownLaunchers, current, 0);
    seq(|ids|, k requires 0 <= k < |ids| => RowAt(c.knownLaunchers, isRunning, ids[k]))
  }

  /**
   * When every present name has an ID, the rows show each present name
   * once, by its ID, in ID order, and nothing else.
   */
  lemma ListedRowsShowPresent(c: Cmd, current: set<string>, isRunning: string -> bool)
    requires Valid(c) && current <= c.launcherIds.Keys
    ensures var rows := ListedRows(c, current, isRunning);
      && (forall k :: 0 <= k < |rows| ==>
            var row := rows[k];
            row.name in current && row.name in c.launcherIds && c.launcherIds[row.name] == row.id
            && row.running == isRunning(row.name))
      && (forall i, j :: 0 <= i < j < |rows| ==> rows[i].id < rows[j].id)
      && forall n :: n in current ==> exists k :: 0 <= k < |rows| && rows[k].name == n
  {
    var rows := ListedRows(c, current, isRunning);
    var ids := PresentIds(c.knownLaunchers, current, 0);
    forall n | n in current ensures exists k :: 0 <= k < |rows| && rows[k].name == n {
      PresentListed(c, current, n);
      var k :| 0 <= k < |ids| && ids[k] == c.launcherIds[n];
      assert rows[k].name == n;
    }
  }

  /** A present name with an ID is at a present position. */
  lemma PresentListed(c: Cmd, current: set<string>, n: string)
    requires Valid(c) && n in current && n in c.launcherIds
    ensures c.launcherIds[n] in PresentIds(c.knownLaunchers, current, 0)
  {
  }

  /** What `list` writes: the number of launchers present, then one row each. */
  datatype Listing = Listing(count: nat, rows: seq<Row>)

  /**
   * `do_list`: give the launchers present an ID, new ones in name order,
   * then list the ones present in ID order with whether each runs.
   */
  function DoList(c: Cmd, current: set<string>, isRunning: string -> bool): (r: (Cmd, Listing))
    ensures r.1.count == |current|
  {
    var next := AssignIds(c, SortedNames(current));
    (next, Listing(|current|, ListedRows(next, current, isRunning)))
  }

  /**
   * After `list` every launcher present has an ID, earlier IDs are kept,
   * and the new names follow the known ones in name order.
   */
  lemma DoListAssigns(c: Cmd, current: set<string>, isRunning: string -> bool)
    requires Valid(c)
    ensures var next := DoList(c, current, isRunning).0;
      && Valid(next)
      && next.knownLaunchers == c.knownLaunchers + SortedNames(current - c.launcherIds.Keys)
      && (forall n :: n in c.launcherIds ==> n in next.launcherIds && next.launcherIds[n] == c.launcherIds[n])
      && next.launcherIds.Keys == c.launcherIds.Keys + current
  {
    var names := SortedNames(current);
    var keys := c.launcherIds.Keys;
    assert IdsBelow(c);
    SortedDistinct(names);
    AssignIdsKnown(c, names);
    AssignIdsKeeps(c, names);
    AssignIdsNames(c, names);
    UnknownIncreasing(names, keys);
    assert StrictTotalOrder(StrLess) by { StrLessIsOrder(); }
    IncreasingUnique(StrLess, Unknown(names, keys), SortedNames(current - keys));
  }

  /** Names in increasing order are distinct. */
  lemma SortedDistinct(names: seq<string>)
    requires Increasing(StrLess, names)
    ensures forall i, j :: 0 <= i < j < |names| ==> names[i] != names[j]
  {
    assert StrictTotalOrder(StrLess) by { StrLessIsOrder(); }
    forall i, j | 0 <= i < j < |names| ensures names[i] != names[j] {
      assert StrLess(names[i], names[j]);
    }
  }

  /** `list` shows each launcher present exactly once, by its ID, in ID order, and nothing else. */
  lemma DoListShowsPresent(c: Cmd, current: set<string>, isRunning: string -> bool)
    requires Valid(c)
    ensures var (next, listing) := DoList(c, current, isRunning);
      && (forall k :: 0 <= k < |listing.rows| ==>
            var row := listing.rows[k];
            row.name in current && row.name in next.launcherIds && next.launcherIds[row.name] == row.id
            && row.running == isRunning(row.name))
      && (forall i, j :: 0 <= i < j < |listing.rows| ==> listing.rows[i].id < listing.rows[j].id)
      && forall n :: n in current ==> exists k :: 0 <= k < |listing.rows| && listing.rows[k].name == n
  {
    DoListAssigns(c, current, isRunning);
    ListedRowsShowPresent(DoList(c, current, isRunning).0, current, isRunning);
  }

  /** `do_reset`: forget every ID, then list. */
  function DoReset(c: Cmd, current: set<string>, isRunning: string -> bool): (r: (Cmd, Listing))
  {
    DoList(Fresh, current, isRunning)
  }

  /** After `reset` the IDs start again from 0, in name order, whatever was known before. */
  lemma DoResetRenumbers(c: Cmd, current: set<string>, isRunning: string -> bool)
    ensures var next := DoReset(c, current, isRunning).0;
      && next.knownLaunchers == SortedNames(current)
      && forall i :: 0 <= i < |next.knownLaunchers| ==>
        next.knownLaunchers[i] in next.launcherIds && next.launcherIds[next.knownLaunchers[i]] == i
  {
    FreshValid();
    DoListAssigns(Fresh, current, isRunning);
    assert current - Fresh.launcherIds.Keys == current;
  }

  /** `do_EOF`: end the command loop. */
  function DoEof(arg: string): (r: bool)
    ensures r
  {
    true
  }

  /** A decimal digit. */
  predicate IsDigit(ch: char)
  {
    '0' <= ch <= '9'
  }

  /** Decimal digits with single underscores between them, as `int` accepts. */
  predicate IsDigitString(s: string)
  {
    && |s| > 0 && IsDigit(s[0]) && IsDigit(s[|s| - 1])
    && (forall k :: 0 <= k < |s| ==> IsDigit(s[k]) || s[k] == '_')
    && forall k :: 0 <= k < |s| - 1 ==> !(s[k] == '_' && s[k + 1] == '_')
  }

  /** The number a digit string stands for, underscores skipped. */
  function DigitsValue(s: string): nat
    requires forall k :: 0 <= k < |s| ==> IsDigit(s[k]) || s[k] == '_'
    decreases |s|
  {
    if |s| == 0 then 0
    else
      var last := s[|s| - 1];
      if last == '_' then DigitsValue(s[..|s| - 1])
      else
        assert IsDigit(last);
        DigitsValue(s[..|s| - 1]) * 10 + (last as int - '0' as int)
  }

  /**
   * `int(entry)` on a string: surrounding whitespace, an optional sign,
   * then decimal digits; `None` where `int` raises `ValueError`.
   */
  function ParseInt(entry: string): (r: Option<int>)
    ensures r.Some? && r.value < 0 ==> |Strip(entry)| > 0 && Strip(entry)[0] == '-'
  {
    var t := Strip(entry);
    if |t| > 0 && (t[0] == '-' || t[0] == '+') then
      if IsDigitString(t[1..]) then
        var magnitude: int := DigitsValue(t[1..]);
        Some(if t[0] == '-' then -magnitude else magnitude)
      else None
    else if IsDigitString(t) then Some(DigitsValue(t))
    else None
  }

  /** The decimal digits of a number. */
  function NatDigits(n: nat): (r: string)
    ensures |r| > 0 && forall k :: 0 <= k < |r| ==> IsDigit(r[k])
    decreases n
  {
    var d := [('0' as int + n % 10) as char];
    if n < 10 then d else NatDigits(n / 10) + d
  }

  /** `str(n)` for an integer. */
  function DecimalString(n: int): string
  {
    if n < 0 then "-" + NatDigits(-n) else NatDigits(n)
  }

  lemma {:induction false} NatDigitsValue(n: nat)
    ensures IsDigitString(NatDigits(n)) && DigitsValue(NatDigits(n)) == n
    decreases n
  {
    var s := NatDigits(n);
    if n >= 10 {
      NatDigitsValue(n / 10);
      assert s[..|s| - 1] == NatDigits(n / 10);
    }
  }

  /** A digit string, signed or not, is parsed as its value. */
  lemma ParseDigits(d: string)
    requires IsDigitString(d)
    ensures ParseInt(d) == Some(DigitsValue(d))
    ensures ParseInt("-" + d) == Some(-(DigitsValue(d) as int))
  {
    ParseUnsigned(d);
    ParseNegative(d);
  }

  lemma ParseUnsigned(d: string)
    requires IsDigitString(d)
    ensures ParseInt(d) == Some(DigitsValue(d))
  {
    StripUnspaced(d);
  }

  lemma ParseNegative(d: string)
    requires IsDigitString(d)
    ensures ParseInt("-" + d) == Some(-(DigitsValue(d) as int))
  {
    var negative := "-" + d;
    assert negative[0] == '-' && negative[|negative| - 1] == d[|d| - 1];
    StripUnspaced(negative);
    assert negative[1..] == d;
  }

  /** `int(str(n)) == n`: every ID written by `list` reads back as itself. */
  lemma ParseDecimal(n: int)
    ensures ParseInt(DecimalString(n)) == Some(n)
  {
    var magnitude: nat := if n < 0 then -n else n;
    NatDigitsValue(magnitude);
    ParseDigits(NatDigits(magnitude));
  }

  /** What `start` and `stop` do with their arguments. */
  datatype Selection =
    | UnparsableEntry(entry: string)   // "Unable to parse given launcher"
    | UnknownId(id: int)               // "Unknown launcher ID"
    | IdIndexError(handled: seq<string>) // an `IndexError` from `known_launchers[launcher_id]`, after the launchers before it were started or stopped
    | Selected(names: seq<string>)     // the launchers started or stopped, and so counted

  /** Each entry parsed. */
  function ParseEach(argv: seq<string>): (r: seq<Option<int>>)
    ensures |r| == |argv| && forall k :: 0 <= k < |argv| ==> r[k] == ParseInt(argv[k])
  {
    seq(|argv|, k requires 0 <= k < |argv| => ParseInt(argv[k]))
  }

  /** The position of the first missing value, if any. */
  function FirstNone<T>(xs: seq<Option<T>>): (r: Option<nat>)
    ensures r.None? <==> forall k :: 0 <= k < |xs| ==> xs[k].Some?
    ensures r.Some? ==> r.value < |xs| && xs[r.value].None? && forall j :: 0 <= j < r.value ==> xs[j].Some?
    decreases |xs|
  {
    if |xs| == 0 then None
    else if xs[0].None? then Some(0)
    else
      assert forall k :: 1 <= k < |xs| ==> xs[k] == xs[1..][k - 1];
      match FirstNone(xs[1..])
      case None => None
      case Some(k) => Some(k + 1)
  }

  /** The values of a sequence with none missing. */
  function Values<T>(xs: seq<Option<T>>): (r: seq<T>)
    requires forall k :: 0 <= k < |xs| ==> xs[k].Some?
    ensures |r| == |xs| && forall k :: 0 <= k < |xs| ==> xs[k] == Some(r[k])
  {
    seq(|xs|, k requires 0 <= k < |xs| => xs[k].value)
  }

  /** The first ID the check rejects, if any; `accepts` is the check. */
  function FirstRejected(ids: seq<int>, accepts: int -> bool): (r: Option<int>)
    ensures r.None? <==> forall k :: 0 <= k < |ids| ==> accepts(ids[k])
    ensures r.Some? ==> !accepts(r.value)
    ensures r.Some? ==> exists k :: 0 <= k < |ids| && ids[k] == r.value && forall j :: 0 <= j < k ==> accepts(ids[j])
    decreases |ids|
  {
    if |ids| == 0 then None
    else if !accepts(ids[0]) then Some(ids[0])
    else
      assert forall k :: 1 <= k < |ids| ==> ids[k] == ids[1..][k - 1];
      var r := FirstRejected(ids[1..], accepts);
      if r.Some? then
        var k :| 0 <= k < |ids[1..]| && ids[1..][k] == r.value && forall j :: 0 <= j < k ==> accepts(ids[1..][j]);
        assert ids[k + 1] == r.value && forall j :: 0 <= j < k + 1 ==> accepts(ids[j]);
        r
      else r
  }

  /** The names of the IDs, with Python's indexing, or `None` on an `IndexError`. */
  function NamesAt(known: seq<string>, ids: seq<int>): (r: Option<seq<string>>)
    ensures r.Some? <==> forall k :: 0 <= k < |ids| ==> PyIndex(|known|, ids[k]).Some?
    ensures r.Some? ==> |r.value| == |ids| && forall k :: 0 <= k < |ids| ==> r.value[k] == known[PyIndex(|known|, ids[k]).value]
    decreases |ids|
  {
    if |ids| == 0 then Some([])
    else
      assert forall k :: 1 <= k < |ids| ==> ids[k] == ids[1..][k - 1];
      match PyIndex(|known|, ids[0])
      case None => None
      case Some(i) =>
        match NamesAt(known, ids[1..])
        case None => None
        case Some(rest) =>
          var r := [known[i]] + rest;
          assert forall k :: 1 <= k < |ids| ==> r[k] == rest[k - 1];
          Some(r)
  }

  /** The check of `do_start` and `do_stop` as written: an ID is rejected only if it is at least the number of known names. */
  function BelowCount(count: nat): int -> bool
  {
    id => id < count
  }

  /** The steps shared by `do_start` and `do_stop`, with the ID check `accepts`. */
  function SelectWith(c: Cmd, argv: seq<string>, accepts: int -> bool): (r: Selection)
    ensures r.UnparsableEntry? <==> exists k :: 0 <= k < |argv| && ParseInt(argv[k]).None?
    ensures r.UnparsableEntry? ==> exists k :: FirstUnparsable(argv, k) && r.entry == argv[k]
    ensures r.UnknownId? ==> !accepts(r.id) && exists k :: 0 <= k < |argv| && ParseInt(argv[k]) == Some(r.id)
    ensures r.IdIndexError? ==> forall k :: 0 <= k < |argv| ==> ParseInt(argv[k]).Some? && accepts(ParseInt(argv[k]).value)
    ensures r.Selected? <==>
      forall k :: 0 <= k < |argv| ==>
        ParseInt(argv[k]).Some? && accepts(ParseInt(argv[k]).value) && PyIndex(|c.knownLaunchers|, ParseInt(argv[k]).value).Some?
    ensures r.Selected? ==>
      |r.names| == |argv| && forall k :: 0 <= k < |argv| ==>
        r.names[k] == c.knownLaunchers[PyIndex(|c.knownLaunchers|, ParseInt(argv[k]).value).value]
  {
    var parsed := ParseEach(argv);
    match FirstNone(parsed)
    case Some(k) =>
      assert FirstUnparsable(argv, k);
      UnparsableEntry(argv[k])
    case None =>
      var ids := Values(parsed);
      match FirstRejected(ids, accepts)
      case Some(id) => UnknownId(id)
      case None =>
        match NamesAt(c.knownLaunchers, ids)
        case None => IdIndexError(NamesBefore(c.knownLaunchers, ids))
        case Some(names) => Selected(names)
  }

  /**
   * The ID reported unknown is the first one the check rejects, and an
   * `IndexError` comes after every earlier launcher was handled, in order.
   */
  lemma SelectWithErrors(c: Cmd, argv: seq<string>, accepts: int -> bool)
    ensures var r := SelectWith(c, argv, accepts);
      r.UnknownId? ==> exists k :: 0 <= k < |argv| && ParseInt(argv[k]) == Some(r.id) && FirstAccepted(argv, accepts, k)
    ensures var r := SelectWith(c, argv, accepts);
      r.IdIndexError? ==>
        && |r.handled| < |argv| && ParseInt(argv[|r.handled|]).Some?
        && PyIndex(|c.knownLaunchers|, ParseInt(argv[|r.handled|]).value).None?
        && HandledInOrder(c.knownLaunchers, argv, r.handled)
  {
    var parsed := ParseEach(argv);
    if FirstNone(parsed).None? {
      var ids := Values(parsed);
      assert forall k :: 0 <= k < |argv| ==> ParseInt(argv[k]) == Some(ids[k]);
      var rejected := FirstRejected(ids, accepts);
      if rejected.Some? {
        var k :| 0 <= k < |ids| && ids[k] == rejected.value && forall j :: 0 <= j < k ==> accepts(ids[j]);
        assert FirstAccepted(argv, accepts, k);
      } else if NamesAt(c.knownLaunchers, ids).None? {
        var handled := NamesBefore(c.knownLaunchers, ids);
        assert |handled| < |ids|;
        assert SelectWith(c, argv, accepts) == IdIndexError(handled);
      }
    }
  }

  /** Entry `k` is the first that `int` rejects. */
  predicate FirstUnparsable(argv: seq<string>, k: int)
  {
    0 <= k < |argv| && ParseInt(argv[k]).None? && forall j :: 0 <= j < k ==> ParseInt(argv[j]).Some?
  }

  /** The entries before position `k` all parse to IDs the check accepts. */
  predicate FirstAccepted(argv: seq<string>, accepts: int -> bool, k: int)
  {
    forall j :: 0 <= j < k && j < |argv| ==> ParseInt(argv[j]).Some? && accepts(ParseInt(argv[j]).value)
  }

  /** `handled` names, in order, the launchers of the first entries' IDs. */
  predicate HandledInOrder(known: seq<string>, argv: seq<string>, handled: seq<string>)
  {
    forall j :: 0 <= j < |handled| && j < |argv| ==>
      && ParseInt(argv[j]).Some? && PyIndex(|known|, ParseInt(argv[j]).value).Some?
      && handled[j] == known[PyIndex(|known|, ParseInt(argv[j]).value).value]
  }

  /**
   * The names looked up before the first ID that raises `IndexError`, or
   * all of them: the source looks each name up and starts or stops it in
   * the same loop.
   */
  function NamesBefore(known: seq<string>, ids: seq<int>): (r: seq<string>)
    ensures |r| <= |ids|
    ensures |r| < |ids| ==> PyIndex(|known|, ids[|r|]).None?
    ensures forall j :: 0 <= j < |r| ==> PyIndex(|known|, ids[j]).Some? && r[j] == known[PyIndex(|known|, ids[j]).value]
    decreases |ids|
  {
    if |ids| == 0 then []
    else
      match PyIndex(|known|, ids[0])
      case None => []
      case Some(i) =>
        var rest := NamesBefore(known, ids[1..]);
        var r := [known[i]] + rest;
        assert forall j :: 1 <= j < |r| ==> r[j] == rest[j - 1] && ids[j] == ids[1..][j - 1];
        r
  }

  /**
   * `do_start` / `do_stop` as written: the entries are parsed, then
   * checked against the number of known names, then looked up; nothing
   * is selected unless every step passes. A negative ID passes the check
   * and is looked up from the end of the list.
   */
  function SelectAsWritten(c: Cmd, argv: seq<string>): (r: Selection)
    ensures r.UnparsableEntry? <==> exists k :: 0 <= k < |argv| && ParseInt(argv[k]).None?
    ensures r.UnparsableEntry? ==> exists k :: FirstUnparsable(argv, k) && r.entry == argv[k]
    ensures r.UnknownId? ==> r.id >= |c.knownLaunchers|
  {
    SelectWith(c, argv, BelowCount(|c.knownLaunchers|))
  }

  /** `int("-1")` is -1. */
  lemma ParseMinusOne()
    ensures ParseInt("-1") == Some(-1)
  {
    DigitOne();
    assert "-1" == "-" + "1";
    ParseNegative("1");
  }

  lemma DigitOne()
    ensures IsDigitString("1") && DigitsValue("1") == 1
  {
    assert "1"[..0] == "";
  }

  /**
   * A single negative ID `n` down to minus the number of known launchers
   * passes the check and selects the launcher `n` places from the end: with
   * launchers `a` and `b`, `start -1` starts `b`, which has ID 1.
   */
  lemma NegativeIdAliases(c: Cmd, argv: seq<string>, n: int)
    requires |argv| == 1 && ParseInt(argv[0]) == Some(n) && -|c.knownLaunchers| <= n < 0
    ensures SelectAsWritten(c, argv) == Selected([c.knownLaunchers[|c.knownLaunchers| + n]])
  {
    assert PyIndex(|c.knownLaunchers|, n) == Some(|c.knownLaunchers| + n);
    SelectOne(c, argv, BelowCount(|c.knownLaunchers|), n, |c.knownLaunchers| + n);
  }

  /** One accepted ID at a valid position selects the launcher there. */
  lemma SelectOne(c: Cmd, argv: seq<string>, accepts: int -> bool, n: int, i: nat)
    requires |argv| == 1 && ParseInt(argv[0]) == Some(n) && accepts(n)
    requires PyIndex(|c.knownLaunchers|, n) == Some(i)
    ensures SelectWith(c, argv, accepts) == Selected([c.knownLaunchers[i]])
  {
    var parsed := ParseEach(argv);
    assert parsed == [Some(n)];
    assert FirstNone(parsed).None?;
    var ids := Values(parsed);
    assert ids == [n];
    assert FirstRejected(ids, accepts).None?;
    var names := NamesAt(c.knownLaunchers, ids);
    assert names.Some? && |names.value| == 1 && names.value[0] == c.knownLaunchers[i];
    assert names.value == [c.knownLaunchers[i]];
  }

  /**
   * A single ID below minus the number of known launchers also passes the
   * check, and then raises `IndexError`: with no launcher known, `start -1`
   * does.
   */
  lemma NegativeIdIndexError(c: Cmd, argv: seq<string>, n: int)
    requires |argv| == 1 && ParseInt(argv[0]) == Some(n) && n < -|c.knownLaunchers|
    ensures SelectAsWritten(c, argv) == IdIndexError([])
  {
    assert PyIndex(|c.knownLaunchers|, n).None?;
    var r := SelectWith(c, argv, BelowCount(|c.knownLaunchers|));
    assert !r.UnparsableEntry? && !r.UnknownId? && !r.Selected?;
  }

  /** The check as intended: an ID of a known name. */
  function IsKnownId(count: nat): int -> bool
  {
    id => 0 <= id < count
  }

  /**
   * `do_start` / `do_stop` with the ID check made to reject negative IDs:
   * the launchers selected are exactly those the arguments name by ID.
   */
  function Select(c: Cmd, argv: seq<string>): (r: Selection)
    ensures r.UnparsableEntry? <==> exists k :: 0 <= k < |argv| && ParseInt(argv[k]).None?
    ensures r.UnparsableEntry? ==> exists k :: FirstUnparsable(argv, k) && r.entry == argv[k]
    ensures r.Selected? <==>
      (forall k :: 0 <= k < |argv| ==> ParseInt(argv[k]).Some? && 0 <= ParseInt(argv[k]).value < |c.knownLaunchers|)
    ensures r.Selected? ==>
      |r.names| == |argv| && forall k :: 0 <= k < |argv| ==> r.names[k] == c.knownLaunchers[ParseInt(argv[k]).value]
    ensures r.UnknownId? ==> !(0 <= r.id < |c.knownLaunchers|)
    ensures !r.IdIndexError?
  {
    var count := |c.knownLaunchers|;
    assert forall id: int :: IsKnownId(count)(id) ==> PyIndex(count, id) == Some(id as nat);
    SelectWith(c, argv, IsKnownId(count))
  }

  /** In a valid state, a selected name's ID is the argument that named it. */
  lemma SelectByIds(c: Cmd, argv: seq<string>)
    requires Valid(c) && Select(c, argv).Selected?
    ensures forall k :: 0 <= k < |argv| ==>
      var name := Select(c, argv).names[k];
      name in c.launcherIds && c.launcherIds[name] == ParseInt(argv[k]).value
  {
  }

  /** Where every ID is non-negative the written check and the intended one agree. */
  lemma SelectAgreesOnNonNegative(c: Cmd, argv: seq<string>)
    requires forall k :: 0 <= k < |argv| ==> ParseInt(argv[k]).Some? ==> ParseInt(argv[k]).value >= 0
    ensures SelectAsWritten(c, argv) == Select(c, argv)
  {
    var parsed := ParseEach(argv);
    if FirstNone(parsed).None? {
      var ids := Values(parsed);
      var count := |c.knownLaunchers|;
      assert forall k :: 0 <= k < |ids| ==> (BelowCount(count)(ids[k]) <==> IsKnownId(count)(ids[k]));
      FirstRejectedAgree(ids, BelowCount(count), IsKnownId(count));
    }
  }

  lemma {:induction false} FirstRejectedAgree(ids: seq<int>, a: int -> bool, b: int -> bool)
    requires forall k :: 0 <= k < |ids| ==> (a(ids[k]) <==> b(ids[k]))
    ensures FirstRejected(ids, a) == FirstRejected(ids, b)
    decreases |ids|
  {
    if |ids| > 0 {
      assert forall k :: 1 <= k < |ids| ==> ids[k] == ids[1..][k - 1];
      FirstRejectedAgree(ids[1..], a, b);
    }
  }
}

=== FILE: launcher_db.dfy ===
/**
 * The launcher `Database` of `phile/launcher/__init__.py`: named launcher
 * descriptors split into one map per attribute, and the two-way
 * `binds_to` / `bound_by` relation between launcher names.
 *
 * `add` enters one context per attribute on an exit stack; a failure
 * unwinds the contexts entered so far, and `remove` later unwinds all of
 * them. Each context is modelled as an enter function and an exit function.
 */
module LauncherDatabase {
  import opened Outcomes
  import opened Maps

  /** `Type`: how a launcher is started and stopped. */
  datatype LaunchType = Simple | Exec | Forking

  /** A coroutine factory, known only by identity. */
  datatype Command = Command(name: string)

  /** A `Descriptor`: every key may be missing. */
  datatype Descriptor = Descriptor(
    after: Option<set<string>>,
    bindsTo: Option<set<string>>,
    execStart: Option<seq<Command>>,
    execStop: Option<seq<Command>>,
    launchType: Option<LaunchType>)

  /** The maps of `Database`; the removal callbacks are represented by the names that have one. */
  datatype Database = Database(
    known: map<string, Descriptor>,
    bindsTo: map<string, set<string>>,
    boundBy: map<string, set<string>>,
    execStart: map<string, seq<Command>>,
    execStop: map<string, seq<Command>>,
    types: map<string, LaunchType>,
    removable: set<string>)

  const Empty: Database := Database(map[], map[], map[], map[], map[], map[], {})

  datatype LauncherError = NameInUse | MissingDescriptorData

  /** What `add` leaves behind, and the exception it raised if any. */
  datatype AddOutcome = AddOutcome(db: Database, error: Option<LauncherError>)

  /** `contains`. */
  predicate Contains(db: Database, name: string)
  {
    name in db.removable
  }

  /** Launcher `name` binds to `target`. */
  predicate Binds(db: Database, name: string, target: string)
  {
    name in db.bindsTo && target in db.bindsTo[name]
  }

  /** `target` records that it is bound by `name`. */
  predicate BoundBy(db: Database, target: string, name: string)
  {
    target in db.boundBy && name in db.boundBy[target]
  }

  /**
   * Between calls: every map holds the same names, `bound_by` is the
   * inverse of `binds_to`, and `bound_by` holds no empty set.
   */
  ghost predicate Valid(db: Database)
  {
    && db.known.Keys == db.removable
    && db.types.Keys == db.removable
    && db.execStart.Keys == db.removable
    && db.execStop.Keys == db.removable
    && db.bindsTo.Keys == db.removable
    && (forall name, target :: Binds(db, name, target) <==> BoundBy(db, target, name))
    && (forall target :: target in db.boundBy ==> db.boundBy[target] != {})
  }

  lemma EmptyValid()
    ensures Valid(Empty)
  {
  }

  function EnterDescriptor(db: Database, name: string, d: Descriptor): Database
  {
    db.(known := db.known[name := d])
  }

  function ExitDescriptor(db: Database, name: string): Database
  {
    db.(known := db.known - {name})
  }

  /** `_update_type`: the type defaults to `SIMPLE`. */
  function EnterType(db: Database, name: string): Database
    requires name in db.known
  {
    db.(types := db.types[name := db.known[name].launchType.GetOr(Simple)])
  }

  function ExitType(db: Database, name: string): Database
  {
    db.(types := db.types - {name})
  }

  /** `_update_exec_start`: a descriptor without `exec_start` cannot be entered. */
  function EnterExecStart(db: Database, name: string): Option<Database>
    requires name in db.known
  {
    match db.known[name].execStart
    case None => None
    case Some(commands) => Some(db.(execStart := db.execStart[name := commands]))
  }

  function ExitExecStart(db: Database, name: string): Database
  {
    db.(execStart := db.execStart - {name})
  }

  /** `_update_exec_stop`: `exec_stop` defaults to no command. */
  function EnterExecStop(db: Database, name: string): Database
    requires name in db.known
  {
    db.(execStop := db.execStop[name := db.known[name].execStop.GetOr([])])
  }

  function ExitExecStop(db: Database, name: string): Database
  {
    db.(execStop := db.execStop - {name})
  }

  /** `_update_binds_to`: record the targets and add `name` to the `bound_by` set of each. */
  function EnterBindsTo(db: Database, name: string): (r: Database)
    requires name in db.known
    ensures r.bindsTo == db.bindsTo[name := db.known[name].bindsTo.GetOr({})]
    ensures forall target :: target in db.known[name].bindsTo.GetOr({}) ==> BoundBy(r, target, name)
    ensures forall target, other :: other != name ==> (BoundBy(r, target, other) <==> BoundBy(db, target, other))
    ensures forall target :: target !in db.known[name].bindsTo.GetOr({}) ==> (BoundBy(r, target, name) <==> BoundBy(db, target, name))
    ensures forall target :: target in r.boundBy && r.boundBy[target] == {} ==> target in db.boundBy && db.boundBy[target] == {}
  {
    var targets := db.known[name].bindsTo.GetOr({});
    var boundBy := map target | target in db.boundBy.Keys + targets ::
      if target in targets then (if target in db.boundBy then db.boundBy[target] else {}) + {name}
      else db.boundBy[target];
    AddedTo(db.boundBy, name, targets, boundBy);
    db.(bindsTo := db.bindsTo[name := targets], boundBy := boundBy)
  }

  /** Adding `name` to the set of each target, creating the sets that are missing. */
  lemma AddedTo<T>(sets: map<T, set<T>>, name: T, targets: set<T>, r: map<T, set<T>>)
    requires r == map target | target in sets.Keys + targets ::
      if target in targets then (if target in sets then sets[target] else {}) + {name} else sets[target]
    ensures forall target :: target in targets ==> target in r && name in r[target]
    ensures forall target, other :: other != name ==> (target in r && other in r[target] <==> target in sets && other in sets[target])
    ensures forall target :: target !in targets ==> (target in r && name in r[target] <==> target in sets && name in sets[target])
    ensures forall target :: target in r && r[target] == {} ==> target in sets && sets[target] == {}
  {
  }

  /** Leaving `_update_binds_to`: `name` leaves every target's set; a set that empties is dropped. */
  function ExitBindsTo(db: Database, name: string): (r: Database)
    ensures r.bindsTo == db.bindsTo - {name}
    ensures forall target :: BoundBy(r, target, name) ==> BoundBy(db, target, name) && !Binds(db, name, target)
    ensures forall target, other :: other != name ==> (BoundBy(r, target, other) <==> BoundBy(db, target, other))
    ensures forall target :: target in r.boundBy && r.boundBy[target] == {} ==> target in db.boundBy && db.boundBy[target] == {}
  {
    var targets := if name in db.bindsTo then db.bindsTo[name] else {};
    var boundBy := map target | target in db.boundBy.Keys && !(target in targets && db.boundBy[target] - {name} == {}) ::
      if target in targets then db.boundBy[target] - {name} else db.boundBy[target];
    RemovedFrom(db.boundBy, name, targets, boundBy);
    db.(bindsTo := db.bindsTo - {name}, boundBy := boundBy)
  }

  /** Taking `name` out of the set of each target, dropping the sets that empty. */
  lemma RemovedFrom<T>(sets: map<T, set<T>>, name: T, targets: set<T>, r: map<T, set<T>>)
    requires r == map target | target in sets.Keys && !(target in targets && sets[target] - {name} == {}) ::
      if target in targets then sets[target] - {name} else sets[target]
    ensures forall target :: target in r && name in r[target] ==> target in sets && name in sets[target] && target !in targets
    ensures forall target, other :: other != name ==> (target in r && other in r[target] <==> target in sets && other in sets[target])
    ensures forall target :: target in r && r[target] == {} ==> target in sets && sets[target] == {}
  {
    forall target, other | other != name && target in sets && other in sets[target]
      ensures target in r && other in r[target]
    {
      assert other in sets[target] - {name};
    }
  }

  /**
   * `add`: a name already in use is refused before anything changes; a
   * descriptor without `exec_start` unwinds the contexts already entered.
   */
  function Add(db: Database, name: string, d: Descriptor): (r: AddOutcome)
    ensures r.error == Some(NameInUse) <==> name in db.known
    ensures r.error == Some(NameInUse) ==> r.db == db
    ensures r.error == Some(MissingDescriptorData) <==> name !in db.known && d.execStart.None?
    ensures r.error.None? ==>
      && Contains(r.db, name)
      && name in r.db.known && name in r.db.types && name in r.db.execStart && name in r.db.execStop && name in r.db.bindsTo
      && d.execStart.Some?
      && r.db.known[name] == d
      && r.db.types[name] == d.launchType.GetOr(Simple)
      && r.db.execStart[name] == d.execStart.value
      && r.db.execStop[name] == d.execStop.GetOr([])
      && r.db.bindsTo[name] == d.bindsTo.GetOr({})
    ensures r.error.None? ==>
      && r.db.known == db.known[name := d]
      && r.db.types == db.types[name := d.launchType.GetOr(Simple)]
      && r.db.execStart == db.execStart[name := d.execStart.value]
      && r.db.execStop == db.execStop[name := d.execStop.GetOr([])]
      && r.db.bindsTo == db.bindsTo[name := d.bindsTo.GetOr({})]
      && r.db.removable == db.removable + {name}
  {
    if name in db.known then AddOutcome(db, Some(NameInUse))
    else
      var withType := EnterType(EnterDescriptor(db, name, d), name);
      match EnterExecStart(withType, name)
      case None =>
        AddOutcome(ExitDescriptor(ExitType(ExitExecStart(withType, name), name), name), Some(MissingDescriptorData))
      case Some(withStart) =>
        var entered := EnterBindsTo(EnterExecStop(withStart, name), name);
        AddOutcome(entered.(removable := entered.removable + {name}), None)
  }

  /** `remove`: run the stored remover, leaving every context in reverse order; unknown names are ignored. */
  function Remove(db: Database, name: string): (r: Database)
    ensures !Contains(db, name) ==> r == db
    ensures !Contains(r, name)
    ensures r.removable == db.removable - {name}
    ensures Contains(db, name) ==>
      && name !in r.known && name !in r.types && name !in r.execStart && name !in r.execStop && name !in r.bindsTo
    ensures r.known - {name} == db.known - {name} && r.types - {name} == db.types - {name}
    ensures r.execStart - {name} == db.execStart - {name} && r.execStop - {name} == db.execStop - {name}
    ensures r.bindsTo - {name} == db.bindsTo - {name}
  {
    if name !in db.removable then db
    else
      var unbound := ExitBindsTo(db.(removable := db.removable - {name}), name);
      ExitDescriptor(ExitType(ExitExecStart(ExitExecStop(unbound, name), name), name), name)
  }

  /** A failed `add` leaves a valid database exactly as it was. */
  lemma AddFailureRollsBack(db: Database, name: string, d: Descriptor)
    requires Valid(db)
    requires Add(db, name, d).error.Some?
    ensures Add(db, name, d).db == db
  {
    if name !in db.known {
      var r := Add(db, name, d).db;
      assert r.known == db.known;
      assert r.types == db.types;
      assert r.execStart == db.execStart;
    }
  }

  /** A successful `add` keeps the database valid and leaves the other launchers' bindings alone. */
  lemma AddKeepsValid(db: Database, name: string, d: Descriptor)
    requires Valid(db)
    requires Add(db, name, d).error.None?
    ensures Valid(Add(db, name, d).db)
    ensures var r := Add(db, name, d).db;
      && r.removable == db.removable + {name}
      && (forall other, target :: other != name ==> (Binds(r, other, target) <==> Binds(db, other, target)))
      && (forall target :: Binds(r, name, target) <==> target in d.bindsTo.GetOr({}))
  {
    var r := Add(db, name, d).db;
    var withType := EnterType(EnterDescriptor(db, name, d), name);
    var withStart := EnterExecStart(withType, name).value;
    var stopped := EnterExecStop(withStart, name);
    var entered := EnterBindsTo(stopped, name);
    assert r == entered.(removable := entered.removable + {name});
    assert stopped.bindsTo == db.bindsTo && stopped.boundBy == db.boundBy && stopped.known[name] == d;
    assert name !in stopped.bindsTo by {
      assert name !in db.removable;
    }
    assert forall other, target :: Binds(stopped, other, target) <==> Binds(db, other, target);
    assert forall other, target :: BoundBy(stopped, target, other) <==> BoundBy(db, target, other);
    EnterBindsToInverse(stopped, name, entered);
    assert forall other, target :: Binds(r, other, target) <==> Binds(entered, other, target);
    assert forall other, target :: BoundBy(r, target, other) <==> BoundBy(entered, target, other);
    assert r.known == db.known[name := d] && r.types == db.types[name := d.launchType.GetOr(Simple)];
    assert r.execStart == db.execStart[name := d.execStart.value] && r.execStop == db.execStop[name := d.execStop.GetOr([])];
    assert r.bindsTo == db.bindsTo[name := d.bindsTo.GetOr({})];
    AddedKeys(db, name, d, r);
  }

  /** Entering every context for a new name adds the name to the keys of every map. */
  lemma AddedKeys(db: Database, name: string, d: Descriptor, r: Database)
    requires Valid(db) && d.execStart.Some?
    requires r.known == db.known[name := d] && r.types == db.types[name := d.launchType.GetOr(Simple)]
    requires r.execStart == db.execStart[name := d.execStart.value] && r.execStop == db.execStop[name := d.execStop.GetOr([])]
    requires r.bindsTo == db.bindsTo[name := d.bindsTo.GetOr({})] && r.removable == db.removable + {name}
    ensures r.known.Keys == r.removable && r.types.Keys == r.removable && r.execStart.Keys == r.removable
    ensures r.execStop.Keys == r.removable && r.bindsTo.Keys == r.removable
  {
    KeysAfterUpdate(db.known, name, d);
    KeysAfterUpdate(db.types, name, d.launchType.GetOr(Simple));
    KeysAfterUpdate(db.execStart, name, d.execStart.value);
    KeysAfterUpdate(db.execStop, name, d.execStop.GetOr([]));
    KeysAfterUpdate(db.bindsTo, name, d.bindsTo.GetOr({}));
  }

  /** Entering `_update_binds_to` for a launcher with no bindings yet keeps `bound_by` the inverse of `binds_to`. */
  lemma EnterBindsToInverse(db: Database, name: string, r: Database)
    requires name in db.known && name !in db.bindsTo
    requires forall other, target :: Binds(db, other, target) <==> BoundBy(db, target, other)
    requires forall target :: target in db.boundBy ==> db.boundBy[target] != {}
    requires r == EnterBindsTo(db, name)
    ensures forall other, target :: Binds(r, other, target) <==> BoundBy(r, target, other)
    ensures forall target :: target in r.boundBy ==> r.boundBy[target] != {}
    ensures forall other, target :: other != name ==> (Binds(r, other, target) <==> Binds(db, other, target))
    ensures forall target :: Binds(r, name, target) <==> target in db.known[name].bindsTo.GetOr({})
  {
    forall other, target
      ensures Binds(r, other, target) <==> BoundBy(r, target, other)
    {
      if other == name {
        assert !BoundBy(db, target, name);
      } else {
        assert Binds(r, other, target) <==> Binds(db, other, target);
      }
    }
  }

  /** `remove` keeps the database valid and leaves the other launchers' bindings alone. */
  lemma RemoveKeepsValid(db: Database, name: string)
    requires Valid(db)
    ensures Valid(Remove(db, name))
    ensures forall other, target :: other != name ==> (Binds(Remove(db, name), other, target) <==> Binds(db, other, target))
  {
    var r := Remove(db, name);
    if name in db.removable {
      var marked := db.(removable := db.removable - {name});
      var unbound := ExitBindsTo(marked, name);
      assert r.boundBy == unbound.boundBy && r.bindsTo == unbound.bindsTo;
      forall other, target
        ensures Binds(r, other, target) <==> BoundBy(r, target, other)
      {
        if other == name {
          assert BoundBy(marked, target, name) == BoundBy(db, target, name);
          assert Binds(marked, name, target) == Binds(db, name, target);
          assert BoundBy(r, target, name) == BoundBy(unbound, target, name);
          assert !BoundBy(r, target, name);
        } else {
          assert Binds(r, other, target) <==> Binds(db, other, target);
        }
      }
    }
  }

  /** In valid databases the `bound_by` map is determined by the relation it holds. */
  lemma BoundByDetermined(a: Database, b: Database)
    requires Valid(a) && Valid(b)
    requires forall target, name :: BoundBy(a, target, name) <==> BoundBy(b, target, name)
    ensures a.boundBy == b.boundBy
  {
    forall target
      ensures target in a.boundBy <==> target in b.boundBy
    {
      if target in a.boundBy {
        var name :| name in a.boundBy[target];
        assert BoundBy(b, target, name);
      }
      if target in b.boundBy {
        var name :| name in b.boundBy[target];
        assert BoundBy(a, target, name);
      }
    }
    forall target | target in a.boundBy
      ensures a.boundBy[target] == b.boundBy[target]
    {
      forall name
        ensures name in a.boundBy[target] <==> name in b.boundBy[target]
      {
        assert BoundBy(a, target, name) <==> BoundBy(b, target, name);
      }
    }
  }

  /** Removing a launcher right after adding it gives back the database it was added to. */
  lemma AddThenRemove(db: Database, name: string, d: Descriptor)
    requires Valid(db)
    requires Add(db, name, d).error.None?
    ensures Remove(Add(db, name, d).db, name) == db
  {
    var added := Add(db, name, d).db;
    var r := Remove(added, name);
    assert name !in db.removable;
    AddThenRemoveMaps(db, name, d);
    AddKeepsValid(db, name, d);
    RemoveKeepsValid(added, name);
    forall target, other
      ensures BoundBy(r, target, other) <==> BoundBy(db, target, other)
    {
      assert BoundBy(r, target, other) <==> Binds(r, other, target);
      assert BoundBy(db, target, other) <==> Binds(db, other, target);
      if other != name {
        assert Binds(r, other, target) <==> Binds(added, other, target);
      }
    }
    BoundByDetermined(r, db);
  }

  /** The per-attribute maps after adding and removing a new name. */
  lemma AddThenRemoveMaps(db: Database, name: string, d: Descriptor)
    requires name !in db.known && name !in db.types && name !in db.execStart && name !in db.execStop
    requires name !in db.bindsTo && name !in db.removable && d.execStart.Some?
    ensures var r := Remove(Add(db, name, d).db, name);
      && r.known == db.known && r.types == db.types && r.execStart == db.execStart
      && r.execStop == db.execStop && r.bindsTo == db.bindsTo && r.removable == db.removable
  {
    var withType := EnterType(EnterDescriptor(db, name, d), name);
    var withStart := EnterExecStart(withType, name).value;
    var entered := EnterBindsTo(EnterExecStop(withStart, name), name);
    var added := entered.(removable := entered.removable + {name});
    assert Add(db, name, d).db == added;
    var unbound := ExitBindsTo(added.(removable := added.removable - {name}), name);
    var r := ExitDescriptor(ExitType(ExitExecStart(ExitExecStop(unbound, name), name), name), name);
    assert Remove(added, name) == r;
    UpdateThenRemove(db.known, name, d);
    UpdateThenRemove(db.types, name, d.launchType.GetOr(Simple));
    UpdateThenRemove(db.execStart, name, d.execStart.value);
    UpdateThenRemove(db.execStop, name, d.execStop.GetOr([]));
    UpdateThenRemove(db.bindsTo, name, d.bindsTo.GetOr({}));
  }

  lemma UpdateThenRemove<V>(m: map<string, V>, k: string, v: V)
    requires k !in m
    ensures m[k := v] - {k} == m
  {
  }
}

=== FILE: lists.dfy ===
/** Python list indexing and the list edits the model uses. */
module Lists {
  import opened Outcomes

  /**
   * The position `list[index]` refers to in a list of `length` elements:
   * negative indices count from the end, anything else raises `IndexError`.
   */
  function PyIndex(length: nat, index: int): (r: Option<nat>)
    ensures r.Some? <==> -(length as int) <= index < length
    ensures r.Some? ==> r.value < length
    ensures r.Some? && index >= 0 ==> r.value == index
    ensures r.Some? && index < 0 ==> r.value == length + index
  {
    if 0 <= index < length then Some(index)
    else if -(length as int) <= index < 0 then Some(length + index)
    else None
  }

  /** `del s[i]`. */
  function RemoveAt<T>(s: seq<T>, i: nat): (r: seq<T>)
    requires i < |s|
    ensures |r| == |s| - 1
    ensures forall k :: 0 <= k < i ==> r[k] == s[k]
    ensures forall k :: i <= k < |r| ==> r[k] == s[k + 1]
  {
    s[..i] + s[i + 1..]
  }

  /** `s.insert(i, x)`. */
  function InsertAt<T>(s: seq<T>, i: nat, x: T): (r: seq<T>)
    requires i <= |s|
    ensures |r| == |s| + 1 && r[i] == x
    ensures forall k :: 0 <= k < i ==> r[k] == s[k]
    ensures forall k :: i < k < |r| ==> r[k] == s[k - 1]
  {
    s[..i] + [x] + s[i..]
  }

  /** Removing what was inserted gives the list back. */
  lemma RemoveInserted<T>(s: seq<T>, i: nat, x: T)
    requires i <= |s|
    ensures RemoveAt(InsertAt(s, i, x), i) == s
  {
    assert InsertAt(s, i, x)[..i] == s[..i];
    assert InsertAt(s, i, x)[i + 1..] == s[i..];
  }

  /** Inserting the removed element where it was gives the list back. */
  lemma InsertRemoved<T>(s: seq<T>, i: nat)
    requires i < |s|
    ensures InsertAt(RemoveAt(s, i), i, s[i]) == s
  {
    var r := InsertAt(RemoveAt(s, i), i, s[i]);
    assert forall k :: 0 <= k < |s| ==> r[k] == s[k];
  }

  /** A non-empty sequence is its front followed by its last element, and the front keeps every index. */
  lemma SplitLast<T>(s: seq<T>)
    requires |s| > 0
    ensures s == s[..|s| - 1] + [s[|s| - 1]]
    ensures forall i :: 0 <= i < |s| - 1 ==> s[..|s| - 1][i] == s[i]
  {
    assert s == s[..|s| - 1] + [s[|s| - 1]];
  }
}

=== FILE: maps.dfy ===
/** Facts about the keys of updated maps, stated once for every key type. */
module Maps {

  lemma KeysAfterUpdate<K, V>(m: map<K, V>, k: K, v: V)
    ensures m[k := v].Keys == m.Keys + {k}
  {
  }

  lemma KeysAfterRemove<K, V>(m: map<K, V>, k: K)
    ensures (m - {k}).Keys == m.Keys - {k}
  {
  }

  /** Adding a key a map already has leaves its key set alone. */
  lemma KeysAlreadyThere<K>(keys: set<K>, k: K)
    requires k in keys
    ensures keys + {k} == keys
  {
  }
}

=== FILE: notify_files.dfy ===
/**
 * Notification files of `phile/notify/watchdog.py`: one file per
 * notification, named after it, holding its text; the file's modification
 * time is the notification's time.
 *
 * The notification registry (`phile.notify.Registry`) is not part of this
 * model; its entries are a map from name to entry, where `add_entry` sets
 * the entry of its name and `discard` removes a name.
 */
module NotifyFiles {
  import opened Outcomes
  import opened Strings
  import opened Paths
  import opened WatchEvents
  import EntryFiles
  import Lists

  datatype NotifyEntry = NotifyEntry(name: string, text: string, modifiedAt: int)

  /** What is at a path: a regular file with its text and modification time, or a directory. */
  datatype FileNode = RegularFile(text: string, modifiedAt: int) | Directory

  type Files = map<Path, FileNode>

  /** The registry's entries by name. */
  type Entries = map<string, NotifyEntry>

  /** `IsADirectoryError`, raised when reading a directory as a file. */
  datatype ReadError = IsADirectoryError

  /**
   * `load_from_path`: the entry named after the file, with the file's text
   * as `read_text` gives it and the file's time; `None` for
   * `FileNotFoundError`.
   */
  function LoadFromPath(fs: Files, path: Path, suffix: string): (r: Result<Option<NotifyEntry>, ReadError>)
    ensures r.Err? <==> path in fs && fs[path].Directory?
    ensures r == Ok(None) <==> path !in fs
    ensures r.Ok? && r.value.Some? ==>
      r.value.value == NotifyEntry(EntryFiles.EntryName(path, suffix), EntryFiles.ReadText(fs[path].text), fs[path].modifiedAt)
  {
    if path !in fs then Ok(None)
    else
      match fs[path]
      case Directory => Err(IsADirectoryError)
      case RegularFile(text, modifiedAt) =>
        Ok(Some(NotifyEntry(EntryFiles.EntryName(path, suffix), EntryFiles.ReadText(text), modifiedAt)))
  }

  /** `Target.set`: write the entry's text to its file, stamped with the current time `now`. */
  function TargetSet(t: EntryFiles.Target, fs: Files, e: NotifyEntry, now: int): (r: (EntryFiles.Target, Files))
    ensures r.0.currentNames == t.currentNames + {e.name}
    ensures var path := EntryFiles.PathOfName(t, e.name);
      path in r.1 && r.1[path] == RegularFile(e.text, now)
      && forall p :: p != path ==> (p in r.1 <==> p in fs) && (p in fs ==> r.1[p] == fs[p])
  {
    EntryFiles.TargetSet(t, fs, e.name, RegularFile(e.text, now))
  }

  /**
   * Saving an entry and loading its file gives the entry back, with the
   * time of the write and with its line endings read as `read_text` reads
   * them; a text without carriage returns comes back unchanged.
   */
  lemma SaveThenLoad(t: EntryFiles.Target, fs: Files, e: NotifyEntry, now: int)
    requires IsFileName(e.name + t.suffix)
    ensures LoadFromPath(TargetSet(t, fs, e, now).1, EntryFiles.PathOfName(t, e.name), t.suffix)
      == Ok(Some(e.(text := EntryFiles.ReadText(e.text), modifiedAt := now)))
    ensures '\r' !in e.text ==>
      LoadFromPath(TargetSet(t, fs, e, now).1, EntryFiles.PathOfName(t, e.name), t.suffix)
        == Ok(Some(e.(modifiedAt := now)))
  {
    EntryFiles.EntryNameOfPath(e.name, t.directory, t.suffix);
    EntryFiles.ReadTextWithoutReturn(e.text);
  }

  /**
   * `update_path`: load the file; if it is gone, discard its name from the
   * registry and report `false`, otherwise add the entry and report `true`.
   * Reading a directory raises.
   */
  function UpdatePath(entries: Entries, fs: Files, suffix: string, path: Path): (r: Result<(Entries, bool), ReadError>)
    ensures r.Err? <==> path in fs && fs[path].Directory?
    ensures r.Ok? ==> var name := EntryFiles.EntryName(path, suffix);
      && (r.value.1 <==> path in fs)
      && (r.value.1 ==> r.value.0 == entries[name := NotifyEntry(name, EntryFiles.ReadText(fs[path].text), fs[path].modifiedAt)])
      && (!r.value.1 ==> r.value.0 == entries - {name})
  {
    var name := EntryFiles.EntryName(path, suffix);
    match LoadFromPath(fs, path, suffix)
    case Err(e) => Err(e)
    case Ok(None) => Ok((entries - {name}, false))
    case Ok(Some(entry)) => Ok((entries[name := entry], true))
  }

  /**
   * A target's written file, read back by `update_path`, adds the entry to
   * the registry, its text as `read_text` reads it.
   */
  lemma TargetSetThenUpdate(entries: Entries, t: EntryFiles.Target, fs: Files, e: NotifyEntry, now: int)
    requires IsFileName(e.name + t.suffix)
    ensures UpdatePath(entries, TargetSet(t, fs, e, now).1, t.suffix, EntryFiles.PathOfName(t, e.name))
      == Ok((entries[e.name := e.(text := EntryFiles.ReadText(e.text), modifiedAt := now)], true))
  {
    SaveThenLoad(t, fs, e, now);
    EntryFiles.EntryNameOfPath(e.name, t.directory, t.suffix);
  }

  /** A target's popped file, read back by `update_path`, discards the name from the registry. */
  lemma TargetPopThenUpdate(entries: Entries, t: EntryFiles.Target, fs: Files, name: string)
    requires IsFileName(name + t.suffix)
    ensures UpdatePath(entries, EntryFiles.TargetPop(t, fs, name).1, t.suffix, EntryFiles.PathOfName(t, name))
      == Ok((entries - {name}, false))
  {
    EntryFiles.EntryNameOfPath(name, t.directory, t.suffix);
  }

  /**
   * `update_existing_paths`: update from each listed path (what the
   * directory glob yields); a directory is skipped, every other path is
   * reported as found, whether its file was still there or not.
   */
  function UpdateExistingPaths(entries: Entries, fs: Files, suffix: string, listing: seq<Path>): (r: (Entries, set<Path>))
    ensures forall p :: p in r.1 <==> p in listing && !(p in fs && fs[p].Directory?)
    decreases |listing|
  {
    if |listing| == 0 then (entries, {})
    else
      var rest := listing[1..];
      match UpdatePath(entries, fs, suffix, listing[0])
      case Err(_) =>
        var r := UpdateExistingPaths(entries, fs, suffix, rest);
        assert forall p :: p in listing <==> p == listing[0] || p in rest;
        r
      case Ok((updated, _)) =>
        var r := UpdateExistingPaths(updated, fs, suffix, rest);
        assert forall p :: p in listing <==> p == listing[0] || p in rest;
        (r.0, r.1 + {listing[0]})
  }

  /** `process_watchdog_view`'s state: the registry's entries and the names it tracks as current. */
  datatype Watcher = Watcher(entries: Entries, currentNames: set<string>)

  /** The start of `process_watchdog_view`: update from the listed paths and track the names of those found. */
  function Start(entries: Entries, fs: Files, suffix: string, listing: seq<Path>): (w: Watcher)
    ensures forall p :: p in listing && !(p in fs && fs[p].Directory?) ==> EntryFiles.EntryName(p, suffix) in w.currentNames
  {
    var (updated, found) := UpdateExistingPaths(entries, fs, suffix, listing);
    Watcher(updated, set p | p in found :: EntryFiles.EntryName(p, suffix))
  }

  /** One existence report from `monitor_file_existence`, with the files as they are when it is processed. */
  datatype Report = Report(files: Files, path: Path)

  /** Whether a report's file is there when it is processed. */
  predicate Present(x: Report)
  {
    x.path in x.files
  }

  /** One step of the loop: update from the reported path, then track or untrack its name. */
  function Track(w: Watcher, suffix: string, x: Report): (r: Result<Watcher, ReadError>)
    ensures r.Err? <==> x.path in x.files && x.files[x.path].Directory?
    ensures r.Ok? ==> var name := EntryFiles.EntryName(x.path, suffix);
      && (name in r.value.currentNames <==> Present(x))
      && (name in r.value.entries <==> Present(x))
      && r.value.currentNames - {name} == w.currentNames - {name}
      && r.value.entries - {name} == w.entries - {name}
  {
    var name := EntryFiles.EntryName(x.path, suffix);
    match UpdatePath(w.entries, x.files, suffix, x.path)
    case Err(e) => Err(e)
    case Ok((entries, added)) =>
      Ok(Watcher(entries, if added then w.currentNames + {name} else w.currentNames - {name}))
  }

  /** A report that can be processed: its path is not a directory. */
  predicate Readable(x: Report)
  {
    !(x.path in x.files && x.files[x.path].Directory?)
  }

  /** The loop over the reports, in order; the first report that raises ends it, with the state before that report. */
  function TrackAll(w: Watcher, suffix: string, reports: seq<Report>): (r: (Watcher, Option<ReadError>))
    ensures r.1.None? <==> forall i :: 0 <= i < |reports| ==> Readable(reports[i])
    decreases |reports|
  {
    if |reports| == 0 then (w, None)
    else
      match Track(w, suffix, reports[0])
      case Err(e) => (w, Some(e))
      case Ok(next) =>
        var r := TrackAll(next, suffix, reports[1..]);
        assert forall i :: 1 <= i < |reports| ==> reports[i] == reports[1..][i - 1];
        r
  }

  /** The `finally` of `process_watchdog_view`: discard every tracked name. */
  function Finish(w: Watcher): (r: Entries)
    ensures forall n :: n in w.currentNames ==> n !in r
    ensures forall n :: n !in w.currentNames ==> (n in r <==> n in w.entries) && (n in r ==> r[n] == w.entries[n])
  {
    w.entries - w.currentNames
  }

  /** `process_watchdog_view` from start to finish. */
  function ProcessWatchdogView(entries: Entries, fs: Files, suffix: string, listing: seq<Path>, reports: seq<Report>): (r: Entries)
  {
    Finish(TrackAll(Start(entries, fs, suffix, listing), suffix, reports).0)
  }

  /**
   * Reference: whether a name is current after some reports, read from
   * the last report about that name, or `initial` if there is none.
   */
  function CurrentAfter(initial: bool, suffix: string, reports: seq<Report>, n: string): bool
    decreases |reports|
  {
    if |reports| == 0 then initial
    else
      var last := reports[|reports| - 1];
      if EntryFiles.EntryName(last.path, suffix) == n then Present(last)
      else CurrentAfter(initial, suffix, reports[..|reports| - 1], n)
  }

  /** Tracking one more report is one more step of the loop. */
  lemma {:induction false} TrackAllAppend(w: Watcher, suffix: string, reports: seq<Report>, x: Report)
    requires forall i :: 0 <= i < |reports| ==> Readable(reports[i])
    requires Readable(x)
    ensures TrackAll(w, suffix, reports + [x]).0 == Track(TrackAll(w, suffix, reports).0, suffix, x).value
    decreases |reports|
  {
    if |reports| == 0 {
      assert [x][1..] == [];
    } else {
      var next := Track(w, suffix, reports[0]).value;
      assert (reports + [x])[0] == reports[0];
      assert (reports + [x])[1..] == reports[1..] + [x];
      assert forall i :: 0 <= i < |reports[1..]| ==> reports[1..][i] == reports[i + 1];
      TrackAllAppend(next, suffix, reports[1..], x);
    }
  }

  /** Whether some report is about the name. */
  predicate Reported(suffix: string, reports: seq<Report>, n: string)
  {
    exists i :: 0 <= i < |reports| && EntryFiles.EntryName(reports[i].path, suffix) == n
  }

  /** After the loop, a name is tracked exactly when its last report found its file. */
  lemma {:induction false} TrackAllFollowsLastReport(w: Watcher, suffix: string, reports: seq<Report>, n: string)
    requires forall i :: 0 <= i < |reports| ==> Readable(reports[i])
    ensures n in TrackAll(w, suffix, reports).0.currentNames <==> CurrentAfter(n in w.currentNames, suffix, reports, n)
    decreases |reports|
  {
    if |reports| > 0 {
      var front := reports[..|reports| - 1];
      var last := reports[|reports| - 1];
      assert reports == front + [last];
      TrackAllAppend(w, suffix, front, last);
      TrackAllFollowsLastReport(w, suffix, front, n);
    }
  }

  /** After the loop, a name some report is about is in the registry exactly when it is tracked. */
  lemma {:induction false} TrackAllRegistersTracked(w: Watcher, suffix: string, reports: seq<Report>, n: string)
    requires forall i :: 0 <= i < |reports| ==> Readable(reports[i])
    requires Reported(suffix, reports, n)
    ensures var r := TrackAll(w, suffix, reports).0; n in r.currentNames <==> n in r.entries
    decreases |reports|
  {
    var front := reports[..|reports| - 1];
    var last := reports[|reports| - 1];
    ReportedFront(suffix, reports, n);
    TrackAllAppend(w, suffix, front, last);
    TrackStep(TrackAll(w, suffix, front).0, suffix, last, n);
    if EntryFiles.EntryName(last.path, suffix) != n {
      TrackAllRegistersTracked(w, suffix, front, n);
    }
  }

  /** The reports before the last one are readable, and one of them is about `n` unless the last one is. */
  lemma ReportedFront(suffix: string, reports: seq<Report>, n: string)
    requires forall i :: 0 <= i < |reports| ==> Readable(reports[i])
    requires Reported(suffix, reports, n)
    ensures var front := reports[..|reports| - 1];
      && reports == front + [reports[|reports| - 1]]
      && (forall i :: 0 <= i < |front| ==> Readable(front[i]))
      && (EntryFiles.EntryName(reports[|reports| - 1].path, suffix) != n ==> Reported(suffix, front, n))
  {
    var front := reports[..|reports| - 1];
    Lists.SplitLast(reports);
    if EntryFiles.EntryName(reports[|reports| - 1].path, suffix) != n {
      var i :| 0 <= i < |reports| && EntryFiles.EntryName(reports[i].path, suffix) == n;
      assert front[i] == reports[i];
    }
  }

  /** One step tracks and registers its own name together, and leaves every other name as it was. */
  lemma TrackStep(w: Watcher, suffix: string, x: Report, n: string)
    requires Readable(x)
    ensures var r := Track(w, suffix, x).value;
      if EntryFiles.EntryName(x.path, suffix) == n then (n in r.currentNames <==> n in r.entries)
      else (n in r.currentNames <==> n in w.currentNames) && (n in r.entries <==> n in w.entries)
  {
    var r := Track(w, suffix, x).value;
    var name := EntryFiles.EntryName(x.path, suffix);
    if name != n {
      assert n in r.currentNames <==> n in r.currentNames - {name};
      assert n in r.entries <==> n in r.entries - {name};
      assert n in w.currentNames <==> n in w.currentNames - {name};
      assert n in w.entries <==> n in w.entries - {name};
    }
  }

  /**
   * When the view ends, every tracked name has been discarded, and a name
   * that no listed path and no report is about keeps its entry.
   */
  lemma ProcessWatchdogViewTouchesOnlyReported(entries: Entries, fs: Files, suffix: string, listing: seq<Path>, reports: seq<Report>, n: string)
    requires forall i :: 0 <= i < |listing| ==> EntryFiles.EntryName(listing[i], suffix) != n
    requires forall i :: 0 <= i < |reports| ==> EntryFiles.EntryName(reports[i].path, suffix) != n
    ensures var r := ProcessWatchdogView(entries, fs, suffix, listing, reports);
      (n in r <==> n in entries) && (n in r ==> r[n] == entries[n])
  {
    UpdateExistingKeeps(entries, fs, suffix, listing, n);
    var w := Start(entries, fs, suffix, listing);
    assert n !in w.currentNames;
    TrackAllKeeps(w, suffix, reports, n);
  }

  lemma {:induction false} UpdateExistingKeeps(entries: Entries, fs: Files, suffix: string, listing: seq<Path>, n: string)
    requires forall i :: 0 <= i < |listing| ==> EntryFiles.EntryName(listing[i], suffix) != n
    ensures var r := UpdateExistingPaths(entries, fs, suffix, listing).0;
      (n in r <==> n in entries) && (n in r ==> r[n] == entries[n])
    decreases |listing|
  {
    if |listing| > 0 {
      assert forall i :: 0 <= i < |listing[1..]| ==> listing[1..][i] == listing[i + 1];
      match UpdatePath(entries, fs, suffix, listing[0])
      case Err(_) =>
        UpdateExistingKeeps(entries, fs, suffix, listing[1..], n);
      case Ok((updated, _)) =>
        UpdateExistingKeeps(updated, fs, suffix, listing[1..], n);
    }
  }

  lemma {:induction false} TrackAllKeeps(w: Watcher, suffix: string, reports: seq<Report>, n: string)
    requires forall i :: 0 <= i < |reports| ==> EntryFiles.EntryName(reports[i].path, suffix) != n
    ensures var r := TrackAll(w, suffix, reports).0;
      && (n in r.currentNames <==> n in w.currentNames)
      && (n in r.entries <==> n in w.entries) && (n in r.entries ==> r.entries[n] == w.entries[n])
    decreases |reports|
  {
    if |reports| > 0 {
      assert forall i :: 0 <= i < |reports[1..]| ==> reports[1..][i] == reports[i + 1];
      match Track(w, suffix, reports[0])
      case Err(_) =>
      case Ok(next) =>
        TrackAllKeeps(next, suffix, reports[1..], n);
    }
  }
}

=== FILE: ordering.dfy ===
/**
 * Sorted lists kept with Python's `bisect` module.
 *
 * Several registries keep a list sorted by a key of each element and find
 * positions with `bisect.bisect_left`. Here a list is `seq<T>`, the key is
 * a function `key: T -> K`, and `lt` is the key order (`__lt__`).
 */
module Ordering {

  /** `lt` is irreflexive, transitive and total: what `bisect` relies on. */
  ghost predicate StrictTotalOrder<K(!new)>(lt: (K, K) -> bool)
  {
    && (forall a :: !lt(a, a))
    && (forall a, b, c :: lt(a, b) && lt(b, c) ==> lt(a, c))
    && (forall a, b :: a == b || lt(a, b) || lt(b, a))
  }

  /** Strictly increasing keys, hence no two elements with equal keys. */
  predicate Sorted<T, K>(key: T -> K, lt: (K, K) -> bool, s: seq<T>)
  {
    forall i, j :: 0 <= i < j < |s| ==> lt(key(s[i]), key(s[j]))
  }

  /**
   * `bisect.bisect_left(s, x)`: the length of the leading run of elements
   * whose key is below `x`.
   */
  function BisectLeft<T, K>(key: T -> K, lt: (K, K) -> bool, s: seq<T>, x: K): (r: nat)
    ensures r <= |s|
    ensures forall i :: 0 <= i < r ==> lt(key(s[i]), x)
    ensures r < |s| ==> !lt(key(s[r]), x)
  {
    if |s| == 0 || !lt(key(s[0]), x) then 0
    else 1 + BisectLeft(key, lt, s[1..], x)
  }

  /** In a sorted list every element from the bisect index on is not below `x`. */
  lemma {:induction false} BisectLeftSplits<T, K(!new)>(key: T -> K, lt: (K, K) -> bool, s: seq<T>, x: K)
    requires StrictTotalOrder(lt) && Sorted(key, lt, s)
    ensures forall i :: BisectLeft(key, lt, s, x) <= i < |s| ==> !lt(key(s[i]), x)
  {
    var r := BisectLeft(key, lt, s, x);
    forall i | r <= i < |s|
      ensures !lt(key(s[i]), x)
    {
      assert i > r ==> lt(key(s[r]), key(s[i]));
    }
  }

  /**
   * Binary search, as `bisect_left` performs it. It agrees with the
   * linear definition on every sorted list.
   */
  method BisectLeftSearch<T, K(!new)>(key: T -> K, lt: (K, K) -> bool, s: seq<T>, x: K) returns (lo: nat)
    requires StrictTotalOrder(lt) && Sorted(key, lt, s)
    ensures lo <= |s|
    ensures forall i :: 0 <= i < lo ==> lt(key(s[i]), x)
    ensures forall i :: lo <= i < |s| ==> !lt(key(s[i]), x)
    ensures lo == BisectLeft(key, lt, s, x)
  {
    BisectLeftSplits(key, lt, s, x);
    lo := 0;
    var hi := |s|;
    while lo < hi
      invariant 0 <= lo <= hi <= |s|
      invariant forall i :: 0 <= i < lo ==> lt(key(s[i]), x)
      invariant forall i :: hi <= i < |s| ==> !lt(key(s[i]), x)
      decreases hi - lo
    {
      var mid := (lo + hi) / 2;
      if lt(key(s[mid]), x) {
        forall i | 0 <= i <= mid
          ensures lt(key(s[i]), x)
        {
          assert i < mid ==> lt(key(s[i]), key(s[mid]));
        }
        lo := mid + 1;
      } else {
        hi := mid;
      }
    }
    BisectLeftUnique(key, lt, s, x, lo);
  }

  /** The binary search and `BisectLeft` give the same index. */
  lemma BisectLeftUnique<T, K>(key: T -> K, lt: (K, K) -> bool, s: seq<T>, x: K, lo: nat)
    requires lo <= |s|
    requires forall i :: 0 <= i < lo ==> lt(key(s[i]), x)
    requires lo < |s| ==> !lt(key(s[lo]), x)
    ensures BisectLeft(key, lt, s, x) == lo
  {
    var r := BisectLeft(key, lt, s, x);
    assert forall i :: 0 <= i < r ==> lt(key(s[i]), x);
  }

  /**
   * In a sorted list an element with key `x` exists exactly when the
   * element at the bisect index has key `x`.
   */
  lemma BisectLeftFinds<T, K(!new)>(key: T -> K, lt: (K, K) -> bool, s: seq<T>, x: K)
    requires StrictTotalOrder(lt) && Sorted(key, lt, s)
    ensures (exists i :: 0 <= i < |s| && key(s[i]) == x)
        <==> (BisectLeft(key, lt, s, x) < |s| && key(s[BisectLeft(key, lt, s, x)]) == x)
  {
    var r := BisectLeft(key, lt, s, x);
    BisectLeftSplits(key, lt, s, x);
    if i :| 0 <= i < |s| && key(s[i]) == x {
      assert !lt(key(s[i]), x);
      assert r < |s| ==> lt(key(s[r]), key(s[i])) || r == i;
      assert r == i;
    }
  }

  /** Inserting at the bisect index an element with a new key keeps the list sorted. */
  lemma InsertKeepsSorted<T, K(!new)>(key: T -> K, lt: (K, K) -> bool, s: seq<T>, e: T)
    requires StrictTotalOrder(lt) && Sorted(key, lt, s)
    requires forall i :: 0 <= i < |s| ==> key(s[i]) != key(e)
    ensures Sorted(key, lt, s[..BisectLeft(key, lt, s, key(e))] + [e] + s[BisectLeft(key, lt, s, key(e))..])
  {
    var x := key(e);
    var r := BisectLeft(key, lt, s, x);
    BisectLeftSplits(key, lt, s, x);
    forall i | r <= i < |s|
      ensures lt(x, key(s[i]))
    {
      assert key(s[i]) != x && !lt(key(s[i]), x);
    }
    InsertBetween(key, lt, s, e, r);
  }

  /** An element above everything before `r` and below everything from `r` on fits at `r`. */
  lemma InsertBetween<T, K>(key: T -> K, lt: (K, K) -> bool, s: seq<T>, e: T, r: nat)
    requires Sorted(key, lt, s) && r <= |s|
    requires forall i :: 0 <= i < r ==> lt(key(s[i]), key(e))
    requires forall i :: r <= i < |s| ==> lt(key(e), key(s[i]))
    ensures Sorted(key, lt, s[..r] + [e] + s[r..])
  {
    var t := s[..r] + [e] + s[r..];
    assert forall k :: 0 <= k < r ==> t[k] == s[k];
    assert forall k :: r < k < |t| ==> t[k] == s[k - 1];
    assert t[r] == e;
    forall i, j | 0 <= i < j < |t|
      ensures lt(key(t[i]), key(t[j]))
    {
      if j < r {
        assert lt(key(s[i]), key(s[j]));
      } else if r < i {
        assert lt(key(s[i - 1]), key(s[j - 1]));
      } else if j == r {
        assert lt(key(s[i]), key(e));
      } else if i == r {
        assert lt(key(e), key(s[j - 1]));
      } else {
        assert lt(key(s[i]), key(s[j - 1]));
      }
    }
  }

  /** Removing any element keeps the list sorted. */
  lemma RemoveKeepsSorted<T, K>(key: T -> K, lt: (K, K) -> bool, s: seq<T>, k: nat)
    requires Sorted(key, lt, s) && k < |s|
    ensures Sorted(key, lt, s[..k] + s[k + 1..])
  {
    var t := s[..k] + s[k + 1..];
    forall i, j | 0 <= i < j < |t|
      ensures lt(key(t[i]), key(t[j]))
    {
      assert t[i] == (if i < k then s[i] else s[i + 1]);
      assert t[j] == (if j < k then s[j] else s[j + 1]);
    }
  }

  /** Replacing an element by one with the same key keeps the list sorted. */
  lemma ReplaceKeepsSorted<T, K>(key: T -> K, lt: (K, K) -> bool, s: seq<T>, k: nat, e: T)
    requires Sorted(key, lt, s) && k < |s| && key(e) == key(s[k])
    ensures Sorted(key, lt, s[k := e])
  {
  }

  /**
   * Python's comparison of strings, lists and tuples: the first differing
   * position decides, and a proper prefix comes first.
   */
  predicate LexLess<E(==)>(lt: (E, E) -> bool, a: seq<E>, b: seq<E>)
    decreases |a|
  {
    if |a| == 0 then |b| > 0
    else |b| > 0 && (lt(a[0], b[0]) || (a[0] == b[0] && LexLess(lt, a[1..], b[1..])))
  }

  lemma {:induction false} LexLessIrreflexive<E(!new)>(lt: (E, E) -> bool, a: seq<E>)
    requires StrictTotalOrder(lt)
    ensures !LexLess(lt, a, a)
    decreases |a|
  {
    if |a| > 0 {
      LexLessIrreflexive(lt, a[1..]);
    }
  }

  lemma {:induction false} LexLessTransitive<E(!new)>(lt: (E, E) -> bool, a: seq<E>, b: seq<E>, c: seq<E>)
    requires StrictTotalOrder(lt)
    requires LexLess(lt, a, b) && LexLess(lt, b, c)
    ensures LexLess(lt, a, c)
    decreases |a|
  {
    if |a| > 0 && a[0] == b[0] && b[0] == c[0] {
      LexLessTransitive(lt, a[1..], b[1..], c[1..]);
    }
  }

  lemma {:induction false} LexLessTotal<E(!new)>(lt: (E, E) -> bool, a: seq<E>, b: seq<E>)
    requires StrictTotalOrder(lt)
    ensures a == b || LexLess(lt, a, b) || LexLess(lt, b, a)
    decreases |a|
  {
    if |a| > 0 && |b| > 0 && a[0] == b[0] {
      LexLessTotal(lt, a[1..], b[1..]);
      assert a == [a[0]] + a[1..] && b == [b[0]] + b[1..];
    }
  }
}

=== FILE: outcomes.dfy ===
/** Optional values and error outcomes shared by every module of the model. */
module Outcomes {

  /** A value that may be missing, as Python's `Optional[T]` or a `None` return. */
  datatype Option<T> = None | Some(value: T) {

    function GetOr(default: T): T
    {
      match this
      case Some(v) => v
      case None => default
    }
  }

  /** The value of a call, or the exception it raises. */
  datatype Result<T, E> = Ok(value: T) | Err(error: E)
}

=== FILE: paths.dfy ===
/**
 * The part of `pathlib.PurePosixPath` the model needs.
 *
 * A path is the tuple of its `parts`: an optional leading root `"/"`
 * followed by file names. Equality and `<` on paths compare the parts,
 * as pathlib does on POSIX systems.
 */
module Paths {
  import opened Outcomes
  import opened Ordering
  import opened Strings

  /** A single path component other than the root. */
  predicate IsFileName(name: string)
  {
    |name| > 0 && name != "." && '/' !in name
  }

  predicate ValidParts(parts: seq<string>)
  {
    forall i :: 0 <= i < |parts| ==> IsFileName(parts[i]) || (i == 0 && parts[i] == "/")
  }

  datatype RawPath = PathOf(parts: seq<string>)

  type Path = p: RawPath | ValidParts(p.parts) witness PathOf([])

  /** `PurePath('.')`, the empty relative path. */
  const Here: Path := PathOf([])

  /** `PurePath('/')`. */
  const Root: Path := PathOf(["/"])

  /** `path.name`: the last component, or `""` for `.` and `/`. */
  function Name(p: Path): (r: string)
    ensures r == "" || IsFileName(r)
    ensures r == "" <==> p == Here || p == Root
  {
    if |p.parts| == 0 || p.parts[|p.parts| - 1] == "/" then "" else p.parts[|p.parts| - 1]
  }

  /** `path.parent`: the path without its last component; `.` and `/` are their own parent. */
  function Parent(p: Path): (r: Path)
    ensures Name(p) == "" ==> r == p
    ensures Name(p) != "" ==> r.parts + [Name(p)] == p.parts
  {
    if Name(p) == "" then p else PathOf(p.parts[..|p.parts| - 1])
  }

  /** A path is determined by its name and parent, the pair `data.File` compares. */
  lemma NameParentDetermine(p: Path, q: Path)
    requires Name(p) == Name(q) && Parent(p) == Parent(q)
    ensures p == q
  {
    if Name(p) != "" {
      assert p.parts == Parent(p).parts + [Name(p)];
    }
  }

  /** The components of a relative path string; empty and `.` segments vanish. */
  function Components(s: string): (r: seq<string>)
    ensures forall i :: 0 <= i < |r| ==> IsFileName(r[i])
  {
    KeepNames(Split(s, '/'))
  }

  function KeepNames(segments: seq<string>): (r: seq<string>)
    requires forall i :: 0 <= i < |segments| ==> '/' !in segments[i]
    ensures forall i :: 0 <= i < |r| ==> IsFileName(r[i])
    ensures |r| <= |segments|
  {
    if |segments| == 0 then []
    else if segments[0] == "" || segments[0] == "." then KeepNames(segments[1..])
    else [segments[0]] + KeepNames(segments[1..])
  }

  /**
   * `directory / s`: an absolute `s` replaces the directory, a relative one
   * is appended component by component.
   */
  function Join(directory: Path, s: string): (r: Path)
    ensures StartsWith(s, "/") ==> |r.parts| > 0 && r.parts[0] == "/"
    ensures !StartsWith(s, "/") ==> |directory.parts| <= |r.parts| && r.parts[..|directory.parts|] == directory.parts
  {
    if StartsWith(s, "/") then PathOf(["/"] + Components(s))
    else PathOf(directory.parts + Components(s))
  }

  /** Joining a single file name appends exactly that name. */
  lemma JoinFileName(directory: Path, name: string)
    requires IsFileName(name)
    ensures Join(directory, name).parts == directory.parts + [name]
    ensures Name(Join(directory, name)) == name
    ensures Parent(Join(directory, name)) == directory
  {
    assert FindChar(name, '/') == None;
    assert Split(name, '/') == [name];
    assert KeepNames([name]) == [name] + KeepNames([]);
    assert Components(name) == [name];
  }

  /** `str(path)`: `.` for the empty path, the root followed by the names, or the names joined by `/`. */
  function PathString(p: Path): string
  {
    if |p.parts| == 0 then "."
    else if p.parts[0] == "/" then "/" + Strings.Join(p.parts[1..], "/")
    else Strings.Join(p.parts, "/")
  }

  /** `pathlib.Path(s)`. */
  function ParsePath(s: string): Path
  {
    Join(Here, s)
  }

  lemma {:induction false} KeepFileNames(names: seq<string>)
    requires forall i :: 0 <= i < |names| ==> IsFileName(names[i]) && '/' !in names[i]
    ensures KeepNames(names) == names
    decreases |names|
  {
    if |names| > 0 {
      KeepFileNames(names[1..]);
      assert names == [names[0]] + names[1..];
    }
  }

  /** The components of names joined by `/` are those names. */
  lemma ComponentsOfJoined(names: seq<string>)
    requires forall i :: 0 <= i < |names| ==> IsFileName(names[i])
    ensures Components(Strings.Join(names, "/")) == names
  {
    if |names| == 0 {
      assert Split("", '/') == [""];
      assert KeepNames([""]) == KeepNames([]);
    } else {
      SplitJoin(names, '/');
      KeepFileNames(names);
    }
  }

  /** A path's string parses back to the same path. */
  lemma ParsePathString(p: Path)
    ensures ParsePath(PathString(p)) == p
  {
    if |p.parts| == 0 {
      assert FindChar(".", '/') == None;
      assert KeepNames(["."]) == KeepNames([]);
    } else if p.parts[0] == "/" {
      var names := p.parts[1..];
      var joined := Strings.Join(names, "/");
      FindCharAfter("", "/" + joined, '/');
      assert ("" + ("/" + joined))[1..] == joined;
      assert Split("/" + joined, '/') == [""] + Split(joined, '/');
      assert KeepNames(Split("/" + joined, '/')) == KeepNames(Split(joined, '/'));
      ComponentsOfJoined(names);
      assert p.parts == ["/"] + names;
    } else {
      ComponentsOfJoined(p.parts);
      assert Strings.Join(p.parts, "/")[0] == p.parts[0][0] by {
        JoinStartsWithFirst(p.parts);
      }
    }
  }

  lemma JoinStartsWithFirst(names: seq<string>)
    requires |names| > 0 && |names[0]| > 0
    ensures |Strings.Join(names, "/")| > 0 && Strings.Join(names, "/")[0] == names[0][0]
  {
  }

  /** The index of the dot that starts the suffix, as `suffix` and `stem` find it. */
  function SuffixDot(name: string): (r: Option<nat>)
    ensures r.Some? ==> 0 < r.value < |name| - 1 && name[r.value] == '.'
    ensures r.Some? ==> '.' !in name[r.value + 1..]
  {
    match LastIndexOf(name, ".")
    case Some(i) =>
      if 0 < i < |name| - 1 then
        assert forall j :: i < j < |name| ==> name[j] != '.' by {
          forall j | i < j < |name|
            ensures name[j] != '.'
          {
            assert !OccursAt(name, ".", j);
            assert name[j..j + 1] == [name[j]];
          }
        }
        assert name[i..i + 1] == ".";
        Some(i)
      else None
    case None => None
  }

  /** `path.suffix`: from the last dot of the name, unless it leads or ends the name. */
  function Suffix(p: Path): (r: string)
    ensures r == "" || (|r| >= 2 && r[0] == '.' && EndsWith(Name(p), r) && '.' !in r[1..])
  {
    match SuffixDot(Name(p))
    case Some(i) => Name(p)[i..]
    case None => ""
  }

  /** `path.stem`: the name without its suffix. */
  function Stem(p: Path): (r: string)
    ensures r + Suffix(p) == Name(p)
  {
    match SuffixDot(Name(p))
    case Some(i) => Name(p)[..i]
    case None => Name(p)
  }

  /** `PurePath.__lt__`: the parts compared as a list of strings. */
  predicate PathLess(a: Path, b: Path)
  {
    LexLess(StrLess, a.parts, b.parts)
  }

  lemma PathLessIsOrder()
    ensures StrictTotalOrder(PathLess)
  {
    StrLessIsOrder();
    forall a: Path | true
      ensures !PathLess(a, a)
    {
      LexLessIrreflexive(StrLess, a.parts);
    }
    forall a: Path, b: Path, c: Path | PathLess(a, b) && PathLess(b, c)
      ensures PathLess(a, c)
    {
      LexLessTransitive(StrLess, a.parts, b.parts, c.parts);
    }
    forall a: Path, b: Path
      ensures a == b || PathLess(a, b) || PathLess(b, a)
    {
      LexLessTotal(StrLess, a.parts, b.parts);
    }
  }

  /**
   * The order of `data.File`: the pair `(name, parent)` compared as a
   * tuple, so files sort by name first.
   */
  predicate FileLess(a: Path, b: Path)
  {
    StrLess(Name(a), Name(b)) || (Name(a) == Name(b) && PathLess(Parent(a), Parent(b)))
  }

  lemma FileLessIsOrder()
    ensures StrictTotalOrder(FileLess)
  {
    StrLessIsOrder();
    PathLessIsOrder();
    forall a: Path, b: Path
      ensures a == b || FileLess(a, b) || FileLess(b, a)
    {
      if Name(a) == Name(b) && Parent(a) == Parent(b) {
        NameParentDetermine(a, b);
      }
    }
  }
}

=== FILE: provide_item.dfy ===
/**
 * `provide_item` of `src/phile/builtins.py`: store a key in a dictionary
 * now, and delete it again when the returned context is left.
 */
module ProvideItem {

  /** `provide_item(target, key, value)`: `target[key] = value`, overwriting any earlier value. */
  function Provide<K(!new), V>(target: map<K, V>, key: K, value: V): (r: map<K, V>)
    ensures key in r && r[key] == value
    ensures forall k :: k != key ==> (k in r <==> k in target) && (k in target ==> r[k] == target[k])
  {
    target[key := value]
  }

  /** `Popper.__exit__`: `del target[key]`, ignoring a key that is already gone. */
  function Exit<K(!new), V>(target: map<K, V>, key: K): (r: map<K, V>)
    ensures key !in r
    ensures forall k :: k != key ==> (k in r <==> k in target) && (k in target ==> r[k] == target[k])
    ensures key !in target ==> r == target
  {
    target - {key}
  }

  /**
   * Providing a key and leaving the context removes the key, whatever it
   * held before, and touches no other key; a key that was absent leaves
   * the dictionary as it was.
   */
  lemma ProvideThenExit<K(!new), V>(target: map<K, V>, key: K, value: V)
    ensures Exit(Provide(target, key, value), key) == Exit(target, key)
    ensures key !in target ==> Exit(Provide(target, key, value), key) == target
  {
    assert Exit(Provide(target, key, value), key) == Exit(target, key);
  }

  /** Other code may delete or rebind the key inside the context; leaving it still only removes that key. */
  lemma ExitAfterChange<K(!new), V>(target: map<K, V>, key: K, value: V, other: map<K, V>)
    requires forall k :: k != key ==> (k in other <==> k in target) && (k in target ==> other[k] == target[k])
    ensures Exit(other, key) == Exit(target, key)
  {
    assert forall k :: k in Exit(other, key) <==> k in Exit(target, key);
  }
}

=== FILE: pubsub_event.dfy ===
/**
 * The event linked list of `phile/pubsub_event/__init__.py`.
 *
 * Each node carries a message (the first node none) and a link to its
 * successor that is set once: to a new node holding the next message, or
 * to the end. The nodes are a list where the successor of position `k` is
 * position `k + 1`. A publisher points at the last node; a subscriber at
 * the node whose message it pulled last.
 */
module PubSubEvent {
  import opened Outcomes

  /** The successor link of a node: not yet set, set to the next node, or set to the end. */
  datatype Link = Pending | Linked | Ended

  datatype Node<T> = Node(content: Option<T>, link: Link)

  /** `Node.EndReached`, turned into `NoMoreEvents` by `pull`, and the failed `assert` of a second link. */
  datatype EventError = NoMoreEvents | AssertionFailed

  /** A publisher: the nodes created so far; it pushes after the last one. */
  datatype Publisher<T> = Publisher(nodes: seq<Node<T>>)

  predicate Valid<T>(p: Publisher<T>)
  {
    && |p.nodes| > 0
    && (forall k :: 0 <= k < |p.nodes| - 1 ==> p.nodes[k].link.Linked?)
    && !p.nodes[|p.nodes| - 1].link.Linked?
    && (forall k :: 0 < k < |p.nodes| ==> p.nodes[k].content.Some?)
  }

  /** The position of `_prev_node`. */
  function Last<T>(p: Publisher<T>): nat
    requires Valid(p)
  {
    |p.nodes| - 1
  }

  function NewPublisher<T>(): (p: Publisher<T>)
    ensures Valid(p) && p.nodes[Last(p)].link.Pending?
  {
    Publisher([Node(None, Pending)])
  }

  /**
   * `Node.set_next` on the last node, as `push` uses it: the link must not
   * be set yet; a new node with the message becomes the last node.
   */
  function Push<T>(p: Publisher<T>, message: T): (r: Result<Publisher<T>, EventError>)
    requires Valid(p)
    ensures r.Ok? <==> p.nodes[Last(p)].link.Pending?
    ensures r.Err? ==> r.error == AssertionFailed
    ensures r.Ok? ==>
      && Valid(r.value)
      && r.value.nodes == p.nodes[Last(p) := Node(p.nodes[Last(p)].content, Linked)] + [Node(Some(message), Pending)]
  {
    var last := p.nodes[Last(p)];
    if !last.link.Pending? then Err(AssertionFailed)
    else Ok(Publisher(p.nodes[Last(p) := Node(last.content, Linked)] + [Node(Some(message), Pending)]))
  }

  /** `Node.set_to_end` on the last node, as `stop` uses it: the link must not be set yet. */
  function Stop<T>(p: Publisher<T>): (r: Result<Publisher<T>, EventError>)
    requires Valid(p)
    ensures r.Ok? <==> p.nodes[Last(p)].link.Pending?
    ensures r.Err? ==> r.error == AssertionFailed
    ensures r.Ok? ==> Valid(r.value) && r.value.nodes == p.nodes[Last(p) := Node(p.nodes[Last(p)].content, Ended)]
  {
    var last := p.nodes[Last(p)];
    if !last.link.Pending? then Err(AssertionFailed)
    else Ok(Publisher(p.nodes[Last(p) := Node(last.content, Ended)]))
  }

  /** A subscriber: the position of its `_prev_node`. */
  datatype Subscriber = Subscriber(prev: nat)

  /** A new subscriber starts at the publisher's last node. */
  function Subscribe<T>(p: Publisher<T>): (s: Subscriber)
    requires Valid(p)
    ensures s.prev == Last(p)
  {
    Subscriber(Last(p))
  }

  /** What one `pull` gives: a message and the advanced subscriber, an error, or a wait. */
  datatype Pulled<T> = Message(content: Option<T>, subscriber: Subscriber) | Failed(error: EventError) | Wait

  /** `Subscriber.pull`: follow the link of the previous node. */
  function Pull<T>(nodes: seq<Node<T>>, s: Subscriber): (r: Pulled<T>)
    requires s.prev < |nodes|
    requires nodes[s.prev].link.Linked? ==> s.prev + 1 < |nodes|
    ensures r.Message? <==> nodes[s.prev].link.Linked?
    ensures r.Message? ==> r.subscriber.prev == s.prev + 1 && r.content == nodes[s.prev + 1].content
    ensures r == Failed(NoMoreEvents) <==> nodes[s.prev].link.Ended?
    ensures r.Wait? <==> nodes[s.prev].link.Pending?
  {
    match nodes[s.prev].link
    case Linked => Message(nodes[s.prev + 1].content, Subscriber(s.prev + 1))
    case Ended => Failed(NoMoreEvents)
    case Pending => Wait
  }

  /**
   * Pulling until `pull` would wait or raise: the messages pulled, and
   * whether it raised `NoMoreEvents`.
   */
  function PullAll<T>(p: Publisher<T>, s: Subscriber): (r: (seq<T>, bool))
    requires Valid(p) && s.prev < |p.nodes|
    ensures |r.0| == Last(p) - s.prev
    ensures r.1 <==> p.nodes[Last(p)].link.Ended?
    decreases |p.nodes| - s.prev
  {
    match Pull(p.nodes, s)
    case Message(c, t) =>
      var rest := PullAll(p, t);
      ([c.value] + rest.0, rest.1)
    case Failed(_) => ([], true)
    case Wait => ([], false)
  }

  /** Pushing messages one after another. */
  function PushAll<T>(p: Publisher<T>, ms: seq<T>): (r: Result<Publisher<T>, EventError>)
    requires Valid(p)
    ensures r.Ok? ==> Valid(r.value) && |r.value.nodes| == |p.nodes| + |ms|
    decreases |ms|
  {
    if |ms| == 0 then Ok(p)
    else
      match Push(p, ms[0])
      case Ok(p1) => PushAll(p1, ms[1..])
      case Err(e) => Err(e)
  }

  /** A push on a running publisher appends its message to what every existing subscriber pulls. */
  lemma {:induction false} PushAppends<T>(p: Publisher<T>, m: T, s: Subscriber)
    requires Valid(p) && p.nodes[Last(p)].link.Pending? && s.prev <= Last(p)
    ensures Push(p, m).Ok?
    ensures PullAll(Push(p, m).value, s) == (PullAll(p, s).0 + [m], false)
    decreases Last(p) - s.prev
  {
    var q := Push(p, m).value;
    if s.prev < Last(p) {
      PushAppends(p, m, Subscriber(s.prev + 1));
      assert q.nodes[s.prev] == p.nodes[s.prev] && q.nodes[s.prev + 1].content == p.nodes[s.prev + 1].content;
      var c := p.nodes[s.prev + 1].content.value;
      assert [c] + (PullAll(p, Subscriber(s.prev + 1)).0 + [m]) == [c] + PullAll(p, Subscriber(s.prev + 1)).0 + [m];
    } else {
      assert q.nodes[s.prev].link == Linked && q.nodes[s.prev + 1] == Node(Some(m), Pending);
      assert PullAll(q, Subscriber(s.prev + 1)) == ([], false);
      assert PullAll(p, s) == ([], false);
      assert [m] + [] == [] + [m];
    }
  }

  /** `stop` makes every existing subscriber end with `NoMoreEvents` after what it already could pull. */
  lemma {:induction false} StopEnds<T>(p: Publisher<T>, s: Subscriber)
    requires Valid(p) && p.nodes[Last(p)].link.Pending? && s.prev <= Last(p)
    ensures Stop(p).Ok?
    ensures PullAll(Stop(p).value, s) == (PullAll(p, s).0, true)
    decreases Last(p) - s.prev
  {
    var q := Stop(p).value;
    if s.prev < Last(p) {
      StopEnds(p, Subscriber(s.prev + 1));
      assert q.nodes[s.prev] == p.nodes[s.prev] && q.nodes[s.prev + 1].content == p.nodes[s.prev + 1].content;
    }
  }

  /** A subscriber pulls exactly the messages pushed after it was created, in push order. */
  lemma {:induction false} SubscriberPullsPushes<T>(p: Publisher<T>, ms: seq<T>, s: Subscriber)
    requires Valid(p) && p.nodes[Last(p)].link.Pending? && s.prev <= Last(p)
    ensures PushAll(p, ms).Ok?
    ensures PushAll(p, ms).value.nodes[Last(PushAll(p, ms).value)].link.Pending?
    ensures PullAll(PushAll(p, ms).value, s) == (PullAll(p, s).0 + ms, false)
    decreases |ms|
  {
    if |ms| == 0 {
      assert PullAll(p, s).0 + ms == PullAll(p, s).0;
    } else {
      PushAppends(p, ms[0], s);
      var p1 := Push(p, ms[0]).value;
      SubscriberPullsPushes(p1, ms[1..], s);
      assert PullAll(p, s).0 + [ms[0]] + ms[1..] == PullAll(p, s).0 + ms;
    }
  }

  /**
   * A subscriber created on a new publisher pulls every pushed message,
   * then gets `NoMoreEvents` once the publisher stops; pushing or
   * stopping again fails the assertion.
   */
  lemma PullsThenNoMoreEvents<T>(ms: seq<T>, m: T)
    ensures PushAll(NewPublisher<T>(), ms).Ok?
    ensures var p := PushAll(NewPublisher<T>(), ms).value;
      && Stop(p).Ok?
      && PullAll(Stop(p).value, Subscriber(0)) == (ms, true)
      && Push(Stop(p).value, m) == Err(AssertionFailed)
      && Stop(Stop(p).value) == Err(AssertionFailed)
  {
    var p0 := NewPublisher<T>();
    SubscriberPullsPushes(p0, ms, Subscriber(0));
    var p := PushAll(p0, ms).value;
    StopEnds(p, Subscriber(0));
    assert PullAll(p0, Subscriber(0)) == ([], false);
    assert [] + ms == ms;
  }
}

=== FILE: pubsub_queue.dfy ===
/**
 * The single-assignment queue of `phile/asyncio/pubsub.py`.
 *
 * A queue is a chain of write-once nodes. Setting a node with a value
 * creates its successor; setting it as an end creates none. The chain is
 * a list of cells, where the successor of the node at position `k` is the
 * node at `k + 1`. Awaiting an unset node is the `Wait` outcome of a read.
 */
module PubSubQueue {
  import opened Outcomes

  /** The state of one node: not yet set, set with a value, or set as the end. */
  datatype Cell<T> = Unset | Holds(value: T) | Ended

  /** `Node.AlreadySet`, `Node.EndReached` and `Node.NotSet`. */
  datatype NodeError = AlreadySet | EndReached | NotSet

  /** `Node.get_nowait`. */
  function GetNowait<T>(c: Cell<T>): (r: Result<T, NodeError>)
    ensures r.Ok? <==> c.Holds?
    ensures r.Ok? ==> r.value == c.value
    ensures r == Err(EndReached) <==> c.Ended?
    ensures r == Err(NotSet) <==> c.Unset?
  {
    match c
    case Holds(v) => Ok(v)
    case Ended => Err(EndReached)
    case Unset => Err(NotSet)
  }

  /** `Node.is_end`. */
  predicate IsEnd<T>(c: Cell<T>)
  {
    c.Ended?
  }

  /** `Node.set`: only an unset node can be set. */
  function SetCell<T>(c: Cell<T>, v: T): (r: Result<Cell<T>, NodeError>)
    ensures r.Ok? <==> c.Unset?
    ensures r.Ok? ==> GetNowait(r.value) == Ok(v) && !IsEnd(r.value)
    ensures r.Err? ==> r.error == AlreadySet
  {
    if c.Unset? then Ok(Holds(v)) else Err(AlreadySet)
  }

  /** `Node.set_end`: only an unset node can be ended. */
  function SetEndCell<T>(c: Cell<T>): (r: Result<Cell<T>, NodeError>)
    ensures r.Ok? <==> c.Unset?
    ensures r.Ok? ==> IsEnd(r.value) && GetNowait(r.value) == Err(EndReached)
    ensures r.Err? ==> r.error == AlreadySet
  {
    if c.Unset? then Ok(Ended) else Err(AlreadySet)
  }

  /**
   * A queue: the chain of nodes created so far and the position of its
   * next node. Every node before the last holds a value, since only
   * setting a value creates a successor.
   */
  datatype Queue<T> = Queue(chain: seq<Cell<T>>, next: nat)

  predicate Valid<T>(q: Queue<T>)
  {
    && |q.chain| > 0 && q.next == |q.chain| - 1
    && forall k :: 0 <= k < q.next ==> q.chain[k].Holds?
  }

  /** A new queue: one unset node. */
  function NewQueue<T>(): (q: Queue<T>)
    ensures Valid(q) && q.chain[q.next].Unset?
  {
    Queue([Unset], 0)
  }

  /** `Queue.put`: set the next node and move to the node it created. */
  function Put<T>(q: Queue<T>, v: T): (r: Result<Queue<T>, NodeError>)
    requires Valid(q)
    ensures r.Ok? <==> q.chain[q.next].Unset?
    ensures r.Err? ==> r.error == AlreadySet
    ensures r.Ok? ==> Valid(r.value) && r.value.chain == q.chain[q.next := Holds(v)] + [Unset] && r.value.next == q.next + 1
  {
    match SetCell(q.chain[q.next], v)
    case Ok(c) => Ok(Queue(q.chain[q.next := c] + [Unset], q.next + 1))
    case Err(e) => Err(e)
  }

  /** `Queue.put_done`: end the next node. */
  function PutDone<T>(q: Queue<T>): (r: Result<Queue<T>, NodeError>)
    requires Valid(q)
    ensures r.Ok? <==> q.chain[q.next].Unset?
    ensures r.Err? ==> r.error == AlreadySet
    ensures r.Ok? ==> Valid(r.value) && r.value.chain == q.chain[q.next := Ended] && r.value.next == q.next
  {
    match SetEndCell(q.chain[q.next])
    case Ok(c) => Ok(Queue(q.chain[q.next := c], q.next))
    case Err(e) => Err(e)
  }

  /** A view: the position of the node it reads next. */
  datatype View = View(at: nat)

  /** `Queue.__aiter__`: a view starting at the queue's next node. */
  function Subscribe<T>(q: Queue<T>): (v: View)
    ensures v.at == q.next
  {
    View(q.next)
  }

  /** What one read of a view gives: a value and the advanced view, the end, or a wait. */
  datatype Read<T> = Got(value: T, view: View) | Stop | Wait

  /** `View.__anext__`: read the current node and advance to its successor. */
  function ViewNext<T>(chain: seq<Cell<T>>, v: View): (r: Read<T>)
    requires v.at < |chain|
    ensures r.Got? <==> chain[v.at].Holds?
    ensures r.Got? ==> r.value == chain[v.at].value && r.view.at == v.at + 1
    ensures r.Stop? <==> IsEnd(chain[v.at])
  {
    match chain[v.at]
    case Holds(x) => Got(x, View(v.at + 1))
    case Ended => Stop
    case Unset => Wait
  }

  /**
   * Reading a view until it stops or must wait: the values read, and
   * whether it reached the end marker.
   */
  function Drain<T>(chain: seq<Cell<T>>, v: View): (r: (seq<T>, bool))
    requires v.at < |chain|
    requires forall k :: v.at <= k < |chain| - 1 ==> chain[k].Holds?
    requires !chain[|chain| - 1].Holds?
    ensures |r.0| == |chain| - 1 - v.at
    ensures r.1 <==> IsEnd(chain[|chain| - 1])
    decreases |chain| - v.at
  {
    match ViewNext(chain, v)
    case Got(x, w) =>
      var rest := Drain(chain, w);
      ([x] + rest.0, rest.1)
    case Stop => ([], true)
    case Wait => ([], false)
  }

  /** Putting values one after another: the queue after the puts, or the first error. */
  function PutAll<T>(q: Queue<T>, vs: seq<T>): (r: Result<Queue<T>, NodeError>)
    requires Valid(q)
    ensures r.Ok? ==> Valid(r.value) && r.value.next == q.next + |vs|
    decreases |vs|
  {
    if |vs| == 0 then Ok(q)
    else
      match Put(q, vs[0])
      case Ok(q1) => PutAll(q1, vs[1..])
      case Err(e) => Err(e)
  }

  /** A put on an open queue appends its value to what every earlier view reads. */
  lemma {:induction false} PutAppends<T>(q: Queue<T>, x: T, v: View)
    requires Valid(q) && q.chain[q.next].Unset? && v.at <= q.next
    ensures Put(q, x).Ok?
    ensures Drain(Put(q, x).value.chain, v) == (Drain(q.chain, v).0 + [x], false)
    decreases q.next - v.at
  {
    var c := Put(q, x).value.chain;
    if v.at < q.next {
      PutAppends(q, x, View(v.at + 1));
      assert c[v.at] == q.chain[v.at];
      assert [c[v.at].value] + (Drain(q.chain, View(v.at + 1)).0 + [x]) == [c[v.at].value] + Drain(q.chain, View(v.at + 1)).0 + [x];
    } else {
      assert c[v.at] == Holds(x) && c[v.at + 1] == Unset;
      assert Drain(c, View(v.at + 1)) == ([], false);
      assert Drain(q.chain, v) == ([], false);
      assert [x] + [] == [] + [x];
    }
  }

  /** `put_done` ends what every earlier view reads, without adding a value. */
  lemma {:induction false} PutDoneEnds<T>(q: Queue<T>, v: View)
    requires Valid(q) && q.chain[q.next].Unset? && v.at <= q.next
    ensures PutDone(q).Ok?
    ensures Drain(PutDone(q).value.chain, v) == (Drain(q.chain, v).0, true)
    decreases q.next - v.at
  {
    var c := PutDone(q).value.chain;
    if v.at < q.next {
      PutDoneEnds(q, View(v.at + 1));
      assert c[v.at] == q.chain[v.at];
    } else {
      assert c[v.at] == Ended;
    }
  }

  /**
   * A view created on an open queue, or any view not past its next node,
   * reads back the values put after it, in put order.
   */
  lemma {:induction false} ViewReadsPuts<T>(q: Queue<T>, vs: seq<T>, v: View)
    requires Valid(q) && q.chain[q.next].Unset? && v.at <= q.next
    ensures PutAll(q, vs).Ok?
    ensures PutAll(q, vs).value.chain[PutAll(q, vs).value.next].Unset?
    ensures Drain(PutAll(q, vs).value.chain, v) == (Drain(q.chain, v).0 + vs, false)
    decreases |vs|
  {
    if |vs| == 0 {
      assert Drain(q.chain, v).0 + vs == Drain(q.chain, v).0;
    } else {
      PutAppends(q, vs[0], v);
      var q1 := Put(q, vs[0]).value;
      ViewReadsPuts(q1, vs[1..], v);
      assert Drain(q.chain, v).0 + [vs[0]] + vs[1..] == Drain(q.chain, v).0 + vs;
    }
  }

  /**
   * From a new queue: a view taken first reads every value put, then
   * stops at the end marker `put_done` sets; a second `put_done` or a
   * put after it fails with `AlreadySet`.
   */
  lemma NewQueueReadsAll<T>(vs: seq<T>, x: T)
    ensures PutAll(NewQueue<T>(), vs).Ok?
    ensures var q := PutAll(NewQueue<T>(), vs).value;
      && PutDone(q).Ok?
      && Drain(PutDone(q).value.chain, View(0)) == (vs, true)
      && PutDone(PutDone(q).value) == Err(AlreadySet)
      && Put(PutDone(q).value, x) == Err(AlreadySet)
  {
    var q0 := NewQueue<T>();
    ViewReadsPuts(q0, vs, View(0));
    var q := PutAll(q0, vs).value;
    PutDoneEnds(q, View(0));
    assert Drain(q0.chain, View(0)) == ([], false);
    assert [] + vs == vs;
    var d := PutDone(q).value;
    assert d.chain[d.next] == Ended;
  }
}

=== FILE: sorted_cache.dfy ===
/**
 * `SortedLoadCache` of `phile/data/__init__.py`: loaded files kept in a
 * list sorted by `File` order (file name first, then parent directory),
 * with one callback per kind of change.
 *
 * Loading is an oracle `load`: `load(p)` is the content read from path
 * `p`, or `None` when the load fails (for `File`, when `p` is not a file).
 * A cache list stands for the map from each tracked path to its content.
 */
module SortedCache {
  import opened Outcomes
  import opened Ordering
  import opened Paths
  import opened Strings
  import opened KeyedLists

  datatype Entry<C> = Entry(path: Path, content: C)

  function EntryPath<C>(e: Entry<C>): Path
  {
    e.path
  }

  /** A cache list: sorted by the `File` order, hence no path twice. */
  predicate IsCache<C>(s: seq<Entry<C>>)
  {
    Sorted(EntryPath, FileLess, s)
  }

  /** A callback call: `on_insert`, `on_pop` or `on_set` with its index and data. */
  datatype Event<C> = OnInsert(index: nat, entry: Entry<C>) | OnPop(index: nat, entry: Entry<C>) | OnSet(index: nat, entry: Entry<C>)

  datatype Updated<C> = Updated(tracked: seq<Entry<C>>, event: Option<Event<C>>)

  lemma CacheDistinct<C>(s: seq<Entry<C>>)
    requires IsCache(s)
    ensures Distinct(EntryPath, s)
  {
    FileLessIsOrder();
  }

  /**
   * `update` as the source writes it: whatever sits at the bisect index is
   * treated as the tracked file for `p` and reloaded, even when its path
   * differs from `p`.
   */
  function UpdateAsWritten<C>(load: Path -> Option<C>, s: seq<Entry<C>>, p: Path): (r: Updated<C>)
    ensures BisectLeft(EntryPath, FileLess, s, p) < |s| ==>
      var i := BisectLeft(EntryPath, FileLess, s, p);
      && (load(s[i].path).None? ==> r == Updated(s[..i] + s[i + 1..], Some(OnPop(i, s[i]))))
      && (load(s[i].path).Some? ==> |r.tracked| == |s| && r.tracked[i].path == s[i].path)
  {
    var i := BisectLeft(EntryPath, FileLess, s, p);
    if i < |s| then
      match load(s[i].path)
      case None => Updated(s[..i] + s[i + 1..], Some(OnPop(i, s[i])))
      case Some(c) => Updated(s[i := Entry(s[i].path, c)], Some(OnSet(i, Entry(s[i].path, c))))
    else
      match load(p)
      case None => Updated(s, None)
      case Some(c) => Updated(s + [Entry(p, c)], Some(OnInsert(i, Entry(p, c))))
  }

  /**
   * `update` with the tracked test the design intends: the entry at the
   * bisect index is the file for `p` only when its path is `p`.
   */
  function Update<C>(load: Path -> Option<C>, s: seq<Entry<C>>, p: Path): (r: Updated<C>)
    ensures r.event.Some? && r.event.value.OnInsert? ==>
      var e := r.event.value;
      && e.index <= |s| && e.index < |r.tracked| && r.tracked[e.index] == e.entry
      && load(p).Some? && e.entry == Entry(p, load(p).value)
      && r.tracked == s[..e.index] + [e.entry] + s[e.index..]
    ensures r.event.Some? && r.event.value.OnSet? ==>
      var e := r.event.value;
      && e.index < |s| && s[e.index].path == p && r.tracked == s[e.index := e.entry]
      && load(p).Some? && e.entry == Entry(p, load(p).value)
    ensures r.event.Some? && r.event.value.OnPop? ==>
      var e := r.event.value;
      && e.index < |s| && s[e.index] == e.entry && e.entry.path == p && load(p).None?
      && r.tracked == s[..e.index] + s[e.index + 1..]
    ensures r.event.None? ==> r.tracked == s && load(p).None?
  {
    var i := BisectLeft(EntryPath, FileLess, s, p);
    if i < |s| && s[i].path == p then
      match load(p)
      case None => Updated(s[..i] + s[i + 1..], Some(OnPop(i, s[i])))
      case Some(c) => Updated(s[i := Entry(p, c)], Some(OnSet(i, Entry(p, c))))
    else
      match load(p)
      case None => Updated(s, None)
      case Some(c) => Updated(s[..i] + [Entry(p, c)] + s[i..], Some(OnInsert(i, Entry(p, c))))
  }

  /** `update` keeps the list a cache. */
  lemma UpdateKeepsCache<C>(load: Path -> Option<C>, s: seq<Entry<C>>, p: Path)
    requires IsCache(s)
    ensures IsCache(Update(load, s, p).tracked)
  {
    FileLessIsOrder();
    var i := BisectLeft(EntryPath, FileLess, s, p);
    BisectLeftFinds(EntryPath, FileLess, s, p);
    if i < |s| && s[i].path == p {
      if load(p).None? {
        RemoveKeepsSorted(EntryPath, FileLess, s, i);
      } else {
        ReplaceKeepsSorted(EntryPath, FileLess, s, i, Entry(p, load(p).value));
      }
    } else if load(p).Some? {
      InsertKeepsSorted(EntryPath, FileLess, s, Entry(p, load(p).value));
    }
  }

  /** On a cache, the bisect index finds `p` exactly when `p` is tracked. */
  lemma TrackedAtBisect<C>(s: seq<Entry<C>>, p: Path)
    requires IsCache(s)
    ensures var i := BisectLeft(EntryPath, FileLess, s, p);
      p in KeysOf(EntryPath, s) <==> i < |s| && s[i].path == p
  {
    FileLessIsOrder();
    BisectLeftFinds(EntryPath, FileLess, s, p);
    if p in KeysOf(EntryPath, s) {
      var j := IndexOf(EntryPath, s, p);
    }
  }

  /** `update` at a bisect index that finds exactly the tracked paths is a map update. */
  lemma UpdateMap<C>(load: Path -> Option<C>, s: seq<Entry<C>>, p: Path)
    requires Distinct(EntryPath, s)
    requires var i := BisectLeft(EntryPath, FileLess, s, p);
      p in KeysOf(EntryPath, s) <==> i < |s| && s[i].path == p
    ensures Distinct(EntryPath, Update(load, s, p).tracked)
    ensures AsMap(EntryPath, Update(load, s, p).tracked)
      == if load(p).Some? then AsMap(EntryPath, s)[p := Entry(p, load(p).value)] else AsMap(EntryPath, s) - {p}
  {
    var i := BisectLeft(EntryPath, FileLess, s, p);
    TrackedMap(s, p, load(p), i, Update(load, s, p).tracked);
  }

  /** The list `update` leaves, by cases on the bisect index and the load, read as a map. */
  lemma TrackedMap<C>(s: seq<Entry<C>>, p: Path, loaded: Option<C>, i: nat, t: seq<Entry<C>>)
    requires Distinct(EntryPath, s) && i <= |s|
    requires p in KeysOf(EntryPath, s) <==> i < |s| && s[i].path == p
    requires t == if i < |s| && s[i].path == p then
        (if loaded.None? then s[..i] + s[i + 1..] else s[i := Entry(p, loaded.value)])
      else if loaded.Some? then s[..i] + [Entry(p, loaded.value)] + s[i..]
      else s
    ensures Distinct(EntryPath, t)
    ensures AsMap(EntryPath, t)
      == if loaded.Some? then AsMap(EntryPath, s)[p := Entry(p, loaded.value)] else AsMap(EntryPath, s) - {p}
  {
    AsMapAt(EntryPath, s);
    if i < |s| && s[i].path == p {
      assert EntryPath(s[i]) == p;
      if loaded.None? {
        AsMapRemove(EntryPath, s, i);
      } else {
        AsMapReplace(EntryPath, s, i, Entry(p, loaded.value));
      }
    } else if loaded.Some? {
      AsMapInsert(EntryPath, s, i, Entry(p, loaded.value));
    } else {
      assert p !in AsMap(EntryPath, s);
    }
  }

  /**
   * `update` on a cache is the map update the design describes: a path
   * that loads maps to its new content, one that does not is dropped, and
   * every other path keeps its content.
   */
  lemma UpdateAbstracts<C>(load: Path -> Option<C>, s: seq<Entry<C>>, p: Path)
    requires IsCache(s)
    ensures IsCache(Update(load, s, p).tracked)
    ensures Distinct(EntryPath, s) && Distinct(EntryPath, Update(load, s, p).tracked)
    ensures AsMap(EntryPath, Update(load, s, p).tracked)
      == if load(p).Some? then AsMap(EntryPath, s)[p := Entry(p, load(p).value)] else AsMap(EntryPath, s) - {p}
  {
    CacheDistinct(s);
    UpdateKeepsCache(load, s, p);
    TrackedAtBisect(s, p);
    UpdateMap(load, s, p);
  }

  /** The map a sequence of updates describes: each path reloaded in turn. */
  function Reload<C>(load: Path -> Option<C>, m: map<Path, Entry<C>>, ps: seq<Path>): (r: map<Path, Entry<C>>)
    ensures forall q :: q !in ps ==> (q in r <==> q in m) && (q in r ==> r[q] == m[q])
    ensures forall q :: q in ps ==> (q in r <==> load(q).Some?) && (q in r ==> r[q] == Entry(q, load(q).value))
    decreases |ps|
  {
    if |ps| == 0 then m
    else Reload(load, if load(ps[0]).Some? then m[ps[0] := Entry(ps[0], load(ps[0]).value)] else m - {ps[0]}, ps[1..])
  }

  /** `update_paths`: `update` each path in turn, collecting the callback calls. */
  function UpdatePaths<C>(load: Path -> Option<C>, s: seq<Entry<C>>, ps: seq<Path>): (r: (seq<Entry<C>>, seq<Event<C>>))
    ensures |r.1| <= |ps|
    decreases |ps|
  {
    if |ps| == 0 then (s, [])
    else
      var first := Update(load, s, ps[0]);
      var rest := UpdatePaths(load, first.tracked, ps[1..]);
      (rest.0, (if first.event.Some? then [first.event.value] else []) + rest.1)
  }

  /**
   * `update_paths` on a cache keeps a cache, and what it tracks is the
   * content each given path loads, with every other path unchanged.
   */
  lemma {:induction false} UpdatePathsAbstracts<C>(load: Path -> Option<C>, s: seq<Entry<C>>, ps: seq<Path>)
    requires IsCache(s)
    ensures IsCache(UpdatePaths(load, s, ps).0)
    ensures Distinct(EntryPath, s) && Distinct(EntryPath, UpdatePaths(load, s, ps).0)
    ensures AsMap(EntryPath, UpdatePaths(load, s, ps).0) == Reload(load, AsMap(EntryPath, s), ps)
    decreases |ps|
  {
    CacheDistinct(s);
    if |ps| > 0 {
      UpdateAbstracts(load, s, ps[0]);
      UpdatePathsAbstracts(load, Update(load, s, ps[0]).tracked, ps[1..]);
    }
  }

  /** The tracked paths, in list order. */
  function TrackedPaths<C>(s: seq<Entry<C>>): (r: seq<Path>)
    ensures |r| == |s| && forall k :: 0 <= k < |s| ==> r[k] == s[k].path
  {
    seq(|s|, k requires 0 <= k < |s| => s[k].path)
  }

  /**
   * `update_tracked`: `update_paths` over the tracked paths. What stays
   * tracked is exactly the tracked paths that still load, each with its
   * new content, and nothing new is tracked.
   */
  lemma UpdateTrackedReloads<C>(load: Path -> Option<C>, s: seq<Entry<C>>)
    requires IsCache(s)
    ensures var r := UpdatePaths(load, s, TrackedPaths(s)).0;
      && IsCache(r) && Distinct(EntryPath, r)
      && (forall q :: q in AsMap(EntryPath, r) <==> q in KeysOf(EntryPath, s) && load(q).Some?)
      && forall q :: q in AsMap(EntryPath, r) ==> AsMap(EntryPath, r)[q] == Entry(q, load(q).value)
  {
    var ps := TrackedPaths(s);
    UpdatePathsAbstracts(load, s, ps);
    AsMapAt(EntryPath, s);
    forall q ensures q in ps <==> q in KeysOf(EntryPath, s) {
      if q in ps {
        var k :| 0 <= k < |ps| && ps[k] == q;
        assert EntryPath(s[k]) == q;
      }
    }
  }

  /** Updating one loadable path twice inserts it, then sets it, as the cache tests expect. */
  lemma UpdateTwiceInsertsThenSets<C>(load: Path -> Option<C>, p: Path)
    requires load(p).Some?
    ensures UpdatePaths(load, [], [p, p]) == ([Entry(p, load(p).value)], [OnInsert(0, Entry(p, load(p).value)), OnSet(0, Entry(p, load(p).value))])
  {
    var e := Entry(p, load(p).value);
    assert Update(load, [], p) == Updated([e], Some(OnInsert(0, e)));
    assert [p, p][1..] == [p];
    FileLessIsOrder();
    assert BisectLeft(EntryPath, FileLess, [e], p) == 0;
    assert Update(load, [e], p) == Updated([e], Some(OnSet(0, e)));
    assert [p][1..] == [];
    assert UpdatePaths(load, [e], []) == ([e], []);
    assert [OnSet(0, e)] + [] == [OnSet(0, e)];
    assert UpdatePaths(load, [e], [p]) == ([e], [OnSet(0, e)]);
    assert [OnInsert(0, e)] + [OnSet(0, e)] == [OnInsert(0, e), OnSet(0, e)];
  }

  const Exists: Path := PathOf(["/", "tmp", "exists"])
  const Before: Path := PathOf(["/", "tmp", "before"])

  /** `before` sorts ahead of `exists` in the same directory. */
  lemma BeforeFirst()
    ensures FileLess(Before, Exists) && Before != Exists
  {
    assert Name(Before) == "before" && Name(Exists) == "exists";
    assert CharLess('b', 'e');
    assert StrLess("before", "exists");
  }

  /**
   * With `exists` tracked, updating `before` as written reloads `exists`
   * in place and reports `on_set` at index 0; `before` is never tracked.
   */
  lemma PrependOverwritesAsWritten<C>(load: Path -> Option<C>, c: C)
    requires load(Before).Some? && load(Exists).Some?
    ensures var r := UpdateAsWritten(load, [Entry(Exists, c)], Before);
      && r.tracked == [Entry(Exists, load(Exists).value)]
      && r.event == Some(OnSet(0, Entry(Exists, load(Exists).value)))
  {
    BeforeFirst();
    assert BisectLeft(EntryPath, FileLess, [Entry(Exists, c)], Before) == 0;
  }

  /** The corrected `update` prepends `before` and reports `on_insert` at index 0. */
  lemma PrependInserts<C>(load: Path -> Option<C>, c: C)
    requires load(Before).Some?
    ensures var r := Update(load, [Entry(Exists, c)], Before);
      && r.tracked == [Entry(Before, load(Before).value), Entry(Exists, c)]
      && r.event == Some(OnInsert(0, Entry(Before, load(Before).value)))
  {
    BeforeFirst();
    assert BisectLeft(EntryPath, FileLess, [Entry(Exists, c)], Before) == 0;
  }
}

=== FILE: sorted_sets.dfy ===
/**
 * `sorted(s)` for a finite set `s` under a strict total order `lt`: the
 * elements in increasing order. The uniqueness lemma says any other
 * increasing listing of the same elements is the same sequence.
 */
module SortedSets {
  import opened Ordering

  /** Each element is below every later one. */
  predicate Increasing<K>(lt: (K, K) -> bool, s: seq<K>)
  {
    forall i, j :: 0 <= i < j < |s| ==> lt(s[i], s[j])
  }

  /** The elements of a sequence, as a set. */
  function Elements<K>(s: seq<K>): set<K>
  {
    set x | x in s
  }

  /** The elements of a sequence with one element in front. */
  lemma ElementsCons<K>(x: K, s: seq<K>)
    ensures Elements([x] + s) == {x} + Elements(s)
  {
    assert forall y :: y in [x] + s <==> y == x || y in s;
  }

  /** The elements of a non-empty sequence: its head and those of its tail. */
  lemma ElementsHead<K>(s: seq<K>)
    requires |s| > 0
    ensures Elements(s) == {s[0]} + Elements(s[1..])
  {
    assert s == [s[0]] + s[1..];
    ElementsCons(s[0], s[1..]);
  }

  /** An element of a non-empty set. */
  lemma SomeElement<K>(s: set<K>) returns (x: K)
    requires s != {}
    ensures x in s
  {
    if forall y :: y !in s {
      assert false;
    }
    x :| x in s;
  }

  /** The least element of a non-empty set. */
  lemma Least<K(!new)>(lt: (K, K) -> bool, s: set<K>) returns (m: K)
    requires StrictTotalOrder(lt) && s != {}
    ensures m in s && forall y :: y in s ==> y == m || lt(m, y)
    decreases |s|
  {
    var x := SomeElement(s);
    var others := s - {x};
    if others == {} {
      assert s == {x};
      return x;
    }
    var n := Least(lt, others);
    assert forall y :: y in s ==> y == x || y in others;
    m := if lt(x, n) then x else n;
  }

  /** `sorted(s)`: the elements of `s`, least first. */
  function SortedSet<K(!new)>(lt: (K, K) -> bool, s: set<K>): (r: seq<K>)
    requires StrictTotalOrder(lt)
    ensures Increasing(lt, r) && Elements(r) == s && |r| == |s|
    decreases |s|
  {
    if s == {} then []
    else
      assert exists m :: m in s && forall y :: y in s ==> y == m || lt(m, y) by {
        var least := Least(lt, s);
        assert least in s && forall y :: y in s ==> y == least || lt(least, y);
      }
      var m :| m in s && forall y :: y in s ==> y == m || lt(m, y);
      var rest := SortedSet(lt, s - {m});
      assert Increasing(lt, [m] + rest) && Elements([m] + rest) == s && |[m] + rest| == |s| by {
        LeastFirst(lt, s, m, rest);
      }
      [m] + rest
  }

  lemma LeastFirst<K>(lt: (K, K) -> bool, s: set<K>, m: K, rest: seq<K>)
    requires m in s && forall y :: y in s ==> y == m || lt(m, y)
    requires Increasing(lt, rest) && Elements(rest) == s - {m} && |rest| == |s - {m}|
    ensures Increasing(lt, [m] + rest) && Elements([m] + rest) == s && |[m] + rest| == |s|
  {
    forall x ensures x in Elements([m] + rest) <==> x in s {
      assert x in [m] + rest <==> x == m || x in rest;
      assert x in rest <==> x in Elements(rest);
    }
    forall k | 0 <= k < |rest| ensures lt(m, rest[k]) {
      assert rest[k] in Elements(rest);
    }
  }

  /** There is one increasing listing of a set. */
  lemma {:induction false} IncreasingUnique<K(!new)>(lt: (K, K) -> bool, a: seq<K>, b: seq<K>)
    requires StrictTotalOrder(lt)
    requires Increasing(lt, a) && Increasing(lt, b) && Elements(a) == Elements(b)
    ensures a == b
    decreases |a|
  {
    assert |b| == 0 || b[0] in Elements(b);
    if |a| > 0 {
      assert a[0] in Elements(a);
      assert a[0] in b && b[0] in a;
      assert a[0] == b[0];
      assert Elements(a[1..]) == Elements(b[1..]) by {
        forall x | x in Elements(a[1..]) ensures x in Elements(b[1..]) {
          var i :| 0 <= i < |a[1..]| && a[1..][i] == x;
          assert a[i + 1] == x && x in Elements(a) && x in Elements(b);
          var j :| 0 <= j < |b| && b[j] == x;
          assert j != 0;
          assert b[1..][j - 1] == x;
        }
        forall x | x in Elements(b[1..]) ensures x in Elements(a[1..]) {
          var j :| 0 <= j < |b[1..]| && b[1..][j] == x;
          assert b[j + 1] == x && x in Elements(b) && x in Elements(a);
          var i :| 0 <= i < |a| && a[i] == x;
          assert i != 0;
          assert a[1..][i - 1] == x;
        }
      }
      IncreasingUnique(lt, a[1..], b[1..]);
    }
  }
}

=== FILE: strings.dfy ===
/**
 * The parts of Python's `str` behaviour that the model relies on:
 * prefixes and suffixes, `find`, `rpartition`, `split`, `join` and `strip`.
 * Strings are sequences of characters; there is no normalisation.
 */
module Strings {
  import opened Outcomes
  import opened Ordering

  predicate StartsWith(s: string, prefix: string)
  {
    |prefix| <= |s| && s[..|prefix|] == prefix
  }

  predicate EndsWith(s: string, suffix: string)
  {
    |suffix| <= |s| && s[|s| - |suffix|..] == suffix
  }

  /** `s.removeprefix(prefix)`. */
  function RemovePrefix(s: string, prefix: string): (r: string)
    ensures StartsWith(s, prefix) ==> prefix + r == s
    ensures !StartsWith(s, prefix) ==> r == s
  {
    if StartsWith(s, prefix) then s[|prefix|..] else s
  }

  /** `s.removesuffix(suffix)`. */
  function RemoveSuffix(s: string, suffix: string): (r: string)
    ensures EndsWith(s, suffix) ==> r + suffix == s
    ensures !EndsWith(s, suffix) ==> r == s
  {
    if EndsWith(s, suffix) then s[..|s| - |suffix|] else s
  }

  lemma RemoveSuffixOfAppended(s: string, suffix: string)
    ensures RemoveSuffix(s + suffix, suffix) == s
  {
    assert (s + suffix)[|s + suffix| - |suffix|..] == suffix;
    assert (s + suffix)[..|s|] == s;
  }

  /** `pattern` occurs in `s` starting at index `i`. */
  predicate OccursAt(s: string, pattern: string, i: int)
  {
    0 <= i && i + |pattern| <= |s| && s[i..i + |pattern|] == pattern
  }

  predicate Contains(s: string, pattern: string)
  {
    exists i :: 0 <= i <= |s| && OccursAt(s, pattern, i)
  }

  /** The largest index `j <= i` at which `pattern` occurs. */
  function LastIndexUpTo(s: string, pattern: string, i: int): (r: Option<nat>)
    ensures r.Some? ==> r.value <= i && OccursAt(s, pattern, r.value)
    ensures r.Some? ==> forall j :: r.value < j <= i ==> !OccursAt(s, pattern, j)
    ensures r.None? ==> forall j :: j <= i ==> !OccursAt(s, pattern, j)
    decreases i + 1
  {
    if i < 0 then None
    else if OccursAt(s, pattern, i) then Some(i)
    else LastIndexUpTo(s, pattern, i - 1)
  }

  /** The index of the last occurrence of `pattern`, as `str.rpartition` splits at. */
  function LastIndexOf(s: string, pattern: string): (r: Option<nat>)
    ensures r.Some? ==> OccursAt(s, pattern, r.value)
    ensures r.Some? ==> forall j :: r.value < j ==> !OccursAt(s, pattern, j)
    ensures r.None? <==> !Contains(s, pattern)
  {
    LastIndexUpTo(s, pattern, |s| - |pattern|)
  }

  /** `s.find(c)` for a single character, as an optional index. */
  function FindChar(s: string, c: char): (r: Option<nat>)
    ensures r.Some? ==> r.value < |s| && s[r.value] == c && c !in s[..r.value]
    ensures r.None? <==> c !in s
  {
    var r := FindCharFrom(s, c, 0);
    if r.Some? then
      assert forall k :: 0 <= k < r.value ==> s[..r.value][k] == s[k];
      r
    else
      r
  }

  /** The first index at or after `from` holding `c`. */
  function FindCharFrom(s: string, c: char, from: nat): (r: Option<nat>)
    requires from <= |s|
    ensures r.Some? ==> from <= r.value < |s| && s[r.value] == c
    ensures r.Some? ==> forall k :: from <= k < r.value ==> s[k] != c
    ensures r.None? ==> forall k :: from <= k < |s| ==> s[k] != c
    decreases |s| - from
  {
    if from == |s| then None
    else if s[from] == c then Some(from)
    else FindCharFrom(s, c, from + 1)
  }

  /** `s.split(sep)` for a one-character separator. */
  function Split(s: string, sep: char): (parts: seq<string>)
    ensures |parts| >= 1
    ensures forall k :: 0 <= k < |parts| ==> sep !in parts[k]
    decreases |s|
  {
    match FindChar(s, sep)
    case None => [s]
    case Some(i) => [s[..i]] + Split(s[i + 1..], sep)
  }

  /** `sep.join(parts)`. */
  function Join(parts: seq<string>, sep: string): string
  {
    if |parts| == 0 then ""
    else if |parts| == 1 then parts[0]
    else parts[0] + sep + Join(parts[1..], sep)
  }

  /** Joining what `Split` produced gives the original string back. */
  lemma {:induction false} JoinSplit(s: string, sep: char)
    ensures Join(Split(s, sep), [sep]) == s
    decreases |s|
  {
    match FindChar(s, sep)
    case None =>
    case Some(i) =>
      var rest := Split(s[i + 1..], sep);
      JoinSplit(s[i + 1..], sep);
      assert Split(s, sep) == [s[..i]] + rest;
      assert s == s[..i] + [sep] + s[i + 1..];
  }

  /** Splitting a join of parts free of the separator gives the parts back. */
  lemma {:induction false} SplitJoin(parts: seq<string>, sep: char)
    requires |parts| > 0
    requires forall k :: 0 <= k < |parts| ==> sep !in parts[k]
    ensures Split(Join(parts, [sep]), sep) == parts
    decreases |parts|
  {
    if |parts| > 1 {
      var rest := Join(parts[1..], [sep]);
      SplitJoin(parts[1..], sep);
      FindCharAfter(parts[0], [sep] + rest, sep);
      var s := parts[0] + [sep] + rest;
      assert s == parts[0] + ([sep] + rest);
      assert s[..|parts[0]|] == parts[0];
      assert s[|parts[0]| + 1..] == rest;
      assert parts == [parts[0]] + parts[1..];
    }
  }

  /** The characters `str.isspace` accepts. */
  predicate IsSpace(c: char)
  {
    c == ' ' || ('\t' <= c <= '\r') || ('\U{1c}' <= c <= '\U{1f}')
    || c == '\U{85}' || c == '\U{a0}' || c == '\U{1680}'
    || ('\U{2000}' <= c <= '\U{200a}') || c == '\U{2028}' || c == '\U{2029}'
    || c == '\U{202f}' || c == '\U{205f}' || c == '\U{3000}'
  }

  function StripLeft(s: string): (r: string)
    ensures |r| <= |s| && EndsWith(s, r)
    ensures |r| > 0 ==> !IsSpace(r[0])
  {
    if |s| > 0 && IsSpace(s[0]) then StripLeft(s[1..]) else s
  }

  function StripRight(s: string): (r: string)
    ensures |r| <= |s| && StartsWith(s, r)
    ensures |r| > 0 ==> !IsSpace(r[|r| - 1])
  {
    if |s| > 0 && IsSpace(s[|s| - 1]) then StripRight(s[..|s| - 1]) else s
  }

  /** `s.strip()`: whitespace removed from both ends. */
  function Strip(s: string): (r: string)
    ensures |r| > 0 ==> !IsSpace(r[0]) && !IsSpace(r[|r| - 1])
  {
    StripLeft(StripRight(s))
  }

  /** A string without whitespace at either end is its own strip, also after one leading space. */
  lemma StripUnspaced(s: string)
    requires |s| > 0 && !IsSpace(s[0]) && !IsSpace(s[|s| - 1])
    ensures Strip(s) == s
    ensures Strip(" " + s) == s
  {
    assert (" " + s)[1..] == s;
  }

  /** `s.rstrip(chars)`: trailing characters from `chars` removed. */
  function StripRightChars(s: string, chars: set<char>): (r: string)
    ensures StartsWith(s, r)
    ensures |r| > 0 ==> r[|r| - 1] !in chars
  {
    if |s| > 0 && s[|s| - 1] in chars then StripRightChars(s[..|s| - 1], chars) else s
  }

  function CharLess(a: char, b: char): bool
  {
    a < b
  }

  /** Python's `str.__lt__`: code points compared lexicographically. */
  predicate StrLess(a: string, b: string)
  {
    LexLess(CharLess, a, b)
  }

  lemma StrLessIsOrder()
    ensures StrictTotalOrder(StrLess)
  {
    assert StrictTotalOrder(CharLess);
    forall a | true
      ensures !StrLess(a, a)
    {
      LexLessIrreflexive(CharLess, a);
    }
    forall a, b, c | StrLess(a, b) && StrLess(b, c)
      ensures StrLess(a, c)
    {
      LexLessTransitive(CharLess, a, b, c);
    }
    forall a, b
      ensures a == b || StrLess(a, b) || StrLess(b, a)
    {
      LexLessTotal(CharLess, a, b);
    }
  }

  /** An occurrence with none after it is the one `LastIndexOf` finds. */
  lemma LastOccurrence(s: string, pattern: string, i: nat)
    requires OccursAt(s, pattern, i)
    requires forall j :: i < j ==> !OccursAt(s, pattern, j)
    ensures LastIndexOf(s, pattern) == Some(i)
  {
    assert Contains(s, pattern);
  }

  /** The first `c` in `v + w` is the head of `w` when `v` holds none. */
  lemma FindCharAfter(v: string, w: string, c: char)
    requires c !in v && |w| > 0 && w[0] == c
    ensures FindChar(v + w, c) == Some(|v|)
  {
    var s := v + w;
    assert s[|v|] == c;
    assert forall k :: 0 <= k < |v| ==> s[k] == v[k];
    assert forall k :: |v| < k <= |s| ==> s[..k][|v|] == c;
  }

  /** An occurrence splits the string into the text before, the pattern and the text after. */
  lemma SplitAround(s: string, pattern: string, i: nat)
    requires OccursAt(s, pattern, i)
    ensures s == s[..i] + pattern + s[i + |pattern|..]
  {
  }

  /** Occurrences in a suffix are occurrences in the whole, shifted. */
  lemma OccursAtShift(prefix: string, t: string, pattern: string, j: nat)
    ensures OccursAt(prefix + t, pattern, |prefix| + j) <==> OccursAt(t, pattern, j)
  {
    if |prefix| + j + |pattern| <= |prefix + t| {
      assert (prefix + t)[|prefix| + j..|prefix| + j + |pattern|] == t[j..j + |pattern|];
    }
  }

  lemma Concat4(a: string, b: string, c: string, d: string, s: string)
    requires s == a + b + (c + d)
    ensures a + b + c + d == s
  {
  }

  /** The pieces of a four-part concatenation, recovered by slicing. */
  lemma Slices4(a: string, b: string, c: string, d: string)
    ensures (a + b + c + d)[..|a|] == a
    ensures (a + b + c + d)[|a|..|a| + |b|] == b
    ensures (a + b + c + d)[|a| + |b|..] == c + d
  {
    var s := a + b + c + d;
    assert s == a + (b + (c + d));
  }

  /** An occurrence starts with the first character of the pattern. */
  lemma OccursAtHead(s: string, pattern: string, j: nat)
    requires j < |s| && |pattern| > 0
    ensures OccursAt(s, pattern, j) ==> s[j] == pattern[0]
  {
  }
}

=== FILE: tmux_commands.dfy ===
/**
 * `CommandBuilder` of `phile/tmux/__init__.py`: the tmux command strings
 * the control-mode client sends. Shell quoting (`shlex.quote`) is a
 * parameter `quote`.
 */
module TmuxCommands {
  import opened Outcomes
  import opened Strings

  /** `exit_client`: an empty command line asks the server to let the client go. */
  function ExitClient(): (r: string)
    ensures |r| == 0
  {
    ""
  }

  /** `refresh_client(no_output=...)`: no flag, `-F no-output`, or `-F ''`. */
  function RefreshClient(noOutput: Option<bool>): (r: string)
    ensures StartsWith(r, "refresh-client")
  {
    var flags :=
      match noOutput
      case None => ""
      case Some(true) => " -F no-output"
      case Some(false) => " -F ''";
    "refresh-client" + flags
  }

  /** Reads the `no_output` setting back from a refresh command. */
  function RefreshSetting(command: string): Option<Option<bool>>
  {
    if command == "refresh-client" then Some(None)
    else if command == "refresh-client -F no-output" then Some(Some(true))
    else if command == "refresh-client -F ''" then Some(Some(false))
    else None
  }

  /** The three settings give three different commands, and each reads back as itself. */
  lemma RefreshClientRoundTrip(noOutput: Option<bool>)
    ensures RefreshSetting(RefreshClient(noOutput)) == Some(noOutput)
  {
    match noOutput
    case None =>
    case Some(true) =>
      assert RefreshClient(noOutput) == "refresh-client -F no-output";
      assert RefreshClient(noOutput) != "refresh-client" by { assert |RefreshClient(noOutput)| != |"refresh-client"|; }
    case Some(false) =>
      assert RefreshClient(noOutput) == "refresh-client -F ''";
      assert RefreshClient(noOutput) != "refresh-client" by { assert |RefreshClient(noOutput)| != |"refresh-client"|; }
      assert RefreshClient(noOutput) != "refresh-client -F no-output" by {
        assert |RefreshClient(noOutput)| != |"refresh-client -F no-output"|;
      }
  }

  /** `set_destroy_unattached(to_destroy)`. */
  function SetDestroyUnattached(toDestroy: bool): (r: string)
    ensures StartsWith(r, "set-option destroy-unattached ")
  {
    "set-option destroy-unattached " + (if toDestroy then "on" else "off")
  }

  /** The value a `destroy-unattached` command sets. */
  function DestroyUnattachedSetting(command: string): Option<bool>
  {
    if command == "set-option destroy-unattached on" then Some(true)
    else if command == "set-option destroy-unattached off" then Some(false)
    else None
  }

  lemma SetDestroyUnattachedRoundTrip(toDestroy: bool)
    ensures DestroyUnattachedSetting(SetDestroyUnattached(toDestroy)) == Some(toDestroy)
  {
    if !toDestroy {
      assert SetDestroyUnattached(toDestroy) != "set-option destroy-unattached on" by {
        assert |SetDestroyUnattached(toDestroy)| != |"set-option destroy-unattached on"|;
      }
    }
  }

  const StatusRightPrefix := "set-option -g status-right "

  /** `set_global_status_right(s)`: the option name followed by the quoted string. */
  function SetGlobalStatusRight(quote: string -> string, status: string): (r: string)
    ensures StartsWith(r, StatusRightPrefix)
    ensures RemovePrefix(r, StatusRightPrefix) == quote(status)
  {
    assert (StatusRightPrefix + quote(status))[..|StatusRightPrefix|] == StatusRightPrefix;
    StatusRightPrefix + quote(status)
  }

  /** With a quoting that loses nothing, different status strings give different commands. */
  lemma SetGlobalStatusRightInjective(quote: string -> string, a: string, b: string)
    requires quote(a) == quote(b) ==> a == b
    ensures SetGlobalStatusRight(quote, a) == SetGlobalStatusRight(quote, b) ==> a == b
  {
    if SetGlobalStatusRight(quote, a) == SetGlobalStatusRight(quote, b) {
      assert quote(a) == RemovePrefix(SetGlobalStatusRight(quote, a), StatusRightPrefix);
    }
  }

  /** `unset_global_status_right`: back to the default status line. */
  function UnsetGlobalStatusRight(): (r: string)
    ensures !StartsWith(r, StatusRightPrefix)
  {
    var r := "set-option -gu status-right";
    assert r[13] != StatusRightPrefix[13];
    r
  }

  /** A command built by `CommandBuilder`, by the method and arguments that built it. */
  datatype Command =
    | Exit
    | Refresh(noOutput: Option<bool>)
    | DestroyUnattached(toDestroy: bool)
    | StatusRight(status: string)
    | UnsetStatusRight

  /** The command line each builder method returns. */
  function Build(quote: string -> string, c: Command): (r: string)
    ensures |r| == 0 <==> c.Exit?
  {
    match c
    case Exit => ExitClient()
    case Refresh(noOutput) => RefreshClient(noOutput)
    case DestroyUnattached(toDestroy) => SetDestroyUnattached(toDestroy)
    case StatusRight(status) => SetGlobalStatusRight(quote, status)
    case UnsetStatusRight => UnsetGlobalStatusRight()
  }

  /** Reads a command line back as the builder call that produces it; `unquote` undoes the shell quoting. */
  function ParseCommand(unquote: string -> Option<string>, line: string): Option<Command>
  {
    if line == "" then Some(Exit)
    else if RefreshSetting(line).Some? then Some(Refresh(RefreshSetting(line).value))
    else if DestroyUnattachedSetting(line).Some? then Some(DestroyUnattached(DestroyUnattachedSetting(line).value))
    else if line == UnsetGlobalStatusRight() then Some(UnsetStatusRight)
    else if StartsWith(line, StatusRightPrefix) then
      match unquote(RemovePrefix(line, StatusRightPrefix))
      case Some(status) => Some(StatusRight(status))
      case None => None
    else None
  }

  /** A status-right command is none of the fixed command lines. */
  lemma StatusRightIsNotFixed(line: string)
    requires StartsWith(line, StatusRightPrefix)
    ensures line != "" && RefreshSetting(line).None? && DestroyUnattachedSetting(line).None?
    ensures line != UnsetGlobalStatusRight()
  {
    assert line[0] == 's' && line[11] == '-' && line[13] == ' ';
    assert UnsetGlobalStatusRight()[13] == 'u';
    assert "refresh-client"[0] == 'r' && "refresh-client -F no-output"[0] == 'r' && "refresh-client -F ''"[0] == 'r';
    assert "set-option destroy-unattached on"[11] == 'd' && "set-option destroy-unattached off"[11] == 'd';
  }

  /** Every builder call reads back as itself when the quoting can be undone. */
  lemma BuildThenParse(quote: string -> string, unquote: string -> Option<string>, c: Command)
    requires forall s :: unquote(quote(s)) == Some(s)
    ensures ParseCommand(unquote, Build(quote, c)) == Some(c)
  {
    var line := Build(quote, c);
    match c
    case Exit =>
    case Refresh(noOutput) =>
      RefreshClientRoundTrip(noOutput);
    case DestroyUnattached(toDestroy) =>
      SetDestroyUnattachedRoundTrip(toDestroy);
      assert line != "" && line[0] == 's';
      assert "refresh-client"[0] == 'r' && "refresh-client -F no-output"[0] == 'r' && "refresh-client -F ''"[0] == 'r';
    case StatusRight(status) =>
      StatusRightIsNotFixed(line);
    case UnsetStatusRight =>
      assert line[0] == 's' && line[11] == '-';
      assert "refresh-client"[0] == 'r' && "refresh-client -F no-output"[0] == 'r' && "refresh-client -F ''"[0] == 'r';
      assert "set-option destroy-unattached on"[11] == 'd' && "set-option destroy-unattached off"[11] == 'd';
  }

  /** Two different builder calls never send the same command line. */
  lemma BuildInjective(quote: string -> string, unquote: string -> Option<string>, a: Command, b: Command)
    requires forall s :: unquote(quote(s)) == Some(s)
    ensures Build(quote, a) == Build(quote, b) ==> a == b
  {
    BuildThenParse(quote, unquote, a);
    BuildThenParse(quote, unquote, b);
  }
}

=== FILE: tmux_control.dfy ===
/**
 * The control-mode client of `phile/tmux/control_mode.py`: the command
 * line that starts it, and the framing of what the tmux server sends into
 * `\r\n`-terminated lines, prefix removal, and reading of
 * `%begin` ... `%end`/`%error` blocks.
 *
 * Bytes are modelled as characters and `bytes.decode` as the identity. The
 * asyncio events only signal "lines are waiting" and "the buffer is not
 * empty"; awaiting one is the `None` (or `MoreData`) outcome of a step.
 */
module TmuxControl {
  import opened Outcomes
  import opened Strings

  /** `Arguments`: the session to join (none when empty) and an optional configuration file, as its string form. */
  datatype Arguments = Arguments(sessionName: string, configurationPath: Option<string>)

  /** The default arguments: session `ctrl`, no configuration file. */
  const DefaultArguments := Arguments("ctrl", None)

  /** `Arguments.to_list`. */
  function ToList(a: Arguments): (r: seq<string>)
    ensures |r| >= 2 && r[..2] == ["-CC", "-u"]
  {
    ["-CC", "-u"]
    + (if a.configurationPath.Some? then ["-f", a.configurationPath.value] else [])
    + (if a.sessionName != "" then ["new-session", "-A", "-s", a.sessionName] else [])
  }

  /** Reads an argument list of the shape `to_list` produces back into arguments. */
  function ParseArguments(r: seq<string>): Option<Arguments>
  {
    if |r| < 2 || r[..2] != ["-CC", "-u"] then None
    else
      var rest := r[2..];
      var path := if |rest| >= 2 && rest[0] == "-f" then Some(rest[1]) else None;
      var tail := if path.Some? then rest[2..] else rest;
      if tail == [] then Some(Arguments("", path))
      else if |tail| == 4 && tail[..3] == ["new-session", "-A", "-s"] && tail[3] != "" then Some(Arguments(tail[3], path))
      else None
  }

  /** The argument list determines the arguments: reading it back gives them again. */
  lemma ParseToList(a: Arguments)
    ensures ParseArguments(ToList(a)) == Some(a)
  {
    var r := ToList(a);
    var rest := r[2..];
    if a.configurationPath.Some? {
      assert rest[..2] == ["-f", a.configurationPath.value];
      assert rest[2..] == if a.sessionName != "" then ["new-session", "-A", "-s", a.sessionName] else [];
    } else {
      assert rest == if a.sessionName != "" then ["new-session", "-A", "-s", a.sessionName] else [];
    }
  }

  /** The default list joins session `ctrl`, creating it when it is missing. */
  lemma DefaultToList()
    ensures ToList(DefaultArguments) == ["-CC", "-u", "new-session", "-A", "-s", "ctrl"]
  {
  }

  // Line framing.

  /** A carriage return followed by a line feed starts at index `i` of `s`. */
  predicate CrlfAt(s: string, i: int)
  {
    0 <= i && i + 1 < |s| && s[i] == '\r' && s[i + 1] == '\n'
  }

  predicate NoCrlf(s: string)
  {
    forall i | 0 <= i < |s| :: !CrlfAt(s, i)
  }

  /** A complete line: it ends with `\r\n`, and that is its first `\r\n`. */
  predicate IsLine(l: string)
  {
    && |l| >= 2 && CrlfAt(l, |l| - 2)
    && forall i :: 0 <= i < |l| - 2 ==> !CrlfAt(l, i)
  }

  /** The first `\r\n` at or after `from`. */
  function FindCrlf(s: string, from: nat): (r: Option<nat>)
    ensures r.Some? ==> from <= r.value && CrlfAt(s, r.value)
    ensures r.Some? ==> forall i :: from <= i < r.value ==> !CrlfAt(s, i)
    ensures r.None? ==> forall i :: from <= i ==> !CrlfAt(s, i)
    decreases |s| - from
  {
    if from + 1 >= |s| then None
    else if CrlfAt(s, from) then Some(from)
    else FindCrlf(s, from + 1)
  }

  /** `data.partition(b'\r\n')`: the text before the first `\r\n`, the separator, and the rest. */
  function Partition(data: string): (r: (string, string, string))
    ensures r.0 + r.1 + r.2 == data
    ensures r.1 == "" ==> r.0 == data && NoCrlf(data)
    ensures r.1 != "" ==> r.1 == "\r\n" && IsLine(r.0 + r.1)
  {
    match FindCrlf(data, 0)
    case None => (data, "", "")
    case Some(i) =>
      var line := data[..i + 2];
      assert line == data[..i] + "\r\n";
      assert forall j :: 0 <= j < i ==> (CrlfAt(line, j) <==> CrlfAt(data, j));
      assert line + data[i + 2..] == data;
      (data[..i], "\r\n", data[i + 2..])
  }

  /** The strings of a list, one after another. */
  function Concat(ls: seq<string>): string
  {
    if |ls| == 0 then "" else Concat(ls[..|ls| - 1]) + ls[|ls| - 1]
  }

  lemma {:induction false} ConcatAppend(a: seq<string>, b: seq<string>)
    ensures Concat(a + b) == Concat(a) + Concat(b)
    decreases |b|
  {
    if |b| == 0 {
      assert a + b == a;
    } else {
      assert (a + b)[..|a + b| - 1] == a + b[..|b| - 1];
      ConcatAppend(a, b[..|b| - 1]);
    }
  }

  lemma ConcatCons(x: string, ls: seq<string>)
    ensures Concat([x] + ls) == x + Concat(ls)
  {
    ConcatAppend([x], ls);
    assert [x][..0] == [];
  }

  /**
   * The protocol state: the complete lines not yet read, and the bytes
   * received after the last of them.
   */
  datatype Protocol = Protocol(lines: seq<string>, buffer: string)

  const Empty := Protocol([], "")

  /** Everything received and not yet read, in order. */
  function Stream(p: Protocol): string
  {
    Concat(p.lines) + p.buffer
  }

  /** Every waiting line is complete, and the buffer holds no complete line. */
  predicate Framed(p: Protocol)
  {
    && (forall k :: 0 <= k < |p.lines| ==> IsLine(p.lines[k]))
    && NoCrlf(p.buffer)
  }

  /**
   * The loop of `data_received`: partition the data at each `\r\n`, add
   * each part to the buffer, and move the buffer to the lines whenever a
   * separator was found.
   */
  function Receive(lines: seq<string>, buffer: string, data: string): (r: Protocol)
    ensures |r.lines| >= |lines| && r.lines[..|lines|] == lines
    ensures Stream(r) == Concat(lines) + buffer + data
    decreases |data|
  {
    var (content, separator, rest) := Partition(data);
    if separator == "" then
      Regroup(Concat(lines), buffer, content);
      Protocol(lines, buffer + content)
    else
      var line := buffer + content + separator;
      var r := Receive(lines + [line], "", rest);
      ReceiveStep(lines, buffer, data, content, separator, rest, r);
      r
  }

  /** One turn of the loop: what holds after the rest also holds after the whole data. */
  lemma ReceiveStep(lines: seq<string>, buffer: string, data: string, content: string, separator: string, rest: string, r: Protocol)
    requires data == content + separator + rest
    requires |r.lines| >= |lines| + 1 && r.lines[..|lines| + 1] == lines + [buffer + content + separator]
    requires Stream(r) == Concat(lines + [buffer + content + separator]) + "" + rest
    ensures |r.lines| >= |lines| && r.lines[..|lines|] == lines
    ensures Stream(r) == Concat(lines) + buffer + data
  {
    assert r.lines[..|lines|] == (r.lines[..|lines| + 1])[..|lines|];
    ConcatLast(lines, buffer + content + separator);
    Regroup5(Concat(lines), buffer, content, separator, rest);
  }

  lemma ConcatLast(ls: seq<string>, x: string)
    ensures Concat(ls + [x]) == Concat(ls) + x
  {
    assert (ls + [x])[..|ls|] == ls;
  }

  lemma Regroup5(w: string, x: string, y: string, z: string, v: string)
    ensures (w + (x + y + z)) + "" + v == w + x + (y + z + v)
  {
  }

  /**
   * `data_received` as written: only the new data is searched for
   * `\r\n`, so a separator split between the buffer and the new data is
   * not seen.
   */
  function DataReceivedAsWritten(p: Protocol, data: string): (r: Protocol)
    ensures Stream(r) == Stream(p) + data
    ensures |r.lines| >= |p.lines| && r.lines[..|p.lines|] == p.lines
  {
    Receive(p.lines, p.buffer, data)
  }

  /** `data_received` with the buffer searched again together with the new data. */
  function DataReceived(p: Protocol, data: string): (r: Protocol)
    ensures Stream(r) == Stream(p) + data
    ensures |r.lines| >= |p.lines| && r.lines[..|p.lines|] == p.lines
  {
    Receive(p.lines, "", p.buffer + data)
  }

  /** Started with an empty buffer, the loop produces complete lines and leaves a buffer without a line. */
  lemma {:induction false} ReceiveFrames(lines: seq<string>, data: string)
    ensures var r := Receive(lines, "", data);
      && (forall k :: |lines| <= k < |r.lines| ==> IsLine(r.lines[k]))
      && NoCrlf(r.buffer)
    decreases |data|
  {
    var (content, separator, rest) := Partition(data);
    ReceiveUnfold(lines, data);
    if separator != "" {
      var line := content + separator;
      ReceiveFrames(lines + [line], rest);
      FramesStep(lines, line, Receive(lines + [line], "", rest));
    }
  }

  /** The loop started with an empty buffer, one turn unfolded. */
  lemma ReceiveUnfold(lines: seq<string>, data: string)
    ensures var (content, separator, rest) := Partition(data);
      && (separator == "" ==> Receive(lines, "", data) == Protocol(lines, data))
      && (separator != "" ==> Receive(lines, "", data) == Receive(lines + [content + separator], "", rest))
  {
    var (content, separator, rest) := Partition(data);
    assert "" + content == content;
    assert "" + content + separator == content + separator;
  }

  lemma FramesStep(lines: seq<string>, line: string, r: Protocol)
    requires IsLine(line)
    requires |r.lines| >= |lines| + 1 && r.lines[..|lines| + 1] == lines + [line]
    requires forall k :: |lines| + 1 <= k < |r.lines| ==> IsLine(r.lines[k])
    ensures forall k :: |lines| <= k < |r.lines| ==> IsLine(r.lines[k])
  {
    assert r.lines[|lines|] == r.lines[..|lines| + 1][|lines|] == line;
  }

  /** Lines already waiting do not affect what the loop makes of new data. */
  lemma {:induction false} ReceiveShift(x: seq<string>, lines: seq<string>, buffer: string, data: string)
    ensures Receive(x + lines, buffer, data) == Protocol(x + Receive(lines, buffer, data).lines, Receive(lines, buffer, data).buffer)
    decreases |data|
  {
    var (content, separator, rest) := Partition(data);
    if separator != "" {
      var line := buffer + content + separator;
      ReceiveShift(x, lines + [line], "", rest);
      assert x + lines + [line] == x + (lines + [line]);
    }
  }

  /** A framed state stays framed as data arrives. */
  lemma DataReceivedKeepsFramed(p: Protocol, data: string)
    requires Framed(p)
    ensures Framed(DataReceived(p, data))
  {
    ReceiveFrames(p.lines, p.buffer + data);
    var r := DataReceived(p, data);
    forall k | 0 <= k < |p.lines|
      ensures IsLine(r.lines[k])
    {
      assert r.lines[k] == r.lines[..|p.lines|][k];
    }
  }

  /** A complete line is determined by the text it starts: two complete lines that start the same text are equal. */
  lemma LinePrefixUnique(x: string, y: string, s1: string, s2: string)
    requires IsLine(x) && IsLine(y) && x + s1 == y + s2
    ensures x == y && s1 == s2
  {
    LineNotInside(x, y, s1, s2);
    LineNotInside(y, x, s2, s1);
    assert x == (x + s1)[..|x|] == (y + s2)[..|y|] == y;
    assert s1 == (x + s1)[|x|..] == (y + s2)[|y|..] == s2;
  }

  /** A text that starts with a complete line has that line's `\r\n` at the same place. */
  lemma LineCarriesCrlf(x: string, y: string, s1: string, s2: string)
    requires IsLine(x) && x + s1 == y + s2 && |x| <= |y|
    ensures CrlfAt(y, |x| - 2)
  {
    assert y[..|x|] == (y + s2)[..|x|] == (x + s1)[..|x|] == x;
    assert y[|x| - 2] == x[|x| - 2] && y[|x| - 1] == x[|x| - 1];
  }

  /** A complete line does not start with a shorter complete line. */
  lemma LineNotInside(x: string, y: string, s1: string, s2: string)
    requires IsLine(x) && IsLine(y) && x + s1 == y + s2
    ensures |y| <= |x|
  {
    if |x| < |y| {
      LineCarriesCrlf(x, y, s1, s2);
      assert false;
    }
  }

  /** A text that starts with a complete line has a `\r\n`. */
  lemma LineInside(line: string, s: string)
    requires IsLine(line)
    ensures CrlfAt(line + s, |line| - 2)
  {
  }

  /** A text has one split into complete lines followed by a rest without a complete line. */
  lemma {:induction false} FramingUnique(l1: seq<string>, b1: string, l2: seq<string>, b2: string)
    requires forall k :: 0 <= k < |l1| ==> IsLine(l1[k])
    requires forall k :: 0 <= k < |l2| ==> IsLine(l2[k])
    requires NoCrlf(b1) && NoCrlf(b2)
    requires Concat(l1) + b1 == Concat(l2) + b2
    ensures l1 == l2 && b1 == b2
    decreases |l1|
  {
    if |l1| == 0 && |l2| == 0 {
      assert Concat(l1) == "" && Concat(l2) == "";
      assert b1 == Concat(l1) + b1;
      assert b2 == Concat(l2) + b2;
    } else if |l1| == 0 {
      assert b1 == Concat(l1) + b1 by { assert Concat(l1) == ""; }
      FramingStartsWithLine(l2, b2);
      LineInside(l2[0], Concat(l2[1..]) + b2);
      assert false;
    } else if |l2| == 0 {
      assert b2 == Concat(l2) + b2 by { assert Concat(l2) == ""; }
      FramingStartsWithLine(l1, b1);
      LineInside(l1[0], Concat(l1[1..]) + b1);
      assert false;
    } else {
      FramingStartsWithLine(l1, b1);
      FramingStartsWithLine(l2, b2);
      LinePrefixUnique(l1[0], l2[0], Concat(l1[1..]) + b1, Concat(l2[1..]) + b2);
      FramingUnique(l1[1..], b1, l2[1..], b2);
      assert l1 == [l1[0]] + l1[1..] && l2 == [l2[0]] + l2[1..];
    }
  }

  lemma FramingStartsWithLine(ls: seq<string>, b: string)
    requires |ls| > 0
    ensures Concat(ls) + b == ls[0] + (Concat(ls[1..]) + b)
  {
    ConcatHead(ls);
    Regroup(ls[0], Concat(ls[1..]), b);
  }

  lemma Regroup(x: string, y: string, z: string)
    ensures (x + y) + z == x + (y + z)
  {
  }

  lemma ConcatHead(ls: seq<string>)
    requires |ls| > 0
    ensures Concat(ls) == ls[0] + Concat(ls[1..])
  {
    ConcatCons(ls[0], ls[1..]);
    assert [ls[0]] + ls[1..] == ls;
  }

  /** What `DataReceived` adds: lines that, followed by the new buffer, are the old buffer and the new data. */
  lemma DataReceivedAdds(p: Protocol, data: string)
    ensures var r := DataReceived(p, data);
      && r.lines == p.lines + r.lines[|p.lines|..]
      && Concat(r.lines[|p.lines|..]) + r.buffer == p.buffer + data
  {
    var r := DataReceived(p, data);
    AddsFrom(p.lines, p.buffer, data, r.lines, r.buffer);
  }

  /** Lines and a buffer that extend `l0` and carry its stream and the data consist of `l0` and the added lines. */
  lemma AddsFrom(l0: seq<string>, b0: string, data: string, l: seq<string>, b: string)
    requires |l| >= |l0| && l[..|l0|] == l0
    requires Concat(l) + b == Concat(l0) + b0 + data
    ensures l == l0 + l[|l0|..]
    ensures Concat(l[|l0|..]) + b == b0 + data
  {
    var added := l[|l0|..];
    assert l == l0 + added;
    ConcatAppend(l0, added);
    Regroup(Concat(l0), Concat(added), b);
    Regroup(Concat(l0), b0, data);
    CancelLeft(Concat(l0), Concat(added) + b, b0 + data);
  }

  lemma CancelLeft(x: string, a: string, b: string)
    requires x + a == x + b
    ensures a == b
  {
    assert a == (x + a)[|x|..];
    assert b == (x + b)[|x|..];
  }

  /** The lines of two chunks received one after the other. */
  lemma DataReceivedTwice(p: Protocol, a: string, b: string)
    ensures var r := DataReceived(DataReceived(p, a), b);
      && r.lines == p.lines + r.lines[|p.lines|..]
      && Concat(r.lines[|p.lines|..]) + r.buffer == p.buffer + (a + b)
  {
    var q := DataReceived(p, a);
    var r := DataReceived(q, b);
    DataReceivedAdds(p, a);
    DataReceivedAdds(q, b);
    AddsCompose(p.lines, q.lines, r.lines, p.buffer, q.buffer, r.buffer, a, b);
  }

  /** Lines added in two steps are the lines added overall. */
  lemma AddsCompose(l0: seq<string>, l1: seq<string>, l2: seq<string>, b0: string, b1: string, b2: string, a: string, b: string)
    requires |l0| <= |l1| <= |l2|
    requires l1 == l0 + l1[|l0|..] && Concat(l1[|l0|..]) + b1 == b0 + a
    requires l2 == l1 + l2[|l1|..] && Concat(l2[|l1|..]) + b2 == b1 + b
    ensures l2 == l0 + l2[|l0|..] && Concat(l2[|l0|..]) + b2 == b0 + (a + b)
  {
    var na := l1[|l0|..];
    var nb := l2[|l1|..];
    assert l2 == l0 + (na + nb);
    assert l2[|l0|..] == na + nb;
    ConcatAppend(na, nb);
    Regroup(Concat(na), Concat(nb), b2);
    Regroup(Concat(na), b1, b);
    Regroup(b0, a, b);
  }

  /** The lines a framed state delivers do not depend on how the data was split into chunks. */
  lemma DataReceivedChunks(p: Protocol, a: string, b: string)
    requires Framed(p)
    ensures DataReceived(DataReceived(p, a), b) == DataReceived(p, a + b)
  {
    var q := DataReceived(p, a);
    DataReceivedTwice(p, a, b);
    DataReceivedAdds(p, a + b);
    DataReceivedKeepsFramed(p, a);
    DataReceivedKeepsFramed(q, b);
    DataReceivedKeepsFramed(p, a + b);
    SameAdded(p.lines, DataReceived(q, b), DataReceived(p, a + b), p.buffer + (a + b));
  }

  /** Two framed states that add, to the same lines, lines and a buffer making up the same text are equal. */
  lemma SameAdded(l0: seq<string>, r1: Protocol, r2: Protocol, x: string)
    requires Framed(r1) && Framed(r2) && |l0| <= |r1.lines| && |l0| <= |r2.lines|
    requires r1.lines == l0 + r1.lines[|l0|..] && Concat(r1.lines[|l0|..]) + r1.buffer == x
    requires r2.lines == l0 + r2.lines[|l0|..] && Concat(r2.lines[|l0|..]) + r2.buffer == x
    ensures r1 == r2
  {
    var n := |l0|;
    AddedFramed(r1, n);
    AddedFramed(r2, n);
    FramingUnique(r1.lines[n..], r1.buffer, r2.lines[n..], r2.buffer);
  }

  lemma AddedFramed(r: Protocol, n: nat)
    requires Framed(r) && n <= |r.lines|
    ensures forall k :: 0 <= k < |r.lines[n..]| ==> IsLine(r.lines[n..][k])
  {
    forall k | 0 <= k < |r.lines[n..]| ensures IsLine(r.lines[n..][k]) {
      assert r.lines[n..][k] == r.lines[n + k];
    }
  }

  /** The first chunk of the split-separator example. */
  const SplitFirst := "line-1\n\r"
  /** The second chunk: it starts with the `\n` that completes the separator. */
  const SplitSecond := "\n\nline-2"

  /**
   * As written, a `\r\n` split between two chunks is not a line end:
   * after both chunks no line is waiting, and the separator sits in the
   * buffer, so `read_line` waits although a complete line arrived.
   */
  lemma SplitSeparatorAsWritten()
    ensures Framed(DataReceivedAsWritten(Empty, SplitFirst))
    ensures DataReceivedAsWritten(DataReceivedAsWritten(Empty, SplitFirst), SplitSecond) == Protocol([], SplitFirst + SplitSecond)
    ensures !Framed(DataReceivedAsWritten(DataReceivedAsWritten(Empty, SplitFirst), SplitSecond))
  {
    assert forall i | 0 <= i < |SplitFirst| :: SplitFirst[i] != '\r' || i == 7;
    assert !CrlfAt(SplitFirst, 7);
    assert NoCrlf(SplitFirst);
    assert forall i | 0 <= i < |SplitSecond| :: SplitSecond[i] != '\r';
    assert NoCrlf(SplitSecond);
    assert CrlfAt(SplitFirst + SplitSecond, 7);
  }

  /** With the buffer searched again, the same two chunks deliver the line `line-1\n\r\n`. */
  lemma SplitSeparatorDelivered()
    ensures DataReceived(DataReceived(Empty, SplitFirst), SplitSecond) == Protocol(["line-1\n\r\n"], "\nline-2")
  {
    var s := SplitFirst + SplitSecond;
    assert Framed(Empty);
    DataReceivedChunks(Empty, SplitFirst, SplitSecond);
    var r := DataReceived(Empty, s);
    DataReceivedAdds(Empty, s);
    DataReceivedKeepsFramed(Empty, s);
    SplitLiterals();
    assert r.lines[0..] == r.lines;
    assert Concat(["line-1\n\r\n"]) == "line-1\n\r\n" by { assert ["line-1\n\r\n"][..0] == []; }
    FramingUnique(r.lines, r.buffer, ["line-1\n\r\n"], "\nline-2");
  }

  /** The split-separator text is one complete line followed by a rest without one. */
  lemma SplitLiterals()
    ensures IsLine("line-1\n\r\n") && NoCrlf("\nline-2")
    ensures "line-1\n\r\n" + "\nline-2" == "" + (SplitFirst + SplitSecond)
  {
    var line := "line-1\n\r\n";
    assert CrlfAt(line, 7);
    assert forall i | 0 <= i < 7 :: line[i] != '\r';
    assert forall i | 0 <= i < |"\nline-2"| :: "\nline-2"[i] != '\r';
  }

  // Reading.

  /** `read_line`: the first waiting line, or `None` when `peek_line` would wait. */
  function ReadLine(p: Protocol): (r: Option<(string, Protocol)>)
    ensures r.None? <==> |p.lines| == 0
    ensures r.Some? ==> Stream(p) == r.value.0 + Stream(r.value.1)
    ensures r.Some? ==> [r.value.0] + r.value.1.lines == p.lines && r.value.1.buffer == p.buffer
    ensures r.Some? ==> r.value == (p.lines[0], Protocol(p.lines[1..], p.buffer))
  {
    if |p.lines| == 0 then None
    else
      ConcatCons(p.lines[0], p.lines[1..]);
      assert [p.lines[0]] + p.lines[1..] == p.lines;
      Some((p.lines[0], Protocol(p.lines[1..], p.buffer)))
  }

  /** Lines are read in the order they arrived: new data does not change which line is read next. */
  lemma ReadLineBeforeReceive(p: Protocol, data: string)
    requires |p.lines| > 0
    ensures ReadLine(DataReceived(p, data)) == Some((p.lines[0], DataReceived(ReadLine(p).value.1, data)))
  {
    var rest := ReadLine(p).value.1;
    ReceiveShift([p.lines[0]], rest.lines, "", p.buffer + data);
    assert [p.lines[0]] + rest.lines == p.lines;
  }

  /** `line.startswith(prefixes)` with a tuple of prefixes; a single prefix is a tuple of one. */
  predicate StartsWithAny(s: string, prefixes: seq<string>)
  {
    |prefixes| > 0 && (StartsWith(s, prefixes[0]) || StartsWithAny(s, prefixes[1..]))
  }

  lemma StartsWithOne(s: string, prefix: string)
    ensures StartsWithAny(s, [prefix]) <==> StartsWith(s, prefix)
  {
    assert [prefix][1..] == [];
  }

  /** The index of the first line starting with one of the prefixes, or the number of lines. */
  function FirstMatch(lines: seq<string>, prefixes: seq<string>): (i: nat)
    ensures i <= |lines|
    ensures i < |lines| ==> StartsWithAny(lines[i], prefixes)
  {
    if |lines| == 0 then 0
    else if StartsWithAny(lines[0], prefixes) then 0
    else 1 + FirstMatch(lines[1..], prefixes)
  }

  /** No line before the first match starts with a prefix. */
  lemma {:induction false} FirstMatchIsFirst(lines: seq<string>, prefixes: seq<string>)
    ensures forall k :: 0 <= k < FirstMatch(lines, prefixes) ==> !StartsWithAny(lines[k], prefixes)
  {
    if |lines| > 0 && !StartsWithAny(lines[0], prefixes) {
      FirstMatchIsFirst(lines[1..], prefixes);
      forall k | 1 <= k < FirstMatch(lines, prefixes)
        ensures !StartsWithAny(lines[k], prefixes)
      {
        assert lines[k] == lines[1..][k - 1];
      }
    }
  }

  /**
   * `drop_lines_until_starts_with`: read lines until one starts with a
   * prefix and return that line; `None` when the lines run out first and
   * the call would wait.
   */
  function DropLinesUntil(p: Protocol, prefixes: seq<string>): (r: Option<(string, Protocol)>)
    ensures var i := FirstMatch(p.lines, prefixes);
      && (r.None? <==> i == |p.lines|)
      && (r.Some? ==> r.value == (p.lines[i], Protocol(p.lines[i + 1..], p.buffer)))
    decreases |p.lines|
  {
    match ReadLine(p)
    case None => None
    case Some((line, q)) =>
      if StartsWithAny(line, prefixes) then Some((line, q))
      else
        var r := DropLinesUntil(q, prefixes);
        assert q.lines == p.lines[1..];
        assert r.Some? ==> q.lines[FirstMatch(q.lines, prefixes) + 1..] == p.lines[FirstMatch(q.lines, prefixes) + 2..];
        r
  }

  /** `drop_lines_not_starting_with`: as `DropLinesUntil`, then put the matching line back first. */
  function DropLinesNotStartingWith(p: Protocol, prefixes: seq<string>): (r: Option<(string, Protocol)>)
    ensures var i := FirstMatch(p.lines, prefixes);
      && (r.None? <==> i == |p.lines|)
      && (r.Some? ==> r.value == (p.lines[i], Protocol(p.lines[i..], p.buffer)))
  {
    match DropLinesUntil(p, prefixes)
    case None => None
    case Some((line, q)) =>
      ConsSlice(p.lines, FirstMatch(p.lines, prefixes));
      Some((line, Protocol([line] + q.lines, q.buffer)))
  }

  lemma ConsSlice(s: seq<string>, i: nat)
    requires i < |s|
    ensures [s[i]] + s[i + 1..] == s[i..]
  {
  }

  /** `read_lines_until_starts_with`: every line read, up to and including the first one with a prefix. */
  function ReadLinesUntil(p: Protocol, prefixes: seq<string>): (r: Option<(seq<string>, Protocol)>)
    ensures var i := FirstMatch(p.lines, prefixes);
      && (r.None? <==> i == |p.lines|)
      && (r.Some? ==> r.value == (p.lines[..i + 1], Protocol(p.lines[i + 1..], p.buffer)))
    decreases |p.lines|
  {
    match ReadLine(p)
    case None => None
    case Some((line, q)) =>
      if StartsWithAny(line, prefixes) then Some(([line], q))
      else
        match ReadLinesUntil(q, prefixes)
        case None => None
        case Some((more, q2)) =>
          ConsRun(p.lines, FirstMatch(q.lines, prefixes));
          Some(([line] + more, q2))
  }

  /** The first line, followed by a prefix of the rest, is a prefix of all lines. */
  lemma ConsRun(s: seq<string>, i: nat)
    requires i + 1 < |s|
    ensures [s[0]] + s[1..][..i + 1] == s[..i + 2]
    ensures s[1..][i + 1..] == s[i + 2..]
  {
  }

  const BeginPrefixes: seq<string> := ["%begin "]
  const EndPrefixes: seq<string> := ["%end ", "%error "]

  /** `read_block`: skip to a `%begin ` line, then read through the next `%end ` or `%error ` line. */
  function ReadBlock(p: Protocol): (r: Option<(seq<string>, Protocol)>)
  {
    match DropLinesUntil(p, BeginPrefixes)
    case None => None
    case Some((begin, q)) =>
      match ReadLinesUntil(q, EndPrefixes)
      case None => None
      case Some((content, q2)) => Some(([begin] + content, q2))
  }

  /**
   * A block is the lines from the first `%begin ` line through the first
   * `%end `/`%error ` line after it; the lines skipped before it, the block
   * and the lines left after it are exactly the lines that were waiting.
   */
  lemma ReadBlockSpans(p: Protocol)
    ensures var i := FirstMatch(p.lines, BeginPrefixes);
      ReadBlock(p).Some? <==> i < |p.lines| && FirstMatch(p.lines[i + 1..], EndPrefixes) < |p.lines| - i - 1
    ensures ReadBlock(p).Some? ==>
      var i := FirstMatch(p.lines, BeginPrefixes);
      var j := i + 1 + FirstMatch(p.lines[i + 1..], EndPrefixes);
      && i < j < |p.lines|
      && StartsWith(p.lines[i], "%begin ")
      && ReadBlock(p).value == (p.lines[i..j + 1], Protocol(p.lines[j + 1..], p.buffer))
      && p.lines == p.lines[..i] + ReadBlock(p).value.0 + ReadBlock(p).value.1.lines
  {
    var d, i := DropFacts(p, BeginPrefixes);
    if d.Some? {
      var r, m := ReadFacts(d.value.1, EndPrefixes);
      assert FirstMatch(p.lines[i + 1..], EndPrefixes) == m;
      RunAfterDrop(p.lines, p.buffer, i, d.value.0, d.value.1, m, r);
      StartsWithOne(p.lines[i], "%begin ");
      assert ReadBlock(p) == if r.Some? then Some(([d.value.0] + r.value.0, r.value.1)) else None;
    }
  }

  /** The contract of `DropLinesUntil`, as values. */
  lemma DropFacts(p: Protocol, begins: seq<string>) returns (d: Option<(string, Protocol)>, i: nat)
    ensures d == DropLinesUntil(p, begins) && i == FirstMatch(p.lines, begins)
    ensures d.Some? ==> i < |p.lines| && d.value == (p.lines[i], Protocol(p.lines[i + 1..], p.buffer))
  {
    d := DropLinesUntil(p, begins);
    i := FirstMatch(p.lines, begins);
  }

  /** The contract of `ReadLinesUntil`, as values. */
  lemma ReadFacts(q: Protocol, ends: seq<string>) returns (r: Option<(seq<string>, Protocol)>, m: nat)
    ensures r == ReadLinesUntil(q, ends) && m == FirstMatch(q.lines, ends)
    ensures m <= |q.lines| && (r.None? <==> m == |q.lines|)
    ensures r.Some? ==> r.value == (q.lines[..m + 1], Protocol(q.lines[m + 1..], q.buffer))
  {
    r := ReadLinesUntil(q, ends);
    m := FirstMatch(q.lines, ends);
  }

  /** Dropping through line `i` and then reading `m + 1` more lines takes a contiguous run of lines. */
  lemma RunAfterDrop(lines: seq<string>, buffer: string, i: nat, line: string, q: Protocol, m: nat, r: Option<(seq<string>, Protocol)>)
    requires i < |lines| && line == lines[i] && q == Protocol(lines[i + 1..], buffer)
    requires m <= |q.lines| && (r.None? <==> m == |q.lines|)
    requires r.Some? ==> r.value == (q.lines[..m + 1], Protocol(q.lines[m + 1..], q.buffer))
    ensures var j := i + 1 + m;
      && (r.Some? <==> j < |lines|)
      && (r.Some? ==> [line] + r.value.0 == lines[i..j + 1] && r.value.1 == Protocol(lines[j + 1..], buffer))
      && (r.Some? ==> lines == lines[..i] + ([line] + r.value.0) + r.value.1.lines)
  {
    if r.Some? {
      SliceRun(lines, i, m, line, r.value.0, r.value.1.lines);
    }
  }

  /** The line at `i` and the `k + 1` lines after it are a run, with the lines before and after it around. */
  lemma SliceRun<T>(s: seq<T>, i: nat, k: nat, x: T, run: seq<T>, after: seq<T>)
    requires i + 1 + k < |s|
    requires x == s[i] && run == s[i + 1..][..k + 1] && after == s[i + 1..][k + 1..]
    ensures [x] + run == s[i..i + 1 + k + 1]
    ensures after == s[i + 1 + k + 1..]
    ensures s == s[..i] + ([x] + run) + after
  {
    assert [x] + run == s[i..i + 1 + k + 1];
    assert after == s[i + 1 + k + 1..];
    assert s == s[..i] + s[i..i + 1 + k + 1] + s[i + 1 + k + 1..];
  }

  /** The test's block: `%begin er` and `%end er`, after a line that is skipped. */
  lemma ReadBlockExample()
    ensures ReadBlock(Protocol(["line-1\n\r\n", "%begin er\r\n", "%end er\r\n"], ""))
      == Some((["%begin er\r\n", "%end er\r\n"], Empty))
  {
    var lines := ["line-1\n\r\n", "%begin er\r\n", "%end er\r\n"];
    assert !StartsWith(lines[0], "%begin ") by { assert lines[0][0] != '%'; }
    assert StartsWith(lines[1], "%begin ");
    assert StartsWith(lines[2], "%end ");
    assert FirstMatch(lines, BeginPrefixes) == 1;
    assert lines[2..][0] == lines[2];
    assert FirstMatch(lines[2..], EndPrefixes) == 0;
    ReadBlockSpans(Protocol(lines, ""));
    assert lines[1..3] == ["%begin er\r\n", "%end er\r\n"];
  }

  // Prefix removal.

  /** One pass of the loop of `remove_prefix`. */
  datatype PrefixStep =
    | Removed(rest: Protocol)
    | PrefixNotFound
    | MoreData
    | PrefixHasNewline

  /** `line[0:n]`. */
  function Head(s: string, n: nat): (r: string)
    ensures |r| == if n <= |s| then n else |s|
    ensures StartsWith(s, r)
  {
    if n <= |s| then s[..n] else s
  }

  /**
   * `remove_prefix`, given the data received so far: strip the prefix
   * from the first waiting line, or from the buffer when no line is
   * waiting. `MoreData` is the case where the buffer is shorter than the
   * prefix and agrees with it, so the loop waits for more data. A prefix
   * holding `\r\n` fails the assertion.
   */
  function RemovePrefixStep(p: Protocol, prefix: string): (r: PrefixStep)
    ensures r.PrefixHasNewline? <==> !NoCrlf(prefix)
    ensures r.Removed? ==> Stream(p) == prefix + Stream(r.rest) && |r.rest.lines| == |p.lines|
    ensures r.MoreData? ==> |p.lines| == 0 && StartsWith(prefix, p.buffer) && |p.buffer| < |prefix|
  {
    if !NoCrlf(prefix) then PrefixHasNewline
    else if |p.lines| > 0 then
      var line := p.lines[0];
      if Head(line, |prefix|) != prefix then PrefixNotFound
      else
        var rest := Protocol(p.lines[0 := line[|prefix|..]], p.buffer);
        ConcatCons(line, p.lines[1..]);
        ConcatCons(line[|prefix|..], p.lines[1..]);
        assert [line] + p.lines[1..] == p.lines;
        assert [line[|prefix|..]] + p.lines[1..] == rest.lines;
        assert line == prefix + line[|prefix|..];
        Removed(rest)
    else if |p.buffer| >= |prefix| then
      if !StartsWith(p.buffer, prefix) then PrefixNotFound
      else
        assert p.buffer == prefix + p.buffer[|prefix|..];
        Removed(Protocol([], p.buffer[|prefix|..]))
    else if p.buffer != prefix[..|p.buffer|] then PrefixNotFound
    else MoreData
  }

  /**
   * On a framed state, the outcome depends only on the data received:
   * the prefix is removed exactly when the data starts with it, and the
   * loop waits exactly when the data is a proper start of the prefix.
   */
  lemma RemovePrefixByStream(p: Protocol, prefix: string)
    requires Framed(p) && NoCrlf(prefix)
    ensures RemovePrefixStep(p, prefix).Removed? <==> StartsWith(Stream(p), prefix)
    ensures RemovePrefixStep(p, prefix).MoreData? <==> StartsWith(prefix, Stream(p)) && |Stream(p)| < |prefix|
  {
    var s := Stream(p);
    if |p.lines| > 0 {
      var line := p.lines[0];
      var rest := Concat(p.lines[1..]) + p.buffer;
      FramingStartsWithLine(p.lines, p.buffer);
      assert IsLine(line);
      if |prefix| < |line| {
        assert s[..|prefix|] == line[..|prefix|];
        if StartsWith(prefix, s) {
          assert false;
        }
      } else {
        if StartsWith(s, prefix) {
          PrefixCoversLine(line, rest, prefix);
          assert false;
        }
        if StartsWith(prefix, s) {
          StreamInsidePrefix(line, rest, prefix);
          assert false;
        }
      }
    } else {
      assert s == p.buffer;
    }
  }

  /** A prefix at least as long as the first line, that the text starts with, holds the line's `\r\n`. */
  lemma PrefixCoversLine(line: string, rest: string, prefix: string)
    requires IsLine(line) && |line| <= |prefix| && StartsWith(line + rest, prefix)
    ensures CrlfAt(prefix, |line| - 2)
  {
    assert prefix[..|line|] == (line + rest)[..|line|] == line;
    assert prefix[|line| - 2] == line[|line| - 2] && prefix[|line| - 1] == line[|line| - 1];
  }

  /** A prefix that starts with the text holds the `\r\n` of the text's first line. */
  lemma StreamInsidePrefix(line: string, rest: string, prefix: string)
    requires IsLine(line) && StartsWith(prefix, line + rest)
    ensures CrlfAt(prefix, |line| - 2)
  {
    assert prefix[..|line|] == (line + rest)[..|line|] == line;
    assert prefix[|line| - 2] == line[|line| - 2] && prefix[|line| - 1] == line[|line| - 1];
  }

  /** Data that completes no line only grows the buffer. */
  lemma DataReceivedNoLine(p: Protocol, data: string)
    requires Framed(p) && NoCrlf(p.buffer + data)
    ensures DataReceived(p, data) == Protocol(p.lines, p.buffer + data)
  {
    DataReceivedAdds(p, data);
    DataReceivedKeepsFramed(p, data);
    var same := Protocol(p.lines, p.buffer + data);
    assert same.lines[|p.lines|..] == [] && same.lines == p.lines + [];
    assert Concat([]) + (p.buffer + data) == p.buffer + data;
    SameAdded(p.lines, DataReceived(p, data), same, p.buffer + data);
  }

  /** The test's split prefix: `%beg` waits for more data, and `in` completes `%begin`, which is then removed. */
  lemma RemovePrefixAcrossChunks()
    ensures RemovePrefixStep(DataReceived(Empty, "%beg"), "%begin") == MoreData
    ensures RemovePrefixStep(DataReceived(DataReceived(Empty, "%beg"), "in"), "%begin") == Removed(Empty)
  {
    FirstChunkBuffered();
    PartialPrefixWaits();
    SecondChunkBuffered();
    FullPrefixRemoved();
  }

  lemma FirstChunkBuffered()
    ensures DataReceived(Empty, "%beg") == Protocol([], "%beg")
  {
    assert forall i | 0 <= i < |"%beg"| :: "%beg"[i] != '\r';
    assert Framed(Empty);
    DataReceivedNoLine(Empty, "%beg");
  }

  lemma SecondChunkBuffered()
    ensures DataReceived(Protocol([], "%beg"), "in") == Protocol([], "%begin")
  {
    assert forall i | 0 <= i < |"%begin"| :: "%begin"[i] != '\r';
    assert forall i | 0 <= i < |"%beg"| :: "%beg"[i] != '\r';
    assert Framed(Protocol([], "%beg"));
    assert "%beg" + "in" == "%begin";
    DataReceivedNoLine(Protocol([], "%beg"), "in");
  }

  lemma PartialPrefixWaits()
    ensures RemovePrefixStep(Protocol([], "%beg"), "%begin") == MoreData
  {
    assert forall i | 0 <= i < |"%begin"| :: "%begin"[i] != '\r';
  }

  lemma FullPrefixRemoved()
    ensures RemovePrefixStep(Protocol([], "%begin"), "%begin") == Removed(Empty)
  {
    assert forall i | 0 <= i < |"%begin"| :: "%begin"[i] != '\r';
  }
}

=== FILE: todo_cli.dfy ===
/**
 * Configuration defaults for the todo command line (`src/phile/todo/cli.py`).
 *
 * A configuration is a nested JSON object. Dictionaries are modelled as
 * maps; every other JSON value (string, number, list, null) is a `Scalar`,
 * since the functions here only ask whether a value is a dictionary.
 */
module TodoCli {
  import opened Outcomes

  datatype Value = Dict(entries: map<string, Value>) | Scalar(text: string)

  /** The value reached by indexing with each key in turn, if every step exists. */
  function Lookup(v: Value, path: seq<string>): Option<Value>
    decreases |path|
  {
    if |path| == 0 then Some(v)
    else if v.Dict? && path[0] in v.entries then Lookup(v.entries[path[0]], path[1..])
    else None
  }

  /** The merge of one entry: a missing key takes the source value; two dictionaries merge. */
  function MergeEntry(dest: map<string, Value>, source: map<string, Value>, k: string): Value
    requires k in dest || k in source
    decreases Dict(source), 0
  {
    if k !in dest then source[k]
    else if k in source && dest[k].Dict? && source[k].Dict? then
      assert source[k] in source.Values;
      Dict(SetdefaultRecursively(dest[k].entries, source[k].entries))
    else dest[k]
  }

  /**
   * `setdefault_recursively(dest, source)`: `dest` after every key of
   * `source` is defaulted into it, recursing where both hold dictionaries.
   */
  function SetdefaultRecursively(dest: map<string, Value>, source: map<string, Value>): (r: map<string, Value>)
    decreases Dict(source), 1
  {
    map k | k in dest.Keys + source.Keys :: MergeEntry(dest, source, k)
  }

  /** The keys of the result are those of both maps; missing keys come from `source`. */
  lemma SetdefaultKeys(dest: map<string, Value>, source: map<string, Value>)
    ensures SetdefaultRecursively(dest, source).Keys == dest.Keys + source.Keys
    ensures forall k :: k in source && k !in dest ==> SetdefaultRecursively(dest, source)[k] == source[k]
    ensures forall k :: k in dest && !(dest[k].Dict? && k in source && source[k].Dict?) ==>
      SetdefaultRecursively(dest, source)[k] == dest[k]
  {
  }

  /**
   * A non-dictionary value of `dest` is never overwritten, at any depth:
   * the existing defaults win.
   */
  lemma {:induction false} SetdefaultKeepsScalars(dest: map<string, Value>, source: map<string, Value>, path: seq<string>)
    requires Lookup(Dict(dest), path).Some? && Lookup(Dict(dest), path).value.Scalar?
    ensures Lookup(Dict(SetdefaultRecursively(dest, source)), path) == Lookup(Dict(dest), path)
    decreases |path|
  {
    var k := path[0];
    var merged := SetdefaultRecursively(dest, source);
    assert k in merged;
    assert merged[k] == MergeEntry(dest, source, k);
    if |path| > 1 && k in source && dest[k].Dict? && source[k].Dict? {
      assert merged[k] == Dict(SetdefaultRecursively(dest[k].entries, source[k].entries));
      SetdefaultKeepsScalars(dest[k].entries, source[k].entries, path[1..]);
    }
  }

  /**
   * Every value `source` holds at a path is found in the result, unless
   * `dest` already holds a non-dictionary on the way there.
   */
  lemma {:induction false} SetdefaultAddsMissing(dest: map<string, Value>, source: map<string, Value>, path: seq<string>)
    requires |path| > 0 && Lookup(Dict(source), path).Some?
    requires Lookup(Dict(dest), path).None?
    requires forall n :: 0 < n < |path| ==> Lookup(Dict(dest), path[..n]).None? || Lookup(Dict(dest), path[..n]).value.Dict?
    ensures Lookup(Dict(SetdefaultRecursively(dest, source)), path) == Lookup(Dict(source), path)
    decreases |path|
  {
    var k := path[0];
    var merged := SetdefaultRecursively(dest, source);
    if k in dest && |path| > 1 {
      assert path[..1] == [k];
      assert Lookup(Dict(dest), path[..1]) == Lookup(dest[k], []);
      assert dest[k].Dict?;
      forall n | 0 < n < |path| - 1
        ensures Lookup(dest[k], path[1..][..n]).None? || Lookup(dest[k], path[1..][..n]).value.Dict?
      {
        assert path[..n + 1] == [k] + path[1..][..n];
        assert Lookup(Dict(dest), path[..n + 1]) == Lookup(dest[k], path[1..][..n]);
      }
      SetdefaultAddsMissing(dest[k].entries, source[k].entries, path[1..]);
    }
  }

  /** Defaulting a map into itself changes nothing. */
  lemma {:induction false} SetdefaultSelf(m: map<string, Value>)
    ensures SetdefaultRecursively(m, m) == m
    decreases Dict(m)
  {
    var r := SetdefaultRecursively(m, m);
    forall k | k in r
      ensures r[k] == m[k]
    {
      assert r[k] == MergeEntry(m, m, k);
      if m[k].Dict? {
        assert m[k] in m.Values;
        SetdefaultSelf(m[k].entries);
      }
    }
  }

  /** Merging the same source twice changes nothing more. */
  lemma {:induction false} SetdefaultIdempotent(dest: map<string, Value>, source: map<string, Value>)
    ensures SetdefaultRecursively(SetdefaultRecursively(dest, source), source) == SetdefaultRecursively(dest, source)
    decreases Dict(source)
  {
    var once := SetdefaultRecursively(dest, source);
    var twice := SetdefaultRecursively(once, source);
    forall k | k in twice
      ensures twice[k] == once[k]
    {
      assert twice[k] == MergeEntry(once, source, k);
      assert once[k] == MergeEntry(dest, source, k);
      if k in source && source[k].Dict? {
        assert source[k] in source.Values;
        if k !in dest {
          SetdefaultSelf(source[k].entries);
        } else if dest[k].Dict? {
          SetdefaultIdempotent(dest[k].entries, source[k].entries);
        }
      }
    }
  }

  /** Defaulting into an empty map copies the source. */
  lemma SetdefaultIntoEmpty(source: map<string, Value>)
    ensures SetdefaultRecursively(map[], source) == source
  {
  }

  /** What `get_config_submap` can raise. `TypeError` escapes `fill_default_map_from_config_map`. */
  datatype CliError = KeyError | ValueError | TypeError

  /**
   * `get_config_submap`: index with each key in turn, then demand a
   * dictionary. Indexing a non-dictionary with a string key raises
   * `TypeError`.
   */
  function GetConfigSubmap(config: Value, keys: seq<string>): (r: Result<map<string, Value>, CliError>)
    ensures r.Ok? <==> Lookup(config, keys).Some? && Lookup(config, keys).value.Dict?
    ensures r.Ok? ==> Lookup(config, keys) == Some(Dict(r.value))
    ensures r == Err(ValueError) <==> Lookup(config, keys).Some? && Lookup(config, keys).value.Scalar?
    ensures r.Err? && r.error != ValueError ==> Lookup(config, keys).None?
    decreases |keys|
  {
    if |keys| == 0 then
      if config.Dict? then Ok(config.entries) else Err(ValueError)
    else if !config.Dict? then Err(TypeError)
    else if keys[0] !in config.entries then Err(KeyError)
    else GetConfigSubmap(config.entries[keys[0]], keys[1..])
  }

  /** Indexing stops at a non-dictionary after the first `n` keys, with keys left. */
  predicate StuckAt(config: Value, keys: seq<string>, n: int)
  {
    0 <= n < |keys| && Lookup(config, keys[..n]).Some? && Lookup(config, keys[..n]).value.Scalar?
  }

  /** The first `n` keys reach a dictionary that lacks the next key. */
  predicate MissingAt(config: Value, keys: seq<string>, n: int)
  {
    && 0 <= n < |keys| && Lookup(config, keys[..n]).Some? && Lookup(config, keys[..n]).value.Dict?
    && keys[n] !in Lookup(config, keys[..n]).value.entries
  }

  /** Looking up a non-empty prefix is one step into the first key, then the rest of the prefix. */
  lemma LookupPrefix(config: Value, keys: seq<string>, n: int)
    requires 0 < n <= |keys|
    ensures Lookup(config, keys[..n])
      == if config.Dict? && keys[0] in config.entries then Lookup(config.entries[keys[0]], keys[1..][..n - 1]) else None
  {
    assert keys[..n][0] == keys[0];
    assert keys[..n][1..] == keys[1..][..n - 1];
  }

  /**
   * `get_config_submap` raises `TypeError` exactly when indexing reaches a
   * non-dictionary with keys left, and `KeyError` exactly when it reaches a
   * dictionary without the next key.
   */
  lemma {:induction false} GetConfigSubmapErrors(config: Value, keys: seq<string>)
    ensures GetConfigSubmap(config, keys) == Err(TypeError) <==> exists n :: StuckAt(config, keys, n)
    ensures GetConfigSubmap(config, keys) == Err(KeyError) <==> exists n :: MissingAt(config, keys, n)
    decreases |keys|
  {
    if |keys| > 0 {
      assert keys[..0] == [];
      if config.Dict? && keys[0] in config.entries {
        var sub := config.entries[keys[0]];
        GetConfigSubmapErrors(sub, keys[1..]);
        forall n | 0 < n < |keys|
          ensures StuckAt(config, keys, n) <==> StuckAt(sub, keys[1..], n - 1)
          ensures MissingAt(config, keys, n) <==> MissingAt(sub, keys[1..], n - 1)
        {
          LookupPrefix(config, keys, n);
          assert keys[1..][n - 1] == keys[n];
        }
        if exists m :: StuckAt(sub, keys[1..], m) {
          var m :| StuckAt(sub, keys[1..], m);
          assert StuckAt(config, keys, m + 1);
        }
        if exists m :: MissingAt(sub, keys[1..], m) {
          var m :| MissingAt(sub, keys[1..], m);
          assert MissingAt(config, keys, m + 1);
        }
      } else {
        forall n | 0 < n < |keys|
          ensures Lookup(config, keys[..n]).None?
        {
          LookupPrefix(config, keys, n);
        }
        if config.Dict? {
          assert MissingAt(config, keys, 0);
        } else {
          assert StuckAt(config, keys, 0);
        }
      }
    }
  }

  /**
   * `fill_default_map_from_config_map` on a context whose `default_map` is
   * `defaults`: the submap becomes the default map, or is defaulted into
   * it; a missing or non-dictionary submap leaves the context untouched.
   */
  function FillDefaultMap(config: map<string, Value>, keys: seq<string>, defaults: Option<map<string, Value>>)
    : (r: Result<Option<map<string, Value>>, CliError>)
    ensures r.Err? <==> GetConfigSubmap(Dict(config), keys) == Err(TypeError)
    ensures GetConfigSubmap(Dict(config), keys).Err? && r.Ok? ==> r.value == defaults
    ensures GetConfigSubmap(Dict(config), keys).Ok? ==>
      var sub := GetConfigSubmap(Dict(config), keys).value;
      r.Ok? && r.value.Some?
      && (defaults.None? ==> r.value.value == sub)
      && (defaults.Some? ==> r.value.value == SetdefaultRecursively(defaults.value, sub))
      && (defaults.Some? ==> r.value.value.Keys == defaults.value.Keys + sub.Keys)
      && (defaults.Some? ==> forall k :: k in defaults.value && defaults.value[k].Scalar? ==> r.value.value[k] == defaults.value[k])
  {
    match GetConfigSubmap(Dict(config), keys)
    case Err(TypeError) => Err(TypeError)
    case Err(_) => Ok(defaults)
    case Ok(sub) =>
      match defaults
      case None => Ok(Some(sub))
      case Some(d) =>
        SetdefaultKeys(d, sub);
        Ok(Some(SetdefaultRecursively(d, sub)))
  }

  /** Filling the default map a second time from the same configuration changes nothing more. */
  lemma FillDefaultMapIdempotent(config: map<string, Value>, keys: seq<string>, defaults: Option<map<string, Value>>)
    requires FillDefaultMap(config, keys, defaults).Ok?
    ensures FillDefaultMap(config, keys, FillDefaultMap(config, keys, defaults).value) == FillDefaultMap(config, keys, defaults)
  {
    match GetConfigSubmap(Dict(config), keys)
    case Err(_) =>
    case Ok(sub) =>
      match defaults
      case None => SetdefaultSelf(sub);
      case Some(d) => SetdefaultIdempotent(d, sub);
  }
}

=== FILE: todo_txt.dfy ===
/**
 * Key/value tags inside todo.txt lines (`src/phile/todo/txt.py`).
 *
 * A todo entry is one line of text. A tag ` #key=value` inside it assigns
 * `value` to `key`; the value runs up to the next space. The list
 * operations act on the lines of a todo file; reading and writing the
 * file is not modelled.
 */
module TodoTxt {
  import opened Outcomes
  import opened Strings
  import opened Lists

  /** The text that introduces `key` in an entry: ` #key=`. */
  function Tag(key: string): string
  {
    " #" + key + "="
  }

  /** The four pieces `find_key_assignment` returns, in order. */
  datatype Assignment = Assignment(before: string, tag: string, value: string, after: string)
  {
    function Text(): string
    {
      before + tag + value + after
    }
  }

  /** A key or value that a tag can hold intact: no space and no line break. */
  predicate IsWord(s: string)
  {
    ' ' !in s && '\n' !in s
  }

  /** A value and the rest of the entry after it, split at the first space. */
  datatype Word = Word(value: string, after: string)

  /** The value of a tag runs up to the first space (`value.find(" ")`). */
  function SplitWord(rest: string): (w: Word)
    ensures w.value + w.after == rest
    ensures ' ' !in w.value
    ensures w.after == "" || w.after[0] == ' '
  {
    match FindChar(rest, ' ')
    case None => Word(rest, "")
    case Some(k) =>
      assert rest == rest[..k] + rest[k..];
      Word(rest[..k], rest[k..])
  }

  /** A space-free value followed by text that starts with a space splits there. */
  lemma SplitWordOf(rest: string, value: string, after: string)
    requires rest == value + after
    requires ' ' !in value && (after == "" || after[0] == ' ')
    ensures SplitWord(rest) == Word(value, after)
  {
    if after == "" {
      assert value + after == value;
    } else {
      FindCharAfter(value, after, ' ');
      assert (value + after)[..|value|] == value && (value + after)[|value|..] == after;
    }
  }

  /**
   * `find_key_assignment`: the last ` #key=` tag of the entry, its value up
   * to the next space, and the text around it; `None` for the `ValueError`.
   */
  function FindKeyAssignment(entry: string, key: string): (r: Option<Assignment>)
    requires '\n' !in entry
    ensures r.None? <==> !Contains(entry, Tag(key))
    ensures r.Some? ==> r.value.Text() == entry && r.value.tag == Tag(key)
    ensures r.Some? ==> forall j :: |r.value.before| < j ==> !OccursAt(entry, Tag(key), j)
    ensures r.Some? ==> ' ' !in r.value.value
    ensures r.Some? ==> r.value.after == "" || r.value.after[0] == ' '
  {
    var tag := Tag(key);
    match LastIndexOf(entry, tag)
    case None => None
    case Some(i) =>
      var w := SplitWord(entry[i + |tag|..]);
      SplitAround(entry, tag, i);
      Concat4(entry[..i], tag, w.value, w.after, entry);
      Some(Assignment(entry[..i], tag, w.value, w.after))
  }

  /** Inside ` #key=value` only the leading character is a space. */
  lemma TagValueSpaces(key: string, value: string)
    requires IsWord(key) && IsWord(value)
    ensures forall k :: 0 < k < |Tag(key) + value| ==> (Tag(key) + value)[k] != ' '
  {
    var t := Tag(key) + value;
    forall k | 0 < k < |t|
      ensures t[k] != ' '
    {
      if k < |Tag(key)| {
        assert t[k] == Tag(key)[k];
        assert k == 1 || k == |Tag(key)| - 1 || Tag(key)[k] == key[k - 2];
      } else {
        assert t[k] == value[k - |Tag(key)|];
      }
    }
  }

  /** After a tag and its value, a further tag can only lie in `after`. */
  lemma NoTagAfter(before: string, key: string, value: string, after: string)
    requires IsWord(key) && IsWord(value)
    requires !Contains(after, Tag(key))
    ensures forall j :: |before| < j ==> !OccursAt(before + Tag(key) + value + after, Tag(key), j)
  {
    var tag := Tag(key);
    var s := before + tag + value + after;
    var b := |before|;
    var m := b + |tag| + |value|;
    TagValueSpaces(key, value);
    assert forall j :: b < j < m ==> s[j] == (tag + value)[j - b];
    forall j | b < j
      ensures !OccursAt(s, tag, j)
    {
      if m <= j {
        OccursAtShift(before + tag + value, after, tag, j - m);
        assert !OccursAt(after, tag, j - m);
      } else {
        OccursAtHead(s, tag, j);
      }
    }
  }

  /**
   * The decomposition is unique: an entry assembled from a tag, a word and
   * text free of further tags splits back into exactly those pieces.
   */
  lemma FindAssembled(before: string, key: string, value: string, after: string)
    requires '\n' !in before + after && IsWord(key) && IsWord(value)
    requires after == "" || after[0] == ' '
    requires !Contains(after, Tag(key))
    ensures '\n' !in before + Tag(key) + value + after
    ensures FindKeyAssignment(before + Tag(key) + value + after, key)
         == Some(Assignment(before, Tag(key), value, after))
  {
    AssembledLocated(before, key, value, after);
    FoundAt(before + Tag(key) + value + after, key, |before|, before, value, after);
  }

  /**
   * `entry` has its last tag for `key` at `i`, with `before` ahead of it and
   * the word `value`, then `after`, behind it.
   */
  predicate Located(entry: string, key: string, i: nat, before: string, value: string, after: string)
  {
    && '\n' !in entry && LastIndexOf(entry, Tag(key)) == Some(i)
    && i + |Tag(key)| <= |entry| && entry[..i] == before
    && SplitWord(entry[i + |Tag(key)|..]) == Word(value, after)
  }

  /** An assembled entry is located at the end of `before`. */
  lemma AssembledLocated(before: string, key: string, value: string, after: string)
    requires '\n' !in before + after && IsWord(key) && IsWord(value)
    requires after == "" || after[0] == ' '
    requires !Contains(after, Tag(key))
    ensures Located(before + Tag(key) + value + after, key, |before|, before, value, after)
  {
    TagIsLast(before, key, value, after);
    DropTwo(before, Tag(key), value, after);
    SplitWordOf((before + Tag(key) + value + after)[|before| + |Tag(key)|..], value, after);
    AssembledLacks(before, key, value, after, '\n');
    AssembledPrefix(before, Tag(key), value, after);
  }

  /** Dropping the first two of four concatenated pieces leaves the other two. */
  lemma DropTwo<T>(a: seq<T>, b: seq<T>, c: seq<T>, d: seq<T>)
    ensures (a + b + c + d)[|a| + |b|..] == c + d
  {
    assert a + b + c + d == (a + b) + (c + d);
  }

  /** A character in none of the pieces is not in the assembled entry. */
  lemma AssembledLacks(before: string, key: string, value: string, after: string, x: char)
    requires x !in before + after && x !in key && x !in value && x != ' ' && x != '#' && x != '='
    ensures x !in before + Tag(key) + value + after
  {
    var tag := Tag(key);
    assert x !in tag by {
      assert tag == " #" + key + "=";
    }
    assert x !in before && x !in after;
    Lacks4(before, tag, value, after, x);
  }

  /** The text ahead of the tag of an assembled entry is `before`. */
  lemma AssembledPrefix(before: string, tag: string, value: string, after: string)
    ensures (before + tag + value + after)[..|before|] == before
  {
    Slices4(before, tag, value, after);
  }

  /** A character in none of four strings is not in their concatenation. */
  lemma Lacks4(a: string, b: string, c: string, d: string, x: char)
    requires x !in a && x !in b && x !in c && x !in d
    ensures x !in a + b + c + d
  {
  }

  /** The tag placed after `before` is the last one when `after` holds none. */
  lemma TagIsLast(before: string, key: string, value: string, after: string)
    requires IsWord(key) && IsWord(value) && !Contains(after, Tag(key))
    ensures LastIndexOf(before + Tag(key) + value + after, Tag(key)) == Some(|before|)
  {
    var tag := Tag(key);
    var s := before + tag + value + after;
    Slices4(before, tag, value, after);
    NoTagAfter(before, key, value, after);
    assert OccursAt(s, tag, |before|);
    LastOccurrence(s, tag, |before|);
  }

  /** `find_key_assignment` on a located entry returns the located pieces. */
  lemma FoundAt(entry: string, key: string, i: nat, before: string, value: string, after: string)
    requires Located(entry, key, i, before, value, after)
    ensures '\n' !in entry
    ensures FindKeyAssignment(entry, key) == Some(Assignment(before, Tag(key), value, after))
  {
  }

  /** `set_key` can fail only with the `IndexError` of an empty entry. */
  datatype TxtError = IndexError

  /**
   * `set_key`: the value of the last tag for `key` is replaced; without a
   * tag, ` #key=value` is appended, reusing a trailing space.
   */
  function SetKey(entry: string, key: string, value: string): (r: Result<string, TxtError>)
    requires '\n' !in entry
    ensures r.Err? <==> entry == ""
    ensures FindKeyAssignment(entry, key).Some? ==>
      var a := FindKeyAssignment(entry, key).value;
      r == Ok(a.before + a.tag + value + a.after)
    ensures FindKeyAssignment(entry, key).None? && r.Ok? ==>
      StartsWith(r.value, entry) && EndsWith(r.value, "#" + key + "=" + value)
      && |r.value| - |entry| - |key| - |value| in {2, 3}
    ensures FindKeyAssignment(entry, key).None? && r.Ok? ==>
      && (entry[|entry| - 1] == ' ' ==> r.value == entry[..|entry| - 1] + Tag(key) + value)
      && (entry[|entry| - 1] != ' ' ==> r.value == entry + Tag(key) + value)
  {
    match FindKeyAssignment(entry, key)
    case Some(a) => Ok(a.before + a.tag + value + a.after)
    case None =>
      if |entry| == 0 then Err(IndexError)
      else
        var sep := if entry[|entry| - 1] == ' ' then "" else " ";
        var r := entry + sep + "#" + key + "=" + value;
        assert r[..|entry|] == entry;
        assert r[|r| - |"#" + key + "=" + value|..] == "#" + key + "=" + value;
        AppendedTag(entry, key, value);
        Ok(r)
  }

  /** The tag that `set_key` leaves behind: the entry split around it. */
  function SetKeySplit(entry: string, key: string, value: string): (a: Assignment)
    requires '\n' !in entry && entry != ""
  {
    match FindKeyAssignment(entry, key)
    case Some(a) => Assignment(a.before, a.tag, value, a.after)
    case None =>
      if entry[|entry| - 1] == ' ' then Assignment(entry[..|entry| - 1], Tag(key), value, "")
      else Assignment(entry, Tag(key), value, "")
  }

  /** No tag for the key follows the one `find_key_assignment` picks. */
  lemma NoTagInAfter(entry: string, key: string)
    ensures '\n' !in entry && FindKeyAssignment(entry, key).Some? ==>
      !Contains(FindKeyAssignment(entry, key).value.after, Tag(key))
  {
    if '\n' !in entry && FindKeyAssignment(entry, key).Some? {
      var a := FindKeyAssignment(entry, key).value;
      forall j: nat
        ensures !OccursAt(a.after, Tag(key), j)
      {
        OccursAtShift(a.before + a.tag + a.value, a.after, Tag(key), j);
      }
    }
  }

  /** The appended tag, written in the pieces `find_key_assignment` returns. */
  lemma AppendedTag(entry: string, key: string, value: string)
    requires entry != ""
    ensures entry[|entry| - 1] == ' ' ==>
      entry + "" + "#" + key + "=" + value == entry[..|entry| - 1] + Tag(key) + value + ""
    ensures entry[|entry| - 1] != ' ' ==>
      entry + " " + "#" + key + "=" + value == entry + Tag(key) + value + ""
  {
    if entry[|entry| - 1] == ' ' {
      assert entry == entry[..|entry| - 1] + " ";
    }
  }

  /**
   * After `set_key`, looking the key up finds exactly the new value, with
   * the text around the tag unchanged.
   */
  lemma SetKeyThenFind(entry: string, key: string, value: string)
    requires '\n' !in entry && entry != "" && IsWord(key) && IsWord(value)
    ensures SetKey(entry, key, value).Ok?
    ensures '\n' !in SetKey(entry, key, value).value
    ensures FindKeyAssignment(SetKey(entry, key, value).value, key) == Some(SetKeySplit(entry, key, value))
    ensures FindKeyAssignment(SetKey(entry, key, value).value, key).value.value == value
  {
    var a := SetKeySplit(entry, key, value);
    match FindKeyAssignment(entry, key)
    case Some(prev) =>
      NoTagInAfter(entry, key);
      FindAssembled(prev.before, key, value, prev.after);
    case None =>
      AppendedTag(entry, key, value);
      FindAssembled(a.before, key, value, "");
  }

  /** `del_key`: the last tag for `key` and its value are cut out. */
  function DelKey(entry: string, key: string): (r: string)
    requires '\n' !in entry
    ensures !Contains(entry, Tag(key)) ==> r == entry
    ensures Contains(entry, Tag(key)) ==> |r| < |entry|
    ensures Contains(entry, Tag(key)) ==>
      var a := FindKeyAssignment(entry, key).value;
      r == a.before + a.after
  {
    match FindKeyAssignment(entry, key)
    case None => entry
    case Some(a) => a.before + a.after
  }

  /**
   * Deleting a key just set gives back the entry without that tag: the old
   * tag is removed, or, when there was none, the entry itself.
   */
  lemma {:induction false} DelKeyAfterSetKey(entry: string, key: string, value: string)
    requires '\n' !in entry && entry != "" && IsWord(key) && IsWord(value)
    ensures SetKey(entry, key, value).Ok?
    ensures '\n' !in SetKey(entry, key, value).value
    ensures Contains(entry, Tag(key)) ==> DelKey(SetKey(entry, key, value).value, key) == DelKey(entry, key)
    ensures !Contains(entry, Tag(key)) && entry[|entry| - 1] != ' ' ==>
      DelKey(SetKey(entry, key, value).value, key) == entry
  {
    SetKeyThenFind(entry, key, value);
    var s := SetKey(entry, key, value).value;
    assert Contains(s, Tag(key)) by {
      var a := FindKeyAssignment(s, key).value;
      assert OccursAt(s, Tag(key), |a.before|);
    }
  }

  /** A moment as `datetime.datetime` holds it; the time zone is not represented. */
  datatype DateTime = DateTime(year: int, month: int, day: int, hour: int, minute: int, second: int)

  predicate IsLeapYear(year: int)
  {
    year % 4 == 0 && (year % 100 != 0 || year % 400 == 0)
  }

  function DaysInMonth(year: int, month: int): int
    requires 1 <= month <= 12
  {
    if month == 2 then (if IsLeapYear(year) then 29 else 28)
    else if month in {4, 6, 9, 11} then 30
    else 31
  }

  /** The field ranges `datetime.datetime` enforces. */
  predicate ValidDateTime(t: DateTime)
  {
    && 1 <= t.year <= 9999
    && 1 <= t.month <= 12
    && 1 <= t.day <= DaysInMonth(t.year, t.month)
    && 0 <= t.hour < 24 && 0 <= t.minute < 60 && 0 <= t.second < 60
  }

  function Pow10(k: nat): nat
  {
    if k == 0 then 1 else 10 * Pow10(k - 1)
  }

  predicate IsDigit(c: char)
  {
    '0' <= c <= '9'
  }

  predicate AllDigits(s: string)
  {
    forall i :: 0 <= i < |s| ==> IsDigit(s[i])
  }

  /** The number a string of decimal digits denotes. */
  function DigitsValue(s: string): nat
    requires AllDigits(s)
  {
    if |s| == 0 then 0
    else 10 * DigitsValue(s[..|s| - 1]) + (s[|s| - 1] as int - '0' as int)
  }

  /** `n` in decimal, zero-padded to `width` digits, as `%Y`, `%m`, `%d`, … print it. */
  function Digits(n: nat, width: nat): (r: string)
    requires n < Pow10(width)
    ensures |r| == width && AllDigits(r)
    ensures DigitsValue(r) == n
  {
    if width == 0 then ""
    else
      var r := Digits(n / 10, width - 1) + [('0' as int + n % 10) as char];
      assert r[..|r| - 1] == Digits(n / 10, width - 1);
      r
  }

  /**
   * `datetime_to_string`: `strftime("%Y%m%dT%H%M%SZ")`, the UTC form of
   * DATE-TIME in section 3.3.5 of RFC 5545.
   */
  function DatetimeToString(t: DateTime): (r: string)
    requires ValidDateTime(t)
    ensures |r| == 16 && r[8] == 'T' && r[15] == 'Z'
    ensures forall i :: 0 <= i < 16 && i != 8 && i != 15 ==> IsDigit(r[i])
  {
    StampShape(Digits(t.year, 4), Digits(t.month, 2), Digits(t.day, 2),
               Digits(t.hour, 2), Digits(t.minute, 2), Digits(t.second, 2));
    Digits(t.year, 4) + Digits(t.month, 2) + Digits(t.day, 2) + "T"
      + Digits(t.hour, 2) + Digits(t.minute, 2) + Digits(t.second, 2) + "Z"
  }

  /** Six digit groups of widths 4, 2, 2, 2, 2, 2 joined as `YYYYMMDDTHHMMSSZ`. */
  lemma StampShape(year: string, month: string, day: string, hour: string, minute: string, second: string)
    requires |year| == 4 && |month| == 2 && |day| == 2 && |hour| == 2 && |minute| == 2 && |second| == 2
    requires AllDigits(year) && AllDigits(month) && AllDigits(day)
    requires AllDigits(hour) && AllDigits(minute) && AllDigits(second)
    ensures var r := year + month + day + "T" + hour + minute + second + "Z";
      && |r| == 16 && r[8] == 'T' && r[15] == 'Z'
      && forall i :: 0 <= i < 16 && i != 8 && i != 15 ==> IsDigit(r[i])
  {
    var r := year + month + day + "T" + hour + minute + second + "Z";
    assert forall i :: 0 <= i < 4 ==> r[i] == year[i];
    assert forall i :: 4 <= i < 6 ==> r[i] == month[i - 4];
    assert forall i :: 6 <= i < 8 ==> r[i] == day[i - 6];
    assert forall i :: 9 <= i < 11 ==> r[i] == hour[i - 9];
    assert forall i :: 11 <= i < 13 ==> r[i] == minute[i - 11];
    assert forall i :: 13 <= i < 15 ==> r[i] == second[i - 13];
  }

  /** Reading a `YYYYMMDDTHHMMSSZ` string back into its fields. */
  function ParseDatetime(s: string): (r: Option<DateTime>)
    ensures r.Some? ==> |s| == 16
  {
    if |s| == 16 && s[8] == 'T' && s[15] == 'Z'
      && forall i :: 0 <= i < 16 && i != 8 && i != 15 ==> IsDigit(s[i])
    then
      assert AllDigits(s[..4]) && AllDigits(s[4..6]) && AllDigits(s[6..8]);
      assert AllDigits(s[9..11]) && AllDigits(s[11..13]) && AllDigits(s[13..15]);
      Some(DateTime(DigitsValue(s[..4]), DigitsValue(s[4..6]), DigitsValue(s[6..8]),
                    DigitsValue(s[9..11]), DigitsValue(s[11..13]), DigitsValue(s[13..15])))
    else None
  }

  /** The timestamp written by `datetime_to_string` reads back as the same moment. */
  lemma DatetimeRoundTrip(t: DateTime)
    requires ValidDateTime(t)
    ensures ParseDatetime(DatetimeToString(t)) == Some(t)
  {
    var s := DatetimeToString(t);
    assert s[..4] == Digits(t.year, 4);
    assert s[4..6] == Digits(t.month, 2);
    assert s[6..8] == Digits(t.day, 2);
    assert s[9..11] == Digits(t.hour, 2);
    assert s[11..13] == Digits(t.minute, 2);
    assert s[13..15] == Digits(t.second, 2);
  }

  /**
   * `set_entry_key`: `set_key` on the entry at `index`, a Python index that
   * may count from the end; a bad index raises `IndexError`.
   */
  function SetEntryKey(todo: seq<string>, index: int, key: string, value: string): (r: Result<seq<string>, TxtError>)
    requires forall i :: 0 <= i < |todo| ==> '\n' !in todo[i]
    ensures PyIndex(|todo|, index).None? ==> r.Err?
    ensures PyIndex(|todo|, index).Some? ==>
      var i := PyIndex(|todo|, index).value;
      && (r.Err? <==> todo[i] == "")
      && (r.Ok? ==> |r.value| == |todo| && r.value[i] == SetKey(todo[i], key, value).value)
      && (r.Ok? ==> forall k :: 0 <= k < |todo| && k != i ==> r.value[k] == todo[k])
  {
    match PyIndex(|todo|, index)
    case None => Err(IndexError)
    case Some(i) =>
      match SetKey(todo[i], key, value)
      case Err(e) => Err(e)
      case Ok(entry) => Ok(todo[i := entry])
  }

  /** `remove`: `del todo_list[index]`, keeping the order of the rest. */
  function Remove(todo: seq<string>, index: int): (r: Result<seq<string>, TxtError>)
    ensures r.Err? <==> !(-|todo| <= index < |todo|)
    ensures r.Ok? ==> |r.value| == |todo| - 1
    ensures r.Ok? && index >= 0 ==> r.value == todo[..index] + todo[index + 1..]
    ensures r.Ok? && index < 0 ==> r.value == todo[..|todo| + index] + todo[|todo| + index + 1..]
  {
    match PyIndex(|todo|, index)
    case None => Err(IndexError)
    case Some(i) => Ok(RemoveAt(todo, i))
  }

  /**
   * Putting the removed entry back where `remove` took it from gives the
   * list back: a negative index removes the entry that many places from
   * the end.
   */
  lemma RemoveRestores(todo: seq<string>, index: int)
    requires -|todo| <= index < |todo|
    ensures var i := if index >= 0 then index else |todo| + index;
      Remove(todo, index).Ok? && InsertAt(Remove(todo, index).value, i, todo[i]) == todo
  {
    var i := if index >= 0 then index else |todo| + index;
    InsertRemoved(todo, i);
  }

  /** A timestamp is a single word, so it survives as a tag value. */
  lemma StampIsWord(now: DateTime)
    requires ValidDateTime(now)
    ensures IsWord(DatetimeToString(now))
  {
    var t := DatetimeToString(now);
    assert forall i :: 0 <= i < |t| ==> IsDigit(t[i]) || t[i] == 'T' || t[i] == 'Z';
  }

  /** Tagging one entry with a timestamp under `key` lets it be read back. */
  lemma StampFound(entry: string, key: string, now: DateTime)
    requires '\n' !in entry && entry != "" && IsWord(key) && ValidDateTime(now)
    ensures SetKey(entry, key, DatetimeToString(now)).Ok?
    ensures '\n' !in SetKey(entry, key, DatetimeToString(now)).value
    ensures FindKeyAssignment(SetKey(entry, key, DatetimeToString(now)).value, key).Some?
    ensures ParseDatetime(FindKeyAssignment(SetKey(entry, key, DatetimeToString(now)).value, key).value.value) == Some(now)
  {
    StampIsWord(now);
    SetKeyThenFind(entry, key, DatetimeToString(now));
    DatetimeRoundTrip(now);
  }

  /**
   * `start` and `stop`: `set_entry_key` with the current moment as value.
   * The entry's tag then reads back as that moment, and no other entry
   * changes.
   */
  function StampEntry(todo: seq<string>, index: int, key: string, now: DateTime): (r: Result<seq<string>, TxtError>)
    requires forall i :: 0 <= i < |todo| ==> '\n' !in todo[i]
    requires IsWord(key) && ValidDateTime(now)
    ensures r.Err? <==> PyIndex(|todo|, index).None? || todo[PyIndex(|todo|, index).value] == ""
    ensures r.Ok? ==>
      && |r.value| == |todo| && PyIndex(|todo|, index).Some?
      && var i := PyIndex(|todo|, index).value;
      && (forall k :: 0 <= k < |todo| && k != i ==> r.value[k] == todo[k])
      && '\n' !in r.value[i]
      && FindKeyAssignment(r.value[i], key).Some?
      && ParseDatetime(FindKeyAssignment(r.value[i], key).value.value) == Some(now)
  {
    var r := SetEntryKey(todo, index, key, DatetimeToString(now));
    if r.Ok? then
      StampFound(todo[PyIndex(|todo|, index).value], key, now);
      r
    else r
  }

  const StartKey := "timetrack.start"
  const StopKey := "timetrack.stop"

  /** `start`: tags the entry with the moment work on it started. */
  function Start(todo: seq<string>, index: int, now: DateTime): (r: Result<seq<string>, TxtError>)
    requires forall i :: 0 <= i < |todo| ==> '\n' !in todo[i]
    requires ValidDateTime(now)
    ensures r.Err? <==> PyIndex(|todo|, index).None? || todo[PyIndex(|todo|, index).value] == ""
    ensures r.Ok? ==>
      && |r.value| == |todo| && PyIndex(|todo|, index).Some?
      && (forall k :: 0 <= k < |todo| && k != PyIndex(|todo|, index).value ==> r.value[k] == todo[k])
      && '\n' !in r.value[PyIndex(|todo|, index).value]
      && FindKeyAssignment(r.value[PyIndex(|todo|, index).value], StartKey).Some?
      && ParseDatetime(FindKeyAssignment(r.value[PyIndex(|todo|, index).value], StartKey).value.value) == Some(now)
  {
    StampEntry(todo, index, StartKey, now)
  }

  /** `stop`: tags the entry with the moment work on it stopped. */
  function Stop(todo: seq<string>, index: int, now: DateTime): (r: Result<seq<string>, TxtError>)
    requires forall i :: 0 <= i < |todo| ==> '\n' !in todo[i]
    requires ValidDateTime(now)
    ensures r.Err? <==> PyIndex(|todo|, index).None? || todo[PyIndex(|todo|, index).value] == ""
    ensures r.Ok? ==>
      && |r.value| == |todo| && PyIndex(|todo|, index).Some?
      && (forall k :: 0 <= k < |todo| && k != PyIndex(|todo|, index).value ==> r.value[k] == todo[k])
      && '\n' !in r.value[PyIndex(|todo|, index).value]
      && FindKeyAssignment(r.value[PyIndex(|todo|, index).value], StopKey).Some?
      && ParseDatetime(FindKeyAssignment(r.value[PyIndex(|todo|, index).value], StopKey).value.value) == Some(now)
  {
    StampEntry(todo, index, StopKey, now)
  }
}

=== FILE: tray_event.dfy ===
/**
 * The tray-file event chain of `phile/tray/event.py`: `Filter` keeps the
 * events about tray files, `Converter` turns each into the tray file of
 * its path, and `Sorter` keeps the known tray files in a sorted list,
 * reporting each change as an insertion, a pop or a set at an index.
 *
 * Loading a tray file is an oracle `load`: `None` stands for
 * `FileNotFoundError` and `JSONDecodeError` alike. Tray files are ordered
 * as `phile.data.File` orders them, so the sorted list is a cache of
 * `SortedCache`.
 */
module TrayEvent {
  import opened Outcomes
  import opened Strings
  import opened Paths
  import opened KeyedLists
  import opened WatchEvents
  import SortedCache

  /** Whether `Filter` passes a file event that is not a move: the path's suffix and parent are the configured ones. */
  predicate IsTrayPath(directory: Path, suffix: string, path: Path)
  {
    Suffix(path) == suffix && Parent(path) == directory
  }

  /**
   * `Filter.__call__`: the events handed to the event handler. Nothing for
   * a directory event; a move is passed on as the deletion of its source
   * and the creation of its destination, each filtered on its own.
   */
  function Filter(directory: Path, suffix: string, e: FileSystemEvent): (r: seq<FileSystemEvent>)
    ensures e.isDirectory ==> r == []
    ensures forall k :: 0 <= k < |r| ==>
      && !r[k].isDirectory && r[k].eventType != Moved
      && IsTrayPath(directory, suffix, r[k].srcPath)
    decreases if !e.isDirectory && e.eventType == Moved then 1 else 0
  {
    if e.isDirectory then []
    else if e.eventType == Moved then
      Filter(directory, suffix, FileDeleted(e.srcPath)) + Filter(directory, suffix, FileCreated(e.destPath))
    else if Suffix(e.srcPath) != suffix then []
    else if Parent(e.srcPath) != directory then []
    else [e]
  }

  /** The split events whose path passes, in order. */
  function TrayEvents(directory: Path, suffix: string, es: seq<FileSystemEvent>): (r: seq<FileSystemEvent>)
    decreases |es|
  {
    if |es| == 0 then []
    else (if IsTrayPath(directory, suffix, es[0].srcPath) then [es[0]] else []) + TrayEvents(directory, suffix, es[1..])
  }

  /** `Filter` passes exactly the events a move splits into whose path is a tray path. */
  lemma FilterIsSplitThenFilter(directory: Path, suffix: string, e: FileSystemEvent)
    ensures Filter(directory, suffix, e) == TrayEvents(directory, suffix, SplitFileMoveEvent(e))
  {
    var es := SplitFileMoveEvent(e);
    if !e.isDirectory {
      if e.eventType == Moved {
        assert es[1..] == [FileCreated(e.destPath)];
        assert es[1..][1..] == [];
        assert TrayEvents(directory, suffix, es[1..][1..]) == [];
        assert TrayEvents(directory, suffix, es[1..]) == Filter(directory, suffix, FileCreated(e.destPath)) + [];
      } else {
        assert es[1..] == [];
      }
    }
  }

  /**
   * A path that `Filter` passes also passes the suffix filter of the
   * watchdog layer, when the configured suffix is not empty: a path
   * suffix is an ending of the file name.
   */
  lemma TrayPathPassesFilterPath(directory: Path, suffix: string, path: Path)
    requires suffix != ""
    requires IsTrayPath(directory, suffix, path)
    ensures FilterPath(path, directory, suffix)
  {
  }

  /** A file in the directory whose name has two dots in its suffix ending passes `filter_path` but not `Filter`. */
  lemma DoubleSuffixOnlyFilterPath(directory: Path)
    ensures var path := PathOf(directory.parts + ["a.b.c"]);
      FilterPath(path, directory, ".b.c") && !IsTrayPath(directory, ".b.c", path)
  {
    var path := PathOf(directory.parts + ["a.b.c"]);
    assert Name(path) == "a.b.c";
    assert Parent(path).parts == directory.parts;
    assert "a.b.c"[|"a.b.c"| - |".b.c"|..] == ".b.c";
    assert EndsWith(Name(path), ".b.c");
    assert ".b.c"[1..][1] == '.';
  }

  /** `Sorter.__call__`: reload the tray file of a path into the sorted list. */
  function Sort<C>(load: Path -> Option<C>, files: seq<SortedCache.Entry<C>>, path: Path): (r: SortedCache.Updated<C>)
    ensures r.event.None? ==> r.tracked == files && load(path).None?
    ensures SortedCache.IsCache(files) ==>
      && SortedCache.IsCache(r.tracked)
      && Distinct(SortedCache.EntryPath, files) && Distinct(SortedCache.EntryPath, r.tracked)
      && AsMap(SortedCache.EntryPath, r.tracked)
        == if load(path).Some? then AsMap(SortedCache.EntryPath, files)[path := SortedCache.Entry(path, load(path).value)]
           else AsMap(SortedCache.EntryPath, files) - {path}
  {
    var r := SortedCache.Update(load, files, path);
    assert SortedCache.IsCache(files) ==>
      && SortedCache.IsCache(r.tracked)
      && Distinct(SortedCache.EntryPath, files) && Distinct(SortedCache.EntryPath, r.tracked)
      && AsMap(SortedCache.EntryPath, r.tracked)
        == if load(path).Some? then AsMap(SortedCache.EntryPath, files)[path := SortedCache.Entry(path, load(path).value)]
           else AsMap(SortedCache.EntryPath, files) - {path}
    by {
      if SortedCache.IsCache(files) { SortedCache.UpdateAbstracts(load, files, path); }
    }
    r
  }

  /** A file that does not load and is not tracked changes nothing and is reported to no handler. */
  lemma SortIgnoresUntrackedMissing<C>(load: Path -> Option<C>, files: seq<SortedCache.Entry<C>>, path: Path)
    requires SortedCache.IsCache(files) && load(path).None?
    requires path !in KeysOf(SortedCache.EntryPath, files)
    ensures Sort(load, files, path) == SortedCache.Updated(files, None)
  {
    SortedCache.TrackedAtBisect(files, path);
  }

  /**
   * An event through `Filter`, `Converter` and `Sorter`: the tray file of
   * each passed event's path is reloaded in turn. `Converter` asserts the
   * event is not a move, which `Filter` guarantees.
   */
  function Handle<C>(load: Path -> Option<C>, files: seq<SortedCache.Entry<C>>, directory: Path, suffix: string, e: FileSystemEvent): (r: (seq<SortedCache.Entry<C>>, seq<SortedCache.Event<C>>))
    ensures |r.1| <= 2
  {
    var passed := Filter(directory, suffix, e);
    assert |passed| <= 2 by { FilterIsSplitThenFilter(directory, suffix, e); TrayEventsShorter(directory, suffix, SplitFileMoveEvent(e)); }
    SortedCache.UpdatePaths(load, files, SourcePaths(passed))
  }

  lemma {:induction false} TrayEventsShorter(directory: Path, suffix: string, es: seq<FileSystemEvent>)
    ensures |TrayEvents(directory, suffix, es)| <= |es|
    decreases |es|
  {
    if |es| > 0 {
      TrayEventsShorter(directory, suffix, es[1..]);
    }
  }

  /**
   * Handling an event keeps the list sorted, and the tray files it tracks
   * afterwards are those before, with the tray paths of the split event
   * reloaded.
   */
  lemma HandleReloadsTrayPaths<C>(load: Path -> Option<C>, files: seq<SortedCache.Entry<C>>, directory: Path, suffix: string, e: FileSystemEvent)
    requires SortedCache.IsCache(files)
    ensures var r := Handle(load, files, directory, suffix, e).0;
      && SortedCache.IsCache(r)
      && Distinct(SortedCache.EntryPath, files) && Distinct(SortedCache.EntryPath, r)
      && AsMap(SortedCache.EntryPath, r)
        == SortedCache.Reload(load, AsMap(SortedCache.EntryPath, files), SourcePaths(TrayEvents(directory, suffix, SplitFileMoveEvent(e))))
  {
    FilterIsSplitThenFilter(directory, suffix, e);
    SortedCache.UpdatePathsAbstracts(load, files, SourcePaths(Filter(directory, suffix, e)));
  }

  /** The error of `load_all`'s assertion: the list was not empty. */
  datatype LoadAllError = NotEmpty

  /**
   * `Sorter.load_all`: on an empty list, sort in every listed path (what
   * the directory glob yields) that is a file. `isFile` is the file-system
   * oracle for `is_file`.
   */
  function LoadAll<C>(load: Path -> Option<C>, isFile: Path -> bool, files: seq<SortedCache.Entry<C>>, listing: seq<Path>): (r: Result<(seq<SortedCache.Entry<C>>, seq<SortedCache.Event<C>>), LoadAllError>)
    ensures r.Err? <==> |files| > 0
  {
    if |files| > 0 then Err(NotEmpty)
    else Ok(SortedCache.UpdatePaths(load, files, FilesOf(isFile, listing)))
  }

  /** The listed paths that are files, in order. */
  function FilesOf(isFile: Path -> bool, listing: seq<Path>): (r: seq<Path>)
    ensures forall p :: p in r <==> p in listing && isFile(p)
    decreases |listing|
  {
    if |listing| == 0 then []
    else
      var rest := FilesOf(isFile, listing[1..]);
      assert forall p :: p in listing <==> p == listing[0] || p in listing[1..];
      (if isFile(listing[0]) then [listing[0]] else []) + rest
  }

  /**
   * After `load_all`, the list is sorted and tracks exactly the listed
   * files that load, each with its content.
   */
  lemma LoadAllTracksListedFiles<C>(load: Path -> Option<C>, isFile: Path -> bool, listing: seq<Path>)
    ensures var r := LoadAll(load, isFile, [], listing);
      && r.Ok?
      && SortedCache.IsCache(r.value.0)
      && Distinct(SortedCache.EntryPath, r.value.0)
      && AsMap(SortedCache.EntryPath, r.value.0)
        == map p | p in listing && isFile(p) && load(p).Some? :: SortedCache.Entry(p, load(p).value)
  {
    var ps := FilesOf(isFile, listing);
    var empty: seq<SortedCache.Entry<C>> := [];
    SortedCache.UpdatePathsAbstracts(load, empty, ps);
    assert AsMap(SortedCache.EntryPath, empty) == map[] by {
      assert KeysOf(SortedCache.EntryPath, empty) == {};
    }
    ReloadFromEmpty(load, ps);
    assert (map p | p in ps && load(p).Some? :: SortedCache.Entry(p, load(p).value))
      == map p | p in listing && isFile(p) && load(p).Some? :: SortedCache.Entry(p, load(p).value);
  }

  /** Reloading paths into nothing tracks exactly those that load. */
  lemma ReloadFromEmpty<C>(load: Path -> Option<C>, ps: seq<Path>)
    ensures SortedCache.Reload(load, map[], ps) == map p | p in ps && load(p).Some? :: SortedCache.Entry(p, load(p).value)
  {
  }
}

=== FILE: tray_files.dfy ===
/**
 * Tray files of `phile/tray/watchdog.py`: one file per tray entry, named
 * after the entry, whose first line is the text icon and whose remainder,
 * if any, is a JSON object holding the icon name and icon path.
 *
 * The file system is a map from paths to file contents, read with the
 * newline translation of `read_text`. JSON encoding and decoding are
 * parameters: `dump` writes the two optional fields, and `load` reads a
 * JSON value back or fails as `json.load` does on ill-formed text.
 */
module TrayFiles {
  import opened Outcomes
  import opened Strings
  import opened Paths
  import opened WatchEvents
  import TrayRegistry
  import EntryFiles

  type TrayEntry = TrayRegistry.TrayEntry

  /** The file system: the text content of each file. */
  type Files = map<Path, string>

  /** The JSON object of a tray file: a key for each field present. */
  datatype JsonFields = JsonFields(iconName: Option<string>, iconPath: Option<string>)

  /** A decoded JSON value: an object with the fields it has, or any other value. */
  datatype JsonValue = JsonObject(fields: JsonFields) | JsonNonObject

  /**
   * The errors `load` raises: `json.decoder.JSONDecodeError` for text that
   * is not JSON, and `AttributeError` from `json_content.get` when the JSON
   * value is not an object.
   */
  datatype LoadError = JsonDecodeError | AttributeError

  /**
   * A JSON codec that reads back the object it writes, as a non-empty text
   * without carriage returns (`json.dump` escapes control characters).
   */
  ghost predicate FaithfulJson(dump: JsonFields -> string, load: string -> Option<JsonValue>)
  {
    forall f :: |dump(f)| > 0 && '\r' !in dump(f) && load(dump(f)) == Some(JsonObject(f))
  }

  /** The first line of a text stream, with its newline, and the rest of the stream (`readline`). */
  function ReadLine(content: string): (r: (string, string))
    ensures r.0 + r.1 == content
    ensures '\n' !in r.0[..if |r.0| > 0 then |r.0| - 1 else 0]
    ensures '\n' in content ==> |r.0| > 0 && r.0[|r.0| - 1] == '\n'
    ensures '\n' !in content ==> r.1 == ""
  {
    match FindChar(content, '\n')
    case None => (content, "")
    case Some(i) =>
      assert content[..i + 1][..i] == content[..i];
      (content[..i + 1], content[i + 1..])
  }

  /** The characters `rstrip('\r\n')` removes. */
  const LineEnd: set<char> := {'\r', '\n'}

  /**
   * A text icon that `load` gives back unchanged: one line, with no carriage
   * return, which `read_text` would read as a line break.
   */
  predicate IsTextIconLine(text: string)
  {
    '\n' !in text && '\r' !in text
  }

  /** `save`: the file content for an entry. */
  function SaveContent(e: TrayEntry, dump: JsonFields -> string): (r: string)
    ensures StartsWith(r, e.textIcon.GetOr(""))
    ensures e.iconName.None? && e.iconPath.None? ==> r == e.textIcon.GetOr("")
  {
    var text := e.textIcon.GetOr("");
    var fields := JsonFields(e.iconName, if e.iconPath.Some? then Some(PathString(e.iconPath.value)) else None);
    if fields == JsonFields(None, None) then text
    else
      assert (text + ("\n" + dump(fields)))[..|text|] == text;
      text + ("\n" + dump(fields))
  }

  /**
   * `load`: the entry named by the file name without the suffix, whose text
   * icon is the first line of the text read without its line ending, and
   * whose icon fields come from the JSON object after it, if there is
   * anything after it.
   */
  function Load(path: Path, traySuffix: string, raw: string, load: string -> Option<JsonValue>): (r: Result<TrayEntry, LoadError>)
    ensures var rest := ReadLine(EntryFiles.ReadText(raw)).1;
      && (r == Err(JsonDecodeError) <==> rest != "" && load(rest).None?)
      && (r == Err(AttributeError) <==> rest != "" && load(rest) == Some(JsonNonObject))
    ensures r.Ok? ==>
      var (line, rest) := ReadLine(EntryFiles.ReadText(raw));
      && r.value.name == EntryFiles.EntryName(path, traySuffix)
      && r.value.textIcon == Some(StripRightChars(line, LineEnd))
      && (rest == "" ==> r.value.iconName.None? && r.value.iconPath.None?)
      && (rest != "" ==>
            && load(rest).Some? && load(rest).value.JsonObject?
            && r.value.iconName == load(rest).value.fields.iconName
            && r.value.iconPath == (if load(rest).value.fields.iconPath.Some? then Some(ParsePath(load(rest).value.fields.iconPath.value)) else None))
  {
    var name := EntryFiles.EntryName(path, traySuffix);
    var (line, rest) := ReadLine(EntryFiles.ReadText(raw));
    var textIcon := StripRightChars(line, LineEnd);
    if rest == "" then Ok(TrayRegistry.TrayEntry(name, None, None, Some(textIcon)))
    else
      match load(rest)
      case None => Err(JsonDecodeError)
      case Some(JsonNonObject) => Err(AttributeError)
      case Some(JsonObject(f)) =>
        var iconPath := if f.iconPath.Some? then Some(ParsePath(f.iconPath.value)) else None;
        Ok(TrayRegistry.TrayEntry(name, f.iconName, iconPath, Some(textIcon)))
  }

  /** The first line of a text icon line followed by more text is that line. */
  lemma ReadTextIconLine(text: string, rest: string)
    requires IsTextIconLine(text)
    ensures ReadLine(text + ("\n" + rest)) == (text + "\n", rest)
    ensures ReadLine(text) == (text, "")
    ensures StripRightChars(text + "\n", LineEnd) == text
    ensures StripRightChars(text, LineEnd) == text
  {
    ReadLineAt(text, rest);
    StripTextIconLine(text);
  }

  lemma ReadLineAt(text: string, rest: string)
    requires '\n' !in text
    ensures ReadLine(text + ("\n" + rest)) == (text + "\n", rest)
  {
    var s := text + ("\n" + rest);
    FindCharAfter(text, "\n" + rest, '\n');
    assert s[..|text| + 1] == text + "\n";
    assert s[|text| + 1..] == rest;
  }

  lemma StripTextIconLine(text: string)
    requires IsTextIconLine(text)
    ensures StripRightChars(text + "\n", LineEnd) == text
    ensures StripRightChars(text, LineEnd) == text
  {
    assert (text + "\n")[..|text + "\n"| - 1] == text;
    if |text| > 0 {
      assert text[|text| - 1] in text;
    }
  }

  /**
   * Saving an entry and loading its file gives the entry back, except that
   * a missing text icon reads back as an empty one.
   */
  lemma SaveThenLoad(e: TrayEntry, trayDirectory: Path, traySuffix: string, dump: JsonFields -> string, load: string -> Option<JsonValue>)
    requires FaithfulJson(dump, load)
    requires IsFileName(e.name + traySuffix)
    requires IsTextIconLine(e.textIcon.GetOr(""))
    ensures Load(EntryFiles.GetPath(e.name, trayDirectory, traySuffix), traySuffix, SaveContent(e, dump), load)
      == Ok(e.(textIcon := Some(e.textIcon.GetOr(""))))
  {
    var text := e.textIcon.GetOr("");
    var fields := JsonFields(e.iconName, if e.iconPath.Some? then Some(PathString(e.iconPath.value)) else None);
    EntryFiles.EntryNameOfPath(e.name, trayDirectory, traySuffix);
    ReadSaved(e, dump);
    ReadTextIconLine(text, dump(fields));
    if e.iconPath.Some? {
      ParsePathString(e.iconPath.value);
    }
  }

  /** A saved file reads back as written when the text icon holds no carriage return. */
  lemma ReadSaved(e: TrayEntry, dump: JsonFields -> string)
    requires '\r' !in e.textIcon.GetOr("")
    requires forall f :: '\r' !in dump(f)
    ensures EntryFiles.ReadText(SaveContent(e, dump)) == SaveContent(e, dump)
  {
    SavedWithoutReturn(e, dump);
    EntryFiles.ReadTextWithoutReturn(SaveContent(e, dump));
  }

  /** A saved file holds no carriage return when the text icon holds none. */
  lemma SavedWithoutReturn(e: TrayEntry, dump: JsonFields -> string)
    requires '\r' !in e.textIcon.GetOr("")
    requires forall f :: '\r' !in dump(f)
    ensures '\r' !in SaveContent(e, dump)
  {
    var text := e.textIcon.GetOr("");
    var fields := JsonFields(e.iconName, if e.iconPath.Some? then Some(PathString(e.iconPath.value)) else None);
    if fields != JsonFields(None, None) {
      assert '\r' !in dump(fields);
      assert '\r' !in "\n" + dump(fields);
    }
  }

  /** `Target.set`: save the entry's file and remember its name. */
  function TargetSet(t: EntryFiles.Target, fs: Files, e: TrayEntry, dump: JsonFields -> string): (r: (EntryFiles.Target, Files))
    ensures r.0.currentNames == t.currentNames + {e.name}
    ensures var path := EntryFiles.PathOfName(t, e.name);
      path in r.1 && r.1[path] == SaveContent(e, dump)
      && forall p :: p != path ==> (p in r.1 <==> p in fs) && (p in fs ==> r.1[p] == fs[p])
  {
    EntryFiles.TargetSet(t, fs, e.name, SaveContent(e, dump))
  }

  /**
   * `Source.process_path`: load a file with the tray suffix into the
   * registry, ignoring missing files and ill-formed JSON; the
   * `AttributeError` of a JSON value that is not an object propagates.
   */
  function ProcessPath(r: TrayRegistry.Registry, fs: Files, traySuffix: string, load: string -> Option<JsonValue>, path: Path): (p: Result<TrayRegistry.Registry, LoadError>)
    requires TrayRegistry.Valid(r)
    ensures p.Ok? ==> TrayRegistry.Valid(p.value)
    ensures !EndsWith(Name(path), traySuffix) || path !in fs ==> p == Ok(r)
    ensures EndsWith(Name(path), traySuffix) && path in fs ==>
      var loaded := Load(path, traySuffix, fs[path], load);
      && (loaded == Err(JsonDecodeError) ==> p == Ok(r))
      && (loaded == Err(AttributeError) ==> p == Err(AttributeError))
      && (loaded.Ok? ==> p.Ok? && TrayRegistry.Shown(p.value) == TrayRegistry.Shown(r)[loaded.value.name := loaded.value])
  {
    if !EndsWith(Name(path), traySuffix) || path !in fs then Ok(r)
    else
      match Load(path, traySuffix, fs[path], load)
      case Err(JsonDecodeError) => Ok(r)
      case Err(AttributeError) => Err(AttributeError)
      case Ok(e) =>
        TrayRegistry.SetAbstracts(r, e);
        Ok(TrayRegistry.SetEntry(r, e))
  }

  /** Processing paths one after another, up to the first that raises. */
  function ProcessPaths(r: TrayRegistry.Registry, fs: Files, traySuffix: string, load: string -> Option<JsonValue>, paths: seq<Path>): (p: Result<TrayRegistry.Registry, LoadError>)
    requires TrayRegistry.Valid(r)
    ensures p.Ok? ==> TrayRegistry.Valid(p.value)
    decreases |paths|
  {
    if |paths| == 0 then Ok(r)
    else
      match ProcessPath(r, fs, traySuffix, load, paths[0])
      case Err(e) => Err(e)
      case Ok(next) => ProcessPaths(next, fs, traySuffix, load, paths[1..])
  }

  /**
   * `Source.process_watchdog_event`: nothing for a directory event; the
   * source path, and for a move then the destination path.
   */
  function ProcessEvent(r: TrayRegistry.Registry, fs: Files, traySuffix: string, load: string -> Option<JsonValue>, e: FileSystemEvent): (p: Result<TrayRegistry.Registry, LoadError>)
    requires TrayRegistry.Valid(r)
    ensures p.Ok? ==> TrayRegistry.Valid(p.value)
    ensures e.isDirectory ==> p == Ok(r)
  {
    if e.isDirectory then Ok(r)
    else
      match ProcessPath(r, fs, traySuffix, load, e.srcPath)
      case Err(err) => Err(err)
      case Ok(first) =>
        if e.eventType != Moved then Ok(first)
        else ProcessPath(first, fs, traySuffix, load, e.destPath)
  }

  /** An event is processed as the paths of the file events it splits into. */
  lemma ProcessEventPaths(r: TrayRegistry.Registry, fs: Files, traySuffix: string, load: string -> Option<JsonValue>, e: FileSystemEvent)
    requires TrayRegistry.Valid(r)
    ensures ProcessEvent(r, fs, traySuffix, load, e) == ProcessPaths(r, fs, traySuffix, load, EventToFilePaths(e))
  {
    var ps := EventToFilePaths(e);
    if !e.isDirectory {
      var first := ProcessPath(r, fs, traySuffix, load, e.srcPath);
      if e.eventType == Moved {
        assert ps[1..] == [e.destPath];
        assert ps[1..][1..] == [];
        if first.Ok? {
          var second := ProcessPath(first.value, fs, traySuffix, load, e.destPath);
          if second.Ok? {
            assert ProcessPaths(second.value, fs, traySuffix, load, ps[1..][1..]) == second;
          }
          assert ProcessPaths(first.value, fs, traySuffix, load, ps[1..]) == second;
        }
      } else {
        assert ps[1..] == [];
        if first.Ok? {
          assert ProcessPaths(first.value, fs, traySuffix, load, ps[1..]) == first;
        }
      }
    }
  }

  /** A file that is gone when its event is processed leaves the registry as it was: a source never pops an entry. */
  lemma DeletedFileKeepsEntry(r: TrayRegistry.Registry, fs: Files, traySuffix: string, load: string -> Option<JsonValue>, path: Path)
    requires TrayRegistry.Valid(r) && path !in fs
    ensures ProcessPath(r, fs, traySuffix, load, path) == Ok(r)
  {
  }

  /**
   * A target's file, read by a source watching the same directory and
   * suffix, shows the saved entry in the registry.
   */
  lemma TargetToSource(r: TrayRegistry.Registry, t: EntryFiles.Target, fs: Files, e: TrayEntry, dump: JsonFields -> string, load: string -> Option<JsonValue>)
    requires TrayRegistry.Valid(r) && FaithfulJson(dump, load)
    requires IsFileName(e.name + t.suffix) && IsTextIconLine(e.textIcon.GetOr(""))
    ensures var written := TargetSet(t, fs, e, dump);
      var p := ProcessPath(r, written.1, t.suffix, load, EntryFiles.PathOfName(t, e.name));
      p.Ok? && TrayRegistry.Shown(p.value) == TrayRegistry.Shown(r)[e.name := e.(textIcon := Some(e.textIcon.GetOr("")))]
  {
    SaveThenLoad(e, t.directory, t.suffix, dump, load);
    EntryFiles.EntryNameOfPath(e.name, t.directory, t.suffix);
  }

}

=== FILE: tray_registry.dfy ===
/**
 * The tray registry of `phile/tray/__init__.py`: the current tray entries
 * kept sorted by name, beside a list of their names used for bisection,
 * with one event per change put on the registry's event queue.
 *
 * The event queue is the list of events put so far and a flag telling
 * whether it was closed; a put after closing only warns, so the event is
 * dropped.
 */
module TrayRegistry {
  import opened Outcomes
  import opened Ordering
  import opened Strings
  import opened Paths
  import opened KeyedLists

  /** `tray.Entry`: a name and what to show for it. */
  datatype TrayEntry = TrayEntry(name: string, iconName: Option<string>, iconPath: Option<Path>, textIcon: Option<string>)

  function EntryName(e: TrayEntry): string
  {
    e.name
  }

  /** A name, as the key of the name list. */
  function NameKey(n: string): string
  {
    n
  }

  /** `entries_to_text`: the text icons of the entries that have one, in order. */
  function EntriesToText(entries: seq<TrayEntry>): (r: string)
    ensures (forall k :: 0 <= k < |entries| ==> entries[k].textIcon.None?) ==> r == ""
    ensures |entries| > 0 && entries[0].textIcon.Some? ==> StartsWith(r, entries[0].textIcon.value)
  {
    if |entries| == 0 then ""
    else (if entries[0].textIcon.Some? then entries[0].textIcon.value else "") + EntriesToText(entries[1..])
  }

  /** The text of a concatenation is the concatenation of the texts. */
  lemma {:induction false} EntriesToTextAppend(a: seq<TrayEntry>, b: seq<TrayEntry>)
    ensures EntriesToText(a + b) == EntriesToText(a) + EntriesToText(b)
    decreases |a|
  {
    if |a| > 0 {
      assert (a + b)[1..] == a[1..] + b;
      EntriesToTextAppend(a[1..], b);
    } else {
      assert a + b == b;
    }
  }

  /** An entry without a text icon adds nothing to the text, wherever it sits. */
  lemma EntriesToTextSkips(a: seq<TrayEntry>, e: TrayEntry, b: seq<TrayEntry>)
    requires e.textIcon.None?
    ensures EntriesToText(a + [e] + b) == EntriesToText(a + b)
  {
    EntriesToTextAppend(a + [e], b);
    EntriesToTextAppend(a, [e]);
    EntriesToTextAppend(a, b);
    assert EntriesToText([e]) == "" by {
      assert [e][1..] == [];
    }
  }

  datatype EventType = Insert | Pop | Set

  /** `tray.Event`: what changed, where, and the entries after the change. */
  datatype Event = Event(kind: EventType, index: nat, changedEntry: TrayEntry, currentEntries: seq<TrayEntry>)

  datatype Registry = Registry(entries: seq<TrayEntry>, names: seq<string>, events: seq<Event>, closed: bool)

  /** A new registry: nothing registered, nothing put, queue open. */
  const Empty: Registry := Registry([], [], [], false)

  /** The registry invariant: the names are those of the entries, in strictly increasing order. */
  predicate Valid(r: Registry)
  {
    && |r.names| == |r.entries|
    && (forall k :: 0 <= k < |r.names| ==> r.names[k] == r.entries[k].name)
    && Sorted(EntryName, StrLess, r.entries)
  }

  lemma EmptyValid()
    ensures Valid(Empty)
  {
  }

  /** `close`: later puts are dropped. */
  function Close(r: Registry): (c: Registry)
    ensures c.closed && c.entries == r.entries && c.names == r.names && c.events == r.events
  {
    r.(closed := true)
  }

  /** `_put_event`: queued when the queue is open, dropped with a warning after closing. */
  function PutEvent(r: Registry, e: Event): (p: Registry)
    ensures p.entries == r.entries && p.names == r.names && p.closed == r.closed
    ensures p.events == if r.closed then r.events else r.events + [e]
  {
    if r.closed then r else r.(events := r.events + [e])
  }

  /** The name list and the entry list give the same bisect index. */
  lemma BisectNames(r: Registry, x: string)
    requires Valid(r)
    ensures BisectLeft(NameKey, StrLess, r.names, x) == BisectLeft(EntryName, StrLess, r.entries, x)
  {
    var lo := BisectLeft(NameKey, StrLess, r.names, x);
    assert forall i :: 0 <= i < lo ==> StrLess(NameKey(r.names[i]), x);
    assert forall i :: 0 <= i < lo ==> StrLess(EntryName(r.entries[i]), x);
    BisectLeftUnique(EntryName, StrLess, r.entries, x, lo);
  }

  /** In a valid registry the bisect index finds a name exactly when it is registered. */
  lemma FoundAtBisect(r: Registry, x: string)
    requires Valid(r)
    ensures var i := BisectLeft(NameKey, StrLess, r.names, x);
      && i == BisectLeft(EntryName, StrLess, r.entries, x)
      && (x in r.names <==> i < |r.names| && r.names[i] == x)
      && (x in r.names <==> x in KeysOf(EntryName, r.entries))
  {
    BisectNames(r, x);
    StrLessIsOrder();
    BisectLeftFinds(EntryName, StrLess, r.entries, x);
    if x in r.names {
      var k :| 0 <= k < |r.names| && r.names[k] == x;
      assert EntryName(r.entries[k]) == x;
    }
    if x in KeysOf(EntryName, r.entries) {
      var k := IndexOf(EntryName, r.entries, x);
      assert r.names[k] == x;
    }
  }

  /** `_insert`: the entry and its name go in at `index`, then an `INSERT` event. */
  function InsertAt(r: Registry, index: nat, e: TrayEntry): (p: Registry)
    requires index <= |r.entries| && index <= |r.names|
    ensures p.entries == r.entries[..index] + [e] + r.entries[index..]
    ensures p.names == r.names[..index] + [e.name] + r.names[index..]
    ensures p.events == if r.closed then r.events else r.events + [Event(Insert, index, e, p.entries)]
  {
    var q := r.(entries := r.entries[..index] + [e] + r.entries[index..], names := r.names[..index] + [e.name] + r.names[index..]);
    PutEvent(q, Event(Insert, index, e, q.entries))
  }

  /**
   * `pop(name)`: the entry with that name is removed and a `POP` event
   * carries it; an unknown name changes nothing.
   */
  function PopName(r: Registry, name: string): (p: Registry)
    requires Valid(r)
    ensures p.closed == r.closed
    ensures name !in r.names ==> p == r
    ensures name in r.names ==>
      var i := BisectLeft(NameKey, StrLess, r.names, name);
      && i < |r.entries| && r.entries[i].name == name
      && p.entries == r.entries[..i] + r.entries[i + 1..]
      && p.names == r.names[..i] + r.names[i + 1..]
      && p.events == if r.closed then r.events else r.events + [Event(Pop, i, r.entries[i], p.entries)]
  {
    var i := BisectLeft(NameKey, StrLess, r.names, name);
    FoundAtBisect(r, name);
    if i >= |r.names| || r.names[i] != name then r
    else
      var q := r.(entries := r.entries[..i] + r.entries[i + 1..], names := r.names[..i] + r.names[i + 1..]);
      PutEvent(q, Event(Pop, i, r.entries[i], q.entries))
  }

  /**
   * `set(entry)`: a new name is inserted at its bisect index; a known name
   * with a different entry is replaced in place with a `SET` event; an
   * identical entry changes nothing.
   */
  function SetEntry(r: Registry, e: TrayEntry): (p: Registry)
    requires Valid(r)
    ensures p.closed == r.closed
    ensures e.name !in r.names ==>
      var i := BisectLeft(NameKey, StrLess, r.names, e.name);
      && p.entries == r.entries[..i] + [e] + r.entries[i..]
      && p.names == r.names[..i] + [e.name] + r.names[i..]
      && p.events == if r.closed then r.events else r.events + [Event(Insert, i, e, p.entries)]
    ensures e.name in r.names ==>
      var i := BisectLeft(NameKey, StrLess, r.names, e.name);
      && i < |r.entries| && r.entries[i].name == e.name
      && (r.entries[i] == e ==> p == r)
      && (r.entries[i] != e ==>
        && p.entries == r.entries[i := e] && p.names == r.names
        && p.events == if r.closed then r.events else r.events + [Event(Set, i, e, p.entries)])
  {
    var i := BisectLeft(NameKey, StrLess, r.names, e.name);
    FoundAtBisect(r, e.name);
    if i >= |r.entries| then InsertAt(r, i, e)
    else if r.entries[i].name != e.name then InsertAt(r, i, e)
    else if e == r.entries[i] then r
    else
      var q := r.(entries := r.entries[i := e]);
      PutEvent(q, Event(Set, i, e, q.entries))
  }

  /** `pop` keeps the registry invariant. */
  lemma PopKeepsValid(r: Registry, name: string)
    requires Valid(r)
    ensures Valid(PopName(r, name))
  {
    var p := PopName(r, name);
    if name in r.names {
      var i := BisectLeft(NameKey, StrLess, r.names, name);
      assert i < |r.entries| && p.entries == r.entries[..i] + r.entries[i + 1..] && p.names == r.names[..i] + r.names[i + 1..];
      ValidRemove(r, i, p);
    } else {
      assert p == r;
    }
  }

  /** Removing the entry and the name at one index keeps the invariant. */
  lemma ValidRemove(r: Registry, i: nat, p: Registry)
    requires Valid(r) && i < |r.entries|
    requires p.entries == r.entries[..i] + r.entries[i + 1..] && p.names == r.names[..i] + r.names[i + 1..]
    ensures Valid(p)
  {
    RemoveKeepsSorted(EntryName, StrLess, r.entries, i);
    assert forall k :: 0 <= k < |p.names| ==> p.names[k] == r.names[if k < i then k else k + 1];
    assert forall k :: 0 <= k < |p.entries| ==> p.entries[k] == r.entries[if k < i then k else k + 1];
  }

  /** Inserting an entry and its name at one index, where the entries stay sorted, keeps the invariant. */
  lemma ValidInsert(r: Registry, i: nat, e: TrayEntry, p: Registry)
    requires Valid(r) && i <= |r.entries|
    requires Sorted(EntryName, StrLess, r.entries[..i] + [e] + r.entries[i..])
    requires p.entries == r.entries[..i] + [e] + r.entries[i..] && p.names == r.names[..i] + [e.name] + r.names[i..]
    ensures Valid(p)
  {
    assert forall k :: 0 <= k < |p.names| ==> p.names[k] == (if k == i then e.name else r.names[if k < i then k else k - 1]);
    assert forall k :: 0 <= k < |p.entries| ==> p.entries[k] == (if k == i then e else r.entries[if k < i then k else k - 1]);
  }

  lemma InsertNew(r: Registry, e: TrayEntry)
    requires Valid(r) && e.name !in r.names
    ensures var i := BisectLeft(EntryName, StrLess, r.entries, e.name);
      Sorted(EntryName, StrLess, r.entries[..i] + [e] + r.entries[i..])
  {
    StrLessIsOrder();
    assert forall k :: 0 <= k < |r.entries| ==> EntryName(r.entries[k]) != EntryName(e);
    InsertKeepsSorted(EntryName, StrLess, r.entries, e);
  }

  /** `set` keeps the registry invariant. */
  lemma SetKeepsValid(r: Registry, e: TrayEntry)
    requires Valid(r)
    ensures Valid(SetEntry(r, e))
  {
    var i := BisectLeft(NameKey, StrLess, r.names, e.name);
    var p := SetEntry(r, e);
    if e.name !in r.names {
      BisectNames(r, e.name);
      InsertNew(r, e);
      ValidInsert(r, i, e, p);
    } else if r.entries[i] != e {
      ReplaceKeepsSorted(EntryName, StrLess, r.entries, i, e);
    }
  }

  /** What a valid registry shows: each registered name with its entry. */
  function Shown(r: Registry): (m: map<string, TrayEntry>)
    requires Valid(r)
  {
    RegistryDistinct(r);
    AsMap(EntryName, r.entries)
  }

  lemma RegistryDistinct(r: Registry)
    requires Valid(r)
    ensures Distinct(EntryName, r.entries)
    ensures KeysOf(EntryName, r.entries) == set k | 0 <= k < |r.names| :: r.names[k]
  {
    StrLessIsOrder();
  }

  /** After `set(e)` the registry shows `e` under its name and nothing else changes. */
  lemma SetAbstracts(r: Registry, e: TrayEntry)
    requires Valid(r)
    ensures Valid(SetEntry(r, e))
    ensures Shown(SetEntry(r, e)) == Shown(r)[e.name := e]
  {
    SetKeepsValid(r, e);
    var p := SetEntry(r, e);
    RegistryDistinct(r);
    var i := BisectLeft(NameKey, StrLess, r.names, e.name);
    FoundAtBisect(r, e.name);
    if e.name !in r.names {
      assert p.entries == r.entries[..i] + [e] + r.entries[i..];
      AsMapInsert(EntryName, r.entries, i, e);
    } else if r.entries[i] != e {
      assert p.entries == r.entries[i := e];
      AsMapReplace(EntryName, r.entries, i, e);
    } else {
      assert p == r;
      AsMapAt(EntryName, r.entries);
      assert Shown(r)[e.name] == e;
    }
  }

  /** After `pop(name)` the registry no longer shows `name`, and shows everything else as before. */
  lemma PopAbstracts(r: Registry, name: string)
    requires Valid(r)
    ensures Valid(PopName(r, name))
    ensures Shown(PopName(r, name)) == Shown(r) - {name}
  {
    PopKeepsValid(r, name);
    var p := PopName(r, name);
    RegistryDistinct(r);
    FoundAtBisect(r, name);
    if name in r.names {
      var i := BisectLeft(NameKey, StrLess, r.names, name);
      assert i < |r.entries| && r.entries[i].name == name && p.entries == r.entries[..i] + r.entries[i + 1..];
      AsMapRemove(EntryName, r.entries, i);
    } else {
      assert p == r;
      AsMapAt(EntryName, r.entries);
    }
  }

  /**
   * `TextIcons`: the text it last published, and everything it published.
   * Each registry event is turned into the text of its entries, and a
   * text is published only when it differs from the current one.
   */
  datatype TextIcons = TextIcons(current: string, published: seq<string>)

  function TextIconsStart(entries: seq<TrayEntry>): (t: TextIcons)
    ensures t.published == []
  {
    TextIcons(EntriesToText(entries), [])
  }

  function TextIconsOn(t: TextIcons, e: Event): (u: TextIcons)
    ensures u.current == EntriesToText(e.currentEntries)
    ensures u.current == t.current ==> u == t
    ensures u.current != t.current ==> u.published == t.published + [u.current]
  {
    var v := EntriesToText(e.currentEntries);
    if t.current != v then TextIcons(v, t.published + [v]) else t
  }

  function TextIconsRun(t: TextIcons, es: seq<Event>): (u: TextIcons)
    decreases |es|
  {
    if |es| == 0 then t else TextIconsRun(TextIconsOn(t, es[0]), es[1..])
  }

  /**
   * What `TextIcons` publishes never repeats the text before it, and the
   * last text it published is its current value.
   */
  predicate NoRepeats(t: TextIcons)
  {
    && (forall k :: 0 < k < |t.published| ==> t.published[k - 1] != t.published[k])
    && (|t.published| > 0 ==> t.published[|t.published| - 1] == t.current)
  }

  lemma {:induction false} TextIconsRunNoRepeats(t: TextIcons, es: seq<Event>)
    requires NoRepeats(t)
    ensures NoRepeats(TextIconsRun(t, es))
    ensures |es| > 0 ==> TextIconsRun(t, es).current == EntriesToText(es[|es| - 1].currentEntries)
    decreases |es|
  {
    if |es| > 0 {
      TextIconsRunNoRepeats(TextIconsOn(t, es[0]), es[1..]);
      if |es| > 1 {
        assert es[1..][|es[1..]| - 1] == es[|es| - 1];
      }
    }
  }

  /** Replacing an entry by one with the same text icon keeps the text. */
  lemma EntriesToTextReplace(s: seq<TrayEntry>, i: nat, e: TrayEntry)
    requires i < |s| && s[i].textIcon == e.textIcon
    ensures EntriesToText(s[i := e]) == EntriesToText(s)
  {
    assert s == s[..i] + [s[i]] + s[i + 1..];
    assert s[i := e] == s[..i] + [e] + s[i + 1..];
    EntriesToTextAppend(s[..i] + [s[i]], s[i + 1..]);
    EntriesToTextAppend(s[..i], [s[i]]);
    EntriesToTextAppend(s[..i] + [e], s[i + 1..]);
    EntriesToTextAppend(s[..i], [e]);
    assert [s[i]][1..] == [] && [e][1..] == [];
  }

  /** A `set` that changes an entry but not its text icon makes `TextIcons` publish nothing. */
  lemma IconOnlySetPublishesNothing(r: Registry, e: TrayEntry, t: TextIcons)
    requires Valid(r) && !r.closed && e.name in r.names
    requires t.current == EntriesToText(r.entries)
    requires var i := BisectLeft(NameKey, StrLess, r.names, e.name);
      i < |r.entries| && r.entries[i].textIcon == e.textIcon && r.entries[i] != e
    ensures var p := SetEntry(r, e);
      |p.events| > 0 && TextIconsOn(t, p.events[|p.events| - 1]) == t
  {
    var i := BisectLeft(NameKey, StrLess, r.names, e.name);
    EntriesToTextReplace(r.entries, i, e);
  }
}

=== FILE: trigger.dfy ===
/**
 * The trigger entry point of `phile/trigger/__init__.py`: a PID lock file
 * claims a trigger directory, and while it is held the entry point
 * creates trigger files, one per available trigger. Deleting a trigger
 * file, by whoever, activates its trigger: the trigger stops being
 * available and its callback is called once.
 *
 * The file system is a value: which files exist, which lock files the
 * operating system holds locked, and what each lock file says. A callback
 * is known by its trigger name; activation returns the name whose
 * callback is called. Whether `pathvalidate` accepts a file name beyond
 * the rules stated here (characters, length, reserved device names) is the
 * oracle `accepts`.
 */
module Triggers {
  import opened Outcomes
  import opened Strings
  import opened Paths
  import opened SortedSets

  /** What the operating system knows: existing files, locked lock files and the text of each lock file. */
  datatype World = World(files: set<Path>, lockedFiles: set<Path>, lockText: map<Path, string>)

  /** `PidLock`: the lock file and whether this object holds a handle of it. */
  datatype PidLock = PidLock(lockPath: Path, hasHandle: bool)

  /** `PidLock.locked`. */
  predicate Locked(l: PidLock)
  {
    l.hasHandle
  }

  /** A lock with a handle holds the lock of its file. */
  predicate Owns(l: PidLock, w: World)
  {
    Locked(l) ==> l.lockPath in w.lockedFiles
  }

  /** `portalocker.LockException`, or the assertion that no handle is held failing. */
  datatype LockError = LockException | HandleAlreadyHeld

  /**
   * `PidLock.acquire`: open the lock file for appending, which creates it,
   * then lock it without blocking. A file locked already, by this object
   * or another, raises `LockException`. On success the file holds the
   * PID text `pid` and the object keeps the handle.
   */
  function Acquire(l: PidLock, w: World, pid: string): (r: (PidLock, World, Option<LockError>))
    ensures r.2.None? <==> l.lockPath !in w.lockedFiles && !Locked(l)
    ensures r.2.None? ==>
      && Locked(r.0) && r.0.lockPath == l.lockPath
      && r.1 == w.(lockedFiles := w.lockedFiles + {l.lockPath}, lockText := w.lockText[l.lockPath := pid])
    ensures r.2.Some? ==> r.0 == l && r.1.lockedFiles == w.lockedFiles && l.lockPath in r.1.lockText
    ensures Owns(l, w) && Locked(l) ==> r.2 == Some(LockException)
    ensures Owns(l, w) ==> Owns(r.0, r.1)
  {
    var created := if l.lockPath in w.lockText then w else w.(lockText := w.lockText[l.lockPath := ""]);
    if l.lockPath in w.lockedFiles then (l, created, Some(LockException))
    else if l.hasHandle then (l, created, Some(HandleAlreadyHeld))
    else (PidLock(l.lockPath, true), created.(lockedFiles := w.lockedFiles + {l.lockPath}, lockText := w.lockText[l.lockPath := pid]), None)
  }

  /**
   * `PidLock.release`: without a handle, nothing happens, so another
   * owner's lock is never released; with one, the PID is erased and the
   * file unlocked.
   */
  function Release(l: PidLock, w: World): (r: (PidLock, World))
    ensures !Locked(r.0) && r.0.lockPath == l.lockPath
    ensures !Locked(l) ==> r == (l, w)
    ensures Locked(l) ==>
      r.1 == w.(lockedFiles := w.lockedFiles - {l.lockPath}, lockText := w.lockText[l.lockPath := ""])
  {
    if !l.hasHandle then (l, w)
    else (PidLock(l.lockPath, false), w.(lockedFiles := w.lockedFiles - {l.lockPath}, lockText := w.lockText[l.lockPath := ""]))
  }

  /** Acquiring a free lock and releasing it leaves the lock file unlocked and empty, and nothing else changed. */
  lemma AcquireRelease(l: PidLock, w: World, pid: string)
    requires !Locked(l) && l.lockPath !in w.lockedFiles
    ensures var (held, w1, error) := Acquire(l, w, pid);
      var (released, w2) := Release(held, w1);
      && error.None? && Locked(held) && w1.lockText[l.lockPath] == pid
      && released == l && w2.lockedFiles == w.lockedFiles && w2.lockText == w.lockText[l.lockPath := ""]
      && w2.files == w.files
  {
  }

  /** While one lock holds a file, another lock of the same file cannot be acquired. */
  lemma SecondLockFails(first: PidLock, second: PidLock, w: World, pid: string)
    requires first.lockPath == second.lockPath
    requires Acquire(first, w, pid).2.None?
    ensures Acquire(second, Acquire(first, w, pid).1, pid).2 == Some(LockException)
  {
  }

  /**
   * The errors of `add_trigger` and `remove_trigger`: the `ResourceWarning`
   * of an unbound entry point, the assertion that the trigger has a
   * callback, and the `ValueError` of an unusable file name.
   */
  datatype TriggerError = NotBound | NoCallback | InvalidName

  /**
   * The file names `pathvalidate.validate_filename` accepts: a single
   * non-empty component other than `.` and `..`, and whatever else the
   * platform rules (`accepts`) demand.
   */
  predicate ValidFilename(accepts: string -> bool, name: string)
  {
    IsFileName(name) && name != ".." && accepts(name)
  }

  /**
   * `EntryPoint`: the trigger directory and suffix, the PID lock, the
   * triggers with a callback and the triggers available.
   */
  datatype EntryPoint = EntryPoint(
    directory: Path,
    suffix: string,
    lock: PidLock,
    callbacks: set<string>,
    available: set<string>)

  /** `EntryPoint.is_bound`. */
  predicate IsBound(e: EntryPoint)
  {
    Locked(e.lock)
  }

  /**
   * `EntryPoint.get_trigger_path`: the file named by the trigger name and
   * the suffix, inside the trigger directory; `InvalidName` for the
   * `ValueError` of an unusable file name.
   */
  function TriggerPath(e: EntryPoint, accepts: string -> bool, name: string): (r: Result<Path, TriggerError>)
    ensures r.Ok? <==> ValidFilename(accepts, name + e.suffix)
    ensures r.Ok? ==> Parent(r.value) == e.directory && Name(r.value) == name + e.suffix
    ensures r.Err? ==> r.error == InvalidName
  {
    var filename := name + e.suffix;
    if ValidFilename(accepts, filename) then
      assert Parent(Paths.Join(e.directory, filename)) == e.directory && Name(Paths.Join(e.directory, filename)) == filename by {
        JoinFileName(e.directory, filename);
      }
      Ok(Paths.Join(e.directory, filename))
    else Err(InvalidName)
  }

  /** `EntryPoint.check_path`: whether the path is the trigger path of its own stem. */
  function CheckPath(e: EntryPoint, accepts: string -> bool, p: Path): (r: bool)
  {
    match TriggerPath(e, accepts, Stem(p))
    case Err(_) => false
    case Ok(q) => q == p
  }

  /**
   * A trigger path is a file directly inside the trigger directory whose
   * name is a valid file name made of its stem followed by the suffix.
   */
  lemma CheckPathMeaning(e: EntryPoint, accepts: string -> bool, p: Path)
    ensures CheckPath(e, accepts, p) <==>
      Parent(p) == e.directory && Name(p) == Stem(p) + e.suffix && ValidFilename(accepts, Name(p))
  {
    if Parent(p) == e.directory && Name(p) == Stem(p) + e.suffix && ValidFilename(accepts, Name(p)) {
      NameParentDetermine(TriggerPath(e, accepts, Stem(p)).value, p);
    }
  }

  /** A suffix as `pathlib` finds one: a dot followed by at least one character, none of them a dot. */
  predicate IsPathSuffix(suffix: string)
  {
    |suffix| >= 2 && suffix[0] == '.' && '.' !in suffix[1..]
  }

  /**
   * With a proper suffix, the path of a non-empty trigger name passes
   * `check_path`, and its stem gives the name back.
   */
  lemma TriggerPathChecks(e: EntryPoint, accepts: string -> bool, name: string)
    requires IsPathSuffix(e.suffix) && name != ""
    requires TriggerPath(e, accepts, name).Ok?
    ensures Stem(TriggerPath(e, accepts, name).value) == name
    ensures CheckPath(e, accepts, TriggerPath(e, accepts, name).value)
  {
    var p := TriggerPath(e, accepts, name).value;
    StemOfSuffixed(name, e.suffix);
    assert Name(p) == name + e.suffix;
    CheckPathMeaning(e, accepts, p);
  }

  /** The stem of a name made of a non-empty name and a proper suffix. */
  lemma StemOfSuffixed(name: string, suffix: string)
    requires IsPathSuffix(suffix) && name != ""
    ensures SuffixDot(name + suffix) == Some(|name|)
  {
    var s := name + suffix;
    assert s[|name|..|name| + 1] == ".";
    forall j | |name| < j
      ensures !OccursAt(s, ".", j)
    {
      if j + 1 <= |s| {
        assert s[j] == suffix[1..][j - |name| - 1];
        assert s[j..j + 1] == [s[j]];
      }
    }
    LastOccurrence(s, ".", |name|);
  }

  /** With an empty name, the trigger file is the bare suffix, whose stem is not the empty name: its path never passes `check_path`. */
  lemma EmptyNameNeverChecks(e: EntryPoint, accepts: string -> bool)
    requires IsPathSuffix(e.suffix) && TriggerPath(e, accepts, "").Ok?
    ensures !CheckPath(e, accepts, TriggerPath(e, accepts, "").value)
  {
    var p := TriggerPath(e, accepts, "").value;
    assert "" + e.suffix == e.suffix;
    assert LastIndexOf(e.suffix, ".") == Some(0) by {
      forall j | 0 < j
        ensures !OccursAt(e.suffix, ".", j)
      {
        if j + 1 <= |e.suffix| {
          assert e.suffix[j] == e.suffix[1..][j - 1];
          assert e.suffix[j..j + 1] == [e.suffix[j]];
        }
      }
      assert e.suffix[0..1] == ".";
      LastOccurrence(e.suffix, ".", 0);
    }
    CheckPathMeaning(e, accepts, p);
  }

  /**
   * `EntryPoint.add_trigger`: only while bound, and only for a trigger
   * with a callback. The trigger becomes available before its path is
   * validated, so an invalid name is left available without a file.
   */
  function AddTrigger(e: EntryPoint, w: World, accepts: string -> bool, name: string): (r: (EntryPoint, World, Option<TriggerError>))
    ensures !IsBound(e) ==> r == (e, w, Some(NotBound))
    ensures IsBound(e) && name !in e.callbacks ==> r == (e, w, Some(NoCallback))
    ensures IsBound(e) && name in e.callbacks ==>
      && r.0 == e.(available := e.available + {name})
      && (r.2.None? <==> ValidFilename(accepts, name + e.suffix))
      && r.1 == if r.2.None? then w.(files := w.files + {TriggerPath(e, accepts, name).value}) else w
  {
    if !IsBound(e) then (e, w, Some(NotBound))
    else if name !in e.callbacks then (e, w, Some(NoCallback))
    else
      var added := e.(available := e.available + {name});
      match TriggerPath(e, accepts, name)
      case Err(error) => (added, w, Some(error))
      case Ok(p) => (added, w.(files := w.files + {p}), None)
  }

  /**
   * `EntryPoint.remove_trigger`: only while bound. The trigger stops
   * being available, and its file is removed if there is one.
   */
  function RemoveTrigger(e: EntryPoint, w: World, accepts: string -> bool, name: string): (r: (EntryPoint, World, Option<TriggerError>))
    ensures !IsBound(e) ==> r == (e, w, Some(NotBound))
    ensures IsBound(e) ==>
      && r.0 == e.(available := e.available - {name})
      && (r.2.None? <==> ValidFilename(accepts, name + e.suffix))
      && r.1 == if r.2.None? then w.(files := w.files - {TriggerPath(e, accepts, name).value}) else w
  {
    if !IsBound(e) then (e, w, Some(NotBound))
    else
      var removed := e.(available := e.available - {name});
      match TriggerPath(e, accepts, name)
      case Err(error) => (removed, w, Some(error))
      case Ok(p) => (removed, w.(files := w.files - {p}), None)
  }

  /**
   * `EntryPoint.activate_trigger`: nothing while the path exists.
   * Otherwise the trigger of the path's stem stops being available, and
   * its callback is called if it was available and has one.
   */
  function ActivateTrigger(e: EntryPoint, w: World, path: Path): (r: (EntryPoint, Option<string>))
    ensures path in w.files ==> r == (e, None)
    ensures path !in w.files ==> r.0 == e.(available := e.available - {Stem(path)})
    ensures r.1.Some? <==> path !in w.files && Stem(path) in e.available && Stem(path) in e.callbacks
    ensures r.1.Some? ==> r.1.value == Stem(path)
  {
    if path in w.files then (e, None)
    else
      var name := Stem(path);
      if name !in e.available then (e, None)
      else
        var removed := e.(available := e.available - {name});
        if name !in removed.callbacks then (removed, None)
        else (removed, Some(name))
  }

  /** Every available trigger has a callback. */
  predicate CallbacksCover(e: EntryPoint)
  {
    e.available <= e.callbacks
  }

  /** Adding, removing and activating triggers keep every available trigger backed by a callback. */
  lemma CallbacksCoverKept(e: EntryPoint, w: World, accepts: string -> bool, name: string, path: Path)
    requires CallbacksCover(e)
    ensures CallbacksCover(AddTrigger(e, w, accepts, name).0)
    ensures CallbacksCover(RemoveTrigger(e, w, accepts, name).0)
    ensures CallbacksCover(ActivateTrigger(e, w, path).0)
  {
  }

  /**
   * Once a trigger is added, deleting its file activates it: its callback
   * is called once, and a second activation calls nothing.
   */
  lemma {:induction false} DeletedTriggerActivatesOnce(e: EntryPoint, w: World, accepts: string -> bool, name: string)
    requires IsBound(e) && name in e.callbacks && IsPathSuffix(e.suffix) && name != ""
    requires ValidFilename(accepts, name + e.suffix)
    ensures var (added, w1, error) := AddTrigger(e, w, accepts, name);
      var p := TriggerPath(e, accepts, name).value;
      var deleted := w1.(files := w1.files - {p});
      && error.None? && p in w1.files
      && ActivateTrigger(added, deleted, p).1 == Some(name)
      && ActivateTrigger(ActivateTrigger(added, deleted, p).0, deleted, p).1 == None
  {
    TriggerPathChecks(e, accepts, name);
  }

  /** `EntryPoint.bind`: acquire the PID lock. */
  function Bind(e: EntryPoint, w: World, pid: string): (r: (EntryPoint, World, Option<LockError>))
    ensures r.2.None? <==> !IsBound(e) && e.lock.lockPath !in w.lockedFiles
    ensures r.2.None? ==> IsBound(r.0)
    ensures r.0.available == e.available && r.0.callbacks == e.callbacks
    ensures Owns(e.lock, w) && IsBound(e) ==> r.2 == Some(LockException)
  {
    var (l, w1, error) := Acquire(e.lock, w, pid);
    (e.(lock := l), w1, error)
  }

  /** The files `trigger_directory.glob('*' + suffix)` lists: those directly inside the directory whose name ends with the suffix. */
  predicate IsGlobbed(directory: Path, suffix: string, f: Path)
  {
    Parent(f) == directory && Name(f) != "" && EndsWith(Name(f), suffix)
  }

  /**
   * `EntryPoint.unbind`: nothing unless bound; otherwise every file in
   * the trigger directory ending with the suffix is removed, then the PID
   * lock released.
   */
  function Unbind(e: EntryPoint, w: World): (r: (EntryPoint, World))
    ensures !IsBound(e) ==> r == (e, w)
    ensures !IsBound(r.0) && r.0.available == e.available && r.0.callbacks == e.callbacks
    ensures IsBound(e) ==> forall f :: f in r.1.files <==> f in w.files && !IsGlobbed(e.directory, e.suffix, f)
  {
    if !IsBound(e) then (e, w)
    else
      var remaining := set f | f in w.files && !IsGlobbed(e.directory, e.suffix, f);
      var (l, w1) := Release(e.lock, w.(files := remaining));
      (e.(lock := l), w1)
  }

  /** After unbinding, no trigger file of a valid name remains. */
  lemma UnbindRemovesTriggers(e: EntryPoint, w: World, accepts: string -> bool, name: string)
    requires IsBound(e) && TriggerPath(e, accepts, name).Ok?
    ensures TriggerPath(e, accepts, name).value !in Unbind(e, w).1.files
  {
    var p := TriggerPath(e, accepts, name).value;
    assert EndsWith(name + e.suffix, e.suffix) by {
      assert (name + e.suffix)[|name + e.suffix| - |e.suffix|..] == e.suffix;
    }
    assert IsGlobbed(e.directory, e.suffix, p);
  }

  /** An entry point that binds and unbinds can bind again, and so can another of the same directory. */
  lemma BindUnbindBind(e: EntryPoint, other: EntryPoint, w: World, pid: string)
    requires !IsBound(e) && e.lock.lockPath !in w.lockedFiles
    requires !IsBound(other) && other.lock.lockPath == e.lock.lockPath
    ensures var (bound, w1, error) := Bind(e, w, pid);
      var (unbound, w2) := Unbind(bound, w1);
      && error.None?
      && Bind(other, w1, pid).2 == Some(LockException)
      && Bind(unbound, w2, pid).2.None?
      && Bind(other, w2, pid).2.None?
  {
  }

  /**
   * `EntryPoint.__init__`: the directory is the configured root joined
   * with the given one, the lock file the PID path inside it; nothing is
   * bound or available. With `bind`, bind and then add each trigger in
   * turn, stopping at the first error.
   */
  function Create(triggerRoot: Path, triggerDirectory: string, pidPath: string, suffix: string, callbacks: set<string>, triggers: seq<string>, bind: bool, w: World, accepts: string -> bool, pid: string): (r: (EntryPoint, World, Option<Result<LockError, TriggerError>>))
    ensures r.0.directory == Paths.Join(triggerRoot, triggerDirectory) && r.0.suffix == suffix && r.0.callbacks == callbacks
    ensures r.0.lock.lockPath == Paths.Join(r.0.directory, pidPath)
    ensures !bind ==> r.2.None? && r.1 == w && !IsBound(r.0) && r.0.available == {}
    ensures bind && r.2.None? ==> IsBound(r.0) && r.0.available == Elements(triggers)
  {
    var directory := Paths.Join(triggerRoot, triggerDirectory);
    var e := EntryPoint(directory, suffix, PidLock(Paths.Join(directory, pidPath), false), callbacks, {});
    if !bind then (e, w, None)
    else
      var (bound, w1, lockError) := Bind(e, w, pid);
      if lockError.Some? then (bound, w1, Some(Ok(lockError.value)))
      else
        var (added, w2, error) := AddTriggers(bound, w1, accepts, triggers);
        (added, w2, if error.Some? then Some(Err(error.value)) else None)
  }

  /** `add_trigger` for each name in turn, stopping at the first error. */
  function AddTriggers(e: EntryPoint, w: World, accepts: string -> bool, names: seq<string>): (r: (EntryPoint, World, Option<TriggerError>))
    ensures r.0.lock == e.lock && r.0.directory == e.directory && r.0.suffix == e.suffix && r.0.callbacks == e.callbacks
    ensures r.2.None? ==> r.0.available == e.available + Elements(names)
    decreases |names|
  {
    if |names| == 0 then (e, w, None)
    else
      var (added, w1, error) := AddTrigger(e, w, accepts, names[0]);
      if error.Some? then (added, w1, error)
      else
        var r := AddTriggers(added, w1, accepts, names[1..]);
        ElementsHead(names);
        r
  }
}

=== FILE: watch_events.dfy ===
/**
 * File-system events as `src/phile/watchdog/asyncio.py` routes them:
 * splitting a file move into a deletion and a creation, filtering paths by
 * parent directory and suffix, and turning events into existence reports.
 *
 * An event carries its type, whether it is about a directory, its source
 * path and, for a move, its destination path.
 */
module WatchEvents {
  import opened Strings
  import opened Paths

  /** `ObservedWatch(str(path), recursive)`; a path and its string determine each other. */
  datatype Watch = Watch(path: Path, recursive: bool)

  datatype EventType = Created | Deleted | Modified | Moved | Closed | Opened

  datatype FileSystemEvent = FileSystemEvent(eventType: EventType, isDirectory: bool, srcPath: Path, destPath: Path)

  function FileDeleted(path: Path): FileSystemEvent
  {
    FileSystemEvent(Deleted, false, path, Here)
  }

  function FileCreated(path: Path): FileSystemEvent
  {
    FileSystemEvent(Created, false, path, Here)
  }

  /**
   * `split_file_move_event`: nothing for a directory event, a file move
   * as the deletion of its source and the creation of its destination,
   * and any other file event unchanged.
   */
  function SplitFileMoveEvent(e: FileSystemEvent): (r: seq<FileSystemEvent>)
    ensures e.isDirectory ==> r == []
    ensures forall k :: 0 <= k < |r| ==> !r[k].isDirectory && r[k].eventType != Moved
    ensures !e.isDirectory && e.eventType == Moved ==>
      |r| == 2 && r[0].eventType == Deleted && r[0].srcPath == e.srcPath
      && r[1].eventType == Created && r[1].srcPath == e.destPath
    ensures !e.isDirectory && e.eventType != Moved ==> r == [e]
  {
    if e.isDirectory then []
    else if e.eventType != Moved then [e]
    else [FileDeleted(e.srcPath), FileCreated(e.destPath)]
  }

  /** Splitting is idempotent: every event it produces splits into itself. */
  lemma SplitIdempotent(e: FileSystemEvent)
    ensures forall k :: 0 <= k < |SplitFileMoveEvent(e)| ==>
      SplitFileMoveEvent(SplitFileMoveEvent(e)[k]) == [SplitFileMoveEvent(e)[k]]
  {
  }

  /** The source path of each split event. */
  function SourcePaths(es: seq<FileSystemEvent>): (r: seq<Path>)
    ensures |r| == |es|
    ensures forall k :: 0 <= k < |r| ==> r[k] == es[k].srcPath
  {
    if |es| == 0 then [] else [es[0].srcPath] + SourcePaths(es[1..])
  }

  /** `event_to_file_paths`: the paths of the file events a move splits into. */
  function EventToFilePaths(e: FileSystemEvent): (r: seq<Path>)
    ensures e.isDirectory ==> r == []
    ensures !e.isDirectory && e.eventType == Moved ==> r == [e.srcPath, e.destPath]
    ensures !e.isDirectory && e.eventType != Moved ==> r == [e.srcPath]
  {
    SourcePaths(SplitFileMoveEvent(e))
  }

  /** `filter_path`: the path is directly inside the expected directory and its name has the expected ending. */
  predicate FilterPath(path: Path, expectedParent: Path, expectedSuffix: string)
  {
    Parent(path) == expectedParent && EndsWith(Name(path), expectedSuffix)
  }

  /** A file name joined to the expected directory passes the filter exactly when it has the expected ending. */
  lemma FilterJoined(directory: Path, name: string, suffix: string)
    requires IsFileName(name)
    ensures FilterPath(Paths.Join(directory, name), directory, suffix) <==> EndsWith(name, suffix)
  {
    JoinFileName(directory, name);
  }

  /** A path outside the expected directory never passes, whatever its name. */
  lemma FilterOtherDirectory(path: Path, directory: Path, suffix: string)
    requires Parent(path) != directory
    ensures !FilterPath(path, directory, suffix)
  {
  }

  /** What `monitor_file_existence` yields for one event: each kept path, and whether the file still exists. */
  function ExistenceOf(directory: Path, suffix: string, es: seq<FileSystemEvent>): (r: seq<(Path, bool)>)
    ensures forall k :: 0 <= k < |r| ==> FilterPath(r[k].0, directory, suffix)
    ensures |r| <= |es|
  {
    if |es| == 0 then []
    else
      var rest := ExistenceOf(directory, suffix, es[1..]);
      if FilterPath(es[0].srcPath, directory, suffix) then [(es[0].srcPath, es[0].eventType != Deleted)] + rest
      else rest
  }

  /** `monitor_file_existence` over the events of a view, in order. */
  function MonitorFileExistence(directory: Path, suffix: string, events: seq<FileSystemEvent>): (r: seq<(Path, bool)>)
    ensures forall k :: 0 <= k < |r| ==> FilterPath(r[k].0, directory, suffix)
    decreases |events|
  {
    if |events| == 0 then []
    else
      var r := ExistenceOf(directory, suffix, SplitFileMoveEvent(events[0])) + MonitorFileExistence(directory, suffix, events[1..]);
      assert forall k :: 0 <= k < |r| ==> FilterPath(r[k].0, directory, suffix) by {
        var a: seq<(Path, bool)> := ExistenceOf(directory, suffix, SplitFileMoveEvent(events[0]));
        var b: seq<(Path, bool)> := MonitorFileExistence(directory, suffix, events[1..]);
        forall k | 0 <= k < |a + b|
          ensures FilterPath((a + b)[k].0, directory, suffix)
        {
          if k < |a| { assert (a + b)[k] == a[k]; } else { assert (a + b)[k] == b[k - |a|]; }
        }
      }
      r
  }

  /** The reports of a stream are the reports of its parts, one after the other: nothing is reordered or lost. */
  lemma {:induction false} MonitorAppend(directory: Path, suffix: string, a: seq<FileSystemEvent>, b: seq<FileSystemEvent>)
    ensures MonitorFileExistence(directory, suffix, a + b)
      == MonitorFileExistence(directory, suffix, a) + MonitorFileExistence(directory, suffix, b)
    decreases |a|
  {
    if |a| == 0 {
      assert a + b == b;
    } else {
      assert (a + b)[0] == a[0];
      assert (a + b)[1..] == a[1..] + b;
      MonitorAppend(directory, suffix, a[1..], b);
    }
  }

  /**
   * For one event: a deletion reports its file gone, a creation or change
   * reports it present, and a move reports its source gone and then its
   * destination present, each only when it passes the filter.
   */
  lemma MonitorOneEvent(directory: Path, suffix: string, e: FileSystemEvent)
    ensures var r := MonitorFileExistence(directory, suffix, [e]);
      && (e.isDirectory ==> r == [])
      && (!e.isDirectory && e.eventType != Moved ==>
        r == if FilterPath(e.srcPath, directory, suffix) then [(e.srcPath, e.eventType != Deleted)] else [])
      && (!e.isDirectory && e.eventType == Moved ==>
        r == (if FilterPath(e.srcPath, directory, suffix) then [(e.srcPath, false)] else [])
          + (if FilterPath(e.destPath, directory, suffix) then [(e.destPath, true)] else []))
  {
    assert [e][0] == e && [e][1..] == [];
    assert MonitorFileExistence(directory, suffix, [e][1..]) == [];
    var split := ExistenceOf(directory, suffix, SplitFileMoveEvent(e));
    assert MonitorFileExistence(directory, suffix, [e]) == split + [];
    if !e.isDirectory && e.eventType == Moved {
      var s := SplitFileMoveEvent(e);
      assert s[1..] == [FileCreated(e.destPath)];
      assert s[1..][1..] == [];
      assert ExistenceOf(directory, suffix, s[1..][1..]) == [];
      var tail := ExistenceOf(directory, suffix, s[1..]);
      assert tail == if FilterPath(e.destPath, directory, suffix) then [(e.destPath, true)] else [];
      assert split == (if FilterPath(e.srcPath, directory, suffix) then [(e.srcPath, false)] else []) + tail;
    } else if !e.isDirectory {
      assert SplitFileMoveEvent(e)[1..] == [];
    }
  }
}

=== FILE: watch_observer.dfy ===
/**
 * `has_handlers`, `add_handler` and `remove_handler` of
 * `phile/watchdog/observers.py`, over the bookkeeping of a `watchdog`
 * observer: the handlers of each watch, the watches that have an emitter,
 * and the scheduled watches.
 *
 * `add_handler` delegates to the library's `BaseObserver.schedule`, which
 * is modelled as the library documents it: start an emitter for a watch
 * that has none, then register the handler and the watch.
 */
module HandlerObserver {
  import opened Outcomes
  import opened WatchEvents

  /** `_handlers`, the watches of `_emitter_for_watch`, and `_watches`. */
  datatype Observer<H> = Observer(handlers: map<Watch, set<H>>, emitters: set<Watch>, watches: set<Watch>)

  /** The `KeyError` a step of `remove_handler` can raise. */
  datatype KeyError = HandlerNotFound | EmitterNotFound | WatchNotFound

  /** An observer whose three records name the same watches. */
  predicate Valid<H>(o: Observer<H>)
  {
    o.handlers.Keys == o.emitters && o.emitters == o.watches
  }

  /** The handlers of a watch, none for a watch without an entry. */
  function HandlersOf<H>(o: Observer<H>, w: Watch): set<H>
  {
    if w in o.handlers then o.handlers[w] else {}
  }

  /** `has_handlers`: `bool(observer._handlers[watch])`, false on `KeyError`. */
  predicate HasHandlers<H>(o: Observer<H>, w: Watch)
  {
    w in o.handlers && o.handlers[w] != {}
  }

  /** `has_handlers` holds exactly when the watch has some handler. */
  lemma HasHandlersMeansSome<H>(o: Observer<H>, w: Watch)
    ensures HasHandlers(o, w) <==> exists h :: h in HandlersOf(o, w)
  {
    if HasHandlers(o, w) {
      var h :| h in o.handlers[w];
      assert h in HandlersOf(o, w);
    }
  }

  /** `add_handler`: the watch gets an emitter if it had none, and the handler is added to its handlers. */
  function AddHandler<H>(o: Observer<H>, h: H, w: Watch): (r: (Observer<H>, Watch))
    ensures r.1 == w
    ensures HandlersOf(r.0, w) == HandlersOf(o, w) + {h} && HasHandlers(r.0, w)
    ensures r.0.emitters == o.emitters + {w} && r.0.watches == o.watches + {w}
    ensures forall v :: v != w ==> HandlersOf(r.0, v) == HandlersOf(o, v)
    ensures Valid(o) ==> Valid(r.0)
  {
    (Observer(o.handlers[w := HandlersOf(o, w) + {h}], o.emitters + {w}, o.watches + {w}), w)
  }

  /**
   * `remove_handler`: nothing for a watch without handlers; otherwise
   * remove the handler, and if none is left, drop the handler entry, the
   * emitter and the watch. The error is the `KeyError` raised part way,
   * with the state as it was at that point.
   */
  function RemoveHandler<H>(o: Observer<H>, h: H, w: Watch): (r: (Observer<H>, Option<KeyError>))
    ensures !HasHandlers(o, w) ==> r == (o, None)
    ensures HasHandlers(o, w) && h !in o.handlers[w] ==> r == (o, Some(HandlerNotFound))
    ensures HasHandlers(o, w) && h in o.handlers[w] && Valid(o) ==>
      && r.1.None? && Valid(r.0)
      && HandlersOf(r.0, w) == HandlersOf(o, w) - {h}
      && (HasHandlers(r.0, w) <==> HandlersOf(o, w) != {h})
      && (HasHandlers(r.0, w) ==> r.0.emitters == o.emitters && r.0.watches == o.watches)
      && (!HasHandlers(r.0, w) ==>
        w !in r.0.handlers && r.0.emitters == o.emitters - {w} && r.0.watches == o.watches - {w})
    ensures forall v :: v != w ==> HandlersOf(r.0, v) == HandlersOf(o, v)
  {
    if !HasHandlers(o, w) then (o, None)
    else if h !in o.handlers[w] then (o, Some(HandlerNotFound))
    else
      var left := o.handlers[w] - {h};
      var o1 := o.(handlers := o.handlers[w := left]);
      if left != {} then (o1, None)
      else if w !in o1.emitters then (o1, Some(EmitterNotFound))
      else
        var o2 := Observer(o1.handlers - {w}, o1.emitters - {w}, o1.watches);
        if w !in o2.watches then (o2, Some(WatchNotFound))
        else (o2.(watches := o2.watches - {w}), None)
  }

  /**
   * Adding a handler new to a watch and removing it again restores the
   * observer: the other handlers of the watch and its emitter are kept,
   * and a watch that had no handlers loses its emitter again.
   */
  lemma AddThenRemove<H>(o: Observer<H>, h: H, w: Watch)
    requires Valid(o) && h !in HandlersOf(o, w)
    requires w in o.handlers ==> o.handlers[w] != {}
    ensures RemoveHandler(AddHandler(o, h, w).0, h, w) == (o, None)
  {
    var a := AddHandler(o, h, w).0;
    var r := RemoveHandler(a, h, w);
    assert HandlersOf(a, w) - {h} == HandlersOf(o, w);
    if w in o.handlers {
      assert r.0.handlers == o.handlers;
    } else {
      assert r.0.handlers == o.handlers;
      assert r.0.emitters == o.emitters;
      assert r.0.watches == o.watches;
    }
  }
}

=== FILE: watch_scheduler.dfy ===
/**
 * `Scheduler` of `phile/watchdog/__init__.py`: an event handler that
 * registers itself with a `watchdog` observer for one path, and passes the
 * file paths of each event that its filter accepts on to a path handler.
 *
 * Creating the watched directory is left out; the filter is a parameter,
 * and the paths handed to the path handler are the result of a dispatch.
 */
module WatchScheduler {
  import opened Outcomes
  import opened Paths
  import opened WatchEvents
  import HandlerObserver

  /** A scheduler, identified to the observer by `id`, and its current watch. */
  datatype Scheduler = Scheduler(id: nat, watchedPath: Path, watchRecursive: bool, watch: Option<Watch>)

  type Observer = HandlerObserver.Observer<nat>

  /** `is_scheduled`. */
  predicate IsScheduled(s: Scheduler)
  {
    s.watch.Some?
  }

  /** `schedule`: register with the observer unless already scheduled. */
  function Schedule(s: Scheduler, o: Observer): (r: (Scheduler, Observer))
    ensures IsScheduled(r.0)
    ensures IsScheduled(s) ==> r == (s, o)
    ensures !IsScheduled(s) ==>
      && r.0.watch == Some(Watch(s.watchedPath, s.watchRecursive))
      && HandlerObserver.HandlersOf(r.1, r.0.watch.value)
        == HandlerObserver.HandlersOf(o, r.0.watch.value) + {s.id}
    ensures r.0.(watch := s.watch) == s
  {
    if IsScheduled(s) then (s, o)
    else
      var added := HandlerObserver.AddHandler(o, s.id, Watch(s.watchedPath, s.watchRecursive));
      (s.(watch := Some(added.1)), added.0)
  }

  /** Scheduling twice is scheduling once. */
  lemma ScheduleIdempotent(s: Scheduler, o: Observer)
    ensures var once := Schedule(s, o); Schedule(once.0, once.1) == once
  {
  }

  /**
   * `unschedule`: nothing when not scheduled; otherwise remove the
   * handler from the observer and forget the watch. If the removal
   * raises, the watch is kept.
   */
  function Unschedule(s: Scheduler, o: Observer): (r: (Scheduler, Observer, Option<HandlerObserver.KeyError>))
    ensures !IsScheduled(s) ==> r == (s, o, None)
    ensures IsScheduled(s) ==>
      var removed := HandlerObserver.RemoveHandler(o, s.id, s.watch.value);
      && r.1 == removed.0 && r.2 == removed.1
      && (r.2.None? <==> !IsScheduled(r.0))
    ensures r.0.(watch := s.watch) == s
  {
    if !IsScheduled(s) then (s, o, None)
    else
      var removed := HandlerObserver.RemoveHandler(o, s.id, s.watch.value);
      if removed.1.Some? then (s, removed.0, removed.1)
      else (s.(watch := None), removed.0, None)
  }

  /**
   * Entering the context (`__enter__`) and leaving it (`__exit__`) with a
   * fresh handler and a consistent observer leaves both as they were.
   */
  lemma EnterThenExit(s: Scheduler, o: Observer)
    requires !IsScheduled(s) && HandlerObserver.Valid(o)
    requires s.id !in HandlerObserver.HandlersOf(o, Watch(s.watchedPath, s.watchRecursive))
    requires var w := Watch(s.watchedPath, s.watchRecursive); w in o.handlers ==> o.handlers[w] != {}
    ensures var entered := Schedule(s, o); Unschedule(entered.0, entered.1) == (s, o, None)
  {
    HandlerObserver.AddThenRemove(o, s.id, Watch(s.watchedPath, s.watchRecursive));
  }

  /**
   * `dispatch`: the paths handed to the path handler for one event.
   * Nothing for a directory event; the source path if the filter accepts
   * it; and for a move, then the destination path if accepted.
   */
  function Dispatch(filter: Path -> bool, e: FileSystemEvent): (r: seq<Path>)
    ensures e.isDirectory ==> r == []
    ensures forall k :: 0 <= k < |r| ==> filter(r[k])
    ensures |r| <= 2
  {
    if e.isDirectory then []
    else
      var first := if filter(e.srcPath) then [e.srcPath] else [];
      if e.eventType != Moved then first
      else first + (if filter(e.destPath) then [e.destPath] else [])
  }

  /** The paths of a list that the filter accepts, in order. */
  function Accepted(filter: Path -> bool, paths: seq<Path>): (r: seq<Path>)
    ensures forall k :: 0 <= k < |r| ==> filter(r[k]) && r[k] in paths
    ensures forall p :: p in paths && filter(p) ==> p in r
  {
    if |paths| == 0 then []
    else (if filter(paths[0]) then [paths[0]] else []) + Accepted(filter, paths[1..])
  }

  /**
   * A dispatch hands on exactly the accepted paths of the file events the
   * event splits into, in the same order.
   */
  lemma DispatchAcceptsSplitPaths(filter: Path -> bool, e: FileSystemEvent)
    ensures Dispatch(filter, e) == Accepted(filter, EventToFilePaths(e))
  {
    var ps := EventToFilePaths(e);
    if !e.isDirectory {
      if e.eventType == Moved {
        assert ps[1..] == [e.destPath];
        assert ps[1..][1..] == [];
        var head := if filter(e.srcPath) then [e.srcPath] else [];
        var tail := if filter(e.destPath) then [e.destPath] else [];
        assert Accepted(filter, ps[1..][1..]) == [];
        assert Accepted(filter, ps[1..]) == tail + [];
        assert Accepted(filter, ps) == head + Accepted(filter, ps[1..]);
      } else {
        assert ps[1..] == [];
      }
    }
  }
}
